=== FILE: README.md ===
# Options insider-activity detector, modelled in Dafny

This project models the computational core of a system that watches the
US options market for signs of insider trading. Scrapers pull daily stock
bars, option contracts and option snapshots from Polygon. A bulk loader
writes them to PostgreSQL. Detectors compare each symbol's option activity
with its baseline and score it: volume z-scores, volume against open
interest, out-of-the-money call concentration, directional bias and expiry
time pressure. High-conviction symbols go to an e-mail alert and a
dashboard. Maintenance jobs prune old rows on a business-day calendar.

There is one Dafny module per source file of the core:

- `InsiderDetection`: the current per-symbol scorer, with its five bounded factor scores, the composite score and alert flag, and the stored direction and multiplier fields.
- `LegacyDetection`: the older detector, with its v2 scorers, the diminishing-returns roll-up, the break-even and moneyness derivation, and the multi-component volume score.
- `AdvancedScoring`: the advanced scoring engine, with its factors, weights, adjustments, conviction, supporting factors, risk, return and horizon.
- `EnhancedDetection`: the five intraday detectors' score formulas, alert collection, the most recent trading day and grouping by symbol.
- `DataRetention`: holidays, business days, the cutoff search, batched deletion, table discovery and clean-up.
- `DailyScraper`: trading days, the most recent trading day, the recent-trading-days range and the date-range counters.
- `Migrations`: discovery, version parsing, and selection for migrate, rollback and status.
- `BulkOps`: the COPY text for daily bars, option contracts and snapshots, batch combining, and the loader's statistics object.
- `StockData`: the timestamp-to-date conversion, row mapping and query building.
- `ContractsScraper`: contract normalisation, dedup, COPY rows, rate limiting and the run summary.
- `IntradaySchedule`: run planning, URL-aware request batches, super-batches, latest-wins dedup and retry batches.
- `OptionsScraper`: the adaptive delay state machine, the retry loop, pacing, and the per-date and date-range counters.
- `FlatfileLoader`: object keys, row normalisation, candidate-key download and the skip-if-loaded rule.
- `SnapshotUrl`: the api-key patch and the requests of the unified snapshot client.
- `DetailedAnalysis`: volume-versus-baseline comparisons and the type breakdown.
- `Backfill`: date batching, the sufficiency check, per-batch counters and the historical detectors' rules.
- `EmailNotifier`: configuration, threshold filter, ordered content, pattern classification and the SMTP transport rule.
- `Dashboard`: symbol ordering, the lenient number reader, row patterns and the contract-table columns.

The shared helper modules are `Wrappers`, `Numeric`, `SeqUtil`, `Text`, `Sorting`, `Grouping` and `Calendar`.

Dates are integer day numbers, with day 0 being 1970-01-01. Scores and
prices are exact reals. Contract volumes and open interest are natural
numbers in `InsiderDetection`, `LegacyDetection` and `EnhancedDetection`, and
integers in `StockData`, `BulkOps` and the row figures of `Dashboard`; they are
reals in `EmailNotifier`, `DetailedAnalysis`, `AdvancedScoring` and the
contract columns of `Dashboard`, which read them as aggregated or decoded numbers.
"Today", the clock and every database, HTTP, S3 or SMTP result are
parameters of the operation that uses them.

The two detectors score volume differently. The current one
(database/analysis/insider_anomaly_detection.py:448-468) takes the larger of
the two sides' min(z/2, 3), and only for a side whose volume is above its
baseline (`InsiderDetection.VolumeScore`). The older one
(analysis/insider_anomaly_detection.py:1140-1158) adds the two sides'
min(|z|/3, 1.5), so below-baseline volume scores too
(`LegacyDetection.VolumeScore`). Each is modelled as its code has it.

## Model

| member | source | states |
|---|---|---|
| InsiderDetection.SideVolumeScore | database/analysis/insider_anomaly_detection.py:453-465 | a side's volume score lies in [0, 3] and is positive exactly when std > 0, avg > 0 and volume exceeds avg |
| InsiderDetection.VolumeScore | database/analysis/insider_anomaly_detection.py:448-468 | the volume score lies in [0, 3], is positive iff some side is above a positive baseline with positive spread, and is 0 without any baseline |
| InsiderDetection.SideVolumeScoreMonotone | database/analysis/insider_anomaly_detection.py:453-465 | more volume on a side never lowers that side's score |
| InsiderDetection.SideRatioScore | database/analysis/insider_anomaly_detection.py:492-510 | a side's volume:OI score lies in [0, 2] and is positive exactly when OI > 0, std > 0, avg > 0 and volume/OI exceeds avg |
| InsiderDetection.VolumeOiRatioScore | database/analysis/insider_anomaly_detection.py:471-513 | the volume:OI score lies in [0, 2] and is 0 when neither side has open interest (no division happens) |
| InsiderDetection.SideRatioScoreMonotone | database/analysis/insider_anomaly_detection.py:492-510 | with open interest fixed, more volume never lowers a side's volume:OI score |
| InsiderDetection.TallyNested | database/analysis/insider_anomaly_detection.py:545-583 | short-term OTM volume <= OTM volume <= side total, because short-term volume is counted only inside the OTM branch |
| InsiderDetection.SideOtmScoreBounds | database/analysis/insider_anomaly_detection.py:585-597 | for nested tallies, a side's score otm/total + shortOtm/total lies in [0, 2] |
| InsiderDetection.OtmScoreBounds | database/analysis/insider_anomaly_detection.py:515-608 | the OTM score lies in [0, 2] for every contract list |
| InsiderDetection.OtmScoreNeedsUnderlying | database/analysis/insider_anomaly_detection.py:523-531 | with no contract carrying an underlying price, the price found is 0 and the OTM score is 0 |
| InsiderDetection.OtmScoreFollowsHeavierSide | database/analysis/insider_anomaly_detection.py:599-608 | the OTM score is the heavier side's score, and on equal volume the larger of the two side scores |
| InsiderDetection.TallyContracts | database/analysis/insider_anomaly_detection.py:545-583 | the accumulation loop computes the side tally of its specification, and the tallies are nested |
| InsiderDetection.ComputeOtmScore | database/analysis/insider_anomaly_detection.py:515-608 | the method returns the specified OTM score, which lies in [0, 2] |
| InsiderDetection.DirectionalScore | database/analysis/insider_anomaly_detection.py:610-640 | the directional score is 0 when total volume or total magnitude is 0, and otherwise lies in [0, 1] |
| InsiderDetection.BiasStrengthAtMostOne | database/analysis/insider_anomaly_detection.py:617-624 | the distance of a share from 50/50, doubled, lies in [0, 1] |
| InsiderDetection.DirectionalCombination | database/analysis/insider_anomaly_detection.py:626-638 | same-way leans give 0.5*volume strength + 0.5*magnitude strength; opposite leans give half their difference |
| InsiderDetection.SwappedShare | database/analysis/insider_anomaly_detection.py:617-628 | swapping sides turns a share s into 1 - s, keeps its strength and flips its lean unless s = 0.5 |
| InsiderDetection.DirectionalSymmetric | database/analysis/insider_anomaly_detection.py:610-640 | swapping calls and puts, with totals passed as sums, leaves the directional score unchanged |
| InsiderDetection.ExpiryTallyNested | database/analysis/insider_anomaly_detection.py:650-664 | this-week volume <= short-term volume <= total, since a contract at most 7 days out is added to both buckets |
| InsiderDetection.TimePressureBounds | database/analysis/insider_anomaly_detection.py:666-674 | the time-pressure score lies in [0, 2] and with volume equals 1.2*this_week/total + 0.8*short_term/total (the cap never bites) |
| InsiderDetection.ComputeTimePressure | database/analysis/insider_anomaly_detection.py:642-674 | the method returns the specified time-pressure score, which lies in [0, 2] |
| InsiderDetection.SideVolumesPartition | database/analysis/insider_anomaly_detection.py:305-307 | call volume plus put volume is the symbol's total volume |
| InsiderDetection.SideMagnitudeNonNegative | database/analysis/insider_anomaly_detection.py:314-328 | with non-negative prices and share counts a side's premium is not negative |
| InsiderDetection.Magnitudes | database/analysis/insider_anomaly_detection.py:314-331 | the magnitude loop gives each side's summed volume*price*shares (shares defaulting to 100), truncated to an integer |
| InsiderDetection.AbsZScore | database/analysis/insider_anomaly_detection.py:357-362 | the pattern z-score is non-negative and 0 when the baseline spread is not positive |
| InsiderDetection.PatternTallyBounds | database/analysis/insider_anomaly_detection.py:364-386 | OTM call volume <= call volume, and short-term volume <= total volume |
| InsiderDetection.ComputePatternTally | database/analysis/insider_anomaly_detection.py:364-386 | the loop computes the OTM-call and short-term tallies of its specification |
| InsiderDetection.Percentage | database/analysis/insider_anomaly_detection.py:387-388 | a percentage is 0 for an empty whole and lies in [0, 100] for a part of the whole |
| InsiderDetection.VolumeOiRatio | database/analysis/insider_anomaly_detection.py:423-424 | the stored volume:OI ratio is non-negative, 0 without open interest, otherwise within 0.00005 of volume / OI, and a whole number of ten-thousandths (round to 4 places) |
| InsiderDetection.VolumeOiZScore | database/analysis/insider_anomaly_detection.py:425-426 | the stored volume:OI z-score lies in [-999.999, 999.999]; it is 0 without OI or without spread, the bound itself when the exact z-score is beyond it, and otherwise within 0.0005 of it; it is a whole number of thousandths (round to 3 places) |
| InsiderDetection.AlertThreshold | database/analysis/insider_anomaly_detection.py:391-402 | an unrounded score >= 7.5 with magnitude >= 20000 always alerts, and an alerting score was at least 7.45 |
| InsiderDetection.SymbolRecord | database/analysis/insider_anomaly_detection.py:391-437 | a record's composite lies in [0, 10] as min(sum, 10); the alert flag holds iff rounded composite >= 7.5 and magnitude >= 20000; totals and percentages are bounded; the side volumes and open interests are the sums over the symbol's rows; z_score is the larger side's absolute z-score rounded to 2 places (so non-negative); the volume:OI ratios and z-scores are the stored rounded values of each side; the two volume:OI averages are the baselines' averages rounded to 4 places |
| InsiderDetection.PercentRoundBounds | database/analysis/insider_anomaly_detection.py:421-422 | rounding a percentage to one decimal keeps it in [0, 100] |
| InsiderDetection.RecordsForSymbols | database/analysis/insider_anomaly_detection.py:343-344 | exactly the symbols with a call or put baseline get a record, whatever their score |
| InsiderDetection.RecordsForBounded | database/analysis/insider_anomaly_detection.py:391-402 | every stored record has composite in [0, 10] and carries the alert rule |
| InsiderDetection.DetectHighConviction | database/analysis/insider_anomaly_detection.py:283-446 | grouping then scoring gives one record per symbol with a baseline, in first-seen order; the flagged map holds exactly the alerting records, keyed by symbol |
| InsiderDetection.ScoreRecord | database/analysis/insider_anomaly_detection.py:314-437 | the per-symbol scoring (magnitudes truncated to integers, the five component scores) builds exactly the record `SymbolRecord` describes, with its stored roundings and the two volume:OI averages |
| InsiderDetection.ClassifyDirection | database/analysis/insider_anomaly_detection.py:705-711 | call_heavy iff call > 2*put, put_heavy iff put > 2*call, mixed otherwise; the three are exclusive |
| InsiderDetection.Multiplier | database/analysis/insider_anomaly_detection.py:701-703 | a multiplier is 0 without a positive baseline; otherwise times the baseline it gives the volume, and exceeds 1 iff volume exceeds the baseline |
| InsiderDetection.CallPutRatio | database/analysis/insider_anomaly_detection.py:727-731 | the call/put ratio lies in [0, 9999.9999], equals the cap when put volume is 0, and is call/put below the cap |
| InsiderDetection.PatternTags | database/analysis/insider_anomaly_detection.py:713-725 | heavy-OTM iff OTM call % > 80, short-term iff short-term % > 70, high volume:OI iff score >= 1.5, elevated iff 1.0 <= score < 1.5; never both |
| InsiderDetection.StoredColumnsOf | database/analysis/insider_anomaly_detection.py:690-731 | the stored total open interest is the sum of the sides and the call/put ratio is capped |
| InsiderDetection.DirectionMatchesRatio | database/analysis/insider_anomaly_detection.py:705-731 | a call_heavy row stores a call/put ratio above 2 and a put_heavy row one below 1/2 |
| LegacyDetection.SideVolumeScore | analysis/insider_anomaly_detection.py:1144-1156 | a side scores min(abs z / 3, 1.5), within [0, 1.5], and 0 unless std > 0 and avg > 0 |
| LegacyDetection.VolumeScore | analysis/insider_anomaly_detection.py:1140-1158 | the old volume score lies in [0, 3] |
| LegacyDetection.VolumeScoreSymmetric | analysis/insider_anomaly_detection.py:1147-1149 | volume the same distance below the baseline scores the same as volume above it (below-baseline volume is rewarded too) |
| LegacyDetection.VolumeScoreUncapped | analysis/insider_anomaly_detection.py:1140-1158 | the 3.0 cap never bites: the score is the plain sum of the two side scores |
| LegacyDetection.OtmCallScoreBounds | analysis/insider_anomaly_detection.py:1160-1211 | the old OTM score lies in [0, 3]; with calls, an underlying price and call volume it is 1.5*otm/total + 1.5*shortOtm/total |
| LegacyDetection.ComputeOtmCallScore | analysis/insider_anomaly_detection.py:1160-1211 | the call-only accumulation loop returns the specified score, within [0, 3] |
| LegacyDetection.DirectionalScore | analysis/insider_anomaly_detection.py:1213-1230 | the step function is 0 for no volume and only ever takes the values 0, 1.0, 1.5 or 2.0 |
| LegacyDetection.DirectionalMonotoneAboveFifth | analysis/insider_anomaly_detection.py:1218-1230 | from a call ratio of 0.2 upwards, more call volume never lowers the step score |
| LegacyDetection.DirectionalPutHeavy | analysis/insider_anomaly_detection.py:1227-1228 | puts more than four times calls (call ratio below 0.2) score 1.5 |
| LegacyDetection.ExclusiveTallyDisjoint | analysis/insider_anomaly_detection.py:1241-1254 | with the elif buckets, this-week plus short-term volume never exceeds the total |
| LegacyDetection.TimePressureAtMost | analysis/insider_anomaly_detection.py:1232-1264 | the old time-pressure score never exceeds 1.2, short of its documented 2.0 maximum |
| LegacyDetection.TimePressureMaximumExample | analysis/insider_anomaly_detection.py:1251-1263 | a single contract expiring within the week reaches exactly 1.2 under the exclusive buckets |
| LegacyDetection.CurrentTimePressureMaximumExample | database/analysis/insider_anomaly_detection.py:660-674 | the same contract reaches 2.0 under the nested buckets of the current detector |
| LegacyDetection.ComputeTimePressure | analysis/insider_anomaly_detection.py:1232-1264 | the bucket loop returns the specified score, within [0, 1.2] |
| LegacyDetection.CompositeOf | analysis/insider_anomaly_detection.py:1107-1114 | the composite is min(sum of the four scores, 10), within [0, 10] |
| LegacyDetection.KeptRecordsQualify | analysis/insider_anomaly_detection.py:1088-1120 | every kept symbol has volume >= 500, a baseline and composite in [7, 10] |
| LegacyDetection.KeptRecordsExactly | analysis/insider_anomaly_detection.py:1094-1117 | a symbol is kept iff it qualifies: volume >= 500, a baseline, composite >= 7.0 |
| LegacyDetection.ScoreSymbol | analysis/insider_anomaly_detection.py:1107-1114 | scoring one symbol returns its specified composite, within [0, 10] |
| LegacyDetection.DetectHighConviction | analysis/insider_anomaly_detection.py:1071-1138 | the detector returns the kept records of the symbols in first-seen order |
| LegacyDetection.Decay | analysis/insider_anomaly_detection.py:906 | the k-th decay factor 0.8^k lies in (0, 1] |
| LegacyDetection.RollupGroupTotals | analysis/insider_anomaly_detection.py:891-912 | a symbol's roll-up counts its anomalies, lists their types in order and sums score*0.8^k |
| LegacyDetection.RollupGroupMax | analysis/insider_anomaly_detection.py:911-912 | max_individual_score bounds every score and is 0 or one of them; every type has a details entry |
| LegacyDetection.DecayedSumBound | analysis/insider_anomaly_detection.py:904-907 | with scores in [0, m] the decayed sum is at most 5*m*(1 - 0.8^n) |
| LegacyDetection.RollupStep | analysis/insider_anomaly_detection.py:891-912 | one loop iteration keeps the roll-up map equal to the roll-up of the anomalies seen so far |
| LegacyDetection.RollupToSymbolLevel | analysis/insider_anomaly_detection.py:887-920 | the result holds exactly the rolled-up symbols with composite > 3.0 or max > 4.0, each with its roll-up |
| LegacyDetection.DeriveFields | analysis/insider_anomaly_detection.py:170-196 | fields are derived iff strike, price, underlying and type are all truthy; is_otm iff moneyness < 0 |
| LegacyDetection.CallDerivation | analysis/insider_anomaly_detection.py:178-196 | for a call: break-even = strike + price, OTM iff strike > underlying |
| LegacyDetection.PutDerivation | analysis/insider_anomaly_detection.py:180-196 | for any other type: break-even = strike - price, OTM iff strike < underlying |
| LegacyDetection.DeriveFieldsIgnoresCase | analysis/insider_anomaly_detection.py:178-190 | the call test ignores letter case |
| LegacyDetection.ContractRecord.constructor | analysis/insider_anomaly_detection.py:168-174 | a contract record starts with its inputs and no derived fields |
| LegacyDetection.ContractRecord.CalculateDerivedFields | analysis/insider_anomaly_detection.py:168-200 | the derived fields are written in place when derivable, and the contract is left unchanged otherwise |
| LegacyDetection.PositiveZ | analysis/insider_anomaly_detection.py:844-846 | a component is max(0, z), positive iff avg > 0, std > 0 and volume exceeds avg |
| LegacyDetection.VolumeComponentScores | analysis/insider_anomaly_detection.py:823-885 | with no baseline or zero volume all components are 0; each component is non-negative and 0 when its volume is 0 |
| LegacyDetection.CompositeWithinComponents | analysis/insider_anomaly_detection.py:877-883 | the 0.4/0.3/0.2/0.1 composite lies between 0 and the largest component, and is positive iff some component is |
| LegacyDetection.PositiveZMonotone | analysis/insider_anomaly_detection.py:844-846 | more volume never lowers a component |
| AdvancedScoring.PatternScore | analysis/advanced_scoring_engine.py:423-457 | the pattern score lies in [0, 3] and is positive iff at least one of the five insider patterns (earnings OTM calls, negative-news puts, short-dated gamma, small-cap low-liquidity spike, strike ladder) is present |
| AdvancedScoring.MarketCapFactor | analysis/advanced_scoring_engine.py:153-160 | the factor is 2 below 1B, 0 from 5B up, 1 in between |
| AdvancedScoring.ExtractFactors | analysis/advanced_scoring_engine.py:116-172 | each factor stays under its documented cap; OI momentum, volatility skew and liquidity are 0 when their denominator is not positive; time decay is positive iff expiry is under 30 days |
| AdvancedScoring.AdjustedWeights | analysis/advanced_scoring_engine.py:174-204 | the ten market-adjusted weights are each at least the positive base weight |
| AdvancedScoring.DynamicWeightsNormalised | analysis/advanced_scoring_engine.py:174-206 | the adjusted weights have a positive total, so the normalised weights are positive and sum to 1 |
| AdvancedScoring.DynamicWeights | analysis/advanced_scoring_engine.py:174-206 | the method returns the normalised adjusted weights: ten positive weights summing to 1 |
| AdvancedScoring.WeightedScore | analysis/advanced_scoring_engine.py:208-228 | the weighted score never exceeds the maximum score of 15 |
| AdvancedScoring.WeightedScoreIsAverage | analysis/advanced_scoring_engine.py:208-228 | with normalised weights the score lies between the smallest and largest factor (capped at 15): it is a weighted average |
| AdvancedScoring.AdjustmentMultiplier | analysis/advanced_scoring_engine.py:230-249 | market adjustments only ever raise the score (multiplier at least 1) |
| AdvancedScoring.MarketAdjusted | analysis/advanced_scoring_engine.py:230-251 | the adjusted score is capped at 15 and never below an in-range input score |
| AdvancedScoring.NeutralMarketKeepsScore | analysis/advanced_scoring_engine.py:230-251 | in a neutral market with small sector momentum and no major event the score is unchanged up to the cap |
| AdvancedScoring.StrongCount | analysis/advanced_scoring_engine.py:265-271 | at most five signals can count as strong |
| AdvancedScoring.StrongCountMatches | analysis/advanced_scoring_engine.py:265-271 | the strong-signal count is the number of the five listed factors above 1.0 |
| AdvancedScoring.ConfidenceInUnit | analysis/advanced_scoring_engine.py:253-280 | with completeness and stability in [0, 1] and a non-negative sample size, confidence lies in [0, 1] |
| AdvancedScoring.Confidence | analysis/advanced_scoring_engine.py:253-280 | the method returns the mean of the four confidence components, within [0, 1] on sane market data |
| AdvancedScoring.Names | analysis/advanced_scoring_engine.py:298-303 | the names are listed in the order of the factors |
| AdvancedScoring.RankedFactorsSound | analysis/advanced_scoring_engine.py:282-303 | at most five supporting factors, each a real factor with strength > 1.0, strongest first |
| AdvancedScoring.RankedFactorsComplete | analysis/advanced_scoring_engine.py:282-303 | a strong factor is left out only when five factors at least as strong were listed |
| AdvancedScoring.RiskFactors | analysis/advanced_scoring_engine.py:305-337 | each warning appears iff its condition holds (low liquidity, high volatility, expiry under 7 or 7-13 days, very small cap, imminent earnings, bearish market) |
| AdvancedScoring.ConvictionLevel | analysis/advanced_scoring_engine.py:339-348 | EXTREME from 10, HIGH from 7.5, MEDIUM from 5, LOW below 5 |
| AdvancedScoring.ConvictionMonotone | analysis/advanced_scoring_engine.py:339-348 | a higher score never gets a lower conviction level |
| AdvancedScoring.ExpectedReturn | analysis/advanced_scoring_engine.py:350-370 | the expected return is capped at 5.0 (500%) |
| AdvancedScoring.BaseReturnAtMostTwo | analysis/advanced_scoring_engine.py:353-354 | the base return is at most 2.0 and is linear in an in-range score |
| AdvancedScoring.RiskInUnit | analysis/advanced_scoring_engine.py:372-399 | the risk factor is at most 1 and non-negative when the volatility skew is |
| AdvancedScoring.RiskFactor | analysis/advanced_scoring_engine.py:372-399 | the method returns the mean of the four risk components, capped at 1 |
| AdvancedScoring.TimeHorizon | analysis/advanced_scoring_engine.py:401-421 | the horizon is 1 to 21 days, within the expiry, at most 7 days for a signal above 5, at most 14 above 3, at most 5 under high time decay |
| AdvancedScoring.NearExpiryShortHorizon | analysis/advanced_scoring_engine.py:401-421 | a contract expiring within 7 days has a time-decay factor above 1.5, so its horizon is at most 5 days whatever the signal strength |
| AdvancedScoring.Rate | analysis/advanced_scoring_engine.py:68-114 | a rating has a score at most 15, a horizon of 1 to 21 days and at most five supporting factors |
| AdvancedScoring.RatingsMeaningful | analysis/advanced_scoring_engine.py:475-482 | every kept rating scores at least 3.0, and every contract that scores at least 3.0 is kept; contracts that fail to score are skipped |
| AdvancedScoring.ScoreSymbol | analysis/advanced_scoring_engine.py:460-485 | the method returns the kept ratings sorted by descending score, as a permutation, all scoring between 3.0 and 15 |
| EnhancedDetection.VolumeGreeksScore | analysis/enhanced_anomaly_detection.py:184-197 | the score is the z-score plus twice the absolute delta plus at most 5 of capped gamma and volume bonuses, and at least z + 2·abs delta when gamma is non-negative |
| EnhancedDetection.VolumeScoreAboveThreshold | analysis/enhanced_anomaly_detection.py:166-197 | a row the volume query returns (z at least min_z, volume at least 100) scores at least min_z + 0.1 |
| EnhancedDetection.VolumeBonusMonotone | analysis/enhanced_anomaly_detection.py:195-197 | more session volume never lowers the score, and past 3000 it no longer raises it |
| EnhancedDetection.OiSpikeScore | analysis/enhanced_anomaly_detection.py:290-300 | the score is at most the capped ratio plus 2 plus the new-position bonus, and at least 3 for a new position |
| EnhancedDetection.OiNewPositionBonusNeverApplies | analysis/enhanced_anomaly_detection.py:274-300 | the query only returns rows with a previous OI, so the new-position bonus never applies: scores are at most 12 and at least min(min_ratio, 10) |
| EnhancedDetection.LadderScore | analysis/enhanced_anomaly_detection.py:385-390 | the ladder score lies in [0, 13] |
| EnhancedDetection.LadderScoreBounds | analysis/enhanced_anomaly_detection.py:372-390 | a ladder the query returns (4 strikes, 1000 contracts) scores at least 4.2, and more strikes or volume never lower it |
| EnhancedDetection.PreMoveScore | analysis/enhanced_anomaly_detection.py:484-491 | the pre-move score lies in [2, 14] |
| EnhancedDetection.PreMoveScoreOfQueryRow | analysis/enhanced_anomaly_detection.py:438-491 | a move of more than 3% with volume at least 200 scores above 3, and a move of 40% or more scores at least 10 |
| EnhancedDetection.LowVolumeScore | analysis/enhanced_anomaly_detection.py:586-594 | the low-volume score is at most 13 and non-negative for a non-negative volume ratio |
| EnhancedDetection.LowVolumeBonusOfQueryRow | analysis/enhanced_anomaly_detection.py:574-594 | a row with volume ratio at least 5 on a stock trading under a million shares scores above 5 |
| EnhancedDetection.DetectIntradayAnomalies | analysis/enhanced_anomaly_detection.py:36-107 | the high-score alerts are the detectors' anomalies scoring at least the alert minimum, in detector order, and the counts record each detector's size and the alert total |
| EnhancedDetection.AlertsAreTheHighScorers | analysis/enhanced_anomaly_detection.py:70-96 | an anomaly is alerted iff a detector found it and it scores at least the minimum |
| EnhancedDetection.AlertsKeepDetectorOrder | analysis/enhanced_anomaly_detection.py:70-96 | the volume detector's alerts come first, unchanged, in the combined alert list |
| EnhancedDetection.MostRecentTradingDay | analysis/enhanced_anomaly_detection.py:643-662 | the most recent trading day is today or up to two days before, a weekday, with no weekday after it up to today |
| EnhancedDetection.GroupAlertsBySymbol | analysis/enhanced_anomaly_detection.py:670-676 | the symbols are listed in the order of their first alert; each symbol's group is its alerts in input order; every alert lands in its symbol's group with its multiplicity, groups hold only their symbol's alerts, the symbol list names exactly the groups and the group sizes add up to the alert count |
| DataRetention.HolidaysOf | maintenance/data_retention.py:48-57 | each year contributes eight fixed holiday dates |
| DataRetention.MarketHolidays | maintenance/data_retention.py:35-59 | the holiday list has sixteen dates and holds every holiday of the previous and the current year |
| DataRetention.IsBusinessDay | maintenance/data_retention.py:61-80 | a day is a business day iff it is a weekday and not a listed holiday |
| DataRetention.FixedHolidaysClosed | maintenance/data_retention.py:35-80 | New Year's Day and Christmas of the current year and Christmas of the previous year are never business days |
| DataRetention.CalculateCutoffDate | maintenance/data_retention.py:82-114 | non-positive retention is an error; otherwise the cutoff lies before the reference and at most 1826 days back, at most the requested number of business days lie in between, and exactly that many, ending on a business day, unless the five-year limit stopped the walk |
| DataRetention.RunBatchesBounds | maintenance/data_retention.py:252-275 | the batch loop runs at most 10001 batches, each deleting at least one record |
| DataRetention.RunBatchesDeletesAll | maintenance/data_retention.py:255-275 | when every batch deletes something and the rows run out within the limit, the loop processes every batch and deletes their sum |
| DataRetention.DeleteInBatches | maintenance/data_retention.py:252-289 | the batch loop returns the specified run, or the first database error |
| DataRetention.DeleteOldRecords | maintenance/data_retention.py:186-289 | invalid tables, non-positive retention and failed counts are errors; nothing to delete or a dry run deletes nothing; otherwise the batches are run as specified, within the batch limit, and the cutoff lies before today |
| DataRetention.Names | maintenance/data_retention.py:353-367 | the table names are listed in table order |
| DataRetention.MergeExtends | maintenance/data_retention.py:353-367 | merging discovered tables keeps the known tables first, unchanged, and adds only discovered tables |
| DataRetention.MergeCovers | maintenance/data_retention.py:359-365 | the merged list names each table once and names every discovered table |
| DataRetention.FilterKeepsDistinct | maintenance/data_retention.py:353-357 | dropping invalid known tables keeps names distinct |
| DataRetention.KnownTablesDistinct | maintenance/data_retention.py:327-332 | the four known tables have distinct names |
| DataRetention.DiscoverTables | maintenance/data_retention.py:319-371 | a failed discovery falls back to the known tables; otherwise valid known tables come first, followed by discovered tables not already named |
| DataRetention.KeepValid | maintenance/data_retention.py:352-356 | the known-table loop keeps exactly the tables that pass validation, in their listed order |
| DataRetention.AddDiscovered | maintenance/data_retention.py:358-365 | the discovered-table loop yields the merge: the kept tables, then each discovered table whose name is not yet listed |
| DataRetention.DiscoveredTablesDistinct | maintenance/data_retention.py:350-367 | the discovered table list names each table once and names every discovered table |
| DataRetention.DiscoveredTablesKeepKnown | maintenance/data_retention.py:353-357 | every valid known table survives discovery |
| DataRetention.CleanTable | maintenance/data_retention.py:410-429 | non-positive retention or an invalid table makes the table fail; a dry run deletes nothing; at most 10001 batches per table |
| DataRetention.CleanupAllTables | maintenance/data_retention.py:373-432 | no tables gives an empty result; otherwise every table gets a result, successes plus failures equal the table count, nothing is deleted in a dry run, non-positive retention fails every table, and, when the table names are distinct (always so for discovered tables, by DataRetention.DiscoveredTablesDistinct), the total is the sum of the per-table deletions |
| DataRetention.CleanEachTable | maintenance/data_retention.py:406-432 | after the table loop, successes plus failures equal the table count, every table name has a result, nothing is deleted in a dry run or with a non-positive retention (which fails every table), and with distinct names the total is the sum of the per-table deletions |
| DailyScraper.MarketHolidays | scrapers/polygon_daily_scraper.py:65-81 | the scraper knows four holidays of the current year |
| DailyScraper.IsTradingDay | scrapers/polygon_daily_scraper.py:83-102 | a day is a trading day iff it is a weekday and not a listed holiday |
| DailyScraper.ListedHolidaysClosed | scrapers/polygon_daily_scraper.py:83-102 | weekends and listed holidays are never trading days |
| DailyScraper.GetMostRecentTradingDay | scrapers/polygon_daily_scraper.py:266-283 | the result is the latest trading day on or before today, at most six days back, so the fallback is never reached |
| DailyScraper.MostRecentTradingDay | scrapers/polygon_daily_scraper.py:275-283 | against any list of at most four holidays, the seven-day search returns the latest trading day on or before today, at most six days back, so the fallback after the loop is dead |
| DailyScraper.LatestTradingDayWithinTen | scrapers/polygon_daily_scraper.py:302-307 | the ten-day look-back finds the latest trading day, at most six days back |
| DailyScraper.TradingDayRangeAsWritten | scrapers/polygon_daily_scraper.py:295-329 | as written: one requested day yields the calendar day before the end as start; more days yield a trading-day start with exactly num_days trading days up to the end, and an error (start never bound) when the two-year limit is hit first |
| DailyScraper.TradingDayRange | scrapers/polygon_daily_scraper.py:295-329 | corrected: the range ends at the end day and covers min(num_days, available) trading days; the start is a trading day unless the limit is reached |
| DailyScraper.GetRecentTradingDaysAsWritten | scrapers/polygon_daily_scraper.py:285-329 | as written, with today's clock: the end is the latest trading day; a one-day request gets start = end - 1; longer requests beyond the look-back fail |
| DailyScraper.GetRecentTradingDays | scrapers/polygon_daily_scraper.py:285-329 | corrected: only non-positive requests fail, and the range holds min(num_days, available) trading days ending at the latest trading day |
| DailyScraper.OneDayRequestSpansTwoTradingDays | scrapers/polygon_daily_scraper.py:311-325 | when the day before the end is a trading day, the as-written one-day range covers two trading days |
| DailyScraper.OneDayRequestExamples | scrapers/polygon_daily_scraper.py:311-325 | a one-day request on Tuesday 2024-01-09 spans two trading days, and one on Monday 2024-01-08 starts on a Sunday |
| DailyScraper.OutcomeOf | scrapers/polygon_daily_scraper.py:202-262 | a closed day is skipped; a date counts as stored only if it is a trading day whose summary was stored; a trading day with no data that was not skipped as existing fails |
| DailyScraper.OutcomesPartition | scrapers/polygon_daily_scraper.py:202-262 | every requested date is exactly one of skipped, stored or failed |
| DailyScraper.SkippedCoversClosedDays | scrapers/polygon_daily_scraper.py:205-211 | every closed day in the range is among the skipped dates |
| DailyScraper.ScrapeOneDate | scrapers/polygon_daily_scraper.py:204-260 | one loop iteration produces the specified outcome for the date |
| DailyScraper.ScrapeDateRange | scrapers/polygon_daily_scraper.py:168-264 | a reversed range is an error; otherwise the dates requested, the trading days found, the skipped, processed and failed date lists and the inserted record total all match their specification |
| Migrations.ParseVersion | migrations/migration_manager.py:120-150 | the version is the file stem, the legacy-prefixed stem, or a prefix of the stem; a stem without an underscore, or whose first segment is shorter than eight characters (every 001_* file), becomes the legacy version 20240101_000000_ + stem, named after the stem |
| Migrations.ParseVersionRoundTrip | migrations/migration_manager.py:125-135 | a timestamped stem YYYYMMDD_HHMMSS_name parses back to its timestamp and name, with "migration" as the default name |
| Migrations.UnparsedTimestampKeepsStem | migrations/migration_manager.py:130-140 | a stem DATE_TIME_name with a first segment of at least eight characters whose DATE_TIME does not parse as a timestamp keeps the whole stem as version and name |
| Migrations.Found | migrations/migration_manager.py:117-153 | discovery finds at most one migration per file |
| Migrations.ByVersionIsTotalPreorder | migrations/migration_manager.py:155 | comparing versions as strings is a total preorder |
| Migrations.DiscoverMigrations | migrations/migration_manager.py:109-156 | the discovered migrations are the non-skipped files, each parsed from its name, as a permutation sorted by version |
| Migrations.FilterKeepsSorted | migrations/migration_manager.py:258-263 | selecting pending migrations keeps version order |
| Migrations.PendingInOrder | migrations/migration_manager.py:258-263 | a migration is pending iff it is available, not applied and not beyond the target; pending migrations stay in version order |
| Migrations.ApplyInOrder | migrations/migration_manager.py:273-285 | migrations are applied in order up to the first failure, and the run succeeds iff all were applied |
| Migrations.Migrate | migrations/migration_manager.py:247-285 | migrate applies the pending prefix that succeeds and reports success iff every pending migration was applied; nothing pending is success |
| Migrations.Lookup | migrations/migration_manager.py:298 | the lookup maps each available version to a migration with that version |
| Migrations.Versions | migrations/migration_manager.py:302-307 | the versions are listed in migration order |
| Migrations.RollbackListVersions | migrations/migration_manager.py:300-307 | the rollback list is the applied versions, newest first, that lie beyond the target and have a migration file |
| Migrations.RollbackListSound | migrations/migration_manager.py:300-307 | every migration selected for rollback is available, applied and beyond the target |
| Migrations.SelectRollback | migrations/migration_manager.py:300-307 | the selection loop returns the specified rollback list |
| Migrations.Rollback | migrations/migration_manager.py:287-326 | rollback reverts the selected migrations in order up to the first failure and succeeds iff all were reverted |
| Migrations.Status | migrations/migration_manager.py:328-348 | status splits the available migrations into applied and pending, counts each, and reports the last applied version, none iff nothing is applied |
| BulkOps.LineFields | database/bulk_operations.py:69 | a COPY line of clean fields ends in one newline and splits on tabs back into exactly its fields |
| BulkOps.LinesCount | database/bulk_operations.py:55-77 | a buffer of n non-empty clean lines holds exactly n newlines, one row per record |
| BulkOps.DailyCopyShape | database/bulk_operations.py:55-77 | every daily row has nine fields, and the buffer has one line per valid row |
| BulkOps.ContractRowOf | database/bulk_operations.py:275-293 | a contract record yields a row iff it has an underlying ticker and a ticker and its strike and share count convert; the row carries the as-of date, strike 0, 100 shares and an empty type by default |
| BulkOps.ContractRows | database/bulk_operations.py:273-295 | at most one row per record, each carrying the as-of date |
| BulkOps.ContractCopyShape | database/bulk_operations.py:273-295 | every contract row has ten fields starting with the as-of date, one line per valid row |
| BulkOps.UnderlyingSymbol | database/bulk_operations.py:504-516 | the symbol is made of capital letters only, empty without a colon, and a prefix of the part after the first colon |
| BulkOps.UnderlyingSymbolOf | database/bulk_operations.py:504-516 | for O:AAPL211119C00085000-shaped tickers the symbol is exactly the run of capitals after the colon |
| BulkOps.FormatValueNull | database/bulk_operations.py:528-530 | a value is written as the null marker iff it is absent |
| BulkOps.OptionalFloat | database/bulk_operations.py:520-526 | an absent or null value is NULL, a present one is its parsed float, and a present value that does not parse raises |
| BulkOps.SnapshotRowOf | database/bulk_operations.py:500-534 | a snapshot gives a row iff its ticker symbol, its six prices and its volume all parse; the row keeps the date and the contract ticker, takes its symbol from the ticker, has each of open, high, low, close, pre-market and after-hours NULL when absent or null and the parsed float otherwise, and has volume 0 when absent or null and the parsed integer otherwise |
| BulkOps.SnapshotRows | database/bulk_operations.py:498-538 | at most one row per snapshot |
| BulkOps.CombinedResultsCount | database/bulk_operations.py:414-418 | the combined contract list holds every response's results and is empty iff every response is |
| BulkOps.OkSnapshots | database/bulk_operations.py:463-467 | only snapshots whose status is OK are combined |
| BulkOps.OkSnapshotsComplete | database/bulk_operations.py:463-470 | the combined snapshots are exactly the OK responses, and empty iff none is OK |
| BulkOps.WriteDailyLines | database/bulk_operations.py:52-77 | the loop writes the specified COPY text and counts the valid daily rows |
| BulkOps.BulkStockDataLoader.constructor | database/bulk_operations.py:31-41 | a new loader uses batches of 5000 with COPY and zeroed statistics |
| BulkOps.BulkStockDataLoader.SuccessRate | database/bulk_operations.py:705 | the success rate lies in [0, 100], is 0 with no records and 100 when every record succeeded |
| BulkOps.BulkStockDataLoader.PerformanceStats | database/bulk_operations.py:696-706 | the statistics report the counters unchanged, the time rounded to two places and a success rate in [0, 100] |
| BulkOps.BulkStockDataLoader.ResetStats | database/bulk_operations.py:708-717 | resetting zeroes every counter and keeps the settings |
| BulkOps.BulkStockDataLoader.RecordBatch | database/bulk_operations.py:151-158 | a completed COPY adds its records, affected rows, one batch and its time, and recomputes the rate from the totals |
| BulkOps.BulkStockDataLoader.PrepareDataForCopy | database/bulk_operations.py:43-77 | missing or empty results give an empty buffer; otherwise the buffer is the specified COPY text with one line per valid daily record |
| BulkOps.BulkStockDataLoader.PrepareOptionDataForCopy | database/bulk_operations.py:261-295 | the same for option contracts, each line starting with the as-of date |
| BulkOps.WriteContractLines | database/bulk_operations.py:272-293 | the row loop writes exactly the COPY text of the rows that convert, and counts exactly those rows |
| BulkOps.BulkStockDataLoader.PrepareSnapshotsForCopy | database/bulk_operations.py:483-542 | the snapshot buffer has one line per valid snapshot, and the upsert proceeds iff at least one is valid |
| BulkOps.BulkStockDataLoader.CombineContractBatches | database/bulk_operations.py:393-437 | no responses fails; all-empty responses succeed without an upsert; otherwise every result is upserted once, with the combined count |
| BulkOps.BulkStockDataLoader.CombineSnapshotBatches | database/bulk_operations.py:443-477 | no responses fails; no OK snapshot succeeds without an upsert; otherwise exactly the OK snapshots are upserted |
| BulkOps.Round2Bounded | database/bulk_operations.py:705 | rounding a percentage to two places keeps it in [0, 100] and keeps 0 and 100 |
| StockData.TimestampToDateBounds | database/core/stock_data.py:18-20 | the date of a millisecond timestamp is the local day containing it: the local second count lies within that day |
| StockData.TimestampToDateOfDay | database/core/stock_data.py:18-20 | every instant within a local day maps back to that day |
| StockData.DailyRow | database/core/stock_data.py:39-54 | a record yields a row only when the required keys are present; the symbol is copied, the transaction count defaults to 0 and the average price to the close |
| StockData.DailyRowValid | database/core/stock_data.py:39-58 | a record yields a row iff its required keys are present and convert, and the row's date is the date of its timestamp |
| StockData.DailyRows | database/core/stock_data.py:38-58 | at most one row per record |
| StockData.DailyRowsConcat | database/core/stock_data.py:38-58 | records are converted one at a time, independently of the others |
| StockData.DailyRowsSound | database/core/stock_data.py:38-58 | every inserted row comes from some input record |
| StockData.InsertDailySnapshots | database/core/stock_data.py:23-85 | missing or empty results fail with nothing to insert; otherwise the rows are the converted valid records, and the insert succeeds iff there is at least one |
| StockData.PlaceholdersOfSelect | database/core/stock_data.py:131-148 | a query built from single-placeholder conditions has one placeholder per condition, plus one for the limit |
| StockData.SymbolHistoryQuery | database/core/stock_data.py:117-151 | the conditions are the symbol, then `date >= %s` if a start is given, then `date <= %s` if an end is given; the order is `date DESC` with a LIMIT; the parameters are the symbol, the optional start and end dates in that order, then the limit, matching the query's placeholders one for one |
| StockData.OnePlaceholderEach | database/core/stock_data.py:131-140 | each of the three history conditions holds exactly one placeholder |
| StockData.MarketSnapshotQuery | database/core/stock_data.py:158-188 | the LIMIT clause appears iff a limit is given, and the parameters match the placeholders: the date, then the limit |
| ContractsScraper.Normalize | scrapers/polygon_option_contracts_scraper.py:203-214 | the normalised symbol equals the upper-cased underlying ticker, the type and the exercise style are lower-cased, and the share count defaults to 100 |
| ContractsScraper.ZeroStrikeDropped | scrapers/polygon_option_contracts_scraper.py:217-218 | a contract with strike 0 fails the truthiness check and is dropped |
| ContractsScraper.Normalized | scrapers/polygon_option_contracts_scraper.py:198-235 | every kept contract has its required fields, a call or put type and a YYYY-MM-DD expiration |
| ContractsScraper.NormalizedIsSubsequence | scrapers/polygon_option_contracts_scraper.py:198-235 | the normalised list is the kept contracts at strictly increasing input positions: an order-preserving subsequence |
| ContractsScraper.NormalizeContractData | scrapers/polygon_option_contracts_scraper.py:196-235 | the normalisation loop returns the specified subsequence |
| ContractsScraper.Deduplicate | scrapers/polygon_option_contracts_scraper.py:243-248 | one contract per (symbol, contract ticker) key, keys in first-seen order, each holding the last contract with that key |
| ContractsScraper.DeduplicateKeys | scrapers/polygon_option_contracts_scraper.py:243-248 | after de-duplication no two contracts share a key and every input key is still present |
| ContractsScraper.ContractColumnsShape | scrapers/polygon_option_contracts_scraper.py:263-276 | each row has ten fields in header order, a missing value becomes an empty field, and the line splits back into its fields |
| ContractsScraper.PlanUpsert | scrapers/polygon_option_contracts_scraper.py:237-276 | an empty list needs no upsert; otherwise one COPY line per unique key, each with the last contract for it |
| ContractsScraper.LimitSymbols | scrapers/polygon_option_contracts_scraper.py:345-347 | a positive limit keeps a prefix of that many symbols; no limit or 0 keeps them all |
| ContractsScraper.FailuresCount | scrapers/polygon_option_contracts_scraper.py:351-381 | the failures are the symbols whose upsert failed, and stored plus failed symbols never exceed those processed |
| ContractsScraper.TallySymbols | scrapers/polygon_option_contracts_scraper.py:353-382 | the per-symbol loop collects the failures, the successful symbols and the stored row total as specified |
| ContractsScraper.ContractsScraperState.constructor | scrapers/polygon_option_contracts_scraper.py:44-47 | a new scraper allows 20 requests a second and has made no request yet |
| ContractsScraper.ContractsScraperState.RateLimit | scrapers/polygon_option_contracts_scraper.py:56-66 | the limiter sleeps only when the last request was under the minimum interval ago, and then exactly for the shortfall; it records the request time |
| ContractsScraper.ContractsScraperState.ScrapeAllSymbols | scrapers/polygon_option_contracts_scraper.py:338-417 | success iff no symbol failed; the processed symbols are the limited prefix and the counts, contract total and average add up over them |
| IntradaySchedule.PlanLoads | intraday_schedule.py:71-75 | the page size is options_limit or 250; the pages are the ceiling of contracts over page size and the bulk loads the ceiling of pages over batch calls, both 0 with no contracts; a zero batch-call count with pages to load is an error |
| IntradaySchedule.CeilDivUnique | intraday_schedule.py:73-75 | math.ceil of a quotient is the unique c with (c-1)·b < a <= c·b |
| IntradaySchedule.TestPrefix | intraday_schedule.py:83-84 | a positive test-contract count keeps a prefix of that many tickers; otherwise all are kept |
| IntradaySchedule.RequestBatches | intraday_schedule.py:92-119 | the batches concatenate back to exactly the ticker list, none is empty, and every batch of two or more tickers is within the page size and the URL limit |
| IntradaySchedule.SuperBatches | intraday_schedule.py:124-125 | a zero batch-call count fails (range step of 0) and a negative one yields no super-batch |
| IntradaySchedule.SuperBatchesCover | intraday_schedule.py:124-125 | with a positive count the super-batches concatenate back to the request batches, each holds 1 to batch_calls calls, and there are ceil(batches/calls) of them |
| IntradaySchedule.LatestIndex | intraday_schedule.py:141-150 | the chosen entry has the greatest last_updated, and is the first such entry |
| IntradaySchedule.DedupedTickers | intraday_schedule.py:141-150 | the de-duplicated rows are one row per ticker, tickers in first-seen order, each drawn from the rows with a ticker |
| IntradaySchedule.DedupedSound | intraday_schedule.py:141-150 | no ticker appears twice, every input ticker survives, and rows without a ticker are dropped |
| IntradaySchedule.DedupedLatest | intraday_schedule.py:144-149 | the kept row of a ticker is at least as recent as every row of that ticker (missing last_updated counts as 0) |
| IntradaySchedule.LatestByTicker | intraday_schedule.py:141-150 | the by-ticker dictionary loop returns the specified de-duplicated rows |
| IntradaySchedule.MissingTickers | intraday_schedule.py:151-153 | missing tickers are exactly those requested and not returned, each listed once |
| IntradaySchedule.RetryBatchesCover | intraday_schedule.py:155-157 | the retry batches concatenate back to the missing list, each holding 1 to 50 tickers |
| IntradaySchedule.ProcessSuperBatch | intraday_schedule.py:126-168 | a super-batch keeps the latest row per returned ticker, computes the missing tickers, and appends the retry results to the kept rows |
| IntradaySchedule.RequestedReturnedOrRetried | intraday_schedule.py:151-157 | every requested ticker is either returned or retried, and no returned ticker is retried |
| OptionsScraper.StepMeaning | scrapers/polygon_options_scraper_optimized.py:108-127 | a 429 resets the streak and multiplies the delay by 1.5 up to 1.0; a success adds to the streak, and the tenth in a row under dynamic limiting resets it and lowers the delay by 5% down to the request delay |
| OptionsScraper.StepInBounds | scrapers/polygon_options_scraper_optimized.py:108-127 | every update keeps request_delay <= current_delay <= 1.0 and the streak between 0 and 9 |
| OptionsScraper.ReplayInBounds | scrapers/polygon_options_scraper_optimized.py:55-64 | starting from delay = request delay and streak 0, every sequence of responses keeps the pace within those bounds |
| OptionsScraper.AttemptsMeaning | scrapers/polygon_options_scraper_optimized.py:103-156 | a ticker gets at most max_retries attempts, retrying only after a 429 or a request error; it yields data iff the last attempt returned status OK with a `results` value whose length can be taken (absent, a string, a list or an object), and a non-OK status stops at once |
| OptionsScraper.AttemptsStop | scrapers/polygon_options_scraper_optimized.py:103-143 | an attempt that is not retryable ends the ticker: with its data when the status is OK and its `results` can be sized, with nothing otherwise |
| OptionsScraper.PacingSleep | scrapers/polygon_options_scraper_optimized.py:184-190 | after the (i+1)-th completion the pause is 1 s at multiples of the concurrency, else 0.25 s at multiples of 5, else the current delay |
| OptionsScraper.PacingAtLeastRequestDelay | scrapers/polygon_options_scraper_optimized.py:184-190 | no pause is shorter than the request delay |
| OptionsScraper.FetchedOrFailed | scrapers/polygon_options_scraper_optimized.py:163-195 | every ticker is either fetched or failed |
| OptionsScraper.Tagged | scrapers/polygon_options_scraper_optimized.py:128-138 | a fetched response is tagged with its ticker, as-of date and fetch time and keeps its own keys |
| OptionsScraper.OptimizedOptionsScraper.constructor | scrapers/polygon_options_scraper_optimized.py:49-64 | a new scraper uses 20 concurrent requests, batches of 500, three retries, dynamic limiting, and starts at the request delay with no streak |
| OptionsScraper.OptimizedOptionsScraper.Apply | scrapers/polygon_options_scraper_optimized.py:108-127 | one response updates the delay and streak fields as specified |
| OptionsScraper.OptimizedOptionsScraper.RetryWhileRetryable | scrapers/polygon_options_scraper_optimized.py:103-153 | the retry loop stops at the first non-retryable attempt or after max_retries, applying each response to the pace |
| OptionsScraper.OptimizedOptionsScraper.FetchSingleTicker | scrapers/polygon_options_scraper_optimized.py:92-156 | a ticker yields its tagged data iff its last attempt returned status OK with sizable `results` (a null, boolean or numeric `results` fails the ticker), and the pace reflects every attempt made, counting every status-OK reply as a success |
| OptionsScraper.OptimizedOptionsScraper.GetOptionContractsBatch | scrapers/polygon_options_scraper_optimized.py:79-197 | the responses are exactly the successful fetches' data (status OK with sizable `results`), each tagged with its ticker, the date and the fetch time, in ticker order; the failed tickers are exactly those whose fetch fails; together they account for every ticker, with the specified pause after each completion, each between min(request delay, 0.25) and 1 s |
| OptionsScraper.OptimizedOptionsScraper.FetchInBatches | scrapers/polygon_options_scraper_optimized.py:265-278 | over consecutive batches of batch_size tickers, the collected responses are exactly the tagged responses of all the tickers in ticker order; successful plus failed calls equal the tickers requested and the failed count is the number of failing tickers |
| OptionsScraper.FetchedDataConcat | scrapers/polygon_options_scraper_optimized.py:265-278 | fetching two lists of tickers one after the other gives the tagged responses of their concatenation, so batching changes neither the responses nor their order |
| OptionsScraper.OptimizedOptionsScraper.ScrapeOptionsForDate | scrapers/polygon_options_scraper_optimized.py:199-323 | existing data skips the date with its count; otherwise successful plus failed calls equal the tickers requested, the limited prefix, and a bulk load that raises moves every successful call to failed; otherwise the successful calls are the responses of the limited tickers and the failed calls their failing tickers, and the inserted total is the sum of the responses' result counts after a load that reports success and 0 after one that reports failure or raises |
| OptionsScraper.TallyCounts | scrapers/polygon_options_scraper_optimized.py:360-403 | dates requested = trading days + skipped dates, and successful + failed dates = trading days found |
| OptionsScraper.TallyLists | scrapers/polygon_options_scraper_optimized.py:360-403 | the skipped, processed and failed date lists are exactly the dates in the range with that outcome, and the counters are their lengths |
| OptionsScraper.TallySums | scrapers/polygon_options_scraper_optimized.py:378-395 | the API-call and contract totals are the sums over every trading day whose scrape returned a result, including the days classed as failed |
| OptionsScraper.ScrapeOptionsDateRange | scrapers/polygon_options_scraper_optimized.py:325-404 | a reversed range is an error; otherwise the date loop returns the specified tally |
| FlatfileLoader.PySlice | scrapers/polygon_option_flatfile_loader.py:72-73 | Python slicing: the ordinary slice when in range, empty when starting past the end |
| FlatfileLoader.Strip | scrapers/polygon_option_flatfile_loader.py:74 | removing '-' leaves no '-' and never lengthens the string |
| FlatfileLoader.CompactDate | scrapers/polygon_option_flatfile_loader.py:74 | for a YYYY-MM-DD date, removing the dashes gives year, month and day run together |
| FlatfileLoader.CompactDateRoundTrip | scrapers/polygon_option_flatfile_loader.py:74 | the compact date has eight characters and re-inserting the dashes gives back the date |
| FlatfileLoader.BuildS3Keys | scrapers/polygon_option_flatfile_loader.py:65-79 | exactly three keys, each under prefix/year/ and ending in .csv.gz |
| FlatfileLoader.S3KeysLayout | scrapers/polygon_option_flatfile_loader.py:65-79 | for a well-formed date the keys are YYYY/MM/date, YYYY/date and YYYY/YYYYMMDD, in that order and all different |
| FlatfileLoader.Aliases | scrapers/polygon_option_flatfile_loader.py:114-123 | each column's alias list starts with the column's own name |
| FlatfileLoader.FirstTruthy | scrapers/polygon_option_flatfile_loader.py:114-123 | the value is empty iff no alias has a non-empty value, and otherwise it is the value of the first alias that has one |
| FlatfileLoader.Normalize | scrapers/polygon_option_flatfile_loader.py:114-123 | a normalised row has exactly the eight column keys |
| FlatfileLoader.NormalizeAll | scrapers/polygon_option_flatfile_loader.py:112-123 | every row of the file is normalised, in order |
| FlatfileLoader.NormalizeAt | scrapers/polygon_option_flatfile_loader.py:114-123 | each normalised column holds its first non-empty alias value |
| FlatfileLoader.NormalizeIdempotent | scrapers/polygon_option_flatfile_loader.py:114-123 | normalising a normalised row changes nothing |
| FlatfileLoader.TryCandidatesMeaning | scrapers/polygon_option_flatfile_loader.py:105-131 | keys are tried in order until one succeeds; the rows of the first success are returned, and when all fail the last error is raised |
| FlatfileLoader.ExistingCount | scrapers/polygon_option_flatfile_loader.py:166-177 | a failed check gives no count, and a non-zero count comes from a truthy 'c' or 'count' in the first row |
| FlatfileLoader.FlatFileLoader.constructor | scrapers/polygon_option_flatfile_loader.py:37-63 | each S3 key is taken from the first non-empty of its three environment variables, and the dataset prefix defaults to us_options_opra/day_aggs_v1 |
| FlatfileLoader.FlatFileLoader.IterRowsFromS3 | scrapers/polygon_option_flatfile_loader.py:81-131 | missing S3 keys fail before any fetch; otherwise the candidate keys are tried in their built order |
| FlatfileLoader.FlatFileLoader.LoadForDate | scrapers/polygon_option_flatfile_loader.py:153-190 | an existing positive count skips the date as a success without downloading; otherwise the rows are streamed and upserted, and success is the upsert's result |
| SnapshotUrl.ResolveApiKey | scrapers/polygon_unified_options_snapshot_scraper.py:34-37 | the key is the argument or else POLYGON_API_KEY, never empty; construction fails iff both are missing or empty |
| SnapshotUrl.WithApiKey | scrapers/polygon_unified_options_snapshot_scraper.py:43-48 | a URL already holding apikey= is kept; otherwise it is extended by '&' when it has a '?' (else '?') and apikey=<key>, so the result always carries the key and starts with the URL |
| SnapshotUrl.WithApiKeyIdempotent | scrapers/polygon_unified_options_snapshot_scraper.py:43-48 | appending the key to a URL that was already patched changes nothing |
| SnapshotUrl.WithApiKeyQueryMarks | scrapers/polygon_unified_options_snapshot_scraper.py:46 | patching never adds a second '?': the result has the URL's question marks, or exactly one when it had none |
| SnapshotUrl.PageRequest | scrapers/polygon_unified_options_snapshot_scraper.py:41-62 | a continuation page requests the patched next URL without parameters; a first page requests /v3/snapshot with type, limit and apikey, plus ticker, sort and order exactly when given |
| SnapshotUrl.FetchPage | scrapers/polygon_unified_options_snapshot_scraper.py:41-73 | one request, and a second only when a continuation page answers 401; the page succeeds iff the last response is below 400 and returns its body |
| SnapshotUrl.RetryRepeatsRequest | scrapers/polygon_unified_options_snapshot_scraper.py:65-71 | the 401 retry sends exactly the request already sent, since the URL was patched before the first attempt |
| SnapshotUrl.TickersRequest | scrapers/polygon_unified_options_snapshot_scraper.py:75-90 | an empty ticker list makes no request; otherwise one /v3/snapshot request with type, ticker and apikey |
| SnapshotUrl.TickersRequestRoundTrip | scrapers/polygon_unified_options_snapshot_scraper.py:85 | the ticker parameter splits on commas back into the ticker list |
| DetailedAnalysis.Compare | scripts/detailed_anomaly_analysis.py:233-274 | a comparison copies the current figures; it carries the note iff there is no baseline, in which case every baseline field, the ratio and the z-score are 0 and it is not an anomaly; otherwise the baseline days, total, average, deviation, maximum and minimum are copied, the ratio is current/avg (0 when avg <= 0), the z-score (current-avg)/std (0 when std <= 0), and it is an anomaly iff current > avg + 2·std |
| DetailedAnalysis.AnomalyMeansZAboveTwo | scripts/detailed_anomaly_analysis.py:256-258 | with a positive spread a volume anomaly is exactly a z-score above 2, and an anomaly against a positive average has ratio above 1 |
| DetailedAnalysis.SymbolComparisons | scripts/detailed_anomaly_analysis.py:230-274 | one comparison per contract type of the symbol |
| DetailedAnalysis.ComparisonsPerKey | scripts/detailed_anomaly_analysis.py:229-274 | exactly one comparison per (symbol, contract type) pair present, in iteration order |
| DetailedAnalysis.CalculateVolumeAnomalyScores | scripts/detailed_anomaly_analysis.py:225-277 | the nested loop returns the specified comparisons |
| DetailedAnalysis.PairsOf | scripts/detailed_anomaly_analysis.py:348-357 | one (symbol, type) occurrence per listed anomaly type |
| DetailedAnalysis.RecordValid | scripts/detailed_anomaly_analysis.py:349-357 | recording an occurrence adds one to its type's count, starting the type at 1, and leaves other types unchanged |
| DetailedAnalysis.TallyMeaning | scripts/detailed_anomaly_analysis.py:347-357 | each type's count is its number of occurrences, and every occurring type is tallied |
| DetailedAnalysis.RowFacts | scripts/detailed_anomaly_analysis.py:360-366 | a breakdown row reports the type's occurrences, at least one and at most that many unique symbols, and the average per symbol |
| DetailedAnalysis.BreakdownRows | scripts/detailed_anomaly_analysis.py:360-367 | one breakdown row per tallied type, in first-seen order |
| DetailedAnalysis.TypeBreakdown | scripts/detailed_anomaly_analysis.py:346-367 | every occurring type gets a row whose count is its occurrences, with 1 <= unique symbols <= occurrences and the average count/unique |
| DetailedAnalysis.CountTypes | scripts/detailed_anomaly_analysis.py:347-357 | the counting loop over the anomalies builds the specified tally |
| DetailedAnalysis.CountAnomalyTypes | scripts/detailed_anomaly_analysis.py:349-357 | one anomaly's types are added to the tally in order |
| Backfill.RecordedZ | scripts/backfill_anomalies.py:228-246 | only z-scores of at least 4.0 are recorded as volume anomalies |
| Backfill.RecordedZCount | scripts/backfill_anomalies.py:228-246 | the recorded count is the number of rows with a z-score of at least 4.0 |
| Backfill.DetectVolumeAnomalies | scripts/backfill_anomalies.py:176-246 | the row loop records the specified anomalies |
| Backfill.PreMoveScore | scripts/backfill_anomalies.py:332 | the pre-move score lies in [0, 10] and reaches 10 iff the move is at least 100% |
| Backfill.PreMoveScoreMonotone | scripts/backfill_anomalies.py:332 | a larger move never scores lower, and up and down moves score alike |
| Backfill.DetectedCount | scripts/backfill_anomalies.py:144-174 | a date's anomaly count never exceeds the rows of its queries, and is 0 when the volume query fails |
| Backfill.ProcessedIffSufficient | scripts/backfill_anomalies.py:99-117 | a date is processed iff its option and stock row counts could be read and both exceed 1000 |
| Backfill.ProcessedInMeaning | scripts/backfill_anomalies.py:95-121 | a batch's processed days are the processed dates in it, at most its length, and its anomalies their sum |
| Backfill.CountsSplit | scripts/backfill_anomalies.py:59-74 | the counts over a range are the sums of the counts over its parts |
| Backfill.ProcessDateBatch | scripts/backfill_anomalies.py:89-122 | the batch loop returns the processed days and anomalies of its dates, and zeros for an empty batch |
| Backfill.BatchesPartition | scripts/backfill_anomalies.py:57-74 | the batches start at the start date, end at the end date, hold at most batch_size days each and follow each other without gap or overlap |
| Backfill.SuccessRate | scripts/backfill_anomalies.py:83 | the success rate is 0 for an empty range and within [0, 1] when no more days were processed than requested |
| Backfill.BackfillDateRange | scripts/backfill_anomalies.py:35-87 | the run visits the specified batches, reports end - start + 1 days, the processed days and anomalies over the range, and a success rate within [0, 1] |
| Backfill.RunBatches | scripts/backfill_anomalies.py:57-74 | the batch loop visits exactly the batches of the layout and adds up the processed days and anomalies of the whole range, and nothing when the start is after the end |
| EmailNotifier.ConfigFromEnv | notifications/email_notifier.py:20-31 | reading the environment fails exactly when the port or the minimum score does not parse; otherwise STARTTLS is on exactly for port 587 and SSL exactly for port 465 (never both), the sender defaults to the SMTP user, alerts are enabled exactly when the flag is "true" in any case, and a missing port means 465 |
| EmailNotifier.HighConvictionMeaning | notifications/email_notifier.py:43-51 | the alert keeps exactly the anomalies scoring at least the minimum, each as often as in the input, and is empty exactly when every score is below the minimum |
| EmailNotifier.CallMultiplier | notifications/email_notifier.py:128-131 | the call multiplier times a positive baseline gives back the call volume; a non-positive baseline yields 0 |
| EmailNotifier.CallPercentage | notifications/email_notifier.py:132 | the call percentage is the call share of the total volume times 100, and 0 when there is no volume |
| EmailNotifier.PatternByVolumes | notifications/email_notifier.py:132-140 | the pattern is bullish exactly when calls are at least four times puts, bearish exactly when there is no volume or puts are at least four times calls, mixed otherwise |
| EmailNotifier.OrderedMeaning | notifications/email_notifier.py:72-76 | the anomalies in the e-mail are a permutation of the input, ordered by composite score from highest to lowest |
| EmailNotifier.Content | notifications/email_notifier.py:67-220 | the e-mail body has a header, a table head, one summary row per anomaly, the table end, a detail heading, one detail section per anomaly and a footer |
| EmailNotifier.ContentLayout | notifications/email_notifier.py:67-220 | each position of the body holds the expected part: the header with the timestamp, count and minimum score, the i-th summary row and the i-th detail section for the i-th anomaly in score order, and the footer with the timestamp |
| EmailNotifier.CreateEmailContent | notifications/email_notifier.py:67-220 | the loop-built body equals the body described by the layout above |
| EmailNotifier.AppendSummaries | notifications/email_notifier.py:121-156 | the summary loop appends one table row per anomaly, in the given order, and keeps what came before |
| EmailNotifier.AppendDetails | notifications/email_notifier.py:162-205 | the detail loop appends one detail block per anomaly, in the given order, and keeps what came before |
| EmailNotifier.Subject | notifications/email_notifier.py:55 | the subject is the fixed prefix, a run of decimal digits and the fixed suffix |
| EmailNotifier.SubjectCount | notifications/email_notifier.py:55 | the digits in the subject spell the number of high-conviction anomalies |
| EmailNotifier.SendEmail | notifications/email_notifier.py:221-248 | sending fails exactly when the user, password or recipient is empty; otherwise it opens an SSL session exactly on port 465 and a STARTTLS session exactly on port 587, logs in with the configured credentials and sends the message with the given subject, sender, recipient and body |
| EmailNotifier.SendAnomalyAlert | notifications/email_notifier.py:33-65 | nothing is sent and the call succeeds exactly when alerts are disabled or no anomaly reaches the minimum; otherwise the message carries the count in its subject and the ordered body, and the result is whether delivery succeeded; missing credentials make the call fail without sending |
| Dashboard.SafeNumeric | app/dashboard_functions.py:28-37 | a blank value (None, empty, "none" or "null") or one that does not parse gives the default; otherwise the parsed number, and integers and floats are taken as they are |
| Dashboard.SafeInt | app/dashboard_functions.py:28-37 | the integer form gives the default for blank or unparsable values and otherwise a whole number within 1 of the parsed value and no larger in magnitude |
| Dashboard.SafeIntTruncates | app/dashboard_functions.py:32-33 | the integer form truncates toward zero: it rounds positive values down and negative values up |
| Dashboard.DateKey | app/dashboard_functions.py:43-48 | a row has no date exactly when both the event date and the snapshot timestamp are missing; the event date takes precedence when present |
| Dashboard.Entries | app/dashboard_functions.py:40-56 | at most one sort entry is produced per row |
| Dashboard.EntriesMeaning | app/dashboard_functions.py:40-56 | one entry is produced for each row that has a date and converts without error, each entry comes from such a row, and every such row contributes its entry |
| Dashboard.LaterTotal | app/dashboard_functions.py:58-59 | the date-descending, score-descending order is a total preorder, so sorting by it is well defined |
| Dashboard.SymbolsOf | app/dashboard_functions.py:61-62 | the result lists each entry's symbol in entry order |
| Dashboard.OrderedAnomalySymbols | app/dashboard_functions.py:22-62 | the symbols are those of the usable rows after sorting them by date and then score, both descending; an empty table gives no symbols |
| Dashboard.OrderedSymbolsMeaning | app/dashboard_functions.py:40-62 | there is one symbol per usable row, the sorted entries are a permutation of the rows' entries, and later dates come first with higher scores first within a date |
| Dashboard.OrderedSymbolsKeepOrder | app/dashboard_functions.py:58-62 | rows already in date and score order keep their order |
| Dashboard.RowCallPercentage | app/dashboard_functions.py:316 | the call percentage is the call share of the total volume times 100, and 0 when the total is not positive |
| Dashboard.RowPatternByVolumes | app/dashboard_functions.py:316-327 | a row is bullish exactly when calls are at least 80% of a positive total and bearish exactly when the total is not positive or calls are at most 20% of it; the volume text uses the call multiplier, the put multiplier or both accordingly |
| Dashboard.RowVolumes | app/dashboard_functions.py:308-310 | without a total-volume column the total is calls plus puts; a blank total counts as 0 |
| Dashboard.MoneynessCallPut | app/dashboard_functions.py:1318-1321 | with a known underlying price different from the strike, a call is in the money exactly when the matching put is out of it; at the money, with no underlying price, or for any other contract type the contract is out of the money |
| Dashboard.VolumeOiRatio | app/dashboard_functions.py:1322 | the ratio times a non-zero open interest gives back the volume; a zero open interest is treated as 1 |
| Dashboard.AddColumns | app/dashboard_functions.py:1316-1322 | each contract gets a column entry: in the money exactly for a call struck below or a put struck above a known underlying price, with the volume to open-interest ratio as above |

## Left out

- Database access is not modelled: SQL text, cursors, COPY, upserts, commits and rollbacks, and the baseline aggregates. Query results and row counts are inputs.
- HTTP, S3/boto3 streaming, gzip/CSV decoding and the SMTP conversation are not modelled. Their replies are parameters.
- Thread pools are not modelled: the options scraper's fetches run one after another, so interleaved updates of the shared delay are not captured.
- Streamlit and Plotly UI code, data frames and CSV report files are not modelled.
- `np.log` in the liquidity factor is a parameter function.
- `float()`/`int()` parsing of strings and `pd.to_datetime` are parameter functions that may fail.
- f-string number formatting is a parameter. E-mail HTML is a sequence of fragments rather than text.
- `round(x, n)` for n from 1 to 4 is round-half-even on exact reals. Binary floating-point ties are not modelled.
- Text.Lower and Text.Upper map the ASCII letters only. Python's `str.lower()`/`str.upper()` also map other cased letters ('é' to 'É', 'ß' to "SS"). The symbols, contract types and dates they are applied to are ASCII.
- The clock is not modelled: `date.today()`, `datetime.now` and the timestamp in e-mails are parameters.
- Local-time `fromtimestamp` uses a fixed UTC offset. Daylight-saving changes are not modelled.
- Sorting.Sort: sorts are stable insertion sorts and are proved sorted and a permutation of their input. Stability of ties is by construction, not a proved property.
- Dashboard.OrderedSymbolsMeaning: states the date-then-score order and the permutation, but not that ties keep input order. That follows from stability, which is not proved.
- DailyScraper.GetRecentTradingDaysAsWritten: its contract shows the unbound start only for more than 731 requested days. The smallest request that actually hits the 730-day safety break (about 523 trading days) is not proved.
- FlatfileLoader: `rows_processed` stays 0, as in the code. A download stream that fails part-way through a file is not modelled. The missing-boto3 error is left out.
- FlatfileLoader: an existing-row count that is not an integer is treated as a failed check.
- SnapshotUrl: the 401 retry re-sends the same patched URL. The HTTP exchange itself is a parameter.
- ContractsScraper: `scrape_incremental_smart` and the pagination of the contracts endpoint are not modelled. They are HTTP orchestration around the normalisation and upsert that are modelled.
- EnhancedDetection: the alert e-mail rendering and `_validate_email_config` are not modelled.
- DetailedAnalysis: `sample_symbols` and the report printing are not modelled.
- Backfill: the open-interest detector returns no anomalies in the code and is modelled that way. The `errors` list is never appended to, so it is always empty. With a batch size of 0 the code never terminates, because each batch starts where the previous one did. With a negative size it steps backwards until the date arithmetic overflows at the earliest representable date. The backfill therefore requires a batch size of at least 1.
- EmailNotifier: `test_connection` and the `send_anomaly_notification` wrapper are not modelled. An exception during delivery is modelled as the delivery parameter returning false.
- Dashboard: the chart, table and pivot functions are not modelled. NaN cells are not modelled.
- Dashboard: the `days_to_expiry` column reads the clock and is left out. The other display-only columns are left out as well.

## Findings

| source | as written | input that shows it | evidently intended | confidence | as-written member | corrected member |
|---|---|---|---|---|---|---|
| analysis/insider_anomaly_detection.py:1251-1264 | the expiry buckets are exclusive (`elif`), so the this-week and short-term volumes add up to at most the total, and 1.2·tw + 0.8·st can never exceed 1.2 | all volume expiring within 7 days: tw = 1, st = 0, score 1.2 | the factor reaches its documented maximum of 2.0, as the current detector's overlapping buckets do | not executed | LegacyDetection.TimePressureAtMost | LegacyDetection.CurrentTimePressureMaximumExample |
| scrapers/polygon_daily_scraper.py:310-326 | with num_days = 1 the search loop never runs, and the fallback sets start = end − 1 day | a request on Tuesday 2024-01-09 covers two trading days; a request on Monday 2024-01-08 starts on Sunday 2024-01-07 | start = end, a one-trading-day range | not executed | DailyScraper.OneDayRequestExamples | DailyScraper.TradingDayRange |
| scrapers/polygon_daily_scraper.py:321-328 | when the 730-day safety break fires, start_date is never assigned and the return raises an error | a request for more trading days than fit in 730 calendar days | return the earliest day examined as the start | not executed | DailyScraper.GetRecentTradingDaysAsWritten | DailyScraper.GetRecentTradingDays |

=== FILE: advanced_scoring.dfy ===
/**
 * The advanced scoring engine (analysis/advanced_scoring_engine.py): ten
 * bounded factors of one contract, a normalised dynamic weighting, market
 * adjustments, a conviction level, the strongest supporting factors, risk,
 * expected return and a trade horizon, and the per-symbol filter that keeps
 * the meaningful ratings sorted by score.
 *
 * A missing dictionary key is represented by the default the engine reads
 * in its place (for example 30 days to expiry, a market cap of 10 billion).
 */
module AdvancedScoring {
  import opened Wrappers
  import opened Numeric
  import opened SeqUtil
  import opened Sorting

  datatype ContractData = ContractData(
    zScore: real, currentOi: real, previousOi: real, impliedVolatility: real,
    daysToExpiry: int, delta: real, gamma: real, strikeConcentration: real,
    avgVolume: real, currentVolume: real, contractType: string, moneyness: real,
    volumeRatio: real, strikeLadderDetected: bool)

  /** Market context; `daysToExpiry` and `delta` here are the market dictionary's own keys. */
  datatype MarketData = MarketData(
    stockChangePct: real, historicalVolatility: real, marketCap: real, marketVolatility: real,
    earningsWithin30Days: bool, earningsWithin7Days: bool, marketTrend: string,
    sectorMomentum: real, majorEventsWithinWeek: bool, dataCompleteness: real,
    baselineSampleSize: real, signalStability: real, negativeNewsSentiment: real,
    daysToExpiry: int, delta: real)

  datatype ScoringFactors = ScoringFactors(
    volumeZScore: real, oiMomentum: real, priceMomentum: real, volatilitySkew: real,
    timeDecay: real, greeksAlignment: real, concentrationFactor: real,
    marketCapFactor: real, liquidityFactor: real, patternRecognition: real)

  const MaxScore: real := 15.0

  // ---------------------------------------------------------------------
  // Factors
  // ---------------------------------------------------------------------

  /** Sum of the matched insider patterns, capped at 3. */
  function PatternScore(c: ContractData, m: MarketData): (r: real)
    ensures 0.0 <= r <= 3.0
    ensures r > 0.0 <==>
      (c.contractType == "call" && c.moneyness > 0.05 && m.earningsWithin30Days && c.volumeRatio > 10.0)
      || (c.contractType == "put" && c.volumeRatio > 8.0 && m.negativeNewsSentiment > 0.7)
      || (c.daysToExpiry < 14 && c.gamma > 0.05 && c.volumeRatio > 5.0)
      || (m.marketCap < 2000000000.0 && c.volumeRatio > 15.0 && c.avgVolume < 500.0)
      || c.strikeLadderDetected
  {
    var p1 := if c.contractType == "call" && c.moneyness > 0.05 && m.earningsWithin30Days && c.volumeRatio > 10.0 then 1.5 else 0.0;
    var p2 := if c.contractType == "put" && c.volumeRatio > 8.0 && m.negativeNewsSentiment > 0.7 then 1.2 else 0.0;
    var p3 := if c.daysToExpiry < 14 && c.gamma > 0.05 && c.volumeRatio > 5.0 then 1.0 else 0.0;
    var p4 := if m.marketCap < 2000000000.0 && c.volumeRatio > 15.0 && c.avgVolume < 500.0 then 1.8 else 0.0;
    var p5 := if c.strikeLadderDetected then 1.0 else 0.0;
    Min(p1 + p2 + p3 + p4 + p5, 3.0)
  }

  function MarketCapFactor(marketCap: real): (r: real)
    ensures r == 0.0 || r == 1.0 || r == 2.0
    ensures r == 2.0 <==> marketCap < 1000000000.0
    ensures r == 0.0 <==> marketCap >= 5000000000.0
  {
    if marketCap < 1000000000.0 then 2.0 else if marketCap < 5000000000.0 then 1.0 else 0.0
  }

  /**
   * The ten factors; `ln` is the natural logarithm used for liquidity. OI
   * momentum, volatility skew and liquidity stay 0 when their divisor is
   * not positive.
   */
  function ExtractFactors(c: ContractData, m: MarketData, ln: real -> real): (f: ScoringFactors)
    ensures f.volumeZScore == c.zScore
    ensures f.oiMomentum <= 5.0 && (c.previousOi <= 0.0 ==> f.oiMomentum == 0.0)
    ensures 0.0 <= f.priceMomentum <= 3.0
    ensures 0.0 <= f.volatilitySkew <= 2.0 && (m.historicalVolatility <= 0.0 ==> f.volatilitySkew == 0.0)
    ensures 0.0 <= f.timeDecay && (c.daysToExpiry >= 0 ==> f.timeDecay <= 2.0)
    ensures f.timeDecay > 0.0 <==> c.daysToExpiry < 30
    ensures f.greeksAlignment <= 3.0
    ensures f.concentrationFactor <= 2.0
    ensures f.marketCapFactor == MarketCapFactor(m.marketCap)
    ensures f.liquidityFactor <= 2.5 && (c.avgVolume <= 0.0 ==> f.liquidityFactor == 0.0)
    ensures 0.0 <= f.patternRecognition <= 3.0
  {
    var oi := if c.previousOi > 0.0 then Min((c.currentOi - c.previousOi) / c.previousOi * 10.0, 5.0) else 0.0;
    var skew := if m.historicalVolatility > 0.0 then Min(Abs(c.impliedVolatility - m.historicalVolatility) / m.historicalVolatility * 2.0, 2.0) else 0.0;
    var liquidity := if c.avgVolume > 0.0 then Min(ln(c.currentVolume / c.avgVolume + 1.0) * 1.5, 2.5) else 0.0;
    ScoringFactors(
      c.zScore, oi, Min(Abs(m.stockChangePct) * 20.0, 3.0), skew,
      Max(2.0 - c.daysToExpiry as real / 15.0, 0.0),
      Min(Abs(c.delta) * 2.0 + c.gamma * 100.0, 3.0),
      Min(c.strikeConcentration * 1.5, 2.0),
      MarketCapFactor(m.marketCap), liquidity, PatternScore(c, m))
  }

  /** The factors in the order the engine lists them. */
  function FactorValues(f: ScoringFactors): (r: seq<real>)
    ensures |r| == 10
  {
    [f.volumeZScore, f.oiMomentum, f.priceMomentum, f.volatilitySkew, f.timeDecay,
     f.greeksAlignment, f.concentrationFactor, f.marketCapFactor, f.liquidityFactor, f.patternRecognition]
  }

  // ---------------------------------------------------------------------
  // Weights and the composite
  // ---------------------------------------------------------------------

  const BaseWeights: seq<real> := [0.25, 0.15, 0.15, 0.10, 0.08, 0.12, 0.05, 0.05, 0.03, 0.02]

  /** The weights after the volatility and earnings-season scaling, before normalising. */
  function AdjustedWeights(marketVolatility: real, earnings: bool): (w: seq<real>)
    ensures |w| == 10
    ensures forall i :: 0 <= i < 10 ==> w[i] >= BaseWeights[i] > 0.0
  {
    var v := if marketVolatility > 0.30 then BaseWeights[3 := 0.10 * 1.5][4 := 0.08 * 1.3]
             else if marketVolatility < 0.15 then BaseWeights[0 := 0.25 * 1.2][1 := 0.15 * 1.3]
             else BaseWeights;
    if earnings then v[4 := v[4] * 1.5][5 := v[5] * 1.2] else v
  }

  /** Whatever the market, the dynamic weights are all positive and add up to one. */
  lemma DynamicWeightsNormalised(marketVolatility: real, earnings: bool)
    ensures Sum(AdjustedWeights(marketVolatility, earnings)) > 0.0
    ensures Sum(Normalize(AdjustedWeights(marketVolatility, earnings))) == 1.0
    ensures forall i :: 0 <= i < 10 ==> Normalize(AdjustedWeights(marketVolatility, earnings))[i] > 0.0
  {
    NormalizeSumsToOne(AdjustedWeights(marketVolatility, earnings));
  }

  /** _get_dynamic_weights: scale the base weights in place, then normalise. */
  method DynamicWeights(m: MarketData) returns (w: seq<real>)
    ensures Sum(AdjustedWeights(m.marketVolatility, m.earningsWithin30Days)) > 0.0
    ensures w == Normalize(AdjustedWeights(m.marketVolatility, m.earningsWithin30Days))
    ensures |w| == 10 && Sum(w) == 1.0 && forall i :: 0 <= i < 10 ==> w[i] > 0.0
  {
    var raw := BaseWeights;
    if m.marketVolatility > 0.30 {
      raw := raw[3 := raw[3] * 1.5];
      raw := raw[4 := raw[4] * 1.3];
    } else if m.marketVolatility < 0.15 {
      raw := raw[0 := raw[0] * 1.2];
      raw := raw[1 := raw[1] * 1.3];
    }
    if m.earningsWithin30Days {
      raw := raw[4 := raw[4] * 1.5];
      raw := raw[5 := raw[5] * 1.2];
    }
    assert raw == AdjustedWeights(m.marketVolatility, m.earningsWithin30Days);
    DynamicWeightsNormalised(m.marketVolatility, m.earningsWithin30Days);
    w := Normalize(raw);
  }

  function WeightedScore(f: ScoringFactors, w: seq<real>): (r: real)
    requires |w| == 10
    ensures r <= MaxScore
  {
    Min(Dot(FactorValues(f), w), MaxScore)
  }

  /**
   * With normalised weights the composite is a weighted average: it lies
   * between the smallest and the largest factor bound.
   */
  lemma WeightedScoreIsAverage(f: ScoringFactors, w: seq<real>, lo: real, hi: real)
    requires |w| == 10 && Sum(w) == 1.0 && forall i :: 0 <= i < 10 ==> w[i] > 0.0
    requires forall i :: 0 <= i < 10 ==> lo <= FactorValues(f)[i] <= hi
    ensures Min(lo, MaxScore) <= WeightedScore(f, w) <= hi
  {
    DotBounds(FactorValues(f), w, lo, hi);
  }

  /** The product of the trend, sector and event multipliers. */
  function AdjustmentMultiplier(m: MarketData): (r: real)
    ensures 1.0 <= r
  {
    var trend := if m.marketTrend == "bullish" then 1.1 else if m.marketTrend == "bearish" then 1.15 else 1.0;
    var sector := if Abs(m.sectorMomentum) > 0.05 then 1.08 else 1.0;
    var events := if m.majorEventsWithinWeek then 1.12 else 1.0;
    trend * sector * events
  }

  function MarketAdjusted(score: real, m: MarketData): (r: real)
    ensures r <= MaxScore
    ensures 0.0 <= score <= MaxScore ==> score <= r
  {
    var mult := AdjustmentMultiplier(m);
    assert 0.0 <= score ==> score <= score * mult by {
      if 0.0 <= score {
        assert score * mult - score == score * (mult - 1.0);
      }
    }
    Min(score * mult, MaxScore)
  }

  /** A neutral, quiet market leaves the score as it is. */
  lemma NeutralMarketKeepsScore(score: real, m: MarketData)
    requires m.marketTrend != "bullish" && m.marketTrend != "bearish"
    requires Abs(m.sectorMomentum) <= 0.05 && !m.majorEventsWithinWeek
    ensures MarketAdjusted(score, m) == Min(score, MaxScore)
  {
  }

  // ---------------------------------------------------------------------
  // Confidence
  // ---------------------------------------------------------------------

  /** How many of volume z, OI momentum, price momentum, greeks and pattern exceed 1. */
  function StrongCount(f: ScoringFactors): (n: nat)
    ensures n <= 5
  {
    (if f.volumeZScore > 1.0 then 1 else 0) + (if f.oiMomentum > 1.0 then 1 else 0)
    + (if f.priceMomentum > 1.0 then 1 else 0) + (if f.greeksAlignment > 1.0 then 1 else 0)
    + (if f.patternRecognition > 1.0 then 1 else 0)
  }

  function ConfidenceOf(f: ScoringFactors, m: MarketData): real
  {
    Mean([m.dataCompleteness, Min(m.baselineSampleSize / 30.0, 1.0),
          Min(StrongCount(f) as real / 3.0, 1.0), m.signalStability])
  }

  /** Completeness and stability in [0, 1] and a non-negative sample size give a confidence in [0, 1]. */
  lemma ConfidenceInUnit(f: ScoringFactors, m: MarketData)
    requires 0.0 <= m.dataCompleteness <= 1.0 && 0.0 <= m.signalStability <= 1.0
    requires 0.0 <= m.baselineSampleSize
    ensures 0.0 <= ConfidenceOf(f, m) <= 1.0
  {
    Sum4(m.dataCompleteness, Min(m.baselineSampleSize / 30.0, 1.0),
         Min(StrongCount(f) as real / 3.0, 1.0), m.signalStability);
  }

  /** _calculate_confidence: the four components appended to a list, then averaged. */
  method Confidence(f: ScoringFactors, m: MarketData) returns (c: real)
    ensures c == ConfidenceOf(f, m)
    ensures 0.0 <= m.dataCompleteness <= 1.0 && 0.0 <= m.signalStability <= 1.0 && 0.0 <= m.baselineSampleSize
            ==> 0.0 <= c <= 1.0
  {
    var components: seq<real> := [];
    components := components + [m.dataCompleteness];
    components := components + [Min(m.baselineSampleSize / 30.0, 1.0)];
    var strong := 0;
    var values := [f.volumeZScore, f.oiMomentum, f.priceMomentum, f.greeksAlignment, f.patternRecognition];
    for k := 0 to 5
      invariant strong == CountAbove(values[..k], 1.0)
    {
      assert values[..k + 1][..k] == values[..k];
      if values[k] > 1.0 {
        strong := strong + 1;
      }
    }
    assert values[..5] == values;
    StrongCountMatches(f);
    components := components + [Min(strong as real / 3.0, 1.0)];
    components := components + [m.signalStability];
    assert components == [m.dataCompleteness, Min(m.baselineSampleSize / 30.0, 1.0),
                          Min(StrongCount(f) as real / 3.0, 1.0), m.signalStability];
    c := Mean(components);
    if 0.0 <= m.dataCompleteness <= 1.0 && 0.0 <= m.signalStability <= 1.0 && 0.0 <= m.baselineSampleSize {
      ConfidenceInUnit(f, m);
    }
  }

  function CountAbove(xs: seq<real>, t: real): nat
  {
    if xs == [] then 0 else CountAbove(xs[..|xs| - 1], t) + (if xs[|xs| - 1] > t then 1 else 0)
  }

  lemma StrongCountMatches(f: ScoringFactors)
    ensures CountAbove([f.volumeZScore, f.oiMomentum, f.priceMomentum, f.greeksAlignment, f.patternRecognition], 1.0)
         == StrongCount(f)
  {
    var a, b, c, d, e := f.volumeZScore, f.oiMomentum, f.priceMomentum, f.greeksAlignment, f.patternRecognition;
    assert [a][..0] == [];
    assert CountAbove([a], 1.0) == (if a > 1.0 then 1 else 0);
    assert [a, b][..1] == [a];
    assert CountAbove([a, b], 1.0) == CountAbove([a], 1.0) + (if b > 1.0 then 1 else 0);
    assert [a, b, c][..2] == [a, b];
    assert CountAbove([a, b, c], 1.0) == CountAbove([a, b], 1.0) + (if c > 1.0 then 1 else 0);
    assert [a, b, c, d][..3] == [a, b, c];
    assert CountAbove([a, b, c, d], 1.0) == CountAbove([a, b, c], 1.0) + (if d > 1.0 then 1 else 0);
    assert [a, b, c, d, e][..4] == [a, b, c, d];
  }

  // ---------------------------------------------------------------------
  // Supporting and risk factors
  // ---------------------------------------------------------------------

  datatype Factor = Factor(name: string, strength: real)

  const FactorNames: seq<string> := [
    "Exceptional Volume Spike", "Strong OI Momentum", "Price Momentum Alignment",
    "Volatility Expansion", "Short Time Frame", "Favorable Greeks", "Strike Concentration",
    "Small Cap Premium", "Liquidity Surge", "Pattern Recognition"]

  function NamedFactors(f: ScoringFactors): (r: seq<Factor>)
    ensures |r| == 10
  {
    var v := FactorValues(f);
    seq(10, i requires 0 <= i < 10 => Factor(FactorNames[i], v[i]))
  }

  function IsStrong(x: Factor): bool { x.strength > 1.0 }

  function StrongerFirst(a: Factor, b: Factor): bool { a.strength >= b.strength }

  /** The strong factors of a list, strongest first (ties in listing order), at most five. */
  function TopStrong(xs: seq<Factor>): seq<Factor>
  {
    var sorted := Sort(Filter(xs, IsStrong), StrongerFirst);
    if |sorted| <= 5 then sorted else sorted[..5]
  }

  /** The engine's strong factors, strongest first, at most five. */
  function RankedFactors(f: ScoringFactors): seq<Factor>
  {
    TopStrong(NamedFactors(f))
  }

  function Names(xs: seq<Factor>): (r: seq<string>)
    ensures |r| == |xs| && forall i :: 0 <= i < |xs| ==> r[i] == xs[i].name
  {
    if xs == [] then [] else Names(xs[..|xs| - 1]) + [xs[|xs| - 1].name]
  }

  /** _identify_supporting_factors */
  function SupportingFactors(f: ScoringFactors): seq<string>
  {
    Names(RankedFactors(f))
  }

  /** The strong factors sorted: ordered, and holding exactly the strong factors of the list. */
  lemma StrongSorted(xs: seq<Factor>)
    ensures SortedBy(Sort(Filter(xs, IsStrong), StrongerFirst), StrongerFirst)
    ensures forall x :: x in Sort(Filter(xs, IsStrong), StrongerFirst) <==> x in xs && x.strength > 1.0
  {
    var strong := Filter(xs, IsStrong);
    SortSorted(strong, StrongerFirst);
    forall x ensures x in Sort(strong, StrongerFirst) <==> x in xs && x.strength > 1.0 {
      assert x in Sort(strong, StrongerFirst) <==> x in multiset(Sort(strong, StrongerFirst));
      if IsStrong(x) {
        FilterCount(xs, IsStrong, x);
      }
    }
  }

  lemma TopStrongSound(xs: seq<Factor>)
    ensures |TopStrong(xs)| <= 5
    ensures forall x :: x in TopStrong(xs) ==> x.strength > 1.0 && x in xs
    ensures SortedBy(TopStrong(xs), StrongerFirst)
  {
    var sorted := Sort(Filter(xs, IsStrong), StrongerFirst);
    StrongSorted(xs);
    var r := TopStrong(xs);
    assert r == sorted[..if |sorted| <= 5 then |sorted| else 5];
    forall x | x in r ensures x in sorted {
      var k :| 0 <= k < |r| && r[k] == x;
      assert sorted[k] == x;
    }
  }

  lemma TopStrongComplete(xs: seq<Factor>, x: Factor)
    requires x in xs && x.strength > 1.0 && x !in TopStrong(xs)
    ensures |TopStrong(xs)| == 5
    ensures forall y :: y in TopStrong(xs) ==> y.strength >= x.strength
  {
    var sorted := Sort(Filter(xs, IsStrong), StrongerFirst);
    StrongSorted(xs);
    var r := TopStrong(xs);
    assert r == sorted[..if |sorted| <= 5 then |sorted| else 5];
    var k :| 0 <= k < |sorted| && sorted[k] == x;
    assert k >= 5 && |r| == 5;
    forall y | y in r ensures y.strength >= x.strength {
      var j :| 0 <= j < |r| && r[j] == y;
      assert sorted[j] == y;
      assert StrongerFirst(sorted[j], sorted[k]);
    }
  }

  /** At most five factors, each stronger than 1 and one of the engine's, strongest first. */
  lemma RankedFactorsSound(f: ScoringFactors)
    ensures |RankedFactors(f)| <= 5
    ensures forall x :: x in RankedFactors(f) ==> x.strength > 1.0 && x in NamedFactors(f)
    ensures SortedBy(RankedFactors(f), StrongerFirst)
  {
    TopStrongSound(NamedFactors(f));
  }

  /** A strong factor is left out only when five factors at least as strong are listed. */
  lemma RankedFactorsComplete(f: ScoringFactors, x: Factor)
    requires x in NamedFactors(f) && x.strength > 1.0 && x !in RankedFactors(f)
    ensures |RankedFactors(f)| == 5
    ensures forall y :: y in RankedFactors(f) ==> y.strength >= x.strength
  {
    TopStrongComplete(NamedFactors(f), x);
  }

  datatype Risk = VeryShortExpiry | ShortExpiry | LowLiquidity | HighVolatility
                | VerySmallCap | EarningsImminent | BearishMarket

  /** The text the engine reports for each warning. */
  function RiskLabel(r: Risk): string
  {
    match r
    case VeryShortExpiry => "Very Short Time to Expiry"
    case ShortExpiry => "Short Time to Expiry"
    case LowLiquidity => "Low Liquidity"
    case HighVolatility => "High Volatility Environment"
    case VerySmallCap => "Very Small Cap Risk"
    case EarningsImminent => "Earnings Announcement Imminent"
    case BearishMarket => "Bearish Market Environment"
  }

  function Warn(applies: bool, r: Risk): (w: seq<Risk>)
    ensures forall x :: x in w <==> applies && x == r
    ensures |w| <= 1
  {
    if applies then [r] else []
  }

  /** The expiry warning: very short under 7 days, short under 14. */
  function ExpiryWarnings(daysToExpiry: int): (w: seq<Risk>)
    ensures VeryShortExpiry in w <==> daysToExpiry < 7
    ensures ShortExpiry in w <==> 7 <= daysToExpiry < 14
    ensures forall x :: x in w ==> x == VeryShortExpiry || x == ShortExpiry
    ensures |w| <= 1
  {
    if daysToExpiry < 7 then [VeryShortExpiry] else if daysToExpiry < 14 then [ShortExpiry] else []
  }

  /** The warnings about the contract itself: thin liquidity, a steep volatility skew. */
  function ContractWarnings(f: ScoringFactors): (w: seq<Risk>)
    ensures LowLiquidity in w <==> f.liquidityFactor < 0.5
    ensures HighVolatility in w <==> f.volatilitySkew > 1.5
    ensures forall x :: x in w ==> x == LowLiquidity || x == HighVolatility
    ensures |w| <= 2
  {
    Warn(f.liquidityFactor < 0.5, LowLiquidity) + Warn(f.volatilitySkew > 1.5, HighVolatility)
  }

  /** The warnings about the company and the market: small cap, earnings ahead, bearish trend. */
  function EnvironmentWarnings(m: MarketData): (w: seq<Risk>)
    ensures VerySmallCap in w <==> m.marketCap < 500000000.0
    ensures EarningsImminent in w <==> m.earningsWithin7Days
    ensures BearishMarket in w <==> m.marketTrend == "bearish"
    ensures forall x :: x in w ==> x == VerySmallCap || x == EarningsImminent || x == BearishMarket
    ensures |w| <= 3
  {
    Warn(m.marketCap < 500000000.0, VerySmallCap)
    + Warn(m.earningsWithin7Days, EarningsImminent)
    + Warn(m.marketTrend == "bearish", BearishMarket)
  }

  /** The warnings other than the expiry one. */
  function MarketWarnings(f: ScoringFactors, m: MarketData): (w: seq<Risk>)
    ensures LowLiquidity in w <==> f.liquidityFactor < 0.5
    ensures HighVolatility in w <==> f.volatilitySkew > 1.5
    ensures VerySmallCap in w <==> m.marketCap < 500000000.0
    ensures EarningsImminent in w <==> m.earningsWithin7Days
    ensures BearishMarket in w <==> m.marketTrend == "bearish"
    ensures VeryShortExpiry !in w && ShortExpiry !in w
    ensures |w| <= 5
  {
    ContractWarnings(f) + EnvironmentWarnings(m)
  }

  /** _identify_risk_factors: the warnings that apply, in a fixed order. */
  function RiskFactors(f: ScoringFactors, m: MarketData): (r: seq<Risk>)
    ensures LowLiquidity in r <==> f.liquidityFactor < 0.5
    ensures HighVolatility in r <==> f.volatilitySkew > 1.5
    ensures VeryShortExpiry in r <==> m.daysToExpiry < 7
    ensures ShortExpiry in r <==> 7 <= m.daysToExpiry < 14
    ensures VerySmallCap in r <==> m.marketCap < 500000000.0
    ensures EarningsImminent in r <==> m.earningsWithin7Days
    ensures BearishMarket in r <==> m.marketTrend == "bearish"
    ensures |r| <= 6
  {
    ExpiryWarnings(m.daysToExpiry) + MarketWarnings(f, m)
  }

  // ---------------------------------------------------------------------
  // Conviction, return, risk, horizon
  // ---------------------------------------------------------------------

  datatype Conviction = Low | Medium | High | Extreme

  function Rank(c: Conviction): nat
  {
    match c
    case Low => 0
    case Medium => 1
    case High => 2
    case Extreme => 3
  }

  function ConvictionLevel(score: real): (c: Conviction)
    ensures c == Extreme <==> score >= 10.0
    ensures c == High <==> 7.5 <= score < 10.0
    ensures c == Medium <==> 5.0 <= score < 7.5
    ensures c == Low <==> score < 5.0
  {
    if score >= 10.0 then Extreme else if score >= 7.5 then High else if score >= 5.0 then Medium else Low
  }

  /** A higher score never earns a lower conviction. */
  lemma ConvictionMonotone(s1: real, s2: real)
    requires s1 <= s2
    ensures Rank(ConvictionLevel(s1)) <= Rank(ConvictionLevel(s2))
  {
  }

  function ExpectedReturn(score: real, m: MarketData): (r: real)
    ensures r <= 5.0
  {
    var base := Min(score / MaxScore * 2.0, 2.0);
    var time := Max(1.0 - (m.daysToExpiry - 7) as real / 30.0, 0.3);
    var vol := 1.0 + (m.marketVolatility - 0.20) * 2.0;
    var delta := 0.5 + Abs(m.delta);
    Min(base * time * vol * delta, 5.0)
  }

  /** The base return never exceeds 200%, however high the score. */
  lemma BaseReturnAtMostTwo(score: real)
    ensures Min(score / MaxScore * 2.0, 2.0) <= 2.0
    ensures 0.0 <= score <= MaxScore ==> Min(score / MaxScore * 2.0, 2.0) == score / MaxScore * 2.0
  {
  }

  function CapRisk(marketCap: real): real
  {
    if marketCap < 1000000000.0 then 0.8 else if marketCap < 5000000000.0 then 0.4 else 0.1
  }

  function RiskOf(f: ScoringFactors, m: MarketData): real
  {
    Min(Mean([Max((14 - m.daysToExpiry) as real / 14.0, 0.0), Max(1.0 - f.liquidityFactor / 2.0, 0.0),
              Min(f.volatilitySkew / 3.0, 1.0), CapRisk(m.marketCap)]), 1.0)
  }

  /** The risk factor never exceeds 1, and it is non-negative when the volatility skew is. */
  lemma RiskInUnit(f: ScoringFactors, m: MarketData)
    ensures RiskOf(f, m) <= 1.0
    ensures 0.0 <= f.volatilitySkew ==> 0.0 <= RiskOf(f, m)
  {
    Sum4(Max((14 - m.daysToExpiry) as real / 14.0, 0.0), Max(1.0 - f.liquidityFactor / 2.0, 0.0),
         Min(f.volatilitySkew / 3.0, 1.0), CapRisk(m.marketCap));
  }

  /** _calculate_risk_factor: the four components appended to a list, averaged, capped at 1. */
  method RiskFactor(f: ScoringFactors, m: MarketData) returns (risk: real)
    ensures risk == RiskOf(f, m)
    ensures risk <= 1.0 && (0.0 <= f.volatilitySkew ==> 0.0 <= risk)
  {
    var components: seq<real> := [];
    components := components + [Max((14 - m.daysToExpiry) as real / 14.0, 0.0)];
    components := components + [Max(1.0 - f.liquidityFactor / 2.0, 0.0)];
    components := components + [Min(f.volatilitySkew / 3.0, 1.0)];
    components := components + [CapRisk(m.marketCap)];
    assert components == [Max((14 - m.daysToExpiry) as real / 14.0, 0.0), Max(1.0 - f.liquidityFactor / 2.0, 0.0),
                          Min(f.volatilitySkew / 3.0, 1.0), CapRisk(m.marketCap)];
    risk := Min(Mean(components), 1.0);
    RiskInUnit(f, m);
  }

  function TimeHorizon(f: ScoringFactors, c: ContractData): (days: int)
    ensures 1 <= days <= 21
    ensures days <= MaxInt(c.daysToExpiry, 1)
    ensures f.volumeZScore + f.oiMomentum > 5.0 ==> days <= 7
    ensures f.volumeZScore + f.oiMomentum > 3.0 ==> days <= 14
    ensures f.timeDecay > 1.5 ==> days <= 5
  {
    var base := MinInt(c.daysToExpiry, 21);
    var signal := f.volumeZScore + f.oiMomentum;
    var bySignal := if signal > 5.0 then MinInt(base, 7) else if signal > 3.0 then MinInt(base, 14) else base;
    var byDecay := if f.timeDecay > 1.5 then MinInt(bySignal, 5) else bySignal;
    MaxInt(byDecay, 1)
  }

  /**
   * A contract expiring within a week has a time-decay factor above 1.5, so
   * its horizon is at most 5 days whatever the signal strength.
   */
  lemma NearExpiryShortHorizon(c: ContractData, m: MarketData, ln: real -> real)
    requires c.daysToExpiry <= 7
    ensures TimeHorizon(ExtractFactors(c, m, ln), c) <= 5
  {
  }

  // ---------------------------------------------------------------------
  // Ratings
  // ---------------------------------------------------------------------

  datatype ConvictionRating = ConvictionRating(
    score: real, confidence: real, convictionLevel: Conviction, expectedReturn: real,
    riskFactor: real, timeHorizon: int, supportingFactors: seq<string>, riskFactors: seq<Risk>)

  /** calculate_comprehensive_score */
  function Rate(c: ContractData, m: MarketData, ln: real -> real): (r: ConvictionRating)
    ensures r.score <= MaxScore
    ensures 1 <= r.timeHorizon <= 21
    ensures |r.supportingFactors| <= 5
  {
    var f := ExtractFactors(c, m, ln);
    DynamicWeightsNormalised(m.marketVolatility, m.earningsWithin30Days);
    var w := Normalize(AdjustedWeights(m.marketVolatility, m.earningsWithin30Days));
    var adjusted := MarketAdjusted(WeightedScore(f, w), m);
    RankedFactorsSound(f);
    Round2Monotone(adjusted, MaxScore);
    assert Round2(MaxScore) == MaxScore by {
      assert MaxScore * 100.0 == 1500 as real;
    }
    ConvictionRating(Round2(adjusted), Round3(ConfidenceOf(f, m)), ConvictionLevel(adjusted),
                     Round3(ExpectedReturn(adjusted, m)), Round3(RiskOf(f, m)), TimeHorizon(f, c),
                     SupportingFactors(f), RiskFactors(f, m))
  }

  function Meaningful(r: ConvictionRating): bool { r.score >= 3.0 }

  function HigherScoreFirst(a: ConvictionRating, b: ConvictionRating): bool { a.score >= b.score }

  /** The ratings of contracts that can be scored, in input order; a malformed contract (Err) raises and is skipped. */
  function RatingsOf(contracts: seq<Result<ContractData>>, m: MarketData, ln: real -> real): (r: seq<ConvictionRating>)
    ensures |r| <= |contracts|
  {
    if contracts == [] then []
    else
      var rs := RatingsOf(contracts[..|contracts| - 1], m, ln);
      var last := contracts[|contracts| - 1];
      if last.Ok? && Meaningful(Rate(last.value, m, ln)) then rs + [Rate(last.value, m, ln)] else rs
  }

  /** score_symbol_with_advanced_engine */
  method ScoreSymbol(contracts: seq<Result<ContractData>>, m: MarketData, ln: real -> real)
    returns (ratings: seq<ConvictionRating>)
    ensures ratings == Sort(RatingsOf(contracts, m, ln), HigherScoreFirst)
    ensures SortedBy(ratings, HigherScoreFirst)
    ensures multiset(ratings) == multiset(RatingsOf(contracts, m, ln))
    ensures forall r :: r in ratings ==> 3.0 <= r.score <= MaxScore
  {
    var kept: seq<ConvictionRating> := [];
    for i := 0 to |contracts|
      invariant kept == RatingsOf(contracts[..i], m, ln)
    {
      assert contracts[..i + 1][..i] == contracts[..i];
      match contracts[i] {
        case Err(_) =>
        case Ok(c) =>
          var rating := Rate(c, m, ln);
          if rating.score >= 3.0 {
            kept := kept + [rating];
          }
      }
    }
    assert contracts[..|contracts|] == contracts;
    RatingsMeaningful(contracts, m, ln);
    SortSorted(kept, HigherScoreFirst);
    ratings := Sort(kept, HigherScoreFirst);
    assert forall r :: r in ratings ==> r in multiset(kept);
  }

  lemma {:induction false} RatingsMeaningful(contracts: seq<Result<ContractData>>, m: MarketData, ln: real -> real)
    ensures forall r :: r in RatingsOf(contracts, m, ln) ==> 3.0 <= r.score <= MaxScore
    ensures forall c :: Ok(c) in contracts && Rate(c, m, ln).score >= 3.0 ==> Rate(c, m, ln) in RatingsOf(contracts, m, ln)
  {
    if contracts != [] {
      var init := contracts[..|contracts| - 1];
      RatingsMeaningful(init, m, ln);
      assert contracts == init + [contracts[|contracts| - 1]];
    }
  }
}

=== FILE: backfill.dfy ===
/**
 * The historical anomaly backfill: the date range is cut into batches of
 * consecutive days, each day with enough option and stock rows is run
 * through the historical detectors, and the processed days and anomalies
 * are summed. The database queries and inserts are inputs: each day's
 * query results are given as a `DateData`.
 */
module Backfill {
  import opened Wrappers
  import opened Numeric
  import opened SeqUtil
  import opened DailyScraper

  const MinRows := 1000
  const VolumeZThreshold := 4.0
  const PreMoveScoreCap := 10.0

  /** _has_sufficient_data: both the option and the stock row counts exceed 1000. */
  predicate Sufficient(optionCount: int, stockCount: int)
  {
    optionCount > MinRows && stockCount > MinRows
  }

  /** `float(row['z_score'] or 0)`: a missing z-score reads as 0. */
  function ZOf(z: Option<real>): real
  {
    if z.Some? then z.value else 0.0
  }

  /** The z-scores of the volume rows that are recorded as anomalies, in row order. */
  function RecordedZ(zs: seq<Option<real>>): (r: seq<real>)
    ensures |r| <= |zs|
    ensures forall z :: z in r ==> z >= VolumeZThreshold
  {
    if zs == [] then []
    else
      var z := ZOf(zs[|zs| - 1]);
      RecordedZ(zs[..|zs| - 1]) + (if z >= VolumeZThreshold then [z] else [])
  }

  /** A row is recorded exactly when it has a z-score of at least 4; a row without one never is. */
  lemma {:induction false} RecordedZCount(zs: seq<Option<real>>)
    ensures |RecordedZ(zs)| == |Filter(zs, (z: Option<real>) => z.Some? && z.value >= VolumeZThreshold)|
  {
    if zs != [] {
      RecordedZCount(zs[..|zs| - 1]);
    }
  }

  /** The loop of _detect_historical_volume_anomalies: record each row whose z-score reaches 4. */
  method DetectVolumeAnomalies(zs: seq<Option<real>>) returns (anomalies: seq<real>)
    ensures anomalies == RecordedZ(zs)
  {
    anomalies := [];
    var i := 0;
    while i < |zs|
      invariant 0 <= i <= |zs|
      invariant anomalies == RecordedZ(zs[..i])
    {
      assert zs[..i + 1][..i] == zs[..i];
      var z := ZOf(zs[i]);
      if z >= VolumeZThreshold {
        anomalies := anomalies + [z];
      }
      i := i + 1;
    }
    assert zs[..i] == zs;
  }

  /** The pre-move positioning score: ten times the size of the move, capped at 10. */
  function PreMoveScore(pctChange: real): (s: real)
    ensures 0.0 <= s <= PreMoveScoreCap
    ensures s == PreMoveScoreCap <==> Abs(pctChange) >= 1.0
  {
    Min(Abs(pctChange) * 10.0, PreMoveScoreCap)
  }

  /** A bigger move never scores lower, and moves of the same size in either direction score the same. */
  lemma PreMoveScoreMonotone(p: real, q: real)
    ensures Abs(p) <= Abs(q) ==> PreMoveScore(p) <= PreMoveScore(q)
    ensures PreMoveScore(p) == PreMoveScore(-p)
  {
  }

  /** The query results for one date; an error is an exception from that query. */
  datatype DateData = DateData(optionCount: Result<int>, stockCount: Result<int>,
                               volumeZ: Result<seq<Option<real>>>, fullSnapshotCount: Result<int>,
                               preMovePct: Result<seq<real>>)

  /**
   * _detect_historical_anomalies: volume spikes, then open-interest
   * anomalies (none are ever reported), then pre-move rows; an exception
   * keeps the count reached so far.
   */
  function DetectedCount(d: DateData): (n: nat)
    ensures n <= (if d.volumeZ.Ok? then |d.volumeZ.value| else 0) + (if d.preMovePct.Ok? then |d.preMovePct.value| else 0)
    ensures d.volumeZ.Err? ==> n == 0
  {
    if d.volumeZ.Err? then 0
    else
      var v := |RecordedZ(d.volumeZ.value)|;
      if d.fullSnapshotCount.Err? || d.preMovePct.Err? then v else v + |d.preMovePct.value|
  }

  /** What happens to one date in a batch. */
  datatype DayOutcome = Raised | Insufficient | Processed(anomalies: nat)

  function Outcome(d: DateData): DayOutcome
  {
    if d.optionCount.Err? || d.stockCount.Err? then Raised
    else if !Sufficient(d.optionCount.value, d.stockCount.value) then Insufficient
    else Processed(DetectedCount(d))
  }

  function IsProcessed(data: int -> DateData): int -> bool
  {
    (day: int) => Outcome(data(day)).Processed?
  }

  function AnomaliesOn(data: int -> DateData): int -> int
  {
    (day: int) => if Outcome(data(day)).Processed? then Outcome(data(day)).anomalies else 0
  }

  /** A day is processed exactly when its counts could be read and both exceed 1000. */
  lemma ProcessedIffSufficient(d: DateData)
    ensures Outcome(d).Processed? <==> d.optionCount.Ok? && d.stockCount.Ok? && Sufficient(d.optionCount.value, d.stockCount.value)
  {
  }

  /** The number of processed days among lo, ..., hi - 1. */
  function ProcessedIn(data: int -> DateData, lo: int, hi: int): nat
    decreases hi - lo
  {
    if hi <= lo then 0 else ProcessedIn(data, lo, hi - 1) + (if Outcome(data(hi - 1)).Processed? then 1 else 0)
  }

  /** The anomalies counted on the days lo, ..., hi - 1. */
  function AnomaliesIn(data: int -> DateData, lo: int, hi: int): nat
    decreases hi - lo
  {
    if hi <= lo then 0 else AnomaliesIn(data, lo, hi - 1) + (if Outcome(data(hi - 1)).Processed? then Outcome(data(hi - 1)).anomalies else 0)
  }

  /**
   * The processed days are exactly those of the range whose data is
   * sufficient, in date order, so there are at most as many as days; the
   * anomaly total sums those days' counts.
   */
  lemma ProcessedInMeaning(data: int -> DateData, lo: int, hi: int)
    requires lo <= hi
    ensures ProcessedIn(data, lo, hi) == |Filter(DateRange(lo, hi), IsProcessed(data))|
    ensures AnomaliesIn(data, lo, hi) == SumInt(DateRange(lo, hi), AnomaliesOn(data))
    ensures ProcessedIn(data, lo, hi) <= hi - lo
  {
    ProcessedInCount(data, lo, hi);
    AnomaliesInSum(data, lo, hi);
  }

  lemma {:induction false} ProcessedInCount(data: int -> DateData, lo: int, hi: int)
    requires lo <= hi
    ensures ProcessedIn(data, lo, hi) == |Filter(DateRange(lo, hi), IsProcessed(data))|
    ensures ProcessedIn(data, lo, hi) <= hi - lo
    decreases hi - lo
  {
    if lo < hi {
      ProcessedInCount(data, lo, hi - 1);
      FilterRangeStep(IsProcessed(data), lo, hi - 1);
      assert IsProcessed(data)(hi - 1) == Outcome(data(hi - 1)).Processed?;
    }
  }

  lemma {:induction false} AnomaliesInSum(data: int -> DateData, lo: int, hi: int)
    requires lo <= hi
    ensures AnomaliesIn(data, lo, hi) == SumInt(DateRange(lo, hi), AnomaliesOn(data))
    decreases hi - lo
  {
    if lo < hi {
      AnomaliesInSum(data, lo, hi - 1);
      SumRangeStep(AnomaliesOn(data), lo, hi - 1);
      assert AnomaliesOn(data)(hi - 1) == (if Outcome(data(hi - 1)).Processed? then Outcome(data(hi - 1)).anomalies else 0);
    }
  }

  /** Counting a range in two consecutive parts. */
  lemma {:induction false} CountsSplit(data: int -> DateData, a: int, b: int, c: int)
    requires a <= b <= c
    ensures ProcessedIn(data, a, c) == ProcessedIn(data, a, b) + ProcessedIn(data, b, c)
    ensures AnomaliesIn(data, a, c) == AnomaliesIn(data, a, b) + AnomaliesIn(data, b, c)
    decreases c - b
  {
    if b < c {
      CountsSplit(data, a, b, c - 1);
    }
  }

  /**
   * _process_date_batch: every date from lo to hi is either skipped (not
   * enough data, or the check raised) or processed and its anomalies
   * counted.
   */
  method ProcessDateBatch(lo: int, hi: int, data: int -> DateData) returns (processedDays: nat, totalAnomalies: nat)
    ensures lo <= hi ==> processedDays == ProcessedIn(data, lo, hi + 1) && totalAnomalies == AnomaliesIn(data, lo, hi + 1)
    ensures lo > hi ==> processedDays == 0 && totalAnomalies == 0
  {
    processedDays, totalAnomalies := 0, 0;
    var current := lo;
    while current <= hi
      invariant lo <= current && (current <= hi + 1 || current == lo)
      invariant processedDays == ProcessedIn(data, lo, current)
      invariant totalAnomalies == AnomaliesIn(data, lo, current)
      decreases hi - current
    {
      var outcome := Outcome(data(current));
      if outcome.Processed? {
        totalAnomalies := totalAnomalies + outcome.anomalies;
        processedDays := processedDays + 1;
      }
      current := current + 1;
    }
  }

  /** The batches [c, min(c + batchSize - 1, end)] from c on, each starting the day after the previous one ends. */
  function Batches(c: int, end: int, batchSize: int): seq<(int, int)>
    requires batchSize >= 1
    decreases end - c + 1
  {
    if c > end then []
    else
      var e := MinInt(c + batchSize - 1, end);
      [(c, e)] + Batches(e + 1, end, batchSize)
  }

  /**
   * The batches partition [c, end]: the first starts at c, the last ends
   * at end, each is non-empty and at most batchSize days long, and each
   * starts the day after the previous one ends.
   */
  lemma {:induction false} BatchesPartition(c: int, end: int, batchSize: int)
    requires batchSize >= 1
    ensures var bs := Batches(c, end, batchSize);
      && (bs == [] <==> c > end)
      && (bs != [] ==> bs[0].0 == c && bs[|bs| - 1].1 == end)
      && (forall i :: 0 <= i < |bs| ==> bs[i].0 <= bs[i].1 <= bs[i].0 + batchSize - 1)
      && (forall i :: 0 <= i < |bs| - 1 ==> bs[i + 1].0 == bs[i].1 + 1)
    decreases end - c + 1
  {
    if c <= end {
      var e := MinInt(c + batchSize - 1, end);
      BatchesPartition(e + 1, end, batchSize);
      var rest := Batches(e + 1, end, batchSize);
      var bs := Batches(c, end, batchSize);
      assert bs == [(c, e)] + rest;
      forall i | 0 <= i < |bs| - 1
        ensures bs[i + 1].0 == bs[i].1 + 1
      {
        if i > 0 {
          assert bs[i] == rest[i - 1] && bs[i + 1] == rest[i];
        }
      }
    }
  }

  /** The share of days processed, or 0 for an empty range; a share, when no more days are processed than requested. */
  function SuccessRate(processed: nat, totalDays: int): (rate: real)
    ensures totalDays <= 0 ==> rate == 0.0
    ensures processed <= totalDays ==> 0.0 <= rate <= 1.0
  {
    if totalDays > 0 then processed as real / totalDays as real else 0.0
  }

  /** The summary of backfill_date_range. */
  datatype BackfillResults = BackfillResults(totalDays: int, processedDays: nat, totalAnomalies: nat,
                                             errors: seq<string>, successRate: real)

  /** The first batch of [c, end] and the batches after it. */
  lemma BatchesStep(c: int, end: int, batchSize: int)
    requires batchSize >= 1 && c <= end
    ensures Batches(c, end, batchSize) == [(c, MinInt(c + batchSize - 1, end))] + Batches(MinInt(c + batchSize - 1, end) + 1, end, batchSize)
  {
  }

  /** The batch loop of backfill_date_range: the batch bounds as logged and the processed days and anomalies they add up to. */
  method RunBatches(start: int, end: int, batchSize: int, data: int -> DateData)
    returns (processed: nat, anomalies: nat, batches: seq<(int, int)>)
    requires batchSize >= 1
    ensures batches == Batches(start, end, batchSize)
    ensures start <= end ==> processed == ProcessedIn(data, start, end + 1) && anomalies == AnomaliesIn(data, start, end + 1)
    ensures start > end ==> processed == 0 && anomalies == 0
  {
    processed, anomalies := 0, 0;
    batches := [];
    var current := start;
    while current <= end
      invariant start <= current && (current <= end + 1 || current == start)
      invariant processed == ProcessedIn(data, start, current)
      invariant anomalies == AnomaliesIn(data, start, current)
      invariant batches + Batches(current, end, batchSize) == Batches(start, end, batchSize)
      decreases end - current
    {
      var batchEnd := MinInt(current + batchSize - 1, end);
      var p, a := ProcessDateBatch(current, batchEnd, data);
      CountsSplit(data, start, current, batchEnd + 1);
      BatchesStep(current, end, batchSize);
      processed := processed + p;
      anomalies := anomalies + a;
      batches := batches + [(current, batchEnd)];
      current := batchEnd + 1;
    }
  }

  /**
   * backfill_date_range: walk the range batch by batch, adding up each
   * batch's processed days and anomalies; the success rate is the share
   * of days processed (0 for an empty range). `batches` lists the batch
   * bounds as logged.
   */
  method BackfillDateRange(start: int, end: int, batchSize: int, data: int -> DateData)
    returns (r: BackfillResults, batches: seq<(int, int)>)
    requires batchSize >= 1
    ensures batches == Batches(start, end, batchSize)
    ensures r.totalDays == end - start + 1
    ensures r.processedDays == ProcessedIn(data, start, end + 1)
    ensures r.totalAnomalies == AnomaliesIn(data, start, end + 1)
    ensures r.errors == []
    ensures r.successRate == SuccessRate(r.processedDays, r.totalDays)
    ensures r.totalDays <= 0 ==> r.processedDays == 0
    ensures r.processedDays <= r.totalDays || r.totalDays <= 0
    ensures 0.0 <= r.successRate <= 1.0
  {
    var processed, anomalies;
    processed, anomalies, batches := RunBatches(start, end, batchSize, data);
    if start <= end {
      ProcessedInCount(data, start, end + 1);
    }
    var totalDays := end - start + 1;
    r := BackfillResults(totalDays, processed, anomalies, [], SuccessRate(processed, totalDays));
  }
}

=== FILE: bulk_ops.dfy ===
/**
 * The bulk loader: turning API responses into the tab-separated text fed
 * to PostgreSQL COPY, combining batches of responses, and keeping the
 * loader's running statistics. The COPY, upsert and commit steps are not
 * modelled; the prepared text and the combined batch are what they receive.
 */
module BulkOps {
  import opened Wrappers
  import opened Numeric
  import opened SeqUtil
  import opened Text
  import opened StockData

  /**
   * How f-strings render values: the text of floats, ints and dates is
   * left uninterpreted; `showOther` is the text of a list or dict.
   */
  datatype Format = Format(showReal: real -> string, showInt: int -> string, showDate: int -> string, showOther: string)

  /** `f"{v}"` for a JSON value. */
  function Show(v: Json, f: Format): string
  {
    match v
    case JNull => "None"
    case JBool(b) => if b then "True" else "False"
    case JInt(i) => f.showInt(i)
    case JNum(n) => f.showReal(n)
    case JStr(s) => s
    case JOther => f.showOther
  }

  /** `d.get(k, default)` */
  function Get(r: Record, k: string, default: Json): Json
  {
    if k in r then r[k] else default
  }

  /** A field that can sit in a COPY line without splitting it. */
  predicate Clean(s: string)
  {
    '\t' !in s && '\n' !in s
  }

  /** One COPY line: the fields joined by tabs, ended by a newline. */
  function Line(fields: seq<string>): string
  {
    Join("\t", fields) + "\n"
  }

  /** A line ends with its only newline, and splitting its body on tabs gives the fields back. */
  lemma LineFields(fields: seq<string>)
    requires fields != []
    requires forall i :: 0 <= i < |fields| ==> Clean(fields[i])
    ensures Line(fields)[|Line(fields)| - 1] == '\n'
    ensures Split(Line(fields)[..|Line(fields)| - 1], '\t') == fields
    ensures CountChar(Line(fields), '\n') == 1
  {
    var body := Join("\t", fields);
    assert Line(fields)[..|Line(fields)| - 1] == body;
    SplitJoin('\t', fields);
    forall i | 0 <= i < |fields| ensures CountChar(fields[i], '\n') == 0 {
      CountCharAbsent(fields[i], '\n');
    }
    JoinCountEach("\t", fields, '\n', 0);
    CountCharConcat(body, "\n", '\n');
    assert CountChar("\n", '\n') == CountChar([], '\n') + 1;
  }

  /** Text made of lines: one newline per line. */
  function Lines(ls: seq<seq<string>>): string
  {
    if ls == [] then "" else Lines(ls[..|ls| - 1]) + Line(ls[|ls| - 1])
  }

  lemma LinesAppend(ls: seq<seq<string>>, l: seq<string>)
    ensures Lines(ls + [l]) == Lines(ls) + Line(l)
  {
    assert (ls + [l])[..|ls|] == ls;
  }

  lemma {:induction false} LinesCount(ls: seq<seq<string>>)
    requires forall i, j :: 0 <= i < |ls| && 0 <= j < |ls[i]| ==> Clean(ls[i][j])
    requires forall i :: 0 <= i < |ls| ==> ls[i] != []
    ensures CountChar(Lines(ls), '\n') == |ls|
  {
    if ls != [] {
      LinesCount(ls[..|ls| - 1]);
      LineFields(ls[|ls| - 1]);
      CountCharConcat(Lines(ls[..|ls| - 1]), Line(ls[|ls| - 1]), '\n');
    }
  }

  // ---- prepare_data_for_copy ----

  /** The nine COPY fields of a daily bar, in column order. */
  function DailyFields(row: StockRow, f: Format): (fields: seq<string>)
  {
    [f.showDate(row.date), Show(row.symbol, f), f.showReal(row.close), f.showReal(row.high), f.showReal(row.low),
     f.showInt(row.transactions), f.showReal(row.open), f.showInt(row.volume), f.showReal(row.vwap)]
  }

  function DailyFieldsOf(rows: seq<StockRow>, f: Format): (ls: seq<seq<string>>)
    ensures |ls| == |rows|
    ensures forall i :: 0 <= i < |rows| ==> ls[i] == DailyFields(rows[i], f)
  {
    if rows == [] then [] else DailyFieldsOf(rows[..|rows| - 1], f) + [DailyFields(rows[|rows| - 1], f)]
  }

  /** Every line of the daily COPY text carries nine fields, so the text holds one newline per valid record. */
  lemma DailyCopyShape(rows: seq<StockRow>, f: Format)
    requires forall i, j :: 0 <= i < |rows| && 0 <= j < 9 ==> Clean(DailyFields(rows[i], f)[j])
    ensures forall i :: 0 <= i < |rows| ==> |DailyFieldsOf(rows, f)[i]| == 9
    ensures CountChar(Lines(DailyFieldsOf(rows, f)), '\n') == |rows|
  {
    LinesCount(DailyFieldsOf(rows, f));
  }

  // ---- prepare_option_data_for_copy ----

  /** A row for the option_contracts COPY. */
  datatype ContractRow = ContractRow(asOf: string, symbol: Json, ticker: Json, contractType: Json, expiration: Json,
                                     strike: real, style: Json, shares: int, exchange: Json, cfi: Json)

  /** One contract record as a row, or None where Python raises. */
  function ContractRowOf(r: Record, asOf: string, p: Parsers): (row: Option<ContractRow>)
    ensures row.Some? <==> ("underlying_ticker" in r && "ticker" in r
                            && ToFloat(Get(r, "strike_price", JInt(0)), p).Some?
                            && ToInt(Get(r, "shares_per_contract", JInt(100)), p).Some?)
    ensures row.Some? ==> row.value.asOf == asOf
    ensures row.Some? && "strike_price" !in r ==> row.value.strike == 0.0
    ensures row.Some? && "shares_per_contract" !in r ==> row.value.shares == 100
    ensures row.Some? && "contract_type" !in r ==> row.value.contractType == JStr("")
  {
    if "underlying_ticker" !in r || "ticker" !in r then None
    else
      var strike := ToFloat(Get(r, "strike_price", JInt(0)), p);
      var shares := ToInt(Get(r, "shares_per_contract", JInt(100)), p);
      if strike.None? || shares.None? then None
      else Some(ContractRow(asOf, r["underlying_ticker"], r["ticker"], Get(r, "contract_type", JStr("")),
                            Get(r, "expiration_date", JStr("")), strike.value, Get(r, "exercise_style", JStr("")),
                            shares.value, Get(r, "primary_exchange", JStr("")), Get(r, "cfi", JStr(""))))
  }

  function ContractRows(rs: seq<Record>, asOf: string, p: Parsers): (rows: seq<ContractRow>)
    ensures |rows| <= |rs|
    ensures forall i :: 0 <= i < |rows| ==> rows[i].asOf == asOf
  {
    if rs == [] then []
    else
      var row := ContractRowOf(rs[|rs| - 1], asOf, p);
      ContractRows(rs[..|rs| - 1], asOf, p) + (if row.Some? then [row.value] else [])
  }

  /** The ten COPY fields of a contract, starting with the as-of date. */
  function ContractFields(row: ContractRow, f: Format): seq<string>
  {
    [row.asOf, Show(row.symbol, f), Show(row.ticker, f), Show(row.contractType, f), Show(row.expiration, f),
     f.showReal(row.strike), Show(row.style, f), f.showInt(row.shares), Show(row.exchange, f), Show(row.cfi, f)]
  }

  function ContractFieldsOf(rows: seq<ContractRow>, f: Format): (ls: seq<seq<string>>)
    ensures |ls| == |rows|
    ensures forall i :: 0 <= i < |rows| ==> ls[i] == ContractFields(rows[i], f)
  {
    if rows == [] then [] else ContractFieldsOf(rows[..|rows| - 1], f) + [ContractFields(rows[|rows| - 1], f)]
  }

  /** Every contract line carries ten fields, the first being the as-of date. */
  lemma ContractCopyShape(rows: seq<ContractRow>, f: Format)
    requires forall i, j :: 0 <= i < |rows| && 0 <= j < 10 ==> Clean(ContractFields(rows[i], f)[j])
    ensures forall i :: 0 <= i < |rows| ==> |ContractFieldsOf(rows, f)[i]| == 10 && ContractFieldsOf(rows, f)[i][0] == rows[i].asOf
    ensures CountChar(Lines(ContractFieldsOf(rows, f)), '\n') == |rows|
  {
    LinesCount(ContractFieldsOf(rows, f));
  }

  // ---- bulk_upsert_option_snapshots_copy ----

  predicate IsCapital(c: char)
  {
    'A' <= c <= 'Z'
  }

  /**
   * The underlying of an option ticker such as "O:AAPL211119C00085000": the
   * leading run of capitals in the piece after the first ':', or "".
   */
  function UnderlyingSymbol(t: string): (sym: string)
    ensures forall i :: 0 <= i < |sym| ==> IsCapital(sym[i])
    ensures ':' !in t ==> sym == ""
    ensures ':' in t ==> |Split(t, ':')| > 1 && |sym| <= |Split(t, ':')[1]| && Split(t, ':')[1][..|sym|] == sym
  {
    if t != [] && ':' in t then
      var parts := Split(t, ':');
      if |parts| > 1 then TakeWhile(parts[1], IsCapital) else ""
    else ""
  }

  /** Splitting at the first separator: the part before it, then the pieces of the rest. */
  lemma SplitAtFirst(prefix: string, tail: string)
    requires ':' !in prefix
    ensures Split(prefix + ":" + tail, ':') == [prefix] + Split(tail, ':')
  {
    var t := prefix + ":" + tail;
    assert t[|prefix|] == ':';
    assert t[..|prefix|] == prefix;
    var k := IndexOf(t, ':');
    assert k.Some? && k.value == |prefix|;
    assert t[|prefix| + 1..] == tail;
  }

  /** The first piece of SYMBOL + rest is SYMBOL followed by part of rest, when SYMBOL has no separator. */
  lemma FirstPieceExtends(sym: string, rest: string)
    requires forall i :: 0 <= i < |sym| ==> IsCapital(sym[i])
    ensures |sym| <= |Split(sym + rest, ':')[0]|
    ensures Split(sym + rest, ':')[0][..|sym|] == sym
    ensures |sym| < |Split(sym + rest, ':')[0]| ==> Split(sym + rest, ':')[0][|sym|] == rest[0]
  {
  }

  /** A ticker prefix:SYMBOL followed by a non-capital gives SYMBOL back. */
  lemma UnderlyingSymbolOf(prefix: string, sym: string, rest: string)
    requires ':' !in prefix
    requires forall i :: 0 <= i < |sym| ==> IsCapital(sym[i])
    requires rest == [] || !IsCapital(rest[0])
    ensures UnderlyingSymbol(prefix + ":" + sym + rest) == sym
  {
    var tail := sym + rest;
    assert prefix + ":" + sym + rest == prefix + ":" + tail;
    UnderlyingSymbolAfterColon(prefix, tail);
    LeadingCapitals(sym, rest);
  }

  /** The symbol is read from the text after the first colon. */
  lemma UnderlyingSymbolAfterColon(prefix: string, tail: string)
    requires ':' !in prefix
    ensures UnderlyingSymbol(prefix + ":" + tail) == TakeWhile(Split(tail, ':')[0], IsCapital)
  {
    var t := prefix + ":" + tail;
    SplitAtFirst(prefix, tail);
    assert Split(t, ':')[1] == Split(tail, ':')[0];
    assert t[|prefix|] == ':';
  }

  /** The capitals at the head of the first colon-free piece are exactly the symbol. */
  lemma LeadingCapitals(sym: string, rest: string)
    requires forall i :: 0 <= i < |sym| ==> IsCapital(sym[i])
    requires rest == [] || !IsCapital(rest[0])
    ensures TakeWhile(Split(sym + rest, ':')[0], IsCapital) == sym
  {
    var head := Split(sym + rest, ':')[0];
    FirstPieceExtends(sym, rest);
    assert forall i :: 0 <= i < |sym| ==> head[i] == sym[i];
    TakeWhileUnique(head, IsCapital, |sym|);
  }

  /** `format_value`: str() of a value, "\N" (COPY's NULL) for None. */
  function FormatValue(v: Option<real>, f: Format): string
  {
    if v.Some? then f.showReal(v.value) else "\\N"
  }

  /** A NULL is written "\N" and only a NULL is, as long as no float prints as "\N". */
  lemma FormatValueNull(v: Option<real>, f: Format)
    requires forall x: real :: f.showReal(x) != "\\N"
    ensures FormatValue(v, f) == "\\N" <==> v.None?
  {
    if v.Some? {
      var x := v.value;
      assert FormatValue(v, f) == f.showReal(x);
      assert f.showReal(x) != "\\N";
    }
  }

  /** The underlying symbol of the snapshot's 'symbol' value: "" when it is falsy, None (TypeError) when it is not a string. */
  function TickerSymbol(v: Json): Option<string>
  {
    match v
    case JStr(s) => Some(UnderlyingSymbol(s))
    case JNull => Some("")
    case JBool(b) => if b then None else Some("")
    case JInt(i) => if i == 0 then Some("") else None
    case JNum(n) => if n == 0.0 then Some("") else None
    case JOther => None
  }

  /** `float(d[k]) if d.get(k) is not None else None`; the outer None is a raised error. */
  function OptionalFloat(r: Record, k: string, p: Parsers): (v: Option<Option<real>>)
    ensures v == Some(None) <==> k !in r || r[k] == JNull
    ensures v.None? <==> k in r && r[k] != JNull && ToFloat(r[k], p).None?
    ensures v.Some? && v.value.Some? ==> ToFloat(r[k], p) == v.value
  {
    if k !in r || r[k] == JNull then Some(None)
    else
      var x := ToFloat(r[k], p);
      if x.None? then None else Some(Some(x.value))
  }

  /** A row for the option_daily_snapshot COPY. */
  datatype SnapshotRow = SnapshotRow(date: Json, symbol: string, ticker: Json, open: Option<real>, high: Option<real>,
                                     low: Option<real>, close: Option<real>, volume: int,
                                     preMarket: Option<real>, afterHours: Option<real>)

  function SnapshotRowOf(r: Record, p: Parsers): (row: Option<SnapshotRow>)
    ensures row.Some? <==>
              && TickerSymbol(Get(r, "symbol", JStr(""))).Some?
              && OptionalFloat(r, "open", p).Some? && OptionalFloat(r, "high", p).Some?
              && OptionalFloat(r, "low", p).Some? && OptionalFloat(r, "close", p).Some?
              && OptionalFloat(r, "preMarket", p).Some? && OptionalFloat(r, "afterHours", p).Some?
              && ("volume" !in r || r["volume"] == JNull || ToInt(r["volume"], p).Some?)
    ensures row.Some? ==> row.value.date == Get(r, "from", JStr("")) && row.value.ticker == Get(r, "symbol", JStr(""))
    ensures row.Some? ==>
              && row.value.open == OptionalFloat(r, "open", p).value && row.value.high == OptionalFloat(r, "high", p).value
              && row.value.low == OptionalFloat(r, "low", p).value && row.value.close == OptionalFloat(r, "close", p).value
              && row.value.preMarket == OptionalFloat(r, "preMarket", p).value
              && row.value.afterHours == OptionalFloat(r, "afterHours", p).value
    ensures row.Some? && ("volume" !in r || r["volume"] == JNull) ==> row.value.volume == 0
    ensures row.Some? && "volume" in r && r["volume"] != JNull ==> ToInt(r["volume"], p) == Some(row.value.volume)
    ensures row.Some? && "symbol" in r && r["symbol"].JStr? ==> row.value.symbol == UnderlyingSymbol(r["symbol"].s)
    ensures TickerSymbol(Get(r, "symbol", JStr(""))).None? ==> row.None?
  {
    var ticker := Get(r, "symbol", JStr(""));
    var sym := TickerSymbol(ticker);
    var o, h, l, c := OptionalFloat(r, "open", p), OptionalFloat(r, "high", p), OptionalFloat(r, "low", p), OptionalFloat(r, "close", p);
    var v := if "volume" !in r || r["volume"] == JNull then Some(0) else ToInt(r["volume"], p);
    var pre, after := OptionalFloat(r, "preMarket", p), OptionalFloat(r, "afterHours", p);
    if sym.None? || o.None? || h.None? || l.None? || c.None? || v.None? || pre.None? || after.None? then None
    else Some(SnapshotRow(Get(r, "from", JStr("")), sym.value, ticker, o.value, h.value, l.value, c.value, v.value,
                          pre.value, after.value))
  }

  function SnapshotRows(rs: seq<Record>, p: Parsers): (rows: seq<SnapshotRow>)
    ensures |rows| <= |rs|
  {
    if rs == [] then []
    else
      var row := SnapshotRowOf(rs[|rs| - 1], p);
      SnapshotRows(rs[..|rs| - 1], p) + (if row.Some? then [row.value] else [])
  }

  /** The ten COPY fields of a snapshot; prices may be NULL, the volume never is. */
  function SnapshotFields(row: SnapshotRow, f: Format): seq<string>
  {
    [Show(row.date, f), row.symbol, Show(row.ticker, f), FormatValue(row.open, f), FormatValue(row.high, f),
     FormatValue(row.low, f), FormatValue(row.close, f), f.showInt(row.volume),
     FormatValue(row.preMarket, f), FormatValue(row.afterHours, f)]
  }

  function SnapshotFieldsOf(rows: seq<SnapshotRow>, f: Format): (ls: seq<seq<string>>)
    ensures |ls| == |rows|
    ensures forall i :: 0 <= i < |rows| ==> ls[i] == SnapshotFields(rows[i], f)
  {
    if rows == [] then [] else SnapshotFieldsOf(rows[..|rows| - 1], f) + [SnapshotFields(rows[|rows| - 1], f)]
  }

  // ---- batch combiners ----

  /** Where a batch call ends: a boolean returned at once, or an upsert of the combined records. */
  datatype BatchStep = Finished(success: bool) | Upsert(records: seq<Record>, count: nat)

  /** The results of one response; None stands for a falsy response or falsy 'results'. */
  function ResultsOf(response: Option<seq<Record>>): seq<Record>
  {
    if response.Some? then response.value else []
  }

  /** All results of a list of responses, in order. */
  function CombinedResults(responses: seq<Option<seq<Record>>>): seq<Record>
  {
    if responses == [] then []
    else CombinedResults(responses[..|responses| - 1]) + ResultsOf(responses[|responses| - 1])
  }

  function ResultCount(response: Option<seq<Record>>): int
  {
    |ResultsOf(response)|
  }

  /** The combined list is as long as the per-response counts add up to, and empty exactly when every response is. */
  lemma {:induction false} CombinedResultsCount(responses: seq<Option<seq<Record>>>)
    ensures |CombinedResults(responses)| == SumInt(responses, ResultCount)
    ensures CombinedResults(responses) == [] <==> forall i :: 0 <= i < |responses| ==> ResultsOf(responses[i]) == []
  {
    if responses != [] {
      var init := responses[..|responses| - 1];
      CombinedResultsCount(init);
      assert forall i :: 0 <= i < |init| ==> init[i] == responses[i];
    }
  }

  /** A snapshot response counts when it is a dict whose status is "OK". */
  predicate IsOkSnapshot(response: Option<Record>)
  {
    response.Some? && "status" in response.value && response.value["status"] == JStr("OK")
  }

  /** The OK snapshot responses, in order. */
  function OkSnapshots(responses: seq<Option<Record>>): (rs: seq<Record>)
    ensures |rs| <= |responses|
    ensures forall r :: r in rs ==> "status" in r && r["status"] == JStr("OK")
  {
    if responses == [] then []
    else
      var last := responses[|responses| - 1];
      OkSnapshots(responses[..|responses| - 1]) + (if IsOkSnapshot(last) then [last.value] else [])
  }

  /** Every OK response is kept, so nothing is kept only when no response is OK. */
  lemma OkSnapshotsComplete(responses: seq<Option<Record>>)
    ensures OkSnapshots(responses) == [] <==> forall i :: 0 <= i < |responses| ==> !IsOkSnapshot(responses[i])
    ensures |OkSnapshots(responses)| == |Filter(responses, IsOkSnapshot)|
  {
    OkSnapshotsNone(responses);
    OkSnapshotsCount(responses);
  }

  lemma {:induction false} OkSnapshotsNone(responses: seq<Option<Record>>)
    ensures OkSnapshots(responses) == [] <==> forall i :: 0 <= i < |responses| ==> !IsOkSnapshot(responses[i])
  {
    if responses != [] {
      var init := responses[..|responses| - 1];
      OkSnapshotsNone(init);
      assert forall i :: 0 <= i < |init| ==> init[i] == responses[i];
    }
  }

  lemma {:induction false} OkSnapshotsCount(responses: seq<Option<Record>>)
    ensures |OkSnapshots(responses)| == |Filter(responses, IsOkSnapshot)|
  {
    if responses != [] {
      OkSnapshotsCount(responses[..|responses| - 1]);
    }
  }

  /** The COPY text for a list of records. */
  function DailyCopyText(rs: seq<Record>, p: Parsers, utcOffset: int, f: Format): string
  {
    Lines(DailyFieldsOf(DailyRows(rs, p, utcOffset), f))
  }

  /** The COPY text for a list of records. */
  function ContractCopyText(rs: seq<Record>, asOf: string, p: Parsers, f: Format): string
  {
    Lines(ContractFieldsOf(ContractRows(rs, asOf, p), f))
  }

  /** The COPY text for a list of records. */
  function SnapshotCopyText(rs: seq<Record>, p: Parsers, f: Format): string
  {
    Lines(SnapshotFieldsOf(SnapshotRows(rs, p), f))
  }

  /** One more record adds its line, when it is valid, to the COPY text. */
  lemma DailyStep(rs: seq<Record>, i: nat, p: Parsers, utcOffset: int, f: Format)
    requires i < |rs|
    ensures DailyRow(rs[i], p, utcOffset).Some? ==>
      (DailyCopyText(rs[..i + 1], p, utcOffset, f) == DailyCopyText(rs[..i], p, utcOffset, f) + Line(DailyFields(DailyRow(rs[i], p, utcOffset).value, f))
       && |DailyRows(rs[..i + 1], p, utcOffset)| == |DailyRows(rs[..i], p, utcOffset)| + 1)
    ensures DailyRow(rs[i], p, utcOffset).None? ==> (DailyRows(rs[..i + 1], p, utcOffset) == DailyRows(rs[..i], p, utcOffset)
      && DailyCopyText(rs[..i + 1], p, utcOffset, f) == DailyCopyText(rs[..i], p, utcOffset, f))
  {
    assert rs[..i + 1][..i] == rs[..i];
    var row := DailyRow(rs[i], p, utcOffset);
    if row.Some? {
      var rows := DailyRows(rs[..i], p, utcOffset);
      assert (rows + [row.value])[..|rows|] == rows;
      assert DailyFieldsOf(rows + [row.value], f) == DailyFieldsOf(rows, f) + [DailyFields(row.value, f)];
      LinesAppend(DailyFieldsOf(rows, f), DailyFields(row.value, f));
    }
  }

  /** One more record adds its line, when it is valid, to the COPY text. */
  lemma ContractStep(rs: seq<Record>, i: nat, asOf: string, p: Parsers, f: Format)
    requires i < |rs|
    ensures ContractRowOf(rs[i], asOf, p).Some? ==>
      (ContractCopyText(rs[..i + 1], asOf, p, f) == ContractCopyText(rs[..i], asOf, p, f) + Line(ContractFields(ContractRowOf(rs[i], asOf, p).value, f))
       && |ContractRows(rs[..i + 1], asOf, p)| == |ContractRows(rs[..i], asOf, p)| + 1)
    ensures ContractRowOf(rs[i], asOf, p).None? ==> (ContractRows(rs[..i + 1], asOf, p) == ContractRows(rs[..i], asOf, p)
      && ContractCopyText(rs[..i + 1], asOf, p, f) == ContractCopyText(rs[..i], asOf, p, f))
  {
    assert rs[..i + 1][..i] == rs[..i];
    var row := ContractRowOf(rs[i], asOf, p);
    if row.Some? {
      var rows := ContractRows(rs[..i], asOf, p);
      assert (rows + [row.value])[..|rows|] == rows;
      assert ContractFieldsOf(rows + [row.value], f) == ContractFieldsOf(rows, f) + [ContractFields(row.value, f)];
      LinesAppend(ContractFieldsOf(rows, f), ContractFields(row.value, f));
    }
  }

  /** One more record adds its line, when it is valid, to the COPY text. */
  lemma SnapshotStep(rs: seq<Record>, i: nat, p: Parsers, f: Format)
    requires i < |rs|
    ensures SnapshotRowOf(rs[i], p).Some? ==>
      (SnapshotCopyText(rs[..i + 1], p, f) == SnapshotCopyText(rs[..i], p, f) + Line(SnapshotFields(SnapshotRowOf(rs[i], p).value, f))
       && |SnapshotRows(rs[..i + 1], p)| == |SnapshotRows(rs[..i], p)| + 1)
    ensures SnapshotRowOf(rs[i], p).None? ==> (SnapshotRows(rs[..i + 1], p) == SnapshotRows(rs[..i], p)
      && SnapshotCopyText(rs[..i + 1], p, f) == SnapshotCopyText(rs[..i], p, f))
  {
    assert rs[..i + 1][..i] == rs[..i];
    var row := SnapshotRowOf(rs[i], p);
    if row.Some? {
      var rows := SnapshotRows(rs[..i], p);
      assert (rows + [row.value])[..|rows|] == rows;
      assert SnapshotFieldsOf(rows + [row.value], f) == SnapshotFieldsOf(rows, f) + [SnapshotFields(row.value, f)];
      LinesAppend(SnapshotFieldsOf(rows, f), SnapshotFields(row.value, f));
    }
  }

  /** The row-by-row loop of prepare_data_for_copy. */
  method WriteDailyLines(rs: seq<Record>, p: Parsers, utcOffset: int, f: Format) returns (buffer: string, validRecords: nat)
    ensures buffer == DailyCopyText(rs, p, utcOffset, f)
    ensures validRecords == |DailyRows(rs, p, utcOffset)|
  {
    buffer, validRecords := "", 0;
    var i := 0;
    while i < |rs|
      invariant 0 <= i <= |rs|
      invariant buffer == DailyCopyText(rs[..i], p, utcOffset, f)
      invariant validRecords == |DailyRows(rs[..i], p, utcOffset)|
    {
      var row := DailyRow(rs[i], p, utcOffset);
      DailyStep(rs, i, p, utcOffset, f);
      if row.Some? {
        buffer := buffer + Line(DailyFields(row.value, f));
        validRecords := validRecords + 1;
      }
      i := i + 1;
    }
    assert rs[..i] == rs;
  }

  /** The row-by-row loop of prepare_option_data_for_copy. */
  method WriteContractLines(rs: seq<Record>, asOf: string, p: Parsers, f: Format) returns (buffer: string, validRecords: nat)
    ensures buffer == ContractCopyText(rs, asOf, p, f)
    ensures validRecords == |ContractRows(rs, asOf, p)|
  {
    buffer, validRecords := "", 0;
    var i := 0;
    while i < |rs|
      invariant 0 <= i <= |rs|
      invariant buffer == ContractCopyText(rs[..i], asOf, p, f)
      invariant validRecords == |ContractRows(rs[..i], asOf, p)|
    {
      var row := ContractRowOf(rs[i], asOf, p);
      ContractStep(rs, i, asOf, p, f);
      if row.Some? {
        buffer := buffer + Line(ContractFields(row.value, f));
        validRecords := validRecords + 1;
      }
      i := i + 1;
    }
    assert rs[..i] == rs;
  }

  // ---- the loader ----

  class BulkStockDataLoader {
    var batchSize: int
    var useCopy: bool
    var totalRecords: int
    var successfulRecords: int
    var failedRecords: int
    var batchesProcessed: int
    var totalTime: real
    var recordsPerSecond: real

    /** The counters never go negative and never count more successes than records. */
    predicate Valid()
      reads this
    {
      0 <= successfulRecords <= totalRecords && 0 <= failedRecords && 0 <= batchesProcessed && 0.0 <= totalTime
    }

    constructor()
      ensures Valid()
      ensures batchSize == 5000 && useCopy
      ensures totalRecords == 0 && successfulRecords == 0 && failedRecords == 0 && batchesProcessed == 0
      ensures totalTime == 0.0 && recordsPerSecond == 0.0
    {
      batchSize, useCopy := 5000, true;
      totalRecords, successfulRecords, failedRecords, batchesProcessed := 0, 0, 0, 0;
      totalTime, recordsPerSecond := 0.0, 0.0;
    }

    /** The percentage reported as success_rate_percent; a loader that has seen no records divides by one. */
    function SuccessRate(): (rate: real)
      reads this
      requires Valid()
      ensures 0.0 <= rate <= 100.0
      ensures totalRecords == 0 ==> rate == 0.0
      ensures totalRecords > 0 && successfulRecords == totalRecords ==> rate == 100.0
    {
      var denom := MaxInt(totalRecords, 1);
      Round2Bounded(successfulRecords as real / denom as real * 100.0);
      Round2(successfulRecords as real / denom as real * 100.0)
    }

    /** get_performance_stats: the counters with the time and rates rounded. */
    function PerformanceStats(): (stats: (int, int, int, int, real, int, real))
      reads this
      requires Valid()
      ensures stats.0 == totalRecords && stats.1 == successfulRecords && stats.2 == failedRecords && stats.3 == batchesProcessed
      ensures totalTime - 0.005 <= stats.4 <= totalTime + 0.005
      ensures 0.0 <= stats.6 <= 100.0
    {
      (totalRecords, successfulRecords, failedRecords, batchesProcessed, Round2(totalTime),
       RoundHalfEven(recordsPerSecond), SuccessRate())
    }

    /** reset_stats: every counter back to zero; the settings stay. */
    method ResetStats()
      modifies this
      ensures Valid()
      ensures totalRecords == 0 && successfulRecords == 0 && failedRecords == 0 && batchesProcessed == 0
      ensures totalTime == 0.0 && recordsPerSecond == 0.0
      ensures batchSize == old(batchSize) && useCopy == old(useCopy)
    {
      totalRecords, successfulRecords, failedRecords, batchesProcessed := 0, 0, 0, 0;
      totalTime, recordsPerSecond := 0.0, 0.0;
    }

    /**
     * The bookkeeping after a committed COPY: `recordCount` records sent,
     * `affectedRows` of them written, `elapsed` seconds spent.
     */
    method RecordBatch(recordCount: nat, affectedRows: nat, elapsed: real)
      requires Valid()
      requires affectedRows <= recordCount && elapsed > 0.0
      modifies this
      ensures Valid()
      ensures totalRecords == old(totalRecords) + recordCount
      ensures successfulRecords == old(successfulRecords) + affectedRows
      ensures batchesProcessed == old(batchesProcessed) + 1
      ensures totalTime == old(totalTime) + elapsed
      ensures recordsPerSecond == successfulRecords as real / totalTime
      ensures failedRecords == old(failedRecords) && batchSize == old(batchSize) && useCopy == old(useCopy)
    {
      totalRecords := totalRecords + recordCount;
      successfulRecords := successfulRecords + affectedRows;
      batchesProcessed := batchesProcessed + 1;
      totalTime := totalTime + elapsed;
      recordsPerSecond := successfulRecords as real / totalTime;
    }

    /**
     * prepare_data_for_copy: the COPY text and the number of lines in it.
     * `results` is None when the response has no truthy 'results'.
     */
    method PrepareDataForCopy(results: Option<seq<Record>>, p: Parsers, utcOffset: int, f: Format)
      returns (buffer: string, validRecords: nat)
      ensures results.None? || results == Some([]) ==> buffer == "" && validRecords == 0
      ensures results.Some? ==> buffer == DailyCopyText(results.value, p, utcOffset, f)
      ensures results.Some? ==> validRecords == |DailyRows(results.value, p, utcOffset)|
    {
      if results.None? {
        return "", 0;
      }
      buffer, validRecords := WriteDailyLines(results.value, p, utcOffset, f);
    }

    /** prepare_option_data_for_copy: the contracts' COPY text and its line count. */
    method PrepareOptionDataForCopy(results: Option<seq<Record>>, asOf: string, p: Parsers, f: Format)
      returns (buffer: string, validRecords: nat)
      ensures results.None? || results == Some([]) ==> buffer == "" && validRecords == 0
      ensures results.Some? ==> buffer == ContractCopyText(results.value, asOf, p, f)
      ensures results.Some? ==> validRecords == |ContractRows(results.value, asOf, p)|
    {
      if results.None? {
        return "", 0;
      }
      buffer, validRecords := WriteContractLines(results.value, asOf, p, f);
    }

    /**
     * bulk_upsert_option_snapshots_copy up to the COPY: the text and line
     * count, and whether it goes on (not for an empty list or no valid row).
     */
    method PrepareSnapshotsForCopy(snapshots: seq<Record>, p: Parsers, f: Format)
      returns (proceed: bool, buffer: string, validRecords: nat)
      ensures snapshots == [] ==> !proceed
      ensures buffer == SnapshotCopyText(snapshots, p, f)
      ensures validRecords == |SnapshotRows(snapshots, p)|
      ensures proceed <==> validRecords > 0
    {
      buffer, validRecords := "", 0;
      var i := 0;
      while i < |snapshots|
        invariant 0 <= i <= |snapshots|
        invariant buffer == SnapshotCopyText(snapshots[..i], p, f)
        invariant validRecords == |SnapshotRows(snapshots[..i], p)|
      {
        var row := SnapshotRowOf(snapshots[i], p);
        SnapshotStep(snapshots, i, p, f);
        if row.Some? {
          buffer := buffer + Line(SnapshotFields(row.value, f));
          validRecords := validRecords + 1;
        }
        i := i + 1;
      }
      assert snapshots[..i] == snapshots;
      proceed := validRecords > 0;
    }

    /**
     * bulk_insert_option_contracts_batch up to the upsert: False for no
     * responses, True when none has results, else one combined response
     * whose count is the sum of the per-response counts.
     */
    method CombineContractBatches(responses: seq<Option<seq<Record>>>) returns (step: BatchStep)
      ensures responses == [] ==> step == Finished(false)
      ensures responses != [] && (forall i :: 0 <= i < |responses| ==> ResultsOf(responses[i]) == []) ==> step == Finished(true)
      ensures step.Upsert? ==> step.records == CombinedResults(responses) && step.records != []
      ensures step.Upsert? ==> step.count == |step.records| == SumInt(responses, ResultCount)
      ensures responses != [] && CombinedResults(responses) != [] ==> step.Upsert?
    {
      if responses == [] {
        return Finished(false);
      }
      var combined: seq<Record> := [];
      var total := 0;
      var i := 0;
      while i < |responses|
        invariant 0 <= i <= |responses|
        invariant combined == CombinedResults(responses[..i])
        invariant total == |combined|
      {
        assert responses[..i + 1][..i] == responses[..i];
        if responses[i].Some? && responses[i].value != [] {
          combined := combined + responses[i].value;
          total := total + |responses[i].value|;
        } else {
          assert ResultsOf(responses[i]) == [];
        }
        i := i + 1;
      }
      assert responses[..i] == responses;
      CombinedResultsCount(responses);
      if combined == [] {
        return Finished(true);
      }
      step := Upsert(combined, total);
    }

    /** bulk_insert_option_snapshots_batch up to the upsert: only "OK" responses go on. */
    method CombineSnapshotBatches(responses: seq<Option<Record>>) returns (step: BatchStep)
      ensures responses == [] ==> step == Finished(false)
      ensures responses != [] && (forall i :: 0 <= i < |responses| ==> !IsOkSnapshot(responses[i])) ==> step == Finished(true)
      ensures step.Upsert? ==> step.records == OkSnapshots(responses) != []
      ensures step.Upsert? ==> step.count == |Filter(responses, IsOkSnapshot)|
      ensures responses != [] && OkSnapshots(responses) != [] ==> step.Upsert?
    {
      if responses == [] {
        return Finished(false);
      }
      var combined: seq<Record> := [];
      var total := 0;
      var i := 0;
      while i < |responses|
        invariant 0 <= i <= |responses|
        invariant combined == OkSnapshots(responses[..i])
        invariant total == |combined|
      {
        assert responses[..i + 1][..i] == responses[..i];
        if IsOkSnapshot(responses[i]) {
          combined := combined + [responses[i].value];
          total := total + 1;
        }
        i := i + 1;
      }
      assert responses[..i] == responses;
      OkSnapshotsComplete(responses);
      if combined == [] {
        return Finished(true);
      }
      step := Upsert(combined, total);
    }
  }

  /** A percentage between 0 and 100 stays there after rounding to two decimals. */
  lemma Round2Bounded(x: real)
    requires 0.0 <= x <= 100.0
    ensures 0.0 <= Round2(x) <= 100.0
    ensures x == 0.0 ==> Round2(x) == 0.0
    ensures x == 100.0 ==> Round2(x) == 100.0
  {
    Round2KeepsLowerHundredth(x, 0);
    Round2Monotone(x, 100.0);
    assert (100.0 * 100.0).Floor == 10000;
    assert (0.0 * 100.0).Floor == 0;
  }
}

=== FILE: calendar.dfy ===
/**
 * Calendar arithmetic on day numbers: day 0 is 1970-01-01 (a Thursday).
 * Comparing two ISO "YYYY-MM-DD" strings for equality is comparing their
 * day numbers, so holiday lists are lists of day numbers here.
 */
module Calendar {

  /** date.weekday(): Monday is 0, Sunday is 6. */
  function Weekday(d: int): (w: int)
    ensures 0 <= w < 7
  {
    (d + 3) % 7
  }

  predicate IsWeekday(d: int) { Weekday(d) < 5 }

  /** The day number of a proleptic Gregorian date (days_from_civil). */
  function DaysFromCivil(y: int, m: int, d: int): int
    requires 1 <= m <= 12
  {
    var y' := if m <= 2 then y - 1 else y;
    var era := y' / 400;
    var yoe := y' - era * 400;
    var doy := (153 * (if m > 2 then m - 3 else m + 9) + 2) / 5 + d - 1;
    var doe := yoe * 365 + yoe / 4 - yoe / 100 + doy;
    era * 146097 + doe - 719468
  }

  /** The epoch, 1970-01-01, is day 0 and a Thursday. */
  lemma EpochIsThursday()
    ensures DaysFromCivil(1970, 1, 1) == 0 && Weekday(0) == 3
  {
  }

  /** 2024-01-01 is day 19723 and a Monday. */
  lemma NewYear2024IsMonday()
    ensures DaysFromCivil(2024, 1, 1) == 19723 && Weekday(19723) == 0
  {
  }

  /** February 2024 has 29 days. */
  lemma LeapFebruary2024()
    ensures DaysFromCivil(2024, 3, 1) - DaysFromCivil(2024, 2, 1) == 29
  {
    assert DaysFromCivil(2024, 2, 1) == 19754;
    assert DaysFromCivil(2024, 3, 1) == 19783;
  }

  /** How many days d with lo <= d < hi satisfy p. */
  function CountDays(p: int -> bool, lo: int, hi: int): (n: nat)
    ensures n <= (if lo < hi then hi - lo else 0)
    decreases hi - lo
  {
    if lo >= hi then 0 else (if p(lo) then 1 else 0) + CountDays(p, lo + 1, hi)
  }

  /** Counting over [lo, hi) one day at a time from the top. */
  lemma {:induction false} CountDaysTop(p: int -> bool, lo: int, hi: int)
    requires lo < hi
    ensures CountDays(p, lo, hi) == CountDays(p, lo, hi - 1) + (if p(hi - 1) then 1 else 0)
    decreases hi - lo
  {
    if lo < hi - 1 {
      CountDaysTop(p, lo + 1, hi);
    }
  }

  /** More distinct values than a list has entries cannot all be listed. */
  lemma {:induction false} Pigeonhole(xs: seq<int>, listed: seq<int>)
    requires forall i, j :: 0 <= i < j < |xs| ==> xs[i] != xs[j]
    requires forall i :: 0 <= i < |xs| ==> xs[i] in listed
    ensures |xs| <= |listed|
  {
    if xs != [] {
      var x := xs[0];
      var k :| 0 <= k < |listed| && listed[k] == x;
      var rest := listed[..k] + listed[k + 1..];
      forall i | 0 <= i < |xs| - 1 ensures xs[1..][i] in rest {
        var y := xs[i + 1];
        assert y != x;
        var j :| 0 <= j < |listed| && listed[j] == y;
        if j < k {
          assert rest[j] == y;
        } else {
          assert rest[j - 1] == y;
        }
      }
      Pigeonhole(xs[1..], rest);
    }
  }

  /** Any seven consecutive days ending at `last` hold five distinct weekdays. */
  function WeekdaysOfWeek(last: int): (r: seq<int>)
    ensures |r| == 5
    ensures forall i :: 0 <= i < 5 ==> last - 6 <= r[i] <= last && IsWeekday(r[i])
    ensures forall i, j :: 0 <= i < j < 5 ==> r[i] > r[j]
  {
    var offsets :=
      match Weekday(last)
      case 0 => [0, 3, 4, 5, 6]
      case 1 => [0, 1, 4, 5, 6]
      case 2 => [0, 1, 2, 5, 6]
      case 3 => [0, 1, 2, 3, 6]
      case 4 => [0, 1, 2, 3, 4]
      case 5 => [1, 2, 3, 4, 5]
      case _ => [2, 3, 4, 5, 6];
    [last - offsets[0], last - offsets[1], last - offsets[2], last - offsets[3], last - offsets[4]]
  }

  /**
   * With at most four holidays, any seven consecutive days contain a
   * weekday that is not one of them.
   */
  lemma WeekHasOpenDay(last: int, holidays: seq<int>)
    requires |holidays| <= 4
    ensures exists d :: last - 6 <= d <= last && IsWeekday(d) && d !in holidays
  {
    var ws := WeekdaysOfWeek(last);
    if forall i :: 0 <= i < 5 ==> ws[i] in holidays {
      Pigeonhole(ws, holidays);
      assert false;
    }
    var i :| 0 <= i < 5 && ws[i] !in holidays;
    assert last - 6 <= ws[i] <= last && IsWeekday(ws[i]);
  }
}

=== FILE: contracts_scraper.dfy ===
/**
 * The option-contracts reference scraper: normalising contract records,
 * de-duplicating them by (symbol, contract ticker) before the upsert, the
 * tab-separated rows of the COPY, the 20-requests-per-second pacing and the
 * run summary of scrape_all_symbols. HTTP and the database are parameters.
 */
module ContractsScraper {
  import opened Wrappers
  import opened SeqUtil
  import opened Text
  import opened Grouping
  import opened StockData
  import opened BulkOps

  /** `c.get(k, '')` used as a string; None where a non-string has no .upper()/.lower(). */
  function StrField(c: Record, k: string): Option<string>
  {
    if k !in c then Some("")
    else if c[k].JStr? then Some(c[k].s)
    else None
  }

  /** `c.get(k)`: None (JNull) when missing. */
  function Field(c: Record, k: string): Json
  {
    Get(c, k, JNull)
  }

  /** A normalised contract, in the key order of the upsert's columns. */
  datatype Contract = Contract(symbol: string, contractTicker: Json, cfi: Json, contractType: string,
                               exerciseStyle: string, expirationDate: Json, primaryExchange: Json,
                               sharesPerContract: Json, strikePrice: Json, underlyingTicker: string)

  /** The normalised dict built for a contract; None when building it raises. */
  function Normalize(c: Record): (n: Option<Contract>)
    ensures n.Some? ==> n.value.symbol == n.value.underlyingTicker
    ensures n.Some? ==> StrField(c, "underlying_ticker").Some? && n.value.symbol == Upper(StrField(c, "underlying_ticker").value)
    ensures n.Some? ==> StrField(c, "contract_type").Some? && n.value.contractType == Lower(StrField(c, "contract_type").value)
    ensures n.Some? ==> StrField(c, "exercise_style").Some? && n.value.exerciseStyle == Lower(StrField(c, "exercise_style").value)
    ensures n.Some? && "shares_per_contract" !in c ==> n.value.sharesPerContract == JInt(100)
  {
    var u, t, s := StrField(c, "underlying_ticker"), StrField(c, "contract_type"), StrField(c, "exercise_style");
    if u.None? || t.None? || s.None? then None
    else Some(Contract(Upper(u.value), Get(c, "ticker", JStr("")), Field(c, "cfi"), Lower(t.value), Lower(s.value),
                       Field(c, "expiration_date"), Field(c, "primary_exchange"),
                       Get(c, "shares_per_contract", JInt(100)), Field(c, "strike_price"), Upper(u.value)))
  }

  /** The five required fields are truthy, the type is a call or a put, and the expiration parses as YYYY-MM-DD. */
  predicate Acceptable(n: Contract, isIsoDate: string -> bool)
  {
    n.symbol != "" && Truthy(n.contractTicker) && n.contractType != "" && Truthy(n.expirationDate) && Truthy(n.strikePrice)
    && n.contractType in ["call", "put"]
    && n.expirationDate.JStr? && isIsoDate(n.expirationDate.s)
  }

  /** The outcome for one input contract: kept with its normalised form, or dropped. */
  function Keep(c: Record, isIsoDate: string -> bool): Option<Contract>
  {
    var n := Normalize(c);
    if n.Some? && Acceptable(n.value, isIsoDate) then n else None
  }

  /** A strike of zero is falsy, so such a contract is dropped. */
  lemma ZeroStrikeDropped(c: Record, isIsoDate: string -> bool)
    requires "strike_price" in c && c["strike_price"] in {JInt(0), JNum(0.0)}
    ensures Keep(c, isIsoDate).None?
  {
    var n := Normalize(c);
    if n.Some? {
      assert n.value.strikePrice == c["strike_price"];
    }
  }

  /** normalize_contract_data's result. */
  function Normalized(cs: seq<Record>, isIsoDate: string -> bool): (ns: seq<Contract>)
    ensures |ns| <= |cs|
    ensures forall n :: n in ns ==> Acceptable(n, isIsoDate)
  {
    if cs == [] then []
    else
      var k := Keep(cs[|cs| - 1], isIsoDate);
      Normalized(cs[..|cs| - 1], isIsoDate) + (if k.Some? then [k.value] else [])
  }

  /** The positions of the kept contracts. */
  function KeptIndices(cs: seq<Record>, isIsoDate: string -> bool): (idx: seq<nat>)
  {
    if cs == [] then []
    else KeptIndices(cs[..|cs| - 1], isIsoDate) + (if Keep(cs[|cs| - 1], isIsoDate).Some? then [|cs| - 1] else [])
  }

  /** The normalised list is the kept contracts at strictly increasing positions of the input: an order-preserving subsequence. */
  lemma NormalizedIsSubsequence(cs: seq<Record>, isIsoDate: string -> bool)
    ensures |KeptIndices(cs, isIsoDate)| == |Normalized(cs, isIsoDate)|
    ensures forall k :: 0 <= k < |KeptIndices(cs, isIsoDate)| ==> KeptIndices(cs, isIsoDate)[k] < |cs|
    ensures forall k, l :: 0 <= k < l < |KeptIndices(cs, isIsoDate)| ==> KeptIndices(cs, isIsoDate)[k] < KeptIndices(cs, isIsoDate)[l]
    ensures forall k :: 0 <= k < |KeptIndices(cs, isIsoDate)| ==>
      Keep(cs[KeptIndices(cs, isIsoDate)[k]], isIsoDate) == Some(Normalized(cs, isIsoDate)[k])
  {
    KeptIndicesIncreasing(cs, isIsoDate);
    KeptIndicesAgree(cs, isIsoDate);
  }

  /** The kept positions are in range and strictly increasing. */
  lemma {:induction false} KeptIndicesIncreasing(cs: seq<Record>, isIsoDate: string -> bool)
    ensures forall k :: 0 <= k < |KeptIndices(cs, isIsoDate)| ==> KeptIndices(cs, isIsoDate)[k] < |cs|
    ensures forall k, l :: 0 <= k < l < |KeptIndices(cs, isIsoDate)| ==> KeptIndices(cs, isIsoDate)[k] < KeptIndices(cs, isIsoDate)[l]
  {
    if cs != [] {
      KeptIndicesIncreasing(cs[..|cs| - 1], isIsoDate);
    }
  }

  /** There are as many kept positions as kept contracts, and each position holds its contract. */
  lemma {:induction false} KeptIndicesAgree(cs: seq<Record>, isIsoDate: string -> bool)
    ensures |KeptIndices(cs, isIsoDate)| == |Normalized(cs, isIsoDate)|
    ensures forall k :: 0 <= k < |KeptIndices(cs, isIsoDate)| ==>
      KeptIndices(cs, isIsoDate)[k] < |cs| && Keep(cs[KeptIndices(cs, isIsoDate)[k]], isIsoDate) == Some(Normalized(cs, isIsoDate)[k])
  {
    if cs != [] {
      var init := cs[..|cs| - 1];
      KeptIndicesAgree(init, isIsoDate);
      var ki, ns := KeptIndices(init, isIsoDate), Normalized(init, isIsoDate);
      var kc, nc := KeptIndices(cs, isIsoDate), Normalized(cs, isIsoDate);
      var keep := Keep(cs[|cs| - 1], isIsoDate);
      if keep.Some? {
        assert kc == ki + [|cs| - 1] && nc == ns + [keep.value];
      } else {
        assert kc == ki && nc == ns;
      }
      forall k | 0 <= k < |kc|
        ensures kc[k] < |cs| && Keep(cs[kc[k]], isIsoDate) == Some(nc[k])
      {
        if k < |ki| {
          assert kc[k] == ki[k] && nc[k] == ns[k];
          assert cs[ki[k]] == init[ki[k]];
        }
      }
    }
  }

  /** normalize_contract_data: the loop over the contracts. */
  method NormalizeContractData(cs: seq<Record>, isIsoDate: string -> bool) returns (normalized: seq<Contract>)
    ensures normalized == Normalized(cs, isIsoDate)
  {
    normalized := [];
    var i := 0;
    while i < |cs|
      invariant 0 <= i <= |cs|
      invariant normalized == Normalized(cs[..i], isIsoDate)
    {
      assert cs[..i + 1][..i] == cs[..i];
      var n := Keep(cs[i], isIsoDate);
      if n.Some? {
        normalized := normalized + [n.value];
      }
      i := i + 1;
    }
    assert cs[..i] == cs;
  }

  // ---- bulk_upsert_contracts ----

  /** The de-duplication key (symbol, contract_ticker). */
  function Key(c: Contract): (string, Json)
  {
    (c.symbol, c.contractTicker)
  }

  /** The last of a non-empty list. */
  function Last<T>(xs: seq<T>): T
    requires xs != []
  {
    xs[|xs| - 1]
  }

  /**
   * The state of the dictionary after a prefix `xs`: its keys in order of
   * first occurrence, each mapped to the last contract with that key.
   */
  ghost predicate Deduped(xs: seq<Contract>, keys: seq<(string, Json)>, m: map<(string, Json), Contract>)
  {
    && keys == FirstKeys(xs, Key)
    && (forall k :: k in m <==> k in keys)
    && (forall k :: k in m ==> Key(m[k]) == k && Group(xs, Key, k) != [] && m[k] == Last(Group(xs, Key, k)))
  }

  /** One dictionary assignment `unique[key] = contract` keeps that state. */
  lemma DedupStep(xs: seq<Contract>, x: Contract, keys: seq<(string, Json)>, m: map<(string, Json), Contract>)
    requires Deduped(xs, keys, m)
    ensures Deduped(xs + [x], if Key(x) in m then keys else keys + [Key(x)], m[Key(x) := x])
  {
    assert (xs + [x])[..|xs|] == xs;
    forall k' ensures Group(xs + [x], Key, k') == if Key(x) == k' then Group(xs, Key, k') + [x] else Group(xs, Key, k') {
      GroupAppend(xs, x, Key, k');
    }
  }

  /**
   * The dictionary loop `unique[key] = contract`: keys stay in order of first
   * occurrence and each holds the last contract with that key.
   */
  method Deduplicate(cs: seq<Contract>) returns (unique: seq<Contract>)
    ensures |unique| == |FirstKeys(cs, Key)|
    ensures forall j :: 0 <= j < |unique| ==> Key(unique[j]) == FirstKeys(cs, Key)[j]
    ensures forall j :: 0 <= j < |unique| ==>
      Group(cs, Key, Key(unique[j])) != [] && unique[j] == Last(Group(cs, Key, Key(unique[j])))
  {
    var keys: seq<(string, Json)> := [];
    var m: map<(string, Json), Contract> := map[];
    var i := 0;
    while i < |cs|
      invariant 0 <= i <= |cs|
      invariant Deduped(cs[..i], keys, m)
    {
      assert cs[..i + 1] == cs[..i] + [cs[i]];
      DedupStep(cs[..i], cs[i], keys, m);
      var k := Key(cs[i]);
      if k !in m {
        keys := keys + [k];
      }
      m := m[k := cs[i]];
      i := i + 1;
    }
    assert cs[..i] == cs;
    unique := [];
    var j := 0;
    while j < |keys|
      invariant 0 <= j <= |keys|
      invariant |unique| == j
      invariant forall l :: 0 <= l < j ==> unique[l] == m[keys[l]]
    {
      unique := unique + [m[keys[j]]];
      j := j + 1;
    }
  }

  /** After de-duplication no two contracts share a key, and every input key is still there. */
  lemma DeduplicateKeys(cs: seq<Contract>, unique: seq<Contract>)
    requires |unique| == |FirstKeys(cs, Key)|
    requires forall j :: 0 <= j < |unique| ==> Key(unique[j]) == FirstKeys(cs, Key)[j]
    ensures forall i, j :: 0 <= i < j < |unique| ==> Key(unique[i]) != Key(unique[j])
    ensures forall c :: c in cs ==> exists j :: 0 <= j < |unique| && Key(unique[j]) == Key(c)
  {
    FirstKeysDistinct(cs, Key);
    forall c | c in cs ensures exists j :: 0 <= j < |unique| && Key(unique[j]) == Key(c) {
      var j :| 0 <= j < |FirstKeys(cs, Key)| && FirstKeys(cs, Key)[j] == Key(c);
      assert Key(unique[j]) == Key(c);
    }
  }

  /** `value if value is not None else ''`, then str(). */
  function ShowOrEmpty(v: Json, f: Format): string
  {
    if v == JNull then "" else Show(v, f)
  }

  /** The ten COPY fields of a contract, in header order. */
  function ContractColumns(c: Contract, f: Format): seq<string>
  {
    [c.symbol, ShowOrEmpty(c.contractTicker, f), ShowOrEmpty(c.cfi, f), c.contractType, c.exerciseStyle,
     ShowOrEmpty(c.expirationDate, f), ShowOrEmpty(c.primaryExchange, f), ShowOrEmpty(c.sharesPerContract, f),
     ShowOrEmpty(c.strikePrice, f), c.underlyingTicker]
  }

  /** A missing value is written as an empty field, and each row splits back into its ten fields. */
  lemma ContractColumnsShape(c: Contract, f: Format)
    requires forall j :: 0 <= j < 10 ==> Clean(ContractColumns(c, f)[j])
    ensures Split(Line(ContractColumns(c, f))[..|Line(ContractColumns(c, f))| - 1], '\t') == ContractColumns(c, f)
    ensures |ContractColumns(c, f)| == 10
    ensures c.cfi == JNull ==> ContractColumns(c, f)[2] == ""
  {
    var cols := ContractColumns(c, f);
    assert |cols| == 10;
    assert cols[2] == ShowOrEmpty(c.cfi, f);
    LineFields(cols);
  }

  function ContractLines(cs: seq<Contract>, f: Format): string
  {
    if cs == [] then "" else ContractLines(cs[..|cs| - 1], f) + Line(ContractColumns(cs[|cs| - 1], f))
  }

  /** What bulk_upsert_contracts does before the database: nothing for an empty list, else a COPY of the unique contracts. */
  datatype UpsertPlan = NothingToUpsert | CopyRows(unique: seq<Contract>, text: string)

  method PlanUpsert(contracts: seq<Contract>, f: Format) returns (plan: UpsertPlan)
    ensures contracts == [] <==> plan == NothingToUpsert
    ensures plan.CopyRows? ==> |plan.unique| == |FirstKeys(contracts, Key)| && plan.text == ContractLines(plan.unique, f)
    ensures plan.CopyRows? ==> forall j :: 0 <= j < |plan.unique| ==>
      Group(contracts, Key, Key(plan.unique[j])) != [] && plan.unique[j] == Last(Group(contracts, Key, Key(plan.unique[j])))
  {
    if contracts == [] {
      return NothingToUpsert;
    }
    var unique := Deduplicate(contracts);
    var text := "";
    var i := 0;
    while i < |unique|
      invariant 0 <= i <= |unique|
      invariant text == ContractLines(unique[..i], f)
    {
      assert unique[..i + 1][..i] == unique[..i];
      text := text + Line(ContractColumns(unique[i], f));
      i := i + 1;
    }
    assert unique[..i] == unique;
    plan := CopyRows(unique, text);
  }

  // ---- rate limiting and the run summary ----

  /** The reply of bulk_upsert_contracts. */
  datatype UpsertResult = Upserted(rowsAffected: nat) | UpsertFailed(error: string)

  /** What happened to one symbol. */
  datatype SymbolOutcome = NoContracts | NoValidContracts | Stored(rows: nat) | Failed(error: string)

  /** The outcome of one symbol given what the API returned (an error is a raised exception) and what the upsert replied. */
  function OutcomeOf(fetched: Result<seq<Record>>, isIsoDate: string -> bool, upsert: seq<Contract> -> UpsertResult): SymbolOutcome
  {
    if fetched.Err? then Failed(fetched.error)
    else if fetched.value == [] then NoContracts
    else
      var ns := Normalized(fetched.value, isIsoDate);
      if ns == [] then NoValidContracts
      else match upsert(ns)
        case Upserted(rows) => Stored(rows)
        case UpsertFailed(e) => Failed(e)
  }

  /** `symbols[:limit]` when the limit is truthy; a negative limit counts from the end. */
  function LimitSymbols(symbols: seq<string>, limit: Option<int>): (r: seq<string>)
    ensures |r| <= |symbols| && r == symbols[..|r|]
    ensures limit.Some? && limit.value > 0 ==> |r| == if limit.value < |symbols| then limit.value else |symbols|
    ensures limit.None? || limit == Some(0) ==> r == symbols
  {
    if limit.None? || limit.value == 0 then symbols
    else if limit.value > 0 then symbols[..if limit.value < |symbols| then limit.value else |symbols|]
    else symbols[..if |symbols| + limit.value > 0 then |symbols| + limit.value else 0]
  }

  datatype Summary = Summary(success: bool, symbolsProcessed: nat, successfulSymbols: nat,
                             failedSymbols: seq<(string, string)>, totalContracts: nat, avgContractsPerSymbol: real)

  predicate IsFailed(o: SymbolOutcome) { o.Failed? }
  predicate IsStored(o: SymbolOutcome) { o.Stored? }

  function StoredRows(o: SymbolOutcome): int
  {
    if o.Stored? then o.rows else 0
  }

  /** The failures, in symbol order. */
  function Failures(symbols: seq<string>, outcome: string -> SymbolOutcome): seq<(string, string)>
  {
    if symbols == [] then []
    else
      var s := symbols[|symbols| - 1];
      Failures(symbols[..|symbols| - 1], outcome) + (if outcome(s).Failed? then [(s, outcome(s).error)] else [])
  }

  function Outcomes(symbols: seq<string>, outcome: string -> SymbolOutcome): (os: seq<SymbolOutcome>)
    ensures |os| == |symbols|
    ensures forall i :: 0 <= i < |symbols| ==> os[i] == outcome(symbols[i])
  {
    if symbols == [] then [] else Outcomes(symbols[..|symbols| - 1], outcome) + [outcome(symbols[|symbols| - 1])]
  }

  /** Every processed symbol either stored, failed or had nothing to store. */
  lemma {:induction false} FailuresCount(symbols: seq<string>, outcome: string -> SymbolOutcome)
    ensures |Failures(symbols, outcome)| == |Filter(Outcomes(symbols, outcome), IsFailed)|
    ensures |Filter(Outcomes(symbols, outcome), IsStored)| + |Failures(symbols, outcome)| <= |symbols|
  {
    if symbols != [] {
      var init := symbols[..|symbols| - 1];
      FailuresCount(init, outcome);
      assert Outcomes(symbols, outcome)[..|symbols| - 1] == Outcomes(init, outcome);
    }
  }

  /** The three tallies after the symbols `xs`. */
  ghost predicate Tallied(xs: seq<string>, outcome: string -> SymbolOutcome, total: int, successful: int, failed: seq<(string, string)>)
  {
    && failed == Failures(xs, outcome)
    && successful == |Filter(Outcomes(xs, outcome), IsStored)|
    && total == SumInt(Outcomes(xs, outcome), StoredRows)
  }

  /** One more symbol adds its failure, its success and its rows. */
  lemma ScrapeStep(symbols: seq<string>, i: nat, outcome: string -> SymbolOutcome, total: int, successful: int, failed: seq<(string, string)>)
    requires i < |symbols| && Tallied(symbols[..i], outcome, total, successful, failed)
    ensures var o := outcome(symbols[i]);
      Tallied(symbols[..i + 1], outcome, total + StoredRows(o), successful + (if o.Stored? then 1 else 0),
              failed + (if o.Failed? then [(symbols[i], o.error)] else []))
  {
    var xs, ys := symbols[..i], symbols[..i + 1];
    assert ys[..i] == xs && ys[i] == symbols[i];
    var os, ot := Outcomes(xs, outcome), Outcomes(ys, outcome);
    assert ot[..i] == os && ot[i] == outcome(symbols[i]);
    assert Filter(ot, IsStored) == Filter(os, IsStored) + (if IsStored(ot[i]) then [ot[i]] else []);
    assert SumInt(ot, StoredRows) == SumInt(os, StoredRows) + StoredRows(ot[i]);
  }

  /** The per-symbol loop of scrape_all_symbols. */
  method TallySymbols(symbols: seq<string>, outcome: string -> SymbolOutcome)
    returns (total: nat, successful: nat, failed: seq<(string, string)>)
    ensures failed == Failures(symbols, outcome)
    ensures successful == |Filter(Outcomes(symbols, outcome), IsStored)|
    ensures total == SumInt(Outcomes(symbols, outcome), StoredRows)
  {
    total, successful, failed := 0, 0, [];
    var i := 0;
    while i < |symbols|
      invariant 0 <= i <= |symbols|
      invariant Tallied(symbols[..i], outcome, total, successful, failed)
    {
      ScrapeStep(symbols, i, outcome, total, successful, failed);
      var o := outcome(symbols[i]);
      // a stored symbol adds its rows and a success, a failed one its error
      total := total + StoredRows(o);
      successful := successful + (if o.Stored? then 1 else 0);
      failed := failed + (if o.Failed? then [(symbols[i], o.error)] else []);
      i := i + 1;
    }
    assert symbols[..i] == symbols;
  }

  class ContractsScraperState {
    var minRequestInterval: real
    var lastRequestTime: real

    constructor()
      ensures minRequestInterval == 1.0 / 20.0 && lastRequestTime == 0.0
    {
      minRequestInterval, lastRequestTime := 1.0 / 20.0, 0.0;
    }

    /**
     * _rate_limit at clock reading `now`, with `after` the reading once any
     * sleep is over: sleeps only when the last request was under the minimum
     * interval ago, and then exactly for the shortfall.
     */
    method RateLimit(now: real, after: real) returns (sleep: real)
      modifies this
      ensures sleep >= 0.0
      ensures now + sleep >= old(lastRequestTime) + old(minRequestInterval)
      ensures sleep > 0.0 ==> now + sleep == old(lastRequestTime) + old(minRequestInterval)
      ensures now - old(lastRequestTime) >= old(minRequestInterval) ==> sleep == 0.0
      ensures lastRequestTime == after && minRequestInterval == old(minRequestInterval)
    {
      var sinceLast := now - lastRequestTime;
      sleep := 0.0;
      if sinceLast < minRequestInterval {
        sleep := minRequestInterval - sinceLast;
      }
      lastRequestTime := after;
    }

    /**
     * scrape_all_symbols over the active symbols: success iff no symbol
     * failed; the counts and contract total add up over the processed prefix.
     */
    method ScrapeAllSymbols(active: seq<string>, limit: Option<int>, outcome: string -> SymbolOutcome)
      returns (summary: Summary)
      ensures summary.symbolsProcessed == |LimitSymbols(active, limit)|
      ensures summary.failedSymbols == Failures(LimitSymbols(active, limit), outcome)
      ensures summary.success <==> summary.failedSymbols == []
      ensures summary.successfulSymbols == |Filter(Outcomes(LimitSymbols(active, limit), outcome), IsStored)|
      ensures summary.successfulSymbols + |summary.failedSymbols| <= summary.symbolsProcessed
      ensures summary.totalContracts == SumInt(Outcomes(LimitSymbols(active, limit), outcome), StoredRows)
      ensures summary.avgContractsPerSymbol == if summary.successfulSymbols > 0
        then summary.totalContracts as real / summary.successfulSymbols as real else 0.0
    {
      var symbols := LimitSymbols(active, limit);
      var total, successful, failed := TallySymbols(symbols, outcome);
      FailuresCount(symbols, outcome);
      var avg := if successful > 0 then total as real / successful as real else 0.0;
      summary := Summary(failed == [], |symbols|, successful, failed, total, avg);
    }
  }
}

=== FILE: daily_scraper.dfy ===
/**
 * The trading-day calendar and the date-range bookkeeping of the daily
 * market-summary scraper (scrapers/polygon_daily_scraper.py).
 *
 * Dates are day numbers; "today" and the current year are parameters. The
 * API response and the database lookups for each date are inputs.
 */
module DailyScraper {
  import opened Wrappers
  import opened Calendar
  import opened SeqUtil
  import opened Numeric

  // ---------------------------------------------------------------------
  // Trading days
  // ---------------------------------------------------------------------

  /** get_market_holidays: four fixed dates of the current year. */
  function MarketHolidays(currentYear: int): (r: seq<int>)
    ensures |r| == 4
  {
    [DaysFromCivil(currentYear, 1, 1), DaysFromCivil(currentYear, 6, 19),
     DaysFromCivil(currentYear, 7, 4), DaysFromCivil(currentYear, 12, 25)]
  }

  /** is_trading_day, against a holiday list. */
  function IsTradingDay(holidays: seq<int>, d: int): (r: bool)
    ensures r <==> IsWeekday(d) && d !in holidays
  {
    if Weekday(d) >= 5 then false
    else if d in holidays then false
    else true
  }

  function TradingDays(holidays: seq<int>): int -> bool
  {
    d => IsTradingDay(holidays, d)
  }

  /** The four listed holidays are closed, and so is every weekend day. */
  lemma ListedHolidaysClosed(currentYear: int, d: int)
    requires d in MarketHolidays(currentYear) || Weekday(d) >= 5
    ensures !IsTradingDay(MarketHolidays(currentYear), d)
  {
  }

  /**
   * get_most_recent_trading_day: the latest trading day among today and the
   * six days before. Four holidays cannot close all five weekdays of a
   * week, so the search always succeeds and the today-5 fallback is never
   * reached.
   */
  method GetMostRecentTradingDay(currentYear: int, today: int) returns (d: int)
    ensures today - 6 <= d <= today && IsTradingDay(MarketHolidays(currentYear), d)
    ensures forall e :: d < e <= today ==> !IsTradingDay(MarketHolidays(currentYear), e)
  {
    d := MostRecentTradingDay(MarketHolidays(currentYear), today);
  }

  /** The seven-day search loop of get_most_recent_trading_day, against a holiday list. */
  method MostRecentTradingDay(holidays: seq<int>, today: int) returns (d: int)
    requires |holidays| <= 4
    ensures today - 6 <= d <= today && IsTradingDay(holidays, d)
    ensures forall e :: d < e <= today ==> !IsTradingDay(holidays, e)
  {
    WeekHasOpenDay(today, holidays);
    var open :| today - 6 <= open <= today && IsWeekday(open) && open !in holidays;
    var i := 0;
    while i < 7
      invariant 0 <= i <= today - open
      invariant forall e :: today - i < e <= today ==> !IsTradingDay(holidays, e)
    {
      if IsTradingDay(holidays, today - i) {
        return today - i;
      }
      i := i + 1;
    }
    assert false;
    d := today - 5;
  }

  /** The search for the end date: the latest trading day among today and the nine days before. */
  method LatestTradingDayWithinTen(holidays: seq<int>, today: int) returns (end: int)
    requires |holidays| <= 4
    ensures today - 6 <= end <= today && IsTradingDay(holidays, end)
    ensures forall e :: end < e <= today ==> !IsTradingDay(holidays, e)
  {
    WeekHasOpenDay(today, holidays);
    var open :| today - 6 <= open <= today && IsWeekday(open) && open !in holidays;
    end := today;
    var i := 0;
    while i < 10
      invariant 0 <= i <= today - open
      invariant forall e :: today - i < e <= today ==> !IsTradingDay(holidays, e)
    {
      if IsTradingDay(holidays, today - i) {
        end := today - i;
        return;
      }
      i := i + 1;
    }
    assert false;
  }

  // ---------------------------------------------------------------------
  // The most recent N trading days
  // ---------------------------------------------------------------------

  const LookBack := 730

  /** CountDays grows as the window opens further back. */
  lemma {:induction false} CountDaysWiden(p: int -> bool, lo: int, mid: int, hi: int)
    requires lo <= mid
    ensures CountDays(p, lo, hi) >= CountDays(p, mid, hi)
    decreases mid - lo
  {
    if lo < mid && lo < hi {
      CountDaysWiden(p, lo + 1, mid, hi);
    }
  }

  /**
   * The counting loop of get_recent_trading_days as written, from the end
   * date: the `while ... else` gives start = end - 1 when num_days is 1,
   * and the two-year safety break leaves start_date unassigned, which
   * surfaces as an error.
   */
  method TradingDayRangeAsWritten(isTradingDay: int -> bool, end: int, numDays: int) returns (r: Result<(int, int)>)
    ensures numDays <= 0 ==> r.Err?
    ensures numDays == 1 ==> r == Ok((end - 1, end))
    ensures numDays >= 2 ==> (r.Ok? <==> numDays <= 1 + CountDays(isTradingDay, end - LookBack, end))
    ensures numDays >= 2 && r.Ok? ==>
              r.value.1 == end && end - LookBack <= r.value.0 < end && isTradingDay(r.value.0)
              && CountDays(isTradingDay, r.value.0, end) == numDays - 1
  {
    if numDays <= 0 {
      return Err("Number of days must be positive");
    }
    var found := 1;
    var current := end - 1;
    while found < numDays
      invariant 1 <= end - current <= LookBack
      invariant found == 1 + CountDays(isTradingDay, current + 1, end) && 1 <= found <= numDays
      invariant numDays >= 2 ==> found < numDays
      invariant numDays == 1 ==> current == end - 1
      decreases LookBack - (end - current)
    {
      if isTradingDay(current) {
        found := found + 1;
        if found == numDays {
          CountDaysWiden(isTradingDay, end - LookBack, current, end);
          return Ok((current, end));
        }
      }
      current := current - 1;
      if end - current > LookBack {
        CountDaysWiden(isTradingDay, end - LookBack, current + 1, end);
        return Err("start_date referenced before assignment");
      }
    }
    CountDaysWiden(isTradingDay, end - LookBack, current + 1, end);
    return Ok((current, end));
  }

  /**
   * The range [start, end] holds `numDays` trading days, or every trading
   * day within the look-back when there are fewer.
   */
  ghost predicate TakesUpTo(isTradingDay: int -> bool, start: int, end: int, numDays: int)
  {
    CountDays(isTradingDay, start, end + 1) == MinInt(numDays, 1 + CountDays(isTradingDay, end - LookBack, end))
  }

  /**
   * The counting loop with the two defects repaired: one day asks for the
   * end date alone, and the safety break keeps the trading days found so
   * far, starting at the earliest day examined.
   */
  method TradingDayRange(isTradingDay: int -> bool, end: int, numDays: int) returns (r: Result<(int, int)>)
    ensures numDays <= 0 <==> r.Err?
    ensures r.Ok? ==> r.value.1 == end && end - LookBack <= r.value.0 <= end
    ensures r.Ok? && isTradingDay(end) ==> TakesUpTo(isTradingDay, r.value.0, end, numDays)
    ensures r.Ok? && r.value.0 > end - LookBack ==> isTradingDay(r.value.0) || r.value.0 == end
  {
    if numDays <= 0 {
      return Err("Number of days must be positive");
    }
    CountDaysTop(isTradingDay, end - LookBack, end + 1);
    var found := 1;
    var current := end - 1;
    if numDays == 1 {
      CountDaysTop(isTradingDay, end, end + 1);
      return Ok((end, end));
    }
    while found < numDays
      invariant 1 <= end - current <= LookBack
      invariant found == 1 + CountDays(isTradingDay, current + 1, end) && 1 <= found < numDays
      decreases LookBack - (end - current)
    {
      if isTradingDay(current) {
        found := found + 1;
        if found == numDays {
          CountDaysWiden(isTradingDay, end - LookBack, current, end);
          CountDaysTop(isTradingDay, current, end + 1);
          return Ok((current, end));
        }
      }
      current := current - 1;
      if end - current > LookBack {
        CountDaysTop(isTradingDay, current + 1, end + 1);
        return Ok((current + 1, end));
      }
    }
  }

  /** get_recent_trading_days as written: the end-date search, then the counting loop. */
  method GetRecentTradingDaysAsWritten(currentYear: int, today: int, numDays: int) returns (r: Result<(int, int)>)
    ensures numDays <= 0 ==> r.Err?
    ensures r.Ok? ==> today - 6 <= r.value.1 <= today && IsTradingDay(MarketHolidays(currentYear), r.value.1)
    ensures r.Ok? ==> forall e :: r.value.1 < e <= today ==> !IsTradingDay(MarketHolidays(currentYear), e)
    ensures numDays == 1 ==> r.Ok? && r.value.0 == r.value.1 - 1
    ensures numDays >= 2 && r.Ok? ==>
              IsTradingDay(MarketHolidays(currentYear), r.value.0)
              && CountDays(TradingDays(MarketHolidays(currentYear)), r.value.0, r.value.1 + 1) == numDays
    ensures numDays > LookBack + 1 ==> r.Err?
  {
    if numDays <= 0 {
      return Err("Number of days must be positive");
    }
    var holidays := MarketHolidays(currentYear);
    var end := LatestTradingDayWithinTen(holidays, today);
    r := TradingDayRangeAsWritten(TradingDays(holidays), end, numDays);
    if r.Ok? && numDays >= 2 {
      CountDaysTop(TradingDays(holidays), r.value.0, end + 1);
    }
  }

  /** get_recent_trading_days with both defects repaired. */
  method GetRecentTradingDays(currentYear: int, today: int, numDays: int) returns (r: Result<(int, int)>)
    ensures numDays <= 0 <==> r.Err?
    ensures r.Ok? ==> today - 6 <= r.value.1 <= today && IsTradingDay(MarketHolidays(currentYear), r.value.1)
    ensures r.Ok? ==> forall e :: r.value.1 < e <= today ==> !IsTradingDay(MarketHolidays(currentYear), e)
    ensures r.Ok? ==> r.value.1 - LookBack <= r.value.0 <= r.value.1
    ensures r.Ok? ==> TakesUpTo(TradingDays(MarketHolidays(currentYear)), r.value.0, r.value.1, numDays)
  {
    if numDays <= 0 {
      return Err("Number of days must be positive");
    }
    var holidays := MarketHolidays(currentYear);
    var end := LatestTradingDayWithinTen(holidays, today);
    r := TradingDayRange(TradingDays(holidays), end, numDays);
  }

  /** Any two-day window of trading days holds two trading days: the one-day request returns two. */
  lemma OneDayRequestSpansTwoTradingDays(holidays: seq<int>, end: int)
    requires IsTradingDay(holidays, end) && IsTradingDay(holidays, end - 1)
    ensures CountDays(TradingDays(holidays), end - 1, end + 1) == 2
  {
    assert CountDays(TradingDays(holidays), end, end + 1) == 1;
  }

  /** The 2024 holiday list as day numbers. */
  lemma Holidays2024()
    ensures MarketHolidays(2024) == [19723, 19893, 19908, 20082]
  {
    NewYear2024IsMonday();
    DayOf2024(6, 19);
    DayOf2024(7, 4);
    DayOf2024(12, 25);
  }

  /** From March on, a 2024 date is day 19782 plus its day of the shifted year. */
  lemma DayOf2024(m: int, d: int)
    requires 3 <= m <= 12
    ensures DaysFromCivil(2024, m, d) == 19782 + (153 * (m - 3) + 2) / 5 + d
  {
  }

  /**
   * In 2024, a one-day request on Tuesday 9 January gives Monday 8 January
   * to Tuesday 9 January, two trading days; on Monday 8 January it starts on
   * Sunday 7 January, not a trading day.
   */
  lemma OneDayRequestExamples()
    ensures CountDays(TradingDays(MarketHolidays(2024)), 19730, 19732) == 2
    ensures IsTradingDay(MarketHolidays(2024), 19730) && !IsTradingDay(MarketHolidays(2024), 19729)
  {
    var hs := MarketHolidays(2024);
    Holidays2024();
    OneDayRequestSpansTwoTradingDays(hs, 19731);
  }

  // ---------------------------------------------------------------------
  // scrape_date_range bookkeeping
  // ---------------------------------------------------------------------

  /** What the summary fetch returned: DELAYED, nothing, or a summary with the outcome of storing it. */
  datatype FetchResult = Delayed | NoData | Summary(resultsCount: nat, stored: Result<bool>)

  datatype DateOutcome = Skipped | Stored(records: nat) | Failed

  /** The branch each date takes in the scraping loop. */
  function OutcomeOf(holidays: seq<int>, skipExisting: bool, hasData: int -> bool, fetch: int -> FetchResult, d: int): (o: DateOutcome)
    ensures !IsTradingDay(holidays, d) ==> o == Skipped
    ensures o.Stored? ==> IsTradingDay(holidays, d) && fetch(d).Summary? && fetch(d).stored == Ok(true)
    ensures IsTradingDay(holidays, d) && !(skipExisting && hasData(d)) && fetch(d).NoData? ==> o == Failed
  {
    if !IsTradingDay(holidays, d) then Skipped
    else if skipExisting && hasData(d) then Skipped
    else match fetch(d)
      case Delayed => Skipped
      case NoData => Failed
      case Summary(n, stored) => if stored == Ok(true) then Stored(n) else Failed
  }

  /** The dates lo, lo + 1, ..., hi - 1. */
  function DateRange(lo: int, hi: int): (r: seq<int>)
    ensures |r| == if lo < hi then hi - lo else 0
    ensures forall i :: 0 <= i < |r| ==> r[i] == lo + i
    decreases hi - lo
  {
    if hi <= lo then [] else DateRange(lo, hi - 1) + [hi - 1]
  }

  lemma FilterRangeStep(p: int -> bool, lo: int, hi: int)
    requires lo <= hi
    ensures Filter(DateRange(lo, hi + 1), p) == Filter(DateRange(lo, hi), p) + (if p(hi) then [hi] else [])
  {
    assert DateRange(lo, hi + 1) == DateRange(lo, hi) + [hi];
  }

  lemma SumRangeStep(f: int -> int, lo: int, hi: int)
    requires lo <= hi
    ensures SumInt(DateRange(lo, hi + 1), f) == SumInt(DateRange(lo, hi), f) + f(hi)
  {
    assert DateRange(lo, hi + 1) == DateRange(lo, hi) + [hi];
    assert DateRange(lo, hi + 1)[..hi - lo] == DateRange(lo, hi);
  }

  datatype ScrapeResults = ScrapeResults(
    totalDatesRequested: nat, tradingDaysFound: nat, successfulScrapes: nat, failedScrapes: nat,
    skippedDates: nat, totalRecordsInserted: nat,
    datesProcessed: seq<int>, failedDates: seq<int>, skippedDatesList: seq<int>)

  /** The dates of a list whose outcome satisfies `want`. */
  function DatesWhere(o: int -> DateOutcome, dates: seq<int>, want: DateOutcome -> bool): seq<int>
  {
    Filter(dates, (d: int) => want(o(d)))
  }

  function Records(o: int -> DateOutcome): int -> int
  {
    d => if o(d).Stored? then o(d).records else 0
  }

  /** Every date falls in exactly one of the skipped, stored and failed lists. */
  lemma {:induction false} OutcomesPartition(o: int -> DateOutcome, dates: seq<int>)
    ensures |DatesWhere(o, dates, (x: DateOutcome) => x.Skipped?)|
          + |DatesWhere(o, dates, (x: DateOutcome) => x.Stored?)|
          + |DatesWhere(o, dates, (x: DateOutcome) => x.Failed?)| == |dates|
  {
    if dates != [] {
      OutcomesPartition(o, dates[..|dates| - 1]);
    }
  }

  /** Non-trading days are always skipped, so at least that many dates are skipped. */
  lemma {:induction false} SkippedCoversClosedDays(holidays: seq<int>, skipExisting: bool, hasData: int -> bool,
                                                   fetch: int -> FetchResult, dates: seq<int>)
    ensures |Filter(dates, (d: int) => !IsTradingDay(holidays, d))|
         <= |DatesWhere((d: int) => OutcomeOf(holidays, skipExisting, hasData, fetch, d), dates, (x: DateOutcome) => x.Skipped?)|
  {
    if dates != [] {
      SkippedCoversClosedDays(holidays, skipExisting, hasData, fetch, dates[..|dates| - 1]);
    }
  }

  /** Adding the next date to the range adds it to the list of its outcome and to no other. */
  lemma DatesWhereStep(o: int -> DateOutcome, lo: int, hi: int, want: DateOutcome -> bool)
    requires lo <= hi
    ensures DatesWhere(o, DateRange(lo, hi + 1), want)
         == DatesWhere(o, DateRange(lo, hi), want) + (if want(o(hi)) then [hi] else [])
  {
    assert DateRange(lo, hi + 1) == DateRange(lo, hi) + [hi];
  }

  /** Stored records of a list that grows by one date. */
  lemma RecordsStep(o: int -> DateOutcome, processed: seq<int>, d: int)
    ensures SumInt(processed + [d], Records(o)) == SumInt(processed, Records(o)) + Records(o)(d)
  {
    assert (processed + [d])[..|processed|] == processed;
  }

  /** The handling of one date inside the scraping loop. */
  method ScrapeOneDate(holidays: seq<int>, skipExisting: bool, hasData: int -> bool, fetch: int -> FetchResult, d: int)
    returns (outcome: DateOutcome)
    ensures outcome == OutcomeOf(holidays, skipExisting, hasData, fetch, d)
  {
    if !IsTradingDay(holidays, d) {
      return Skipped;
    }
    if skipExisting && hasData(d) {
      return Skipped;
    }
    var marketData := fetch(d);
    if marketData.Delayed? {
      outcome := Skipped;
    } else if marketData.Summary? {
      if marketData.stored == Ok(true) {
        outcome := Stored(marketData.resultsCount);
      } else {
        outcome := Failed;
      }
    } else {
      outcome := Failed;
    }
  }

  /** scrape_date_range: walk the dates from start to end and count what happens to each. */
  method ScrapeDateRange(holidays: seq<int>, start: int, end: int, skipExisting: bool,
                         hasData: int -> bool, fetch: int -> FetchResult) returns (r: Result<ScrapeResults>)
    ensures start > end <==> r.Err?
    ensures r.Ok? ==> r.value.totalDatesRequested == end - start + 1
    ensures r.Ok? ==> r.value.tradingDaysFound == CountDays(TradingDays(holidays), start, end + 1)
    ensures r.Ok? ==>
              var o := (d: int) => OutcomeOf(holidays, skipExisting, hasData, fetch, d);
              && r.value.skippedDatesList == DatesWhere(o, DateRange(start, end + 1), (x: DateOutcome) => x.Skipped?)
              && r.value.datesProcessed == DatesWhere(o, DateRange(start, end + 1), (x: DateOutcome) => x.Stored?)
              && r.value.failedDates == DatesWhere(o, DateRange(start, end + 1), (x: DateOutcome) => x.Failed?)
              && r.value.totalRecordsInserted == SumInt(r.value.datesProcessed, Records(o))
    ensures r.Ok? ==> r.value.skippedDates == |r.value.skippedDatesList|
                      && r.value.successfulScrapes == |r.value.datesProcessed|
                      && r.value.failedScrapes == |r.value.failedDates|
  {
    if start > end {
      return Err("Start date must be before or equal to end date");
    }
    var o := (d: int) => OutcomeOf(holidays, skipExisting, hasData, fetch, d);
    var p := TradingDays(holidays);
    var isSkipped := (x: DateOutcome) => x.Skipped?;
    var isStored := (x: DateOutcome) => x.Stored?;
    var isFailed := (x: DateOutcome) => x.Failed?;
    var requested, trading, successful, failed, skipped, inserted := 0, 0, 0, 0, 0, 0;
    var processed, failedList, skippedList := [], [], [];
    var current := start;
    while current <= end
      invariant start <= current <= end + 1
      invariant requested == current - start
      invariant trading == CountDays(p, start, current)
      invariant skippedList == DatesWhere(o, DateRange(start, current), isSkipped) && skipped == |skippedList|
      invariant processed == DatesWhere(o, DateRange(start, current), isStored) && successful == |processed|
      invariant failedList == DatesWhere(o, DateRange(start, current), isFailed) && failed == |failedList|
      invariant inserted == SumInt(processed, Records(o))
    {
      requested := requested + 1;
      CountDaysTop(p, start, current + 1);
      DatesWhereStep(o, start, current, isSkipped);
      DatesWhereStep(o, start, current, isStored);
      DatesWhereStep(o, start, current, isFailed);
      if IsTradingDay(holidays, current) {
        trading := trading + 1;
      }
      var outcome := ScrapeOneDate(holidays, skipExisting, hasData, fetch, current);
      match outcome {
        case Skipped =>
          skipped := skipped + 1;
          skippedList := skippedList + [current];
        case Stored(n) =>
          RecordsStep(o, processed, current);
          successful := successful + 1;
          inserted := inserted + n;
          processed := processed + [current];
        case Failed =>
          failed := failed + 1;
          failedList := failedList + [current];
      }
      current := current + 1;
    }
    return Ok(ScrapeResults(requested, trading, successful, failed, skipped, inserted, processed, failedList, skippedList));
  }
}

=== FILE: dashboard.dfy ===
/**
 * The dashboard's pure helpers: the order in which anomaly symbols are
 * offered (newest date first, then highest score), the lenient number
 * reader used on table cells, the insider pattern of an alert row and the
 * moneyness and volume/open-interest columns of a contract table. Charts,
 * tables and queries are outside the model; date parsing and `str()` of a
 * cell are parameters.
 */
module Dashboard {
  import opened Wrappers
  import opened Numeric
  import opened Text
  import opened SeqUtil
  import opened Sorting
  import opened StockData
  import opened EmailNotifier

  /** `row.get(key, default)` */
  function Get(row: Record, key: string, default: Json): Json
  {
    if key in row then row[key] else default
  }

  /** The cells safe_numeric treats as absent: None, "", and "none"/"null" in any case. */
  predicate Blank(v: Json)
  {
    v.JNull? || (v.JStr? && (v.s == "" || Lower(v.s) == "none" || Lower(v.s) == "null"))
  }

  /**
   * safe_numeric(value, default): a blank cell or one `float()` rejects
   * gives the default; anything else is read as a number.
   */
  function SafeNumeric(v: Json, default: real, p: Parsers): (r: real)
    ensures Blank(v) || ToFloat(v, p).None? ==> r == default
    ensures !Blank(v) && ToFloat(v, p).Some? ==> r == ToFloat(v, p).value
    ensures v.JInt? ==> r == v.i as real
    ensures v.JNum? ==> r == v.n
  {
    if Blank(v) then default
    else match ToFloat(v, p)
      case None => default
      case Some(x) => x
  }

  /** safe_numeric(value, default, as_int=True): the reading truncated toward zero. */
  function SafeInt(v: Json, default: int, p: Parsers): (r: int)
    ensures Blank(v) || ToFloat(v, p).None? ==> r == default
    ensures !Blank(v) && ToFloat(v, p).Some? ==> Abs(r as real) <= Abs(ToFloat(v, p).value) < Abs(r as real) + 1.0
  {
    if Blank(v) then default
    else match ToFloat(v, p)
      case None => default
      case Some(x) => Trunc(x)
  }

  /**
   * The two readers agree up to truncation: a cell read as an integer is
   * the decimal reading with its fraction dropped, sign kept.
   */
  lemma SafeIntTruncates(v: Json, default: int, p: Parsers)
    requires !Blank(v) && ToFloat(v, p).Some?
    ensures var x, n := SafeNumeric(v, default as real, p), SafeInt(v, default, p);
      (x >= 0.0 ==> n >= 0 && n as real <= x < n as real + 1.0) && (x < 0.0 ==> n <= 0 && n as real - 1.0 < x <= n as real)
  {
  }

  // ---------------------------------------------------------------------
  // get_ordered_anomaly_symbols
  // ---------------------------------------------------------------------

  /** One usable row: its date (a day number), its negated total score, its symbol. */
  datatype Entry = Entry(date: int, negScore: real, symbol: string)

  /** The conversions the dashboard delegates: `pd.to_datetime(v).date()` and `str(v)`. */
  datatype Converters = Converters(toDate: Json -> Option<int>, show: Json -> string, p: Parsers)

  /**
   * The date key of a row: event_date when present, else as_of_timestamp;
   * Err where the date conversion raises, Ok(None) with neither present.
   */
  function DateKey(row: Record, cv: Converters): (r: Result<Option<int>>)
    ensures r == Ok(None) <==> Get(row, "event_date", JNull).JNull? && Get(row, "as_of_timestamp", JNull).JNull?
    ensures !Get(row, "event_date", JNull).JNull? ==> r.Err? || r == Ok(cv.toDate(row["event_date"]))
  {
    var ev, ts := Get(row, "event_date", JNull), Get(row, "as_of_timestamp", JNull);
    if !ev.JNull? then
      (if cv.toDate(ev).Some? then Ok(cv.toDate(ev)) else Err("ValueError: event_date"))
    else if !ts.JNull? then
      (if cv.toDate(ts).Some? then Ok(cv.toDate(ts)) else Err("ValueError: as_of_timestamp"))
    else Ok(None)
  }

  /** `str(v)`, with a text cell as its own text. */
  function Show(v: Json, cv: Converters): string
  {
    if v.JStr? then v.s else cv.show(v)
  }

  /** What one iteration appends: nothing for a row whose date is missing or fails to convert. */
  function EntryOf(row: Record, cv: Converters): Option<Entry>
  {
    match DateKey(row, cv)
    case Ok(Some(d)) =>
      Some(Entry(d, -SafeNumeric(Get(row, "total_score", JInt(0)), 0.0, cv.p), Show(Get(row, "symbol", JStr("")), cv)))
    case _ => None
  }

  /** Whether a row contributes a symbol. */
  function Usable(cv: Converters): Record -> bool
  {
    row => EntryOf(row, cv).Some?
  }

  /** The tuples the loop collects, in row order. */
  function Entries(rows: seq<Record>, cv: Converters): (es: seq<Entry>)
    ensures |es| <= |rows|
  {
    if rows == [] then []
    else
      var last := rows[|rows| - 1];
      Entries(rows[..|rows| - 1], cv) + (if EntryOf(last, cv).Some? then [EntryOf(last, cv).value] else [])
  }

  /** Every collected tuple comes from a usable row, one per usable row. */
  lemma {:induction false} EntriesMeaning(rows: seq<Record>, cv: Converters)
    ensures |Entries(rows, cv)| == |Filter(rows, Usable(cv))|
    ensures forall e :: e in Entries(rows, cv) ==> exists row :: row in rows && EntryOf(row, cv) == Some(e)
    ensures forall row :: row in rows && EntryOf(row, cv).Some? ==> EntryOf(row, cv).value in Entries(rows, cv)
  {
    if rows != [] {
      var init, last := rows[..|rows| - 1], rows[|rows| - 1];
      EntriesMeaning(init, cv);
      assert rows == init + [last];
      forall e | e in Entries(rows, cv)
        ensures exists row :: row in rows && EntryOf(row, cv) == Some(e)
      {
        if e in Entries(init, cv) {
          var row :| row in init && EntryOf(row, cv) == Some(e);
          assert row in rows;
        } else {
          assert EntryOf(last, cv) == Some(e);
        }
      }
    }
  }

  /** `key=(-date, -score)` ascending: a newer date first, then a higher score. */
  function Later(a: Entry, b: Entry): bool
  {
    a.date > b.date || (a.date == b.date && a.negScore <= b.negScore)
  }

  lemma LaterTotal()
    ensures TotalPreorder(Later)
  {
  }

  /** `[item[2] for item in symbol_data]` */
  function SymbolsOf(es: seq<Entry>): (r: seq<string>)
    ensures |r| == |es| && forall i :: 0 <= i < |es| ==> r[i] == es[i].symbol
  {
    seq(|es|, i requires 0 <= i < |es| => es[i].symbol)
  }

  /**
   * get_ordered_anomaly_symbols: collect a tuple per usable row, sort them
   * (stably) by date descending then score descending, keep the symbols.
   */
  method OrderedAnomalySymbols(rows: seq<Record>, cv: Converters) returns (symbols: seq<string>)
    ensures symbols == SymbolsOf(Sort(Entries(rows, cv), Later))
    ensures rows == [] ==> symbols == []
  {
    if rows == [] {
      return [];
    }
    var symbolData: seq<Entry> := [];
    var i := 0;
    while i < |rows|
      invariant 0 <= i <= |rows|
      invariant symbolData == Entries(rows[..i], cv)
    {
      assert rows[..i + 1][..i] == rows[..i];
      var e := EntryOf(rows[i], cv);
      if e.Some? {
        symbolData := symbolData + [e.value];
      }
      i := i + 1;
    }
    assert rows[..i] == rows;
    symbols := SymbolsOf(Sort(symbolData, Later));
  }

  /**
   * The ordered symbols: one per row with a usable date; newest date
   * first and, within a date, highest total score first; exactly the
   * collected tuples rearranged.
   */
  lemma OrderedSymbolsMeaning(rows: seq<Record>, cv: Converters)
    ensures var es := Sort(Entries(rows, cv), Later);
      && |SymbolsOf(es)| == |Filter(rows, Usable(cv))|
      && multiset(es) == multiset(Entries(rows, cv))
      && (forall i, j :: 0 <= i < j < |es| ==>
            es[i].date > es[j].date || (es[i].date == es[j].date && -es[i].negScore >= -es[j].negScore))
  {
    EntriesMeaning(rows, cv);
    LaterTotal();
    SortSorted(Entries(rows, cv), Later);
  }

  /** Rows already in display order keep their order: ties are never swapped. */
  lemma OrderedSymbolsKeepOrder(rows: seq<Record>, cv: Converters)
    requires SortedBy(Entries(rows, cv), Later)
    ensures SymbolsOf(Sort(Entries(rows, cv), Later)) == SymbolsOf(Entries(rows, cv))
  {
    SortOfSorted(Entries(rows, cv), Later);
  }

  // ---------------------------------------------------------------------
  // The alert row's pattern
  // ---------------------------------------------------------------------

  /** The multipliers the row shows next to its pattern. */
  datatype VolumeText = CallText(callMultiplier: real) | PutText(putMultiplier: real) | BothText(call: real, put: real)

  /**
   * The share of calls in the row's total volume, in percent, 0 when the
   * total is not positive; the total is its own column, not necessarily
   * calls plus puts.
   */
  function RowCallPercentage(callVolume: int, totalVolume: int): (r: real)
    ensures totalVolume > 0 ==> r * totalVolume as real == callVolume as real * 100.0
    ensures totalVolume <= 0 ==> r == 0.0
  {
    if totalVolume > 0 then callVolume as real / totalVolume as real * 100.0 else 0.0
  }

  /** The pattern and the multiplier text of a row. */
  function RowPattern(callVolume: int, totalVolume: int, callMultiplier: real, putMultiplier: real): (Pattern, VolumeText)
  {
    var pattern := PatternOf(RowCallPercentage(callVolume, totalVolume));
    (pattern,
     match pattern
     case Bullish => CallText(callMultiplier)
     case Bearish => PutText(putMultiplier)
     case Mixed => BothText(callMultiplier, putMultiplier))
  }

  /**
   * In volumes: bullish when calls are at least 4/5 of a positive total,
   * bearish when they are at most 1/5 of it or there is no volume; the
   * bullish row shows the call multiplier, the bearish one the put
   * multiplier, the mixed one both.
   */
  lemma RowPatternByVolumes(callVolume: int, totalVolume: int, callMultiplier: real, putMultiplier: real)
    ensures var (p, text) := RowPattern(callVolume, totalVolume, callMultiplier, putMultiplier);
      && (p == Bullish <==> totalVolume > 0 && 5 * callVolume >= 4 * totalVolume)
      && (p == Bearish <==> totalVolume <= 0 || 5 * callVolume <= totalVolume)
      && (p == Bullish ==> text == CallText(callMultiplier))
      && (p == Bearish ==> text == PutText(putMultiplier))
      && (p == Mixed ==> text == BothText(callMultiplier, putMultiplier))
  {
    if totalVolume > 0 {
      var r := RowCallPercentage(callVolume, totalVolume);
      var t, c := totalVolume as real, callVolume as real;
      assert r * t == c * 100.0;
      ScaledCompare(r, t, 80.0, c * 100.0);
      ScaledCompare(r, t, 20.0, c * 100.0);
    }
  }

  /**
   * The volumes of an alert row as the dashboard reads them: the total
   * falls back to calls plus puts only when its column is missing, so a
   * present but empty total reads as 0.
   */
  function RowVolumes(row: Record, p: Parsers): (r: (int, int))
    ensures "total_volume" !in row ==> r.1 == r.0 + SafeInt(Get(row, "put_volume", JInt(0)), 0, p)
    ensures "total_volume" in row && Blank(row["total_volume"]) ==> r.1 == 0
  {
    var call := SafeInt(Get(row, "call_volume", JInt(0)), 0, p);
    var put := SafeInt(Get(row, "put_volume", JInt(0)), 0, p);
    (call, SafeInt(Get(row, "total_volume", JInt(call + put)), 0, p))
  }

  // ---------------------------------------------------------------------
  // get_contract_details: derived columns
  // ---------------------------------------------------------------------

  datatype Moneyness = ITM | OTM

  /**
   * A call is in the money below the underlying price, a put above it;
   * with no underlying price the comparison fails and the contract shows
   * as out of the money.
   */
  function MoneynessOf(contractType: string, strike: real, underlying: Option<real>): Moneyness
  {
    if underlying.Some? && ((contractType == "call" && strike < underlying.value)
                            || (contractType == "put" && strike > underlying.value))
    then ITM else OTM
  }

  /**
   * Of a call and a put at the same strike, exactly one is in the money
   * unless the strike equals the underlying price (or it is missing), when
   * neither is; any other contract type is never in the money.
   */
  lemma MoneynessCallPut(strike: real, underlying: Option<real>, other: string)
    requires other != "call" && other != "put"
    ensures underlying.Some? && strike != underlying.value ==>
      (MoneynessOf("call", strike, underlying) == ITM <==> MoneynessOf("put", strike, underlying) == OTM)
    ensures underlying.None? || strike == underlying.value ==>
      MoneynessOf("call", strike, underlying) == OTM && MoneynessOf("put", strike, underlying) == OTM
    ensures MoneynessOf(other, strike, underlying) == OTM
  {
  }

  /** volume / open_interest, with an open interest of 0 counted as 1. */
  function VolumeOiRatio(volume: real, openInterest: real): (r: real)
    ensures openInterest != 0.0 ==> r * openInterest == volume
    ensures openInterest == 0.0 ==> r == volume
  {
    volume / (if openInterest == 0.0 then 1.0 else openInterest)
  }

  /** One contract row's derived columns: moneyness, volume/OI ratio and traded value. */
  datatype ContractColumns = ContractColumns(moneyness: Moneyness, volumeOiRatio: real, volumeMagnitude: real)

  /** A contract as the details query returns it. */
  datatype Contract = Contract(contractType: string, strike: real, underlying: Option<real>,
                               volume: real, openInterest: real, closePrice: real, sharesPerContract: real)

  /** The columns added to every contract row, row by row. */
  function AddColumns(contracts: seq<Contract>): (r: seq<ContractColumns>)
    ensures |r| == |contracts|
    ensures forall i :: 0 <= i < |contracts| ==>
      && (r[i].moneyness == ITM <==>
            (contracts[i].underlying.Some?
             && ((contracts[i].contractType == "call" && contracts[i].strike < contracts[i].underlying.value)
                 || (contracts[i].contractType == "put" && contracts[i].strike > contracts[i].underlying.value))))
      && (contracts[i].openInterest != 0.0 ==> r[i].volumeOiRatio * contracts[i].openInterest == contracts[i].volume)
      && (contracts[i].openInterest == 0.0 ==> r[i].volumeOiRatio == contracts[i].volume)
  {
    seq(|contracts|, i requires 0 <= i < |contracts| =>
      var c := contracts[i];
      ContractColumns(MoneynessOf(c.contractType, c.strike, c.underlying), VolumeOiRatio(c.volume, c.openInterest),
                      c.volume * c.closePrice * c.sharesPerContract))
  }
}

=== FILE: detailed_analysis.dfy ===
/**
 * The detailed anomaly analysis report: the per-(symbol, contract type)
 * comparison of today's volume with its baseline, and the breakdown of
 * detected anomalies by type. The database queries that produce the
 * inputs, the data frames and the CSV output are not modelled.
 */
module DetailedAnalysis {
  import opened Wrappers

  /** Today's volume figures for one symbol and contract type. */
  datatype CurrentVolume = CurrentVolume(totalVolume: real, contractCount: int, avgVolume: real, maxVolume: real)

  /** The baseline aggregates for one symbol and contract type. */
  datatype Baseline = Baseline(daysCount: int, totalVolume: real, avgDaily: real, stddevDaily: real, maxDaily: real, minDaily: real)

  /** One row of the volume comparison table. */
  datatype Comparison = Comparison(symbol: string, contractType: string,
                                   currentTotal: real, currentCount: int, currentAvg: real, currentMax: real,
                                   baselineDays: int, baselineTotal: real, baselineAvg: real, baselineStd: real,
                                   baselineMax: real, baselineMin: real,
                                   ratio: real, zScore: real, isAnomaly: bool, note: Option<string>)

  const NoBaselineNote := "No baseline data available"

  /** The current volumes, symbol by symbol and type by type, in the dict's order. */
  type CurrentVolumes = seq<(string, seq<(string, CurrentVolume)>)>

  type BaselineStats = map<string, map<string, Baseline>>

  predicate HasBaseline(stats: BaselineStats, symbol: string, contractType: string)
  {
    symbol in stats && contractType in stats[symbol]
  }

  /**
   * One comparison: with a baseline, the ratio to the average and the
   * z-score (0 when the divisor is not positive) and the two-deviation
   * anomaly flag; without one, zeros, no anomaly, and a note.
   */
  function Compare(symbol: string, contractType: string, cur: CurrentVolume, stats: BaselineStats): (c: Comparison)
    ensures c.symbol == symbol && c.contractType == contractType
    ensures c.currentTotal == cur.totalVolume && c.currentCount == cur.contractCount
    ensures c.currentAvg == cur.avgVolume && c.currentMax == cur.maxVolume
    ensures c.note.Some? <==> !HasBaseline(stats, symbol, contractType)
    ensures !HasBaseline(stats, symbol, contractType) ==>
      (c.baselineDays == 0 && c.baselineTotal == 0.0 && c.baselineAvg == 0.0 && c.baselineStd == 0.0
       && c.baselineMax == 0.0 && c.baselineMin == 0.0 && c.ratio == 0.0 && c.zScore == 0.0 && !c.isAnomaly
       && c.note == Some(NoBaselineNote))
    ensures HasBaseline(stats, symbol, contractType) ==>
      var b := stats[symbol][contractType];
      && c.baselineAvg == b.avgDaily && c.baselineStd == b.stddevDaily && c.baselineDays == b.daysCount
      && c.baselineTotal == b.totalVolume && c.baselineMax == b.maxDaily && c.baselineMin == b.minDaily
      && (b.avgDaily > 0.0 ==> c.ratio * b.avgDaily == cur.totalVolume)
      && (b.stddevDaily > 0.0 ==> c.zScore * b.stddevDaily == cur.totalVolume - b.avgDaily)
      && (c.isAnomaly <==> cur.totalVolume > b.avgDaily + 2.0 * b.stddevDaily)
    ensures c.baselineAvg <= 0.0 ==> c.ratio == 0.0
    ensures c.baselineStd <= 0.0 ==> c.zScore == 0.0
  {
    if HasBaseline(stats, symbol, contractType) then
      var b := stats[symbol][contractType];
      var t := cur.totalVolume;
      Comparison(symbol, contractType, t, cur.contractCount, cur.avgVolume, cur.maxVolume,
                 b.daysCount, b.totalVolume, b.avgDaily, b.stddevDaily, b.maxDaily, b.minDaily,
                 if b.avgDaily > 0.0 then t / b.avgDaily else 0.0,
                 if b.stddevDaily > 0.0 then (t - b.avgDaily) / b.stddevDaily else 0.0,
                 t > b.avgDaily + 2.0 * b.stddevDaily, None)
    else
      Comparison(symbol, contractType, cur.totalVolume, cur.contractCount, cur.avgVolume, cur.maxVolume,
                 0, 0.0, 0.0, 0.0, 0.0, 0.0, 0.0, 0.0, false, Some(NoBaselineNote))
  }

  /**
   * With a positive deviation the anomaly flag is exactly "z-score above
   * 2", and with a positive average a flagged volume is above the
   * average (ratio above 1).
   */
  lemma AnomalyMeansZAboveTwo(symbol: string, contractType: string, cur: CurrentVolume, stats: BaselineStats)
    requires HasBaseline(stats, symbol, contractType)
    ensures var c := Compare(symbol, contractType, cur, stats);
      && (c.baselineStd > 0.0 ==> (c.isAnomaly <==> c.zScore > 2.0))
      && (c.baselineStd >= 0.0 && c.baselineAvg > 0.0 && c.isAnomaly ==> c.ratio > 1.0)
  {
    var c := Compare(symbol, contractType, cur, stats);
    var t, a, s := cur.totalVolume, c.baselineAvg, c.baselineStd;
    if s > 0.0 {
      var z := c.zScore;
      assert z == (t - a) / s;
      assert z * s == t - a;
      if z > 2.0 {
        MulStrict(z - 2.0, s);
        assert t - a > 2.0 * s;
      } else {
        MulNonPos(z - 2.0, s);
        assert t - a <= 2.0 * s;
      }
    }
    if s >= 0.0 && a > 0.0 && c.isAnomaly {
      var q := c.ratio;
      assert q == t / a;
      assert q * a == t;
      if q <= 1.0 {
        MulNonPos(q - 1.0, a);
      }
    }
  }

  lemma MulStrict(x: real, y: real)
    requires x > 0.0 && y > 0.0
    ensures x * y > 0.0
  {
  }

  lemma MulNonPos(x: real, y: real)
    requires x <= 0.0 && y > 0.0
    ensures x * y <= 0.0
  {
  }

  /** The comparisons for one symbol, one per contract type, in order. */
  function SymbolComparisons(symbol: string, types: seq<(string, CurrentVolume)>, stats: BaselineStats): (r: seq<Comparison>)
    ensures |r| == |types|
  {
    seq(|types|, k requires 0 <= k < |types| => Compare(symbol, types[k].0, types[k].1, stats))
  }

  /** calculate_volume_anomaly_scores, as a function of its inputs. */
  function Comparisons(current: CurrentVolumes, stats: BaselineStats): seq<Comparison>
  {
    if current == [] then []
    else Comparisons(current[..|current| - 1], stats)
         + SymbolComparisons(current[|current| - 1].0, current[|current| - 1].1, stats)
  }

  /** The (symbol, contract type) keys of the current volumes, in the dict's order. */
  function KeyPairs(current: CurrentVolumes): seq<(string, string)>
  {
    if current == [] then []
    else
      var last := current[|current| - 1];
      KeyPairs(current[..|current| - 1]) + seq(|last.1|, k requires 0 <= k < |last.1| => (last.0, last.1[k].0))
  }

  /** Exactly one comparison per (symbol, contract type) present, in the same order. */
  lemma {:induction false} ComparisonsPerKey(current: CurrentVolumes, stats: BaselineStats)
    ensures var cs := Comparisons(current, stats);
      && |cs| == |KeyPairs(current)|
      && forall k :: 0 <= k < |cs| ==> (cs[k].symbol, cs[k].contractType) == KeyPairs(current)[k]
  {
    if current != [] {
      ComparisonsPerKey(current[..|current| - 1], stats);
    }
  }

  /** calculate_volume_anomaly_scores: a comparison per symbol and contract type, appended in order. */
  method CalculateVolumeAnomalyScores(current: CurrentVolumes, stats: BaselineStats) returns (out: seq<Comparison>)
    ensures out == Comparisons(current, stats)
  {
    out := [];
    var i := 0;
    while i < |current|
      invariant 0 <= i <= |current|
      invariant out == Comparisons(current[..i], stats)
    {
      var symbol := current[i].0;
      var types := current[i].1;
      var done := out;
      var j := 0;
      while j < |types|
        invariant 0 <= j <= |types|
        invariant out == done + SymbolComparisons(symbol, types[..j], stats)
      {
        assert SymbolComparisons(symbol, types[..j + 1], stats)
          == SymbolComparisons(symbol, types[..j], stats) + [Compare(symbol, types[j].0, types[j].1, stats)];
        out := out + [Compare(symbol, types[j].0, types[j].1, stats)];
        j := j + 1;
      }
      assert types[..j] == types;
      assert current[..i + 1][..i] == current[..i];
      i := i + 1;
    }
    assert current[..i] == current;
  }

  /** A detected anomaly: its symbol and the types of its individual anomalies. */
  datatype Anomaly = Anomaly(symbol: string, anomalyTypes: seq<string>)

  /** Each (symbol, type) occurrence, anomaly by anomaly. */
  function Occurrences(anomalies: seq<Anomaly>): seq<(string, string)>
  {
    if anomalies == [] then []
    else
      Occurrences(anomalies[..|anomalies| - 1]) + PairsOf(anomalies[|anomalies| - 1])
  }

  /** The occurrences of one anomaly: its symbol with each of its types. */
  function PairsOf(a: Anomaly): (r: seq<(string, string)>)
    ensures |r| == |a.anomalyTypes|
  {
    seq(|a.anomalyTypes|, k requires 0 <= k < |a.anomalyTypes| => (a.symbol, a.anomalyTypes[k]))
  }

  /** The type_breakdown dict: types in first-seen order, their counts and their symbols. */
  datatype TypeTally = TypeTally(order: seq<string>, count: map<string, nat>, symbols: map<string, seq<string>>)

  /** One occurrence entered in the type_breakdown dict: a known type has its count raised and the symbol appended; a new type is added last with a count of 1 and that symbol. */
  function Record(t: TypeTally, symbol: string, ty: string): TypeTally
  {
    if ty in t.count && ty in t.symbols then
      t.(count := t.count[ty := t.count[ty] + 1], symbols := t.symbols[ty := t.symbols[ty] + [symbol]])
    else TypeTally(t.order + [ty], t.count[ty := 1], t.symbols[ty := [symbol]])
  }

  function Tally(occ: seq<(string, string)>): TypeTally
  {
    if occ == [] then TypeTally([], map[], map[])
    else Record(Tally(occ[..|occ| - 1]), occ[|occ| - 1].0, occ[|occ| - 1].1)
  }

  /** The number of occurrences of one anomaly type. */
  function CountType(occ: seq<(string, string)>, ty: string): nat
  {
    if occ == [] then 0 else CountType(occ[..|occ| - 1], ty) + (if occ[|occ| - 1].1 == ty then 1 else 0)
  }

  predicate Distinct(xs: seq<string>)
  {
    forall i, j :: 0 <= i < j < |xs| ==> xs[i] != xs[j]
  }

  /**
   * The tally lists each type once, in first-seen order, covering exactly
   * the types that occur; each type's count is its number of occurrences
   * and equals the length of its symbol list.
   */
  /** The shape of the type_breakdown dict that every recorded occurrence keeps. */
  ghost predicate TallyValid(t: TypeTally)
  {
    && Distinct(t.order)
    && (set ty | ty in t.order) == t.count.Keys == t.symbols.Keys
    && (forall ty :: ty in t.count ==> t.count[ty] == |t.symbols[ty]| && t.count[ty] >= 1)
  }

  lemma RecordValid(t: TypeTally, symbol: string, ty: string)
    requires TallyValid(t)
    ensures TallyValid(Record(t, symbol, ty))
    ensures Record(t, symbol, ty).count.Keys == t.count.Keys + {ty}
    ensures forall u :: u in t.count && u != ty ==> Record(t, symbol, ty).count[u] == t.count[u]
    ensures ty in Record(t, symbol, ty).count
      && Record(t, symbol, ty).count[ty] == (if ty in t.count then t.count[ty] else 0) + 1
  {
    RecordKeepsValid(t, symbol, ty);
    RecordCounts(t, symbol, ty);
  }

  lemma RecordKeepsValid(t: TypeTally, symbol: string, ty: string)
    requires TallyValid(t)
    ensures TallyValid(Record(t, symbol, ty))
  {
    if ty !in t.count {
      var r := Record(t, symbol, ty);
      assert ty !in t.order;
      assert (set u | u in r.order) == (set u | u in t.order) + {ty};
    }
  }

  lemma RecordCounts(t: TypeTally, symbol: string, ty: string)
    requires t.count.Keys == t.symbols.Keys
    ensures Record(t, symbol, ty).count.Keys == t.count.Keys + {ty}
    ensures forall u :: u in t.count && u != ty ==> Record(t, symbol, ty).count[u] == t.count[u]
    ensures ty in Record(t, symbol, ty).count
      && Record(t, symbol, ty).count[ty] == (if ty in t.count then t.count[ty] else 0) + 1
  {
  }

  /**
   * The tally lists each type once, in first-seen order, covering exactly
   * the types that occur; each type's count is its number of occurrences
   * and equals the length of its symbol list.
   */
  lemma TallyMeaning(occ: seq<(string, string)>)
    ensures TallyValid(Tally(occ))
    ensures forall k :: 0 <= k < |occ| ==> occ[k].1 in Tally(occ).count
    ensures forall ty :: ty in Tally(occ).count ==> Tally(occ).count[ty] == CountType(occ, ty)
    ensures forall ty :: ty !in Tally(occ).count ==> CountType(occ, ty) == 0
  {
    TallyAlwaysValid(occ);
    TallyCounts(occ);
  }

  lemma {:induction false} TallyAlwaysValid(occ: seq<(string, string)>)
    ensures TallyValid(Tally(occ))
  {
    if occ == [] {
      assert (set ty: string | ty in []) == {};
    } else {
      var init := occ[..|occ| - 1];
      TallyAlwaysValid(init);
      RecordKeepsValid(Tally(init), occ[|occ| - 1].0, occ[|occ| - 1].1);
    }
  }

  lemma {:induction false} TallyCounts(occ: seq<(string, string)>)
    ensures forall k :: 0 <= k < |occ| ==> occ[k].1 in Tally(occ).count
    ensures forall ty :: ty in Tally(occ).count ==> Tally(occ).count[ty] == CountType(occ, ty)
    ensures forall ty :: ty !in Tally(occ).count ==> CountType(occ, ty) == 0
  {
    if occ != [] {
      var init := occ[..|occ| - 1];
      var last := occ[|occ| - 1];
      TallyCounts(init);
      TallyAlwaysValid(init);
      RecordCounts(Tally(init), last.0, last.1);
      var t := Tally(occ);
      forall k | 0 <= k < |occ|
        ensures occ[k].1 in t.count
      {
        if k < |occ| - 1 {
          assert occ[k] == init[k];
        }
      }
    }
  }

  /** A list has at least as many entries as distinct values. */
  lemma {:induction false} DistinctAtMostLength(xs: seq<string>)
    ensures |set x | x in xs| <= |xs|
  {
    if xs != [] {
      var init := xs[..|xs| - 1];
      DistinctAtMostLength(init);
      assert (set x | x in xs) == (set x | x in init) + {xs[|xs| - 1]};
    }
  }

  /** One row of the anomaly type breakdown. */
  datatype BreakdownRow = BreakdownRow(anomalyType: string, occurrenceCount: nat, uniqueSymbols: nat, avgOccurrencesPerSymbol: real)

  /** The breakdown row of one recorded type. */
  function RowOf(t: TypeTally, ty: string): BreakdownRow
    requires ty in t.count && ty in t.symbols
  {
    var unique := |set s | s in t.symbols[ty]|;
    BreakdownRow(ty, t.count[ty], unique, if unique == 0 then 0.0 else t.count[ty] as real / unique as real)
  }

  /** A recorded type's row counts its occurrences and at least one, and at most that many, distinct symbols. */
  lemma RowFacts(occ: seq<(string, string)>, ty: string)
    requires ty in Tally(occ).count
    ensures ty in Tally(occ).symbols
    ensures var r := RowOf(Tally(occ), ty);
      && r.occurrenceCount == CountType(occ, ty)
      && 1 <= r.uniqueSymbols <= r.occurrenceCount
      && r.avgOccurrencesPerSymbol == r.occurrenceCount as real / r.uniqueSymbols as real
  {
    TallyMeaning(occ);
    var t := Tally(occ);
    var symbols := t.symbols[ty];
    var distinct := set s | s in symbols;
    DistinctAtMostLength(symbols);
    assert symbols[0] in distinct;
    assert |distinct| == |distinct - {symbols[0]}| + 1;
    assert RowOf(t, ty) == BreakdownRow(ty, t.count[ty], |distinct|, t.count[ty] as real / |distinct| as real);
  }

  /** The loop building breakdown_data: one row per recorded type, in order. */
  method BreakdownRows(t: TypeTally) returns (rows: seq<BreakdownRow>)
    requires TallyValid(t)
    ensures |rows| == |t.order|
    ensures forall k :: 0 <= k < |rows| ==> t.order[k] in t.count && rows[k] == RowOf(t, t.order[k])
  {
    rows := [];
    var i := 0;
    while i < |t.order|
      invariant 0 <= i <= |t.order|
      invariant |rows| == i && forall k :: 0 <= k < i ==> t.order[k] in t.count && rows[k] == RowOf(t, t.order[k])
    {
      var ty := t.order[i];
      assert ty in (set u | u in t.order);
      var symbols := t.symbols[ty];
      var unique := |set s | s in symbols|;
      rows := rows + [BreakdownRow(ty, t.count[ty], unique, if unique == 0 then 0.0 else t.count[ty] as real / unique as real)];
      i := i + 1;
    }
  }

  /**
   * The type breakdown of create_detailed_analysis_tables: count every
   * (anomaly, type) occurrence with its symbol, then one row per type in
   * first-seen order with its distinct symbols and the occurrences per
   * symbol.
   */
  method TypeBreakdown(anomalies: seq<Anomaly>) returns (rows: seq<BreakdownRow>)
    ensures var t := Tally(Occurrences(anomalies));
      |rows| == |t.order| && forall k :: 0 <= k < |rows| ==> rows[k].anomalyType == t.order[k]
    ensures forall k :: 0 <= k < |rows| ==>
      && rows[k].occurrenceCount == CountType(Occurrences(anomalies), rows[k].anomalyType)
      && 1 <= rows[k].uniqueSymbols <= rows[k].occurrenceCount
      && rows[k].avgOccurrencesPerSymbol == rows[k].occurrenceCount as real / rows[k].uniqueSymbols as real
    ensures forall k :: 0 <= k < |Occurrences(anomalies)| ==>
      exists j :: 0 <= j < |rows| && rows[j].anomalyType == Occurrences(anomalies)[k].1
  {
    ghost var occ := Occurrences(anomalies);
    var t := CountTypes(anomalies);
    TallyMeaning(occ);
    rows := BreakdownRows(t);
    forall k | 0 <= k < |rows|
      ensures rows[k].occurrenceCount == CountType(occ, rows[k].anomalyType)
      ensures 1 <= rows[k].uniqueSymbols <= rows[k].occurrenceCount
      ensures rows[k].avgOccurrencesPerSymbol == rows[k].occurrenceCount as real / rows[k].uniqueSymbols as real
    {
      RowFacts(occ, t.order[k]);
    }
    forall k | 0 <= k < |occ|
      ensures exists j :: 0 <= j < |rows| && rows[j].anomalyType == occ[k].1
    {
      var ty := occ[k].1;
      assert ty in (set x | x in t.order);
      var j :| 0 <= j < |t.order| && t.order[j] == ty;
      assert rows[j].anomalyType == ty;
    }
  }

  /** The counting loops of the type breakdown, over anomalies and then their types. */
  method CountTypes(anomalies: seq<Anomaly>) returns (t: TypeTally)
    ensures t == Tally(Occurrences(anomalies))
  {
    t := TypeTally([], map[], map[]);
    var i := 0;
    while i < |anomalies|
      invariant 0 <= i <= |anomalies|
      invariant t == Tally(Occurrences(anomalies[..i]))
    {
      assert anomalies[..i + 1][..i] == anomalies[..i];
      t := CountAnomalyTypes(t, Occurrences(anomalies[..i]), anomalies[i]);
      i := i + 1;
    }
    assert anomalies[..i] == anomalies;
  }

  /** Recording the next pair of an anomaly. */
  lemma TallyPairStep(before: seq<(string, string)>, mine: seq<(string, string)>, j: nat, t: TypeTally)
    requires j < |mine| && t == Tally(before + mine[..j])
    ensures Tally(before + mine[..j + 1]) == Record(t, mine[j].0, mine[j].1)
  {
    assert (before + mine[..j + 1])[..|before| + j] == before + mine[..j];
    assert (before + mine[..j + 1])[|before| + j] == mine[j];
  }

  /** The inner loop: record one anomaly's types with its symbol. */
  method CountAnomalyTypes(t0: TypeTally, ghost before: seq<(string, string)>, a: Anomaly) returns (t: TypeTally)
    requires t0 == Tally(before)
    ensures t == Tally(before + PairsOf(a))
  {
    ghost var mine := PairsOf(a);
    t := t0;
    var j := 0;
    assert before + mine[..0] == before;
    while j < |a.anomalyTypes|
      invariant 0 <= j <= |a.anomalyTypes|
      invariant t == Tally(before + mine[..j])
    {
      var ty := a.anomalyTypes[j];
      TallyPairStep(before, mine, j, t);
      assert mine[j] == (a.symbol, ty);
      t := Record(t, a.symbol, ty);
      j := j + 1;
    }
    assert mine[..j] == mine;
  }
}

=== FILE: email_notifier.dfy ===
/**
 * The e-mail alert for high-conviction anomalies: configuration from the
 * environment, the score threshold, the alert content (rows ordered by
 * composite score, each with its insider pattern) and the SMTP transport
 * rule. Rendering numbers as text, the clock and the SMTP conversation
 * are outside the model: the timestamp is a parameter, the content is a
 * sequence of fragments, and delivery is a parameter.
 */
module EmailNotifier {
  import opened Wrappers
  import opened Numeric
  import opened Text
  import opened SeqUtil
  import opened Sorting

  /** `os.getenv(key, default)`. */
  function Getenv(env: map<string, string>, key: string, default: string): string
  {
    if key in env then env[key] else default
  }

  /** The notifier's settings, fixed when it is created. */
  datatype Config = Config(
    smtpHost: string, smtpPort: int, smtpUser: string, smtpPass: string,
    useTls: bool, useSsl: bool, fromEmail: string, toEmail: string,
    minScore: real, enabled: bool)

  /**
   * EmailNotifier(): every setting read from the environment with its
   * default. Turning the port and threshold text into numbers is Python's
   * int() and float(), given here as `parseInt` and `parseReal`; text they
   * reject raises, which is the error result.
   */
  function ConfigFromEnv(env: map<string, string>, parseInt: string -> Option<int>,
                         parseReal: string -> Option<real>): (r: Result<Config>)
    ensures r.Err? <==> parseInt(Getenv(env, "SMTP_PORT", "465")).None?
                        || parseReal(Getenv(env, "ANOMALY_ALERT_MIN_SCORE", "7.0")).None?
    ensures r.Ok? ==> !(r.value.useTls && r.value.useSsl)
    ensures r.Ok? ==> (r.value.useTls <==> r.value.smtpPort == 587) && (r.value.useSsl <==> r.value.smtpPort == 465)
    ensures r.Ok? ==> r.value.fromEmail == r.value.smtpUser
    ensures r.Ok? ==> (r.value.enabled <==> Lower(Getenv(env, "ANOMALY_EMAIL_ENABLED", "true")) == "true")
    ensures r.Ok? && "SMTP_PORT" !in env ==> r.value.smtpPort == parseInt("465").value
  {
    match parseInt(Getenv(env, "SMTP_PORT", "465"))
    case None => Err("ValueError: SMTP_PORT")
    case Some(port) =>
      match parseReal(Getenv(env, "ANOMALY_ALERT_MIN_SCORE", "7.0"))
      case None => Err("ValueError: ANOMALY_ALERT_MIN_SCORE")
      case Some(minScore) =>
        var user := Getenv(env, "SENDER_EMAIL", "");
        Ok(Config(
          Getenv(env, "SMTP_SERVER", "smtp.gmail.com"), port, user, Getenv(env, "EMAIL_PASSWORD", ""),
          port == 587, port == 465, Getenv(env, "SENDER_EMAIL", user), Getenv(env, "RECIPIENT_EMAIL", ""),
          minScore, Lower(Getenv(env, "ANOMALY_EMAIL_ENABLED", "true")) == "true"))
  }

  /** `d.get(key, default)` on a numeric entry that may be missing. */
  function GetOr(o: Option<real>, default: real): real
  {
    if o.Some? then o.value else default
  }

  /** The `details` entries the alert reads; each may be missing. */
  datatype Details = Details(
    callVolume: Option<real>, putVolume: Option<real>,
    callBaselineAvg: Option<real>, putBaselineAvg: Option<real>,
    volumeScore: Option<real>, otmCallScore: Option<real>,
    directionalScore: Option<real>, timePressureScore: Option<real>)

  /** One anomaly's data: its composite score and details, either possibly missing. */
  datatype AnomalyData = AnomalyData(compositeScore: Option<real>, details: Option<Details>)

  /** The anomalies dictionary as its items, in insertion order. */
  type Anomalies = seq<Item>

  /** One item of the anomalies dictionary: a symbol and its data. */
  type Item = (string, AnomalyData)

  /** A missing `details` reads as an empty dictionary. */
  function DetailsOf(d: AnomalyData): Details
  {
    if d.details.Some? then d.details.value else Details(None, None, None, None, None, None, None, None)
  }

  /** `data.get('composite_score', 0)` */
  function Score(a: Item): real
  {
    GetOr(a.1.compositeScore, 0.0)
  }

  /** The threshold test applied to each anomaly. */
  function AtLeast(minScore: real): Item -> bool
  {
    a => Score(a) >= minScore
  }

  /** The anomalies that are alerted on, in their original order. */
  function HighConviction(anomalies: Anomalies, minScore: real): Anomalies
  {
    Filter(anomalies, AtLeast(minScore))
  }

  /** The alerted anomalies are exactly those scoring at least the threshold, each as often as given. */
  lemma HighConvictionMeaning(anomalies: Anomalies, minScore: real)
    ensures forall a :: a in HighConviction(anomalies, minScore) <==> a in anomalies && Score(a) >= minScore
    ensures forall a :: Score(a) >= minScore ==> multiset(HighConviction(anomalies, minScore))[a] == multiset(anomalies)[a]
    ensures HighConviction(anomalies, minScore) == [] <==> forall a :: a in anomalies ==> Score(a) < minScore
  {
    var high := HighConviction(anomalies, minScore);
    forall a | Score(a) >= minScore
      ensures multiset(high)[a] == multiset(anomalies)[a]
    {
      FilterCount(anomalies, AtLeast(minScore), a);
    }
    if high != [] {
      assert high[0] in high;
    }
    forall a | a in anomalies && Score(a) >= minScore
      ensures a in high
    {
      assert multiset(anomalies)[a] > 0;
    }
  }

  // ---------------------------------------------------------------------
  // The insider pattern of one row
  // ---------------------------------------------------------------------

  datatype Pattern = Bullish | Bearish | Mixed

  /** Today's call volume over its baseline, 0 without a positive baseline. */
  function CallMultiplier(callVolume: real, baseline: real): (r: real)
    ensures baseline > 0.0 ==> r * baseline == callVolume
    ensures baseline <= 0.0 ==> r == 0.0
  {
    if baseline > 0.0 then callVolume / baseline else 0.0
  }

  /** The share of calls in the day's volume, in percent; 0 when there is no volume. */
  function CallPercentage(callVolume: real, putVolume: real): (r: real)
    ensures callVolume + putVolume > 0.0 ==> r * (callVolume + putVolume) == callVolume * 100.0
    ensures callVolume + putVolume <= 0.0 ==> r == 0.0
  {
    var total := callVolume + putVolume;
    if total > 0.0 then callVolume / total * 100.0 else 0.0
  }

  function PatternOf(callPercentage: real): Pattern
  {
    if callPercentage >= 80.0 then Bullish
    else if callPercentage <= 20.0 then Bearish
    else Mixed
  }

  /**
   * The pattern read off the volumes themselves: bullish when calls are at
   * least four times the puts, bearish when puts are at least four times
   * the calls or there is no volume at all, mixed otherwise.
   */
  lemma PatternByVolumes(callVolume: real, putVolume: real)
    ensures var p := PatternOf(CallPercentage(callVolume, putVolume));
      && (p == Bullish <==> callVolume + putVolume > 0.0 && callVolume >= 4.0 * putVolume)
      && (p == Bearish <==> callVolume + putVolume <= 0.0 || putVolume >= 4.0 * callVolume)
      && (p == Mixed <==> callVolume + putVolume > 0.0 && callVolume < 4.0 * putVolume && putVolume < 4.0 * callVolume)
  {
    var t := callVolume + putVolume;
    if t > 0.0 {
      var r := CallPercentage(callVolume, putVolume);
      assert r * t == callVolume * 100.0;
      ScaledCompare(r, t, 80.0, callVolume * 100.0);
      ScaledCompare(r, t, 20.0, callVolume * 100.0);
    }
  }

  // ---------------------------------------------------------------------
  // The alert content
  // ---------------------------------------------------------------------

  /** A row of the summary table. */
  datatype SummaryRow = SummaryRow(
    symbol: string, score: real, callMultiplier: real, callPercentage: real,
    putPercentage: real, otmScore: real, pattern: Pattern)

  /** A per-symbol detailed breakdown. */
  datatype DetailRow = DetailRow(
    dsymbol: string, dscore: real, volumeScore: real, otmCallScore: real,
    directionalScore: real, timeScore: real, callVolume: real, putVolume: real,
    callBaseline: real, putBaseline: real, multiplier: real, totalVolume: real)

  /** The pieces the HTML body is assembled from, in order. */
  datatype Fragment =
    | Head(timestamp: string, count: nat, minScore: real)
    | TableHead
    | Summary(srow: SummaryRow)
    | TableEnd
    | DetailHead
    | Detail(drow: DetailRow)
    | Footer(footerTimestamp: string)

  function SummaryOf(a: Item): SummaryRow
  {
    var d := DetailsOf(a.1);
    var cv, pv := GetOr(d.callVolume, 0.0), GetOr(d.putVolume, 0.0);
    var pct := CallPercentage(cv, pv);
    SummaryRow(a.0, Score(a), CallMultiplier(cv, GetOr(d.callBaselineAvg, 1.0)), pct, 100.0 - pct,
               GetOr(d.otmCallScore, 0.0), PatternOf(pct))
  }

  function DetailOf(a: Item): DetailRow
  {
    var d := DetailsOf(a.1);
    var cv, pv := GetOr(d.callVolume, 0.0), GetOr(d.putVolume, 0.0);
    var cb := GetOr(d.callBaselineAvg, 1.0);
    DetailRow(a.0, Score(a), GetOr(d.volumeScore, 0.0), GetOr(d.otmCallScore, 0.0),
              GetOr(d.directionalScore, 0.0), GetOr(d.timePressureScore, 0.0),
              cv, pv, cb, GetOr(d.putBaselineAvg, 1.0), CallMultiplier(cv, cb), cv + pv)
  }

  /** "a may stay ahead of b" for `sorted(..., key=score, reverse=True)`. */
  function ByScoreDesc(a: Item, b: Item): bool
  {
    Score(a) >= Score(b)
  }

  /** The anomalies in the order the alert lists them. */
  function Ordered(anomalies: Anomalies): seq<Item>
  {
    Sort(anomalies, ByScoreDesc)
  }

  /**
   * The alert body: header, the summary table with one row per anomaly,
   * the detailed analysis with one block per anomaly, footer; both lists
   * in descending composite score.
   */
  function Content(anomalies: Anomalies, minScore: real, timestamp: string): (html: seq<Fragment>)
    ensures |html| == 2 * |anomalies| + 5
  {
    var s := Ordered(anomalies);
    [Head(timestamp, |s|, minScore), TableHead]
    + seq(|s|, i requires 0 <= i < |s| => Summary(SummaryOf(s[i])))
    + [TableEnd, DetailHead]
    + seq(|s|, i requires 0 <= i < |s| => Detail(DetailOf(s[i])))
    + [Footer(timestamp)]
  }

  /**
   * The alert lists every anomaly it is given, each exactly as often as
   * given, highest composite score first.
   */
  lemma OrderedMeaning(anomalies: Anomalies)
    ensures multiset(Ordered(anomalies)) == multiset(anomalies)
    ensures forall i, j :: 0 <= i < j < |anomalies| ==> Score(Ordered(anomalies)[i]) >= Score(Ordered(anomalies)[j])
  {
    ScoreOrderTotal();
    SortSorted(anomalies, ByScoreDesc);
  }

  /**
   * The content's layout: the summary row and the detail block of the
   * `i`-th anomaly in that order sit at `i + 2` and `i + n + 4`, between
   * the fixed header, table delimiters and footer.
   */
  lemma ContentLayout(anomalies: Anomalies, minScore: real, timestamp: string)
    ensures Content(anomalies, minScore, timestamp)[0] == Head(timestamp, |anomalies|, minScore)
    ensures Content(anomalies, minScore, timestamp)[1] == TableHead
    ensures Content(anomalies, minScore, timestamp)[|anomalies| + 2] == TableEnd
    ensures Content(anomalies, minScore, timestamp)[|anomalies| + 3] == DetailHead
    ensures Content(anomalies, minScore, timestamp)[2 * |anomalies| + 4] == Footer(timestamp)
    ensures forall i :: 0 <= i < |anomalies| ==>
      && Content(anomalies, minScore, timestamp)[i + 2] == Summary(SummaryOf(Ordered(anomalies)[i]))
      && Content(anomalies, minScore, timestamp)[i + |anomalies| + 4] == Detail(DetailOf(Ordered(anomalies)[i]))
  {
  }

  /** Ordering by composite score is a total preorder. */
  lemma ScoreOrderTotal()
    ensures TotalPreorder(ByScoreDesc)
  {
  }

  /**
   * _create_email_content: the header, then the summary rows and then the
   * detail blocks appended one anomaly at a time, then the footer.
   */
  method CreateEmailContent(anomalies: Anomalies, minScore: real, timestamp: string) returns (html: seq<Fragment>)
    ensures html == Content(anomalies, minScore, timestamp)
  {
    var s := Ordered(anomalies);
    html := AppendSummaries([Head(timestamp, |s|, minScore), TableHead], s);
    html := html + [TableEnd, DetailHead];
    html := AppendDetails(html, s);
    html := html + [Footer(timestamp)];
  }

  /** The summary-table loop: one row per anomaly, in order. */
  method AppendSummaries(front: seq<Fragment>, s: Anomalies) returns (html: seq<Fragment>)
    ensures html == front + seq(|s|, k requires 0 <= k < |s| => Summary(SummaryOf(s[k])))
  {
    html := front;
    var i := 0;
    while i < |s|
      invariant 0 <= i <= |s|
      invariant html == front + seq(i, k requires 0 <= k < i => Summary(SummaryOf(s[k])))
    {
      html := html + [Summary(SummaryOf(s[i]))];
      i := i + 1;
    }
  }

  /** The detail loop: one block per anomaly, in order. */
  method AppendDetails(front: seq<Fragment>, s: Anomalies) returns (html: seq<Fragment>)
    ensures html == front + seq(|s|, k requires 0 <= k < |s| => Detail(DetailOf(s[k])))
  {
    html := front;
    var i := 0;
    while i < |s|
      invariant 0 <= i <= |s|
      invariant html == front + seq(i, k requires 0 <= k < i => Detail(DetailOf(s[k])))
    {
      html := html + [Detail(DetailOf(s[i]))];
      i := i + 1;
    }
  }

  // ---------------------------------------------------------------------
  // Sending
  // ---------------------------------------------------------------------

  const SubjectPrefix := "INSIDER TRADING ALERT: "
  const SubjectSuffix := " High-Conviction Anomalies Detected"

  /** The subject line, naming how many anomalies are alerted. */
  function Subject(count: nat): (r: string)
    ensures |SubjectPrefix| < |r| - |SubjectSuffix| && StartsWith(r, SubjectPrefix)
    ensures AllDigits(r[|SubjectPrefix|..|r| - |SubjectSuffix|])
  {
    var r := SubjectPrefix + NatToString(count) + SubjectSuffix;
    assert r[|SubjectPrefix|..|r| - |SubjectSuffix|] == NatToString(count);
    r
  }

  /** The count can be read back from the subject line. */
  lemma SubjectCount(count: nat)
    ensures var r := Subject(count); DigitsValue(r[|SubjectPrefix|..|r| - |SubjectSuffix|]) == count
  {
    var r := Subject(count);
    assert r[|SubjectPrefix|..|r| - |SubjectSuffix|] == NatToString(count);
    NatToStringValue(count);
  }

  /** How the SMTP connection is opened and who logs in. */
  datatype Session = Session(host: string, port: int, ssl: bool, starttls: bool, user: string, password: string)

  /** The message handed to the server. */
  datatype Message = Message(subject: string, fromAddr: string, toAddr: string, html: seq<Fragment>)

  /**
   * _send_email up to the SMTP conversation: missing credentials or
   * recipient raise ValueError; otherwise an SSL connection on port 465,
   * else a plain one upgraded with STARTTLS on port 587.
   */
  /** The error raised when a credential or the recipient is missing. */
  const MissingConfiguration := "ValueError: Missing required email configuration (SENDER_EMAIL, EMAIL_PASSWORD, RECIPIENT_EMAIL)"

  function SendEmail(c: Config, subject: string, html: seq<Fragment>): (r: Result<(Session, Message)>)
    requires c.useTls <==> c.smtpPort == 587
    requires c.useSsl <==> c.smtpPort == 465
    ensures r.Err? <==> c.smtpUser == "" || c.smtpPass == "" || c.toEmail == ""
    ensures r.Ok? ==> var (session, msg) := r.value;
      && (session.ssl <==> c.smtpPort == 465) && (session.starttls <==> c.smtpPort == 587)
      && !(session.ssl && session.starttls)
      && session.user == c.smtpUser && session.password == c.smtpPass
      && msg == Message(subject, c.fromEmail, c.toEmail, html)
  {
    if c.smtpUser == "" || c.smtpPass == "" || c.toEmail == "" then
      Err(MissingConfiguration)
    else
      Ok((Session(c.smtpHost, c.smtpPort, c.useSsl, !c.useSsl && c.useTls, c.smtpUser, c.smtpPass),
          Message(subject, c.fromEmail, c.toEmail, html)))
  }

  /**
   * send_anomaly_alert: nothing to send (disabled, no anomalies, none at
   * the threshold) is success; otherwise the alert about exactly the
   * anomalies at or above the threshold is built and sent, and a
   * configuration error or a failed delivery is failure. `deliver` is the
   * SMTP conversation; it answers whether the message went out.
   */
  method SendAnomalyAlert(c: Config, anomalies: Anomalies, timestamp: string,
                          deliver: (Session, Message) -> bool) returns (ok: bool, sent: Option<(Session, Message)>)
    requires c.useTls <==> c.smtpPort == 587
    requires c.useSsl <==> c.smtpPort == 465
    ensures ok && sent.None? <==> !c.enabled || HighConviction(anomalies, c.minScore) == []
    ensures sent.Some? ==>
      var high := HighConviction(anomalies, c.minScore);
      && c.enabled && high != []
      && sent.value.1 == Message(Subject(|high|), c.fromEmail, c.toEmail, Content(high, c.minScore, timestamp))
      && (ok <==> deliver(sent.value.0, sent.value.1))
    ensures sent.None? && !ok <==>
      c.enabled && HighConviction(anomalies, c.minScore) != [] && (c.smtpUser == "" || c.smtpPass == "" || c.toEmail == "")
  {
    if !c.enabled {
      return true, None;
    }
    if anomalies == [] {
      return true, None;
    }
    var high := HighConviction(anomalies, c.minScore);
    if high == [] {
      return true, None;
    }
    var html := CreateEmailContent(high, c.minScore, timestamp);
    var r := SendEmail(c, Subject(|high|), html);
    if r.Err? {
      ok, sent := false, None;
    } else {
      ok, sent := deliver(r.value.0, r.value.1), Some(r.value);
    }
  }
}

=== FILE: enhanced_detection.dfy ===
/**
 * The enhanced intraday detector (analysis/enhanced_anomaly_detection.py):
 * the score of each of its five detectors, the collection of high-score
 * alerts, the weekday lookup for the event date, and the grouping of alerts
 * by symbol for the alert e-mail.
 *
 * The SQL queries are outside the model: each detector receives the rows
 * its query returned, and the conditions those queries guarantee are
 * stated as predicates on the rows.
 */
module EnhancedDetection {
  import opened Wrappers
  import opened Numeric
  import opened SeqUtil
  import opened Grouping
  import opened Calendar

  /** `x or 0` and `x or 1` on a column that may be NULL. */
  function OrElse(x: Option<real>, default: real): real
  {
    match x
    case Some(v) => if v == 0.0 then default else v
    case None => default
  }

  // ---------------------------------------------------------------------
  // 1. Unusual volume with greeks
  // ---------------------------------------------------------------------

  datatype VolumeRow = VolumeRow(symbol: string, zScore: Option<real>, delta: Option<real>,
                                 gamma: Option<real>, sessionVolume: nat)

  /** z-score, plus twice the absolute delta, plus the capped gamma and volume bonuses. */
  function VolumeGreeksScore(row: VolumeRow): (r: real)
    ensures r <= OrElse(row.zScore, 0.0) + 2.0 * Abs(OrElse(row.delta, 0.0)) + 5.0
    ensures OrElse(row.gamma, 0.0) >= 0.0 ==> r >= OrElse(row.zScore, 0.0) + 2.0 * Abs(OrElse(row.delta, 0.0))
  {
    var z := OrElse(row.zScore, 0.0);
    var delta := Abs(OrElse(row.delta, 0.0));
    var gamma := OrElse(row.gamma, 0.0);
    var volume := row.sessionVolume as real;
    z + delta * 2.0 + Min(gamma * 100.0, 2.0) + Min(volume / 1000.0, 3.0)
  }

  /** What the volume query guarantees: a z-score of at least min_z and at least 100 contracts traded. */
  predicate VolumeQueryRow(row: VolumeRow, minZ: real)
  {
    row.zScore.Some? && row.zScore.value >= minZ && row.delta.Some? && row.sessionVolume >= 100
  }

  /** A returned row scores at least its z-score threshold plus the volume bonus of 100 contracts, when gamma is not negative. */
  lemma VolumeScoreAboveThreshold(row: VolumeRow, minZ: real)
    requires VolumeQueryRow(row, minZ) && minZ > 0.0
    requires OrElse(row.gamma, 0.0) >= 0.0
    ensures VolumeGreeksScore(row) >= minZ + 0.1
  {
    assert row.sessionVolume as real / 1000.0 >= 0.1;
  }

  /** More volume never lowers the score, and beyond 3000 contracts it no longer raises it. */
  lemma VolumeBonusMonotone(row: VolumeRow, more: nat)
    requires more >= row.sessionVolume
    ensures VolumeGreeksScore(row) <= VolumeGreeksScore(row.(sessionVolume := more))
    ensures row.sessionVolume >= 3000 ==> VolumeGreeksScore(row) == VolumeGreeksScore(row.(sessionVolume := more))
  {
    assert row.sessionVolume as real / 1000.0 <= more as real / 1000.0;
  }

  // ---------------------------------------------------------------------
  // 2. Open-interest spikes
  // ---------------------------------------------------------------------

  datatype OiRow = OiRow(symbol: string, oiRatio: Option<real>, openInterest: nat, sessionVolume: nat,
                         prevOi: Option<nat>)

  /** The capped open-interest ratio, the capped volume/OI confirmation, and 3 for a new position. */
  function OiSpikeScore(row: OiRow): (r: real)
    ensures row.prevOi.None? && OrElse(row.oiRatio, 1.0) >= 0.0 ==> r >= 3.0
    ensures r <= Min(OrElse(row.oiRatio, 1.0), 10.0) + 2.0 + (if row.prevOi.None? then 3.0 else 0.0)
  {
    var ratio := OrElse(row.oiRatio, 1.0);
    var volume := row.sessionVolume as real;
    var confirmation := Min(volume / MaxInt(row.openInterest, 1) as real, 2.0);
    assert volume / MaxInt(row.openInterest, 1) as real >= 0.0;
    var bonus := if row.prevOi.None? then 3.0 else 0.0;
    Min(ratio, 10.0) + confirmation + bonus
  }

  /** What the OI query guarantees: a previous OI above zero, at least 500 open, a ratio of at least min_ratio. */
  predicate OiQueryRow(row: OiRow, minRatio: real)
  {
    && row.prevOi.Some? && row.prevOi.value > 0
    && row.openInterest >= 500
    && row.oiRatio == Some(row.openInterest as real / row.prevOi.value as real)
    && row.openInterest as real / row.prevOi.value as real >= minRatio
  }

  /**
   * The query only returns rows with a previous open interest, so the
   * new-position bonus never applies: a returned row scores at most 12 and
   * at least its capped ratio threshold.
   */
  lemma OiNewPositionBonusNeverApplies(row: OiRow, minRatio: real)
    requires OiQueryRow(row, minRatio) && minRatio > 0.0
    ensures OiSpikeScore(row) <= 12.0
    ensures OiSpikeScore(row) >= Min(minRatio, 10.0)
  {
    var ratio := row.openInterest as real / row.prevOi.value as real;
    assert ratio > 0.0;
    assert OrElse(row.oiRatio, 1.0) == ratio;
  }

  // ---------------------------------------------------------------------
  // 3. Coordinated strikes
  // ---------------------------------------------------------------------

  /** Strike diversity, capped at 8, plus ladder volume in thousands, capped at 5. */
  function LadderScore(strikeCount: nat, ladderVolume: nat): (r: real)
    ensures 0.0 <= r <= 13.0
  {
    Min(strikeCount as real * 0.8, 8.0) + Min(ladderVolume as real / 1000.0, 5.0)
  }

  /** A ladder the query returns (four strikes or more, 1000 contracts or more) scores at least 4.2; more strikes or volume never lower it. */
  lemma LadderScoreBounds(strikeCount: nat, ladderVolume: nat, moreStrikes: nat, moreVolume: nat)
    requires strikeCount >= 4 && ladderVolume >= 1000
    requires moreStrikes >= strikeCount && moreVolume >= ladderVolume
    ensures LadderScore(strikeCount, ladderVolume) >= 4.2
    ensures LadderScore(strikeCount, ladderVolume) <= LadderScore(moreStrikes, moreVolume)
  {
    assert ladderVolume as real / 1000.0 >= 1.0;
    assert ladderVolume as real / 1000.0 <= moreVolume as real / 1000.0;
  }

  // ---------------------------------------------------------------------
  // 4. Pre-move positioning
  // ---------------------------------------------------------------------

  /** Twenty times the absolute move, capped at 8, plus volume in 500s, capped at 4, plus 2 for timing. */
  function PreMoveScore(pctChange: real, volume: nat): (r: real)
    ensures 2.0 <= r <= 14.0
  {
    Min(Abs(pctChange) * 20.0, 8.0) + Min(volume as real / 500.0, 4.0) + 2.0
  }

  /** A returned row (a move beyond 3%, at least 200 contracts) scores at least 3; a move of 40% or more reaches the move cap. */
  lemma PreMoveScoreOfQueryRow(pctChange: real, volume: nat)
    requires Abs(pctChange) > 0.03 && volume >= 200
    ensures PreMoveScore(pctChange, volume) > 3.0
    ensures Abs(pctChange) >= 0.4 ==> PreMoveScore(pctChange, volume) >= 10.0
  {
    assert volume as real / 500.0 >= 0.4;
  }

  // ---------------------------------------------------------------------
  // 5. Low-volume stocks with high-conviction bets
  // ---------------------------------------------------------------------

  /**
   * The capped volume ratio, a bonus that shrinks as the stock's own volume
   * grows, and the capped option/stock volume concentration. The stock
   * volume divides, so it must not be zero; the query keeps 0 < volume.
   */
  function LowVolumeScore(volumeRatio: Option<real>, optionVolume: nat, stockVolume: nat): (r: real)
    requires stockVolume > 0
    ensures r <= 13.0
    ensures OrElse(volumeRatio, 1.0) >= 0.0 ==> r >= 0.0
  {
    var ratio := OrElse(volumeRatio, 1.0);
    var baseScore := Min(ratio * 0.8, 8.0);
    var lowVolumeBonus := Max(3.0 - stockVolume as real / 500000.0, 0.0);
    var concentration := Min(optionVolume as real / (stockVolume as real / 100.0), 2.0);
    assert optionVolume as real / (stockVolume as real / 100.0) >= 0.0;
    baseScore + lowVolumeBonus + concentration
  }

  /** The low-volume bonus is above 1 for every stock the query keeps (under a million shares). */
  lemma LowVolumeBonusOfQueryRow(volumeRatio: Option<real>, optionVolume: nat, stockVolume: nat)
    requires 0 < stockVolume < 1000000
    requires OrElse(volumeRatio, 1.0) >= 5.0
    ensures LowVolumeScore(volumeRatio, optionVolume, stockVolume) > 5.0
  {
    assert stockVolume as real / 500000.0 < 2.0;
    assert optionVolume as real / (stockVolume as real / 100.0) >= 0.0;
  }

  // ---------------------------------------------------------------------
  // Alerts
  // ---------------------------------------------------------------------

  datatype AnomalyKind = VolumeGreeks | OiSpike | Coordinated | PreMove | LowVolumeConviction

  datatype Anomaly = Anomaly(symbol: string, score: real, kind: AnomalyKind)

  datatype DetectionCounts = DetectionCounts(
    unusualVolumePatterns: nat, suspiciousOiSpikes: nat, coordinatedStrikes: nat,
    preMovePositioning: nat, lowVolumeHighConviction: nat, totalHighScoreAlerts: nat)

  function HighScore(minScore: real): Anomaly -> bool
  {
    (a: Anomaly) => a.score >= minScore
  }

  /** Filtering the five lists one by one and concatenating is filtering their concatenation. */
  lemma FilterFive(p: Anomaly -> bool, a: seq<Anomaly>, b: seq<Anomaly>, c: seq<Anomaly>, d: seq<Anomaly>, e: seq<Anomaly>)
    ensures Filter(a, p) + Filter(b, p) + Filter(c, p) + Filter(d, p) + Filter(e, p) == Filter(a + b + c + d + e, p)
  {
    FilterConcat(a, b, p);
    FilterConcat(a + b, c, p);
    FilterConcat(a + b + c, d, p);
    FilterConcat(a + b + c + d, e, p);
  }

  /**
   * detect_intraday_anomalies: count each detector's anomalies and collect,
   * detector by detector, those scoring at least the alert minimum.
   */
  method DetectIntradayAnomalies(minScore: real, volume: seq<Anomaly>, oi: seq<Anomaly>, coordinated: seq<Anomaly>,
                                 premove: seq<Anomaly>, conviction: seq<Anomaly>)
    returns (counts: DetectionCounts, alerts: seq<Anomaly>)
    ensures alerts == Filter(volume + oi + coordinated + premove + conviction, HighScore(minScore))
    ensures counts == DetectionCounts(|volume|, |oi|, |coordinated|, |premove|, |conviction|, |alerts|)
  {
    var high := HighScore(minScore);
    alerts := [];
    alerts := alerts + Filter(volume, high);
    alerts := alerts + Filter(oi, high);
    alerts := alerts + Filter(coordinated, high);
    alerts := alerts + Filter(premove, high);
    alerts := alerts + Filter(conviction, high);
    FilterFive(high, volume, oi, coordinated, premove, conviction);
    assert [] + Filter(volume, high) == Filter(volume, high);
    counts := DetectionCounts(|volume|, |oi|, |coordinated|, |premove|, |conviction|, |alerts|);
  }

  /** An anomaly is alerted exactly when some detector found it and it scores at least the minimum. */
  lemma AlertsAreTheHighScorers(minScore: real, all: seq<Anomaly>, a: Anomaly)
    ensures a in Filter(all, HighScore(minScore)) <==> a in all && a.score >= minScore
  {
    if a in all && a.score >= minScore {
      FilterCount(all, HighScore(minScore), a);
    }
  }

  /** The high-score list keeps detector order: every alert of one detector comes before those of the next. */
  lemma AlertsKeepDetectorOrder(minScore: real, volume: seq<Anomaly>, rest: seq<Anomaly>)
    ensures |Filter(volume, HighScore(minScore))| <= |Filter(volume + rest, HighScore(minScore))|
            && Filter(volume + rest, HighScore(minScore))[..|Filter(volume, HighScore(minScore))|]
               == Filter(volume, HighScore(minScore))
  {
    FilterConcat(volume, rest, HighScore(minScore));
  }

  // ---------------------------------------------------------------------
  // Event date and grouping
  // ---------------------------------------------------------------------

  /** The search over today and the six days before for a Monday-to-Friday date, with the today-5 fallback. */
  function WeekdaySearch(today: int, i: nat): int
    decreases 7 - i
  {
    if i >= 7 then today - 5
    else if Weekday(today - i) < 5 then today - i
    else WeekdaySearch(today, i + 1)
  }

  /**
   * _get_most_recent_trading_day: the latest Monday-to-Friday date up to
   * today, never more than two days back, so the fallback is never used.
   */
  function MostRecentTradingDay(today: int): (d: int)
    ensures today - 2 <= d <= today && IsWeekday(d)
    ensures forall e :: d < e <= today ==> !IsWeekday(e)
  {
    var w := Weekday(today);
    assert w == 5 ==> Weekday(today - 1) == 4;
    assert w == 6 ==> Weekday(today - 1) == 5 && Weekday(today - 2) == 4;
    WeekdaySearch(today, 0)
  }

  function AlertSymbol(a: Anomaly): string { a.symbol }

  /**
   * The by-symbol grouping of the alert e-mail partitions the alerts: each
   * lands, as often as it occurs, in the group of its symbol and in no
   * other, and the groups together hold exactly the alerts. The symbols come
   * in the order of their first alert and each group keeps the alerts' order.
   */
  method GroupAlertsBySymbol(alerts: seq<Anomaly>) returns (symbols: seq<string>, bySymbol: map<string, seq<Anomaly>>)
    ensures symbols == FirstKeys(alerts, AlertSymbol)
    ensures forall s :: s in bySymbol ==> bySymbol[s] == Group(alerts, AlertSymbol, s)
    ensures forall s :: s in bySymbol <==> s in symbols
    ensures forall a :: a in alerts ==> a.symbol in bySymbol && multiset(bySymbol[a.symbol])[a] == multiset(alerts)[a]
    ensures forall a, s :: s in bySymbol && a in bySymbol[s] ==> a.symbol == s
    ensures SumGroupSizes(alerts, AlertSymbol, symbols) == |alerts|
  {
    symbols, bySymbol := GroupBy(alerts, AlertSymbol);
    FirstKeysDistinct(alerts, AlertSymbol);
    GroupSizes(alerts, AlertSymbol);
    forall a | a in alerts ensures a.symbol in bySymbol && multiset(bySymbol[a.symbol])[a] == multiset(alerts)[a] {
      GroupPartition(alerts, AlertSymbol, a, a.symbol);
    }
    forall a, s | s in bySymbol && a in bySymbol[s] ensures a.symbol == s {
      GroupPartition(alerts, AlertSymbol, a, s);
    }
  }
}

=== FILE: flatfile_loader.dfy ===
/**
 * The flat-file loader for one day of option aggregates: the candidate
 * object keys for a date, the normalisation of CSV rows onto the eight
 * snapshot columns, the candidate-by-candidate download with the last
 * error re-raised, and the skip of a date whose snapshot is already
 * loaded. The object store, the gzip/CSV decoding, the database and the
 * bulk upsert are parameters.
 */
module FlatfileLoader {
  import opened Wrappers
  import opened Numeric
  import opened Text
  import opened StockData

  const DefaultPrefix := "us_options_opra/day_aggs_v1"
  const Suffix := ".csv.gz"
  const MissingKeysError := "Polygon Flat Files require S3 Access Key/Secret"
  const NoCandidateError := "No candidate S3 key succeeded and no error captured"

  predicate EndsWith(s: string, suffix: string)
  {
    |suffix| <= |s| && s[|s| - |suffix|..] == suffix
  }

  /** `s[i:j]`, with out-of-range bounds clamped as Python does. */
  function PySlice(s: string, i: nat, j: nat): (r: string)
    ensures i <= j <= |s| ==> r == s[i..j]
    ensures |s| <= i ==> r == ""
    ensures |r| <= |s|
  {
    var a := if i < |s| then i else |s|;
    var b := if j < a then a else if j < |s| then j else |s|;
    s[a..b]
  }

  /** `s.replace(c, '')` for a single character. */
  function Strip(s: string, c: char): (r: string)
    ensures c !in r
    ensures |r| <= |s|
  {
    if s == [] then [] else (if s[0] == c then [] else [s[0]]) + Strip(s[1..], c)
  }

  lemma {:induction false} StripConcat(a: string, b: string, c: char)
    ensures Strip(a + b, c) == Strip(a, c) + Strip(b, c)
  {
    if a != [] {
      assert (a + b)[1..] == a[1..] + b;
      StripConcat(a[1..], b, c);
    } else {
      assert a + b == b;
    }
  }

  lemma {:induction false} StripAbsent(s: string, c: char)
    requires c !in s
    ensures Strip(s, c) == s
  {
    if s != [] {
      StripAbsent(s[1..], c);
    }
  }

  /** A date written YYYY-MM-DD: ten characters with dashes at 4 and 7 only. */
  predicate IsIsoDate(s: string)
  {
    |s| == 10 && s[4] == '-' && s[7] == '-' && '-' !in s[..4] && '-' !in s[5..7] && '-' !in s[8..]
  }

  /** The date with its dashes put back, inverse of the compact form. */
  function Dashed(t: string): string
    requires |t| == 8
  {
    t[..4] + ("-" + (t[4..6] + ("-" + t[6..])))
  }

  /** Stripping a dash that follows a dash-free part. */
  lemma StripAfterPart(x: string, y: string)
    requires '-' !in x
    ensures Strip(x + ("-" + y), '-') == x + Strip(y, '-')
  {
    StripAbsent(x, '-');
    StripConcat(x, "-" + y, '-');
    var d := "-" + y;
    assert d[0] == '-' && d[1..] == y;
    assert Strip(d, '-') == Strip(y, '-');
  }

  /** The compact YYYYMMDD form of an ISO date drops exactly its two dashes. */
  lemma CompactDate(date: string)
    requires IsIsoDate(date)
    ensures Strip(date, '-') == date[..4] + (date[5..7] + date[8..])
  {
    var a, b, c := date[..4], date[5..7], date[8..];
    assert date == a + ("-" + (b + ("-" + c)));
    StripAfterPart(a, b + ("-" + c));
    StripAfterPart(b, c);
    StripAbsent(c, '-');
  }

  /** Putting the dashes back into the compact form gives the date again. */
  lemma CompactDateRoundTrip(date: string)
    requires IsIsoDate(date)
    ensures |Strip(date, '-')| == 8
    ensures Dashed(Strip(date, '-')) == date
  {
    CompactDate(date);
    var a, b, c := date[..4], date[5..7], date[8..];
    var t := a + (b + c);
    assert t[..4] == a && t[4..6] == b && t[6..] == c;
    assert date == a + ("-" + (b + ("-" + c)));
  }

  /** build_s3_keys: the three candidate object keys for a date, most likely first. */
  function BuildS3Keys(prefix: string, date: string): (keys: seq<string>)
    ensures |keys| == 3
    ensures forall k | k in keys :: StartsWith(k, prefix + "/" + PySlice(date, 0, 4) + "/") && EndsWith(k, Suffix)
  {
    var year := PySlice(date, 0, 4);
    var month := PySlice(date, 5, 7);
    var compact := Strip(date, '-');
    [prefix + "/" + year + "/" + month + "/" + date + Suffix,
     prefix + "/" + year + "/" + date + Suffix,
     prefix + "/" + year + "/" + compact + Suffix]
  }

  /** For an ISO date the three candidates are different objects, in the YYYY/MM/date, YYYY/date, YYYY/YYYYMMDD layouts. */
  lemma S3KeysLayout(prefix: string, date: string)
    requires IsIsoDate(date)
    ensures var keys := BuildS3Keys(prefix, date);
      && keys[0] == prefix + "/" + date[..4] + "/" + date[5..7] + "/" + date + Suffix
      && keys[1] == prefix + "/" + date[..4] + "/" + date + Suffix
      && keys[2] == prefix + "/" + date[..4] + "/" + date[..4] + date[5..7] + date[8..] + Suffix
      && keys[0] != keys[1] && keys[1] != keys[2] && keys[0] != keys[2]
  {
    CompactDate(date);
    assert date[..4] + (date[5..7] + date[8..]) == date[..4] + date[5..7] + date[8..];
    var keys := BuildS3Keys(prefix, date);
    assert |keys[0]| == |prefix| + 26;
    assert |keys[1]| == |prefix| + 23;
    assert |keys[2]| == |prefix| + 21;
  }

  /** A CSV row: column name to cell text; a column the file lacks is absent. */
  type Row = map<string, string>

  const FieldNames: set<string> := {"ticker", "volume", "open", "close", "high", "low", "window_start", "transactions"}

  /** The columns read for a snapshot field, in the order they are tried. */
  function Aliases(field: string): (r: seq<string>)
    ensures |r| >= 1 && r[0] == field
  {
    if field == "ticker" then ["ticker", "symbol", "T"]
    else if field == "volume" then ["volume", "v"]
    else if field == "open" then ["open", "o"]
    else if field == "close" then ["close", "c"]
    else if field == "high" then ["high", "h"]
    else if field == "low" then ["low", "l"]
    else if field == "window_start" then ["window_start", "t"]
    else if field == "transactions" then ["transactions", "n"]
    else [field]
  }

  /**
   * `row.get(a1) or row.get(a2) or ... or ''`: the value of the first
   * alias present with a non-empty cell, else the empty string.
   */
  function FirstTruthy(row: Row, aliases: seq<string>): (r: string)
    ensures r == "" <==> forall a | a in aliases :: a !in row || row[a] == ""
    ensures r != "" ==> exists i | 0 <= i < |aliases| ::
      aliases[i] in row && row[aliases[i]] == r && forall j | 0 <= j < i :: aliases[j] !in row || row[aliases[j]] == ""
  {
    if aliases == [] then ""
    else if aliases[0] in row && row[aliases[0]] != "" then row[aliases[0]]
    else
      var r := FirstTruthy(row, aliases[1..]);
      assert forall a | a in aliases[1..] :: a in aliases;
      assert forall a | a in aliases :: a == aliases[0] || a in aliases[1..];
      if r != "" then
        var i :| 0 <= i < |aliases[1..]| && aliases[1..][i] in row && row[aliases[1..][i]] == r
          && forall j | 0 <= j < i :: aliases[1..][j] !in row || row[aliases[1..][j]] == "";
        assert aliases[i + 1] in row && row[aliases[i + 1]] == r;
        assert forall j | 0 <= j < i + 1 :: aliases[j] !in row || row[aliases[j]] == "" by {
          forall j | 0 <= j < i + 1
            ensures aliases[j] !in row || row[aliases[j]] == ""
          {
            if j > 0 {
              assert aliases[j] == aliases[1..][j - 1];
            }
          }
        }
        r
      else r
  }

  /** The row-normalisation dict: exactly the eight snapshot columns. */
  function Normalize(row: Row): (n: Row)
    ensures n.Keys == FieldNames
  {
    map f | f in FieldNames :: FirstTruthy(row, Aliases(f))
  }

  function NormalizeAll(rows: seq<Row>): (r: seq<Row>)
    ensures |r| == |rows|
    ensures forall i | 0 <= i < |rows| :: r[i] == Normalize(rows[i])
  {
    seq(|rows|, i requires 0 <= i < |rows| => Normalize(rows[i]))
  }

  /** The other aliases of a field are never field names themselves. */
  lemma AliasTailsOutside(f: string)
    requires f in FieldNames
    ensures forall a | a in Aliases(f)[1..] :: a !in FieldNames
  {
  }

  /** When only the first alias can be present, it decides the value. */
  lemma FirstTruthyHead(row: Row, aliases: seq<string>)
    requires aliases != [] && aliases[0] in row
    requires forall a | a in aliases[1..] :: a !in row
    ensures FirstTruthy(row, aliases) == row[aliases[0]]
  {
    if row[aliases[0]] == "" {
      assert forall a | a in aliases :: a == aliases[0] || a in aliases[1..];
    }
  }

  lemma NormalizeAt(row: Row, f: string)
    requires f in FieldNames
    ensures Normalize(row)[f] == FirstTruthy(row, Aliases(f))
  {
  }

  /** Normalising a normalised row changes nothing: every field is its own first alias. */
  lemma NormalizeIdempotent(row: Row)
    ensures Normalize(Normalize(row)) == Normalize(row)
  {
    var n := Normalize(row);
    var m := Normalize(n);
    forall f | f in FieldNames
      ensures m[f] == n[f]
    {
      NormalizeAt(n, f);
      AliasTailsOutside(f);
      FirstTruthyHead(n, Aliases(f));
    }
    assert m.Keys == n.Keys;
  }

  /**
   * Trying candidate keys in order (the loop in iter_rows_from_s3): the
   * rows of the first object that can be read, or else the error of the
   * last candidate; with the number of candidates tried.
   */
  function TryCandidates(keys: seq<string>, get: string -> Result<seq<Row>>, lastErr: Option<string>): (Result<seq<Row>>, nat)
  {
    if keys == [] then (if lastErr.Some? then Err(lastErr.value) else Err(NoCandidateError), 0)
    else match get(keys[0])
      case Ok(rows) => (Ok(NormalizeAll(rows)), 1)
      case Err(e) =>
        var rest := TryCandidates(keys[1..], get, Some(e));
        (rest.0, rest.1 + 1)
  }

  /**
   * Candidates are tried in order and the iteration stops after the first
   * success: every candidate before the last one tried failed, the rows
   * are those of the last one tried, and when all fail the error raised is
   * the last candidate's.
   */
  lemma {:induction false} TryCandidatesMeaning(keys: seq<string>, get: string -> Result<seq<Row>>, lastErr: Option<string>)
    requires keys != []
    ensures var res := TryCandidates(keys, get, lastErr); var r, n := res.0, res.1;
      && 1 <= n <= |keys|
      && (forall i | 0 <= i < n - 1 :: get(keys[i]).Err?)
      && (r.Ok? <==> get(keys[n - 1]).Ok?)
      && (r.Ok? ==> r.value == NormalizeAll(get(keys[n - 1]).value))
      && (r.Err? ==> n == |keys| && r.error == get(keys[|keys| - 1]).error)
  {
    if get(keys[0]).Err? && |keys| > 1 {
      TryCandidatesMeaning(keys[1..], get, Some(get(keys[0]).error));
      var (r, n) := TryCandidates(keys[1..], get, Some(get(keys[0]).error));
      assert keys[1..][n - 1] == keys[n];
      assert keys[1..][|keys| - 2] == keys[|keys| - 1];
      forall i | 0 <= i < n
        ensures get(keys[i]).Err?
      {
        if i > 0 {
          assert keys[i] == keys[1..][i - 1];
        }
      }
    }
  }

  /** iter_rows_from_s3 as a whole: the key check first, then the candidates. */
  function Stream(accessKey: string, secretKey: string, prefix: string, date: string, get: string -> Result<seq<Row>>): (Result<seq<Row>>, nat)
  {
    if accessKey == "" || secretKey == "" then (Err(MissingKeysError), 0)
    else TryCandidates(BuildS3Keys(prefix, date), get, None)
  }

  /** The result dict of load_for_date. */
  datatype LoadResult = LoadResult(date: string, downloaded: bool, rowsProcessed: nat, skippedExisting: int, success: bool)

  /** `int(v)` for the count column; a string or other value raises. */
  function IntOf(v: Json): Result<int>
  {
    match v
    case JInt(i) => Ok(i)
    case JBool(b) => Ok(if b then 1 else 0)
    case JNum(x) => Ok(Trunc(x))
    case JNull => Err("TypeError")
    case JStr(_) => Err("ValueError")
    case JOther => Err("TypeError")
  }

  /**
   * The existing-row count read before a load: `c`, else `count`, else 0,
   * from the first row of the query; an error means the check raised.
   */
  function ExistingCount(existing: Result<seq<Record>>): (r: Result<int>)
    ensures existing.Err? ==> r.Err?
    ensures r.Ok? && r.value != 0 ==>
      (existing.Ok? && existing.value != []
       && (("c" in existing.value[0] && Truthy(existing.value[0]["c"]))
           || ("count" in existing.value[0] && Truthy(existing.value[0]["count"]))))
  {
    if existing.Err? then Err(existing.error)
    else
      var first: Record := if existing.value != [] then existing.value[0] else map[];
      var v := if "c" in first && Truthy(first["c"]) then first["c"]
               else if "count" in first && Truthy(first["count"]) then first["count"]
               else JInt(0);
      IntOf(v)
  }

  /** PolygonOptionFlatFileLoader; its settings are fixed when it is made. */
  class FlatFileLoader {
    const accessKey: string
    const secretKey: string
    const datasetPrefix: string

    /** The S3 settings from the environment, each taken from its first set variable. */
    constructor (env: map<string, string>)
      ensures accessKey == FirstTruthy(env, ["POLYGON_S3_ACCESS_KEY", "POLYGON_FLATFILES_ACCESS_KEY", "AWS_ACCESS_KEY_ID"])
      ensures secretKey == FirstTruthy(env, ["POLYGON_S3_SECRET_KEY", "POLYGON_FLATFILES_SECRET_KEY", "AWS_SECRET_ACCESS_KEY"])
      ensures datasetPrefix == if "POLYGON_FLATFILES_PREFIX" in env then env["POLYGON_FLATFILES_PREFIX"] else DefaultPrefix
    {
      accessKey := FirstTruthy(env, ["POLYGON_S3_ACCESS_KEY", "POLYGON_FLATFILES_ACCESS_KEY", "AWS_ACCESS_KEY_ID"]);
      secretKey := FirstTruthy(env, ["POLYGON_S3_SECRET_KEY", "POLYGON_FLATFILES_SECRET_KEY", "AWS_SECRET_ACCESS_KEY"]);
      datasetPrefix := if "POLYGON_FLATFILES_PREFIX" in env then env["POLYGON_FLATFILES_PREFIX"] else DefaultPrefix;
    }

    /**
     * iter_rows_from_s3: fail before any download when a key is missing,
     * otherwise try the candidate keys in order, keeping the last error.
     * `tried` lists the keys requested.
     */
    method IterRowsFromS3(date: string, get: string -> Result<seq<Row>>) returns (r: Result<seq<Row>>, tried: seq<string>)
      ensures (r, |tried|) == Stream(accessKey, secretKey, datasetPrefix, date, get)
      ensures accessKey == "" || secretKey == "" ==> r == Err(MissingKeysError) && tried == []
      ensures |tried| <= 3 && tried == BuildS3Keys(datasetPrefix, date)[..|tried|]
    {
      if accessKey == "" || secretKey == "" {
        return Err(MissingKeysError), [];
      }
      var keys := BuildS3Keys(datasetPrefix, date);
      var lastErr: Option<string> := None;
      tried := [];
      var i := 0;
      while i < |keys|
        invariant 0 <= i <= |keys|
        invariant tried == keys[..i]
        invariant TryCandidates(keys, get, None)
          == (TryCandidates(keys[i..], get, lastErr).0, TryCandidates(keys[i..], get, lastErr).1 + i)
      {
        tried := tried + [keys[i]];
        assert keys[..i + 1] == keys[..i] + [keys[i]];
        var res := get(keys[i]);
        match res {
          case Ok(rows) =>
            r := Ok(NormalizeAll(rows));
            return;
          case Err(e) =>
            assert keys[i..][1..] == keys[i + 1..];
            lastErr := Some(e);
        }
        i := i + 1;
      }
      assert keys[i..] == [];
      if lastErr.Some? {
        r := Err(lastErr.value);
      } else {
        r := Err(NoCandidateError);
      }
    }

    /**
     * load_for_date: with skip_existing and rows already present for the
     * date, report success and the existing count without downloading;
     * otherwise stream the file into the bulk upsert, whose exception
     * propagates. A failing existence check is only logged.
     */
    method LoadForDate(date: string, skipExisting: bool, existing: Result<seq<Record>>,
                       get: string -> Result<seq<Row>>, upsert: Result<seq<Row>> -> Result<bool>)
      returns (r: Result<LoadResult>)
      ensures var count := ExistingCount(existing);
        skipExisting && count.Ok? && count.value > 0 ==> r == Ok(LoadResult(date, false, 0, count.value, true))
      ensures var count := ExistingCount(existing);
        !(skipExisting && count.Ok? && count.value > 0) ==>
          match upsert(Stream(accessKey, secretKey, datasetPrefix, date, get).0)
          case Ok(ok) => r == Ok(LoadResult(date, true, 0, 0, ok))
          case Err(e) => r == Err(e)
    {
      var results := LoadResult(date, false, 0, 0, false);
      if skipExisting {
        var count := ExistingCount(existing);
        if count.Ok? && count.value > 0 {
          results := results.(skippedExisting := count.value, success := true);
          return Ok(results);
        }
      }
      var rows, _ := IterRowsFromS3(date, get);
      var ok := upsert(rows);
      if ok.Err? {
        return Err(ok.error);
      }
      results := results.(downloaded := true, success := ok.value);
      r := Ok(results);
    }
  }
}

=== FILE: grouping.dfy ===
/**
 * Grouping a list into a dictionary of lists keyed by one field, the
 * `if k not in d: d[k] = []; d[k].append(x)` loop. Python dictionaries keep
 * insertion order, so the grouping also yields its keys in order of first
 * occurrence.
 */
module Grouping {

  /** The keys of `xs`, each once, in order of first occurrence. */
  function FirstKeys<T, K(==)>(xs: seq<T>, key: T -> K): seq<K>
  {
    if xs == [] then []
    else
      var ks := FirstKeys(xs[..|xs| - 1], key);
      if key(xs[|xs| - 1]) in ks then ks else ks + [key(xs[|xs| - 1])]
  }

  /** The elements of `xs` whose key is `k`, in input order. */
  function Group<T, K(==)>(xs: seq<T>, key: T -> K, k: K): seq<T>
  {
    if xs == [] then []
    else Group(xs[..|xs| - 1], key, k) + (if key(xs[|xs| - 1]) == k then [xs[|xs| - 1]] else [])
  }

  /** Appending one element extends exactly the group of its key. */
  lemma GroupAppend<T, K>(xs: seq<T>, x: T, key: T -> K, k: K)
    ensures Group(xs + [x], key, k) == if key(x) == k then Group(xs, key, k) + [x] else Group(xs, key, k)
  {
    assert (xs + [x])[..|xs|] == xs;
    assert Group(xs, key, k) + [] == Group(xs, key, k);
  }

  lemma {:induction false} FirstKeysDistinct<T, K>(xs: seq<T>, key: T -> K)
    ensures forall i, j :: 0 <= i < j < |FirstKeys(xs, key)| ==> FirstKeys(xs, key)[i] != FirstKeys(xs, key)[j]
    ensures forall x :: x in xs ==> key(x) in FirstKeys(xs, key)
    ensures forall k :: k in FirstKeys(xs, key) ==> exists i :: 0 <= i < |xs| && key(xs[i]) == k
  {
    if xs != [] {
      var init := xs[..|xs| - 1];
      FirstKeysDistinct(init, key);
      assert xs == init + [xs[|xs| - 1]];
      forall k | k in FirstKeys(xs, key) ensures exists i :: 0 <= i < |xs| && key(xs[i]) == k {
        if k in FirstKeys(init, key) {
          var i :| 0 <= i < |init| && key(init[i]) == k;
          assert key(xs[i]) == k;
        } else {
          assert key(xs[|xs| - 1]) == k;
        }
      }
    }
  }

  /** Each element lands, with its multiplicity, in the group of its own key and in no other. */
  lemma {:induction false} GroupPartition<T, K>(xs: seq<T>, key: T -> K, x: T, k: K)
    ensures key(x) == k ==> multiset(Group(xs, key, k))[x] == multiset(xs)[x]
    ensures key(x) != k ==> x !in Group(xs, key, k)
  {
    if xs != [] {
      GroupPartition(xs[..|xs| - 1], key, x, k);
      assert xs == xs[..|xs| - 1] + [xs[|xs| - 1]];
    }
  }

  /** Group sizes add up to the input size. */
  lemma {:induction false} GroupSizes<T, K>(xs: seq<T>, key: T -> K)
    ensures SumGroupSizes(xs, key, FirstKeys(xs, key)) == |xs|
  {
    if xs != [] {
      var init, last := xs[..|xs| - 1], xs[|xs| - 1];
      GroupSizes(init, key);
      FirstKeysDistinct(init, key);
      assert xs == init + [last];
      var ks := FirstKeys(init, key);
      SumGroupSizesStep(init, last, key, ks);
      if key(last) !in ks {
        SumGroupSizesAppend(xs, key, ks, key(last));
        GroupOfAbsentKey(init, key, key(last));
      }
    }
  }

  function SumGroupSizes<T, K(==)>(xs: seq<T>, key: T -> K, ks: seq<K>): int
  {
    if ks == [] then 0 else SumGroupSizes(xs, key, ks[..|ks| - 1]) + |Group(xs, key, ks[|ks| - 1])|
  }

  lemma {:induction false} GroupOfAbsentKey<T, K>(xs: seq<T>, key: T -> K, k: K)
    requires k !in FirstKeys(xs, key)
    ensures Group(xs, key, k) == []
  {
    if xs != [] {
      GroupOfAbsentKey(xs[..|xs| - 1], key, k);
    }
  }

  lemma {:induction false} SumGroupSizesAppend<T, K>(xs: seq<T>, key: T -> K, ks: seq<K>, k: K)
    ensures SumGroupSizes(xs, key, ks + [k]) == SumGroupSizes(xs, key, ks) + |Group(xs, key, k)|
  {
    assert (ks + [k])[..|ks + [k]| - 1] == ks;
  }

  /** Appending one element grows exactly the group of its key, by one, when the key is listed once. */
  lemma {:induction false} SumGroupSizesStep<T, K>(init: seq<T>, last: T, key: T -> K, ks: seq<K>)
    requires forall i, j :: 0 <= i < j < |ks| ==> ks[i] != ks[j]
    ensures SumGroupSizes(init + [last], key, ks)
         == SumGroupSizes(init, key, ks) + (if key(last) in ks then 1 else 0)
  {
    var xs := init + [last];
    assert xs[..|xs| - 1] == init;
    if ks != [] {
      var ks' := ks[..|ks| - 1];
      SumGroupSizesStep(init, last, key, ks');
      assert key(last) in ks <==> key(last) in ks' || key(last) == ks[|ks| - 1] by {
        assert ks == ks' + [ks[|ks| - 1]];
      }
      assert key(last) == ks[|ks| - 1] ==> key(last) !in ks';
    }
  }

  /** A group holds elements of the input carrying its key, and only those. */
  lemma {:induction false} GroupMembers<T, K>(xs: seq<T>, key: T -> K, k: K)
    ensures forall x :: x in Group(xs, key, k) ==> x in xs && key(x) == k
  {
    if xs != [] {
      GroupMembers(xs[..|xs| - 1], key, k);
      assert xs == xs[..|xs| - 1] + [xs[|xs| - 1]];
    }
  }

  /** A listed key has a non-empty group. */
  lemma GroupOfListedKey<T, K>(xs: seq<T>, key: T -> K, k: K)
    requires k in FirstKeys(xs, key)
    ensures Group(xs, key, k) != []
  {
    FirstKeysDistinct(xs, key);
    var i :| 0 <= i < |xs| && key(xs[i]) == k;
    GroupPartition(xs, key, xs[i], k);
    assert xs[i] in multiset(xs);
  }

  /** The grouping loop: builds the dictionary and its key order. */
  method GroupBy<T, K(==)>(xs: seq<T>, key: T -> K) returns (keys: seq<K>, groups: map<K, seq<T>>)
    ensures keys == FirstKeys(xs, key)
    ensures forall k :: k in groups <==> k in keys
    ensures forall k :: k in groups ==> groups[k] == Group(xs, key, k)
  {
    keys, groups := [], map[];
    var i := 0;
    while i < |xs|
      invariant 0 <= i <= |xs|
      invariant keys == FirstKeys(xs[..i], key)
      invariant forall k :: k in groups <==> k in keys
      invariant forall k :: k in groups ==> groups[k] == Group(xs[..i], key, k)
      invariant forall k :: k !in groups ==> Group(xs[..i], key, k) == []
    {
      assert xs[..i + 1][..i] == xs[..i];
      forall k ensures Group(xs[..i + 1], key, k) == if key(xs[i]) == k then Group(xs[..i], key, k) + [xs[i]] else Group(xs[..i], key, k) {
        if key(xs[i]) != k {
          assert Group(xs[..i], key, k) + [] == Group(xs[..i], key, k);
        }
      }
      var k := key(xs[i]);
      ghost var old_groups := groups;
      if k !in groups {
        keys := keys + [k];
        groups := groups[k := [xs[i]]];
      } else {
        groups := groups[k := groups[k] + [xs[i]]];
      }
      assert forall k' :: k' in groups ==> groups[k'] == Group(xs[..i + 1], key, k') by {
        forall k' | k' in groups ensures groups[k'] == Group(xs[..i + 1], key, k') {
          assert Group(xs[..i + 1], key, k') == if key(xs[i]) == k' then Group(xs[..i], key, k') + [xs[i]] else Group(xs[..i], key, k');
          if k' != k {
            assert groups[k'] == old_groups[k'];
            assert old_groups[k'] == Group(xs[..i], key, k');
          } else if k in old_groups {
            assert old_groups[k] == Group(xs[..i], key, k);
          } else {
            assert Group(xs[..i], key, k) == [];
          }
        }
      }
      i := i + 1;
    }
    assert xs[..i] == xs;
  }
}

=== FILE: insider_detection.dfy ===
/**
 * The current per-symbol insider-activity scorer
 * (database/analysis/insider_anomaly_detection.py).
 *
 * The day's option rows are grouped by underlying symbol. For every symbol
 * that has a call or a put baseline, five bounded factor scores are computed:
 * volume z-score (at most 3), volume/open-interest z-score (at most 2),
 * out-of-the-money concentration (at most 2), directional bias (at most 1)
 * and expiry time pressure (at most 2). Their sum, capped at 10 and rounded
 * to one decimal, is stored for every such symbol; a symbol is flagged as
 * insider activity when the rounded score is at least 7.5 and the traded
 * premium ("magnitude") is at least 20000.
 *
 * Dates are day numbers; `today` is a parameter.
 */
module InsiderDetection {
  import opened Wrappers
  import opened Numeric
  import opened SeqUtil
  import opened Grouping

  /** The day's query keeps only call and put contracts. */
  datatype ContractType = Call | Put

  /**
   * One option row of the day. A missing close, strike or underlying price
   * is 0.0 and a missing shares_per_contract is 0, the values Python treats
   * as false.
   */
  datatype OptionRow = OptionRow(
    symbol: string,
    contractType: ContractType,
    volume: nat,
    openInterest: nat,
    close: real,
    sharesPerContract: int,
    strike: real,
    underlying: real,
    expiration: int)

  /** Baseline statistics of one symbol and side. */
  datatype Baseline = Baseline(avgVolume: real, stdVolume: real, avgRatio: real, stdRatio: real)

  // An absent baseline is an empty dictionary: every lookup takes its default.
  function AvgVolume(b: Option<Baseline>): real { if b.Some? then b.value.avgVolume else 0.0 }
  function StdVolume(b: Option<Baseline>): real { if b.Some? then b.value.stdVolume else 1.0 }
  function AvgRatio(b: Option<Baseline>): real { if b.Some? then b.value.avgRatio else 0.0 }
  function StdRatio(b: Option<Baseline>): real { if b.Some? then b.value.stdRatio else 1.0 }

  function Lookup(baselines: map<string, Baseline>, key: string): Option<Baseline>
  {
    if key in baselines then Some(baselines[key]) else None
  }

  function CallBaseline(baselines: map<string, Baseline>, symbol: string): Option<Baseline>
  {
    Lookup(baselines, symbol + "_call")
  }

  function PutBaseline(baselines: map<string, Baseline>, symbol: string): Option<Baseline>
  {
    Lookup(baselines, symbol + "_put")
  }

  // ---------------------------------------------------------------------
  // Volume z-score (0-3)
  // ---------------------------------------------------------------------

  /** One side's volume score: only volume above a positive baseline scores. */
  function SideVolumeScore(volume: nat, avg: real, std: real): (r: real)
    ensures 0.0 <= r <= 3.0
    ensures r > 0.0 <==> std > 0.0 && avg > 0.0 && volume as real > avg
  {
    if std > 0.0 && avg > 0.0 && volume as real > avg then Min((volume as real - avg) / std / 2.0, 3.0)
    else 0.0
  }

  /** The larger of the call and put volume scores. */
  function VolumeScore(callVolume: nat, putVolume: nat, callBaseline: Option<Baseline>, putBaseline: Option<Baseline>): (r: real)
    ensures 0.0 <= r <= 3.0
    ensures r > 0.0 <==>
      (StdVolume(callBaseline) > 0.0 && AvgVolume(callBaseline) > 0.0 && callVolume as real > AvgVolume(callBaseline)) ||
      (StdVolume(putBaseline) > 0.0 && AvgVolume(putBaseline) > 0.0 && putVolume as real > AvgVolume(putBaseline))
    ensures callBaseline.None? && putBaseline.None? ==> r == 0.0
  {
    Max(SideVolumeScore(callVolume, AvgVolume(callBaseline), StdVolume(callBaseline)),
        SideVolumeScore(putVolume, AvgVolume(putBaseline), StdVolume(putBaseline)))
  }

  /** More volume on a side never lowers that side's score. */
  lemma SideVolumeScoreMonotone(v1: nat, v2: nat, avg: real, std: real)
    requires v1 <= v2
    ensures SideVolumeScore(v1, avg, std) <= SideVolumeScore(v2, avg, std)
  {
    if std > 0.0 && avg > 0.0 && v1 as real > avg {
      var d1, d2 := v1 as real - avg, v2 as real - avg;
      assert d1 / std <= d2 / std by {
        assert d2 / std - d1 / std == (d2 - d1) / std;
      }
    }
  }

  // ---------------------------------------------------------------------
  // Volume / open-interest ratio z-score (0-2)
  // ---------------------------------------------------------------------

  /** One side's volume:OI score; a side without open interest is skipped before any division. */
  function SideRatioScore(volume: nat, openInterest: nat, avgRatio: real, stdRatio: real): (r: real)
    ensures 0.0 <= r <= 2.0
    ensures r > 0.0 <==> openInterest > 0 && stdRatio > 0.0 && avgRatio > 0.0
                         && volume as real / openInterest as real > avgRatio
  {
    if openInterest > 0 then
      var ratio := volume as real / openInterest as real;
      if stdRatio > 0.0 && avgRatio > 0.0 && ratio > avgRatio then Min((ratio - avgRatio) / stdRatio, 4.0) / 2.0
      else 0.0
    else 0.0
  }

  /** The larger of the call and put volume:OI scores. */
  function VolumeOiRatioScore(callVolume: nat, putVolume: nat, callOpenInterest: nat, putOpenInterest: nat,
                              callBaseline: Option<Baseline>, putBaseline: Option<Baseline>): (r: real)
    ensures 0.0 <= r <= 2.0
    ensures callOpenInterest == 0 && putOpenInterest == 0 ==> r == 0.0
  {
    Max(SideRatioScore(callVolume, callOpenInterest, AvgRatio(callBaseline), StdRatio(callBaseline)),
        SideRatioScore(putVolume, putOpenInterest, AvgRatio(putBaseline), StdRatio(putBaseline)))
  }

  /** With open interest fixed, more volume never lowers a side's volume:OI score. */
  lemma SideRatioScoreMonotone(v1: nat, v2: nat, openInterest: nat, avgRatio: real, stdRatio: real)
    requires v1 <= v2
    ensures SideRatioScore(v1, openInterest, avgRatio, stdRatio) <= SideRatioScore(v2, openInterest, avgRatio, stdRatio)
  {
    if openInterest > 0 {
      var oi := openInterest as real;
      assert v1 as real / oi <= v2 as real / oi by {
        assert v2 as real / oi - v1 as real / oi == (v2 - v1) as real / oi;
      }
      var r1, r2 := v1 as real / oi, v2 as real / oi;
      if stdRatio > 0.0 && avgRatio > 0.0 && r1 > avgRatio {
        assert (r1 - avgRatio) / stdRatio <= (r2 - avgRatio) / stdRatio by {
          assert (r2 - avgRatio) / stdRatio - (r1 - avgRatio) / stdRatio == (r2 - r1) / stdRatio;
        }
      }
    }
  }

  // ---------------------------------------------------------------------
  // Out-of-the-money concentration (0-2)
  // ---------------------------------------------------------------------

  predicate IsCall(c: OptionRow) { c.contractType == Call }
  predicate IsPut(c: OptionRow) { c.contractType == Put }

  /** A call is OTM above 105% of the underlying, a put below 95%. */
  predicate IsOtm(c: OptionRow, underlying: real)
  {
    match c.contractType
    case Call => c.strike > underlying * 1.05
    case Put => c.strike < underlying * 0.95
  }

  /** Volume of one side: all of it, the OTM part, and the OTM part expiring within 21 days. */
  datatype OtmTally = OtmTally(total: nat, otm: nat, shortTermOtm: nat)

  function Tally(contracts: seq<OptionRow>, underlying: real, today: int): OtmTally
  {
    if contracts == [] then OtmTally(0, 0, 0)
    else
      var t := Tally(contracts[..|contracts| - 1], underlying, today);
      var c := contracts[|contracts| - 1];
      if IsOtm(c, underlying) then
        OtmTally(t.total + c.volume, t.otm + c.volume,
                 t.shortTermOtm + (if c.expiration - today <= 21 then c.volume else 0))
      else OtmTally(t.total + c.volume, t.otm, t.shortTermOtm)
  }

  /** Short-term volume is only counted inside OTM volume. */
  lemma {:induction false} TallyNested(contracts: seq<OptionRow>, underlying: real, today: int)
    ensures Tally(contracts, underlying, today).shortTermOtm <= Tally(contracts, underlying, today).otm
    ensures Tally(contracts, underlying, today).otm <= Tally(contracts, underlying, today).total
  {
    if contracts != [] {
      TallyNested(contracts[..|contracts| - 1], underlying, today);
    }
  }

  function SideOtmScore(t: OtmTally): real
  {
    if t.total > 0 then t.otm as real / t.total as real + t.shortTermOtm as real / t.total as real else 0.0
  }

  lemma SideOtmScoreBounds(t: OtmTally)
    requires t.shortTermOtm <= t.otm <= t.total
    ensures 0.0 <= SideOtmScore(t) <= 2.0
  {
    if t.total > 0 {
      RatioInUnit(t.otm as real, t.total as real);
      RatioInUnit(t.shortTermOtm as real, t.total as real);
    }
  }

  /** The underlying price of the first row that has one, or 0.0. */
  function FirstUnderlying(contracts: seq<OptionRow>): real
  {
    if contracts == [] then 0.0
    else if contracts[0].underlying != 0.0 then contracts[0].underlying
    else FirstUnderlying(contracts[1..])
  }

  /** The OTM score: the side with strictly more volume decides; on a tie the larger score. */
  function OtmScore(contracts: seq<OptionRow>, today: int): real
  {
    var calls := Filter(contracts, IsCall);
    var puts := Filter(contracts, IsPut);
    if calls == [] && puts == [] then 0.0
    else
      var u := FirstUnderlying(contracts);
      if u == 0.0 then 0.0
      else
        var ct := Tally(calls, u, today);
        var pt := Tally(puts, u, today);
        var score :=
          if ct.total > pt.total then SideOtmScore(ct)
          else if pt.total > ct.total then SideOtmScore(pt)
          else Max(SideOtmScore(ct), SideOtmScore(pt));
        Min(score, 2.0)
  }

  lemma OtmScoreBounds(contracts: seq<OptionRow>, today: int)
    ensures 0.0 <= OtmScore(contracts, today) <= 2.0
  {
    var u := FirstUnderlying(contracts);
    var calls, puts := Filter(contracts, IsCall), Filter(contracts, IsPut);
    TallyNested(calls, u, today);
    TallyNested(puts, u, today);
    SideOtmScoreBounds(Tally(calls, u, today));
    SideOtmScoreBounds(Tally(puts, u, today));
  }

  /** Without any underlying price the OTM score is 0. */
  lemma {:induction false} OtmScoreNeedsUnderlying(contracts: seq<OptionRow>, today: int)
    requires forall i :: 0 <= i < |contracts| ==> contracts[i].underlying == 0.0
    ensures FirstUnderlying(contracts) == 0.0
    ensures OtmScore(contracts, today) == 0.0
  {
    if contracts != [] {
      OtmScoreNeedsUnderlying(contracts[1..], today);
    }
  }

  /** When calls outweigh puts the OTM score is the call side's score; the cap never bites. */
  lemma OtmScoreFollowsHeavierSide(contracts: seq<OptionRow>, today: int)
    requires FirstUnderlying(contracts) != 0.0
    ensures var u := FirstUnderlying(contracts);
            var ct := Tally(Filter(contracts, IsCall), u, today);
            var pt := Tally(Filter(contracts, IsPut), u, today);
            (ct.total > pt.total ==> OtmScore(contracts, today) == SideOtmScore(ct)) &&
            (pt.total > ct.total ==> OtmScore(contracts, today) == SideOtmScore(pt)) &&
            (ct.total == pt.total ==> OtmScore(contracts, today) == Max(SideOtmScore(ct), SideOtmScore(pt)))
  {
    var u := FirstUnderlying(contracts);
    var calls, puts := Filter(contracts, IsCall), Filter(contracts, IsPut);
    TallyNested(calls, u, today);
    TallyNested(puts, u, today);
    SideOtmScoreBounds(Tally(calls, u, today));
    SideOtmScoreBounds(Tally(puts, u, today));
    if calls == [] && puts == [] {
      assert Tally(calls, u, today).total == 0 && Tally(puts, u, today).total == 0;
    }
  }

  /** The per-side accumulation loop. */
  method TallyContracts(contracts: seq<OptionRow>, underlying: real, today: int) returns (t: OtmTally)
    ensures t == Tally(contracts, underlying, today)
    ensures t.shortTermOtm <= t.otm <= t.total
  {
    var total: nat, otm: nat, shortTermOtm: nat := 0, 0, 0;
    var i := 0;
    while i < |contracts|
      invariant 0 <= i <= |contracts|
      invariant OtmTally(total, otm, shortTermOtm) == Tally(contracts[..i], underlying, today)
    {
      assert contracts[..i + 1][..i] == contracts[..i];
      var c := contracts[i];
      total := total + c.volume;
      if IsOtm(c, underlying) {
        otm := otm + c.volume;
        if c.expiration - today <= 21 {
          shortTermOtm := shortTermOtm + c.volume;
        }
      }
      i := i + 1;
    }
    assert contracts[..i] == contracts;
    t := OtmTally(total, otm, shortTermOtm);
    TallyNested(contracts, underlying, today);
  }

  /** _calculate_otm_call_score_v2 */
  method ComputeOtmScore(contracts: seq<OptionRow>, today: int) returns (score: real)
    ensures score == OtmScore(contracts, today)
    ensures 0.0 <= score <= 2.0
  {
    OtmScoreBounds(contracts, today);
    var calls := Filter(contracts, IsCall);
    var puts := Filter(contracts, IsPut);
    if calls == [] && puts == [] {
      return 0.0;
    }
    var j := 0;
    while j < |contracts| && contracts[j].underlying == 0.0
      invariant 0 <= j <= |contracts|
      invariant FirstUnderlying(contracts) == FirstUnderlying(contracts[j..])
    {
      assert contracts[j..][1..] == contracts[j + 1..];
      j := j + 1;
    }
    var u := if j < |contracts| then contracts[j].underlying else 0.0;
    if u == 0.0 {
      return 0.0;
    }
    var ct := TallyContracts(calls, u, today);
    var pt := TallyContracts(puts, u, today);
    var callScore := SideOtmScore(ct);
    var putScore := SideOtmScore(pt);
    if ct.total > pt.total {
      score := callScore;
    } else if pt.total > ct.total {
      score := putScore;
    } else {
      score := Max(callScore, putScore);
    }
    score := Min(score, 2.0);
  }

  // ---------------------------------------------------------------------
  // Directional bias (0-1)
  // ---------------------------------------------------------------------

  /** How far a call share sits from 50/50, scaled so that all-calls or all-puts is 1. */
  function BiasStrength(callPart: real, total: real): real
    requires total != 0.0
  {
    Abs(callPart / total - 0.5) * 2.0
  }

  /** +1 for a call lean, -1 otherwise (an exact 50/50 split counts as a put lean). */
  function Lean(callPart: real, total: real): real
    requires total != 0.0
  {
    if callPart / total > 0.5 then 1.0 else -1.0
  }

  /**
   * Volume and magnitude biases, each signed by its own lean and weighted by
   * one half; opposite leans cancel. The put arguments are accepted and not
   * used, as in the source.
   */
  function DirectionalScore(callVolume: nat, putVolume: nat, totalVolume: nat,
                            callMagnitude: int, putMagnitude: int, totalMagnitude: int): (r: real)
    ensures totalVolume == 0 || totalMagnitude == 0 ==> r == 0.0
    ensures 0.0 <= r <= 1.0
  {
    if totalVolume == 0 || totalMagnitude == 0 then 0.0
    else
      var tv, tm := totalVolume as real, totalMagnitude as real;
      var cv, cm := callVolume as real, callMagnitude as real;
      Min(Abs(Signed(cv, tv) + Signed(cm, tm)), 1.0)
  }

  /** One bias, signed by its lean and weighted by one half. */
  function Signed(callPart: real, total: real): real
    requires total != 0.0
  {
    BiasStrength(callPart, total) * 0.5 * Lean(callPart, total)
  }

  lemma BiasStrengthAtMostOne(part: real, other: real)
    requires 0.0 <= part && 0.0 <= other && part + other != 0.0
    ensures 0.0 <= BiasStrength(part, part + other) <= 1.0
  {
    RatioInUnit(part, part + other);
  }

  /**
   * With totals that are the sums of the sides: when volume and magnitude
   * lean the same way the score is the average of the two strengths, and
   * when they lean opposite ways it is half their difference.
   */
  lemma DirectionalCombination(callVolume: nat, putVolume: nat, callMagnitude: nat, putMagnitude: nat)
    requires callVolume + putVolume > 0 && callMagnitude + putMagnitude > 0
    ensures var tv, tm := (callVolume + putVolume) as real, (callMagnitude + putMagnitude) as real;
            var vs, ms := BiasStrength(callVolume as real, tv), BiasStrength(callMagnitude as real, tm);
            var r := DirectionalScore(callVolume, putVolume, callVolume + putVolume,
                                      callMagnitude, putMagnitude, callMagnitude + putMagnitude);
            (Lean(callVolume as real, tv) == Lean(callMagnitude as real, tm) ==> r == 0.5 * vs + 0.5 * ms) &&
            (Lean(callVolume as real, tv) != Lean(callMagnitude as real, tm) ==> r == Abs(0.5 * vs - 0.5 * ms))
  {
    BiasStrengthAtMostOne(callVolume as real, putVolume as real);
    BiasStrengthAtMostOne(callMagnitude as real, putMagnitude as real);
  }

  /** The call share of the swapped sides is one minus the original share. */
  lemma SwappedShare(part: real, other: real)
    requires 0.0 <= part && 0.0 <= other && part + other > 0.0
    ensures other / (other + part) == 1.0 - part / (part + other)
    ensures BiasStrength(other, other + part) == BiasStrength(part, part + other)
    ensures part / (part + other) != 0.5 ==> Lean(other, other + part) == -Lean(part, part + other)
  {
    var t := part + other;
    var a, b := other / t, part / t;
    assert a * t == other;
    assert b * t == part;
    assert (a + b) * t == a * t + b * t;
    assert (a + b) * t == 1.0 * t;
    assert a + b == 1.0;
  }

  /** Swapping the sides negates one signed, half-weighted bias (`t` and `u` are the total, summed either way). */
  lemma SwappedTerm(part: real, other: real, t: real, u: real)
    requires 0.0 <= part && 0.0 <= other && t == part + other && u == other + part && t > 0.0
    ensures Signed(other, u) == -Signed(part, t)
  {
    SwappedShare(part, other);
    var s := BiasStrength(part, t);
    if part / t == 0.5 {
      // A share of exactly one half has strength 0, so its lean does not matter.
      assert s == 0.0;
    } else if Lean(part, t) == 1.0 {
      assert Lean(other, u) == -1.0;
    } else {
      assert Lean(other, u) == 1.0;
    }
  }

  /** Swapping calls and puts (with sum totals) leaves the directional score unchanged. */
  lemma DirectionalSymmetric(callVolume: nat, putVolume: nat, callMagnitude: nat, putMagnitude: nat)
    ensures DirectionalScore(callVolume, putVolume, callVolume + putVolume, callMagnitude, putMagnitude, callMagnitude + putMagnitude)
         == DirectionalScore(putVolume, callVolume, putVolume + callVolume, putMagnitude, callMagnitude, putMagnitude + callMagnitude)
  {
    if callVolume + putVolume > 0 && callMagnitude + putMagnitude > 0 {
      var cv, pv, cm, pm := callVolume as real, putVolume as real, callMagnitude as real, putMagnitude as real;
      SwappedTerm(cv, pv, (callVolume + putVolume) as real, (putVolume + callVolume) as real);
      SwappedTerm(cm, pm, (callMagnitude + putMagnitude) as real, (putMagnitude + callMagnitude) as real);
    }
  }

  // ---------------------------------------------------------------------
  // Time pressure (0-2)
  // ---------------------------------------------------------------------

  /** Total volume, volume expiring within 7 days, and within 21 days. */
  datatype ExpiryTally = ExpiryTally(total: nat, thisWeek: nat, shortTerm: nat)

  /** Two independent tests: a contract within 7 days is counted in both buckets. */
  function ExpiryTallyOf(contracts: seq<OptionRow>, today: int): ExpiryTally
  {
    if contracts == [] then ExpiryTally(0, 0, 0)
    else
      var t := ExpiryTallyOf(contracts[..|contracts| - 1], today);
      var c := contracts[|contracts| - 1];
      var days := c.expiration - today;
      ExpiryTally(t.total + c.volume,
                  t.thisWeek + (if days <= 7 then c.volume else 0),
                  t.shortTerm + (if days <= 21 then c.volume else 0))
  }

  lemma {:induction false} ExpiryTallyNested(contracts: seq<OptionRow>, today: int)
    ensures ExpiryTallyOf(contracts, today).thisWeek <= ExpiryTallyOf(contracts, today).shortTerm
    ensures ExpiryTallyOf(contracts, today).shortTerm <= ExpiryTallyOf(contracts, today).total
  {
    if contracts != [] {
      ExpiryTallyNested(contracts[..|contracts| - 1], today);
    }
  }

  function TimePressureScore(contracts: seq<OptionRow>, today: int): real
  {
    var t := ExpiryTallyOf(contracts, today);
    if t.total == 0 then 0.0
    else Min(t.thisWeek as real / t.total as real * 1.2 + t.shortTerm as real / t.total as real * 0.8, 2.0)
  }

  /** The score lies in [0, 2]; because the buckets are nested the 2.0 cap never bites. */
  lemma TimePressureBounds(contracts: seq<OptionRow>, today: int)
    ensures 0.0 <= TimePressureScore(contracts, today) <= 2.0
    ensures var t := ExpiryTallyOf(contracts, today);
            t.total > 0 ==> TimePressureScore(contracts, today)
                            == t.thisWeek as real / t.total as real * 1.2 + t.shortTerm as real / t.total as real * 0.8
  {
    var t := ExpiryTallyOf(contracts, today);
    ExpiryTallyNested(contracts, today);
    if t.total > 0 {
      RatioInUnit(t.thisWeek as real, t.total as real);
      RatioInUnit(t.shortTerm as real, t.total as real);
    }
  }

  /** _calculate_time_pressure_score_v2 */
  method ComputeTimePressure(contracts: seq<OptionRow>, today: int) returns (score: real)
    ensures score == TimePressureScore(contracts, today)
    ensures 0.0 <= score <= 2.0
  {
    var total: nat, thisWeek: nat, shortTerm: nat := 0, 0, 0;
    var i := 0;
    while i < |contracts|
      invariant 0 <= i <= |contracts|
      invariant ExpiryTally(total, thisWeek, shortTerm) == ExpiryTallyOf(contracts[..i], today)
    {
      assert contracts[..i + 1][..i] == contracts[..i];
      var days := contracts[i].expiration - today;
      total := total + contracts[i].volume;
      if days <= 7 {
        thisWeek := thisWeek + contracts[i].volume;
      }
      if days <= 21 {
        shortTerm := shortTerm + contracts[i].volume;
      }
      i := i + 1;
    }
    assert contracts[..i] == contracts;
    TimePressureBounds(contracts, today);
    if total == 0 {
      return 0.0;
    }
    score := Min(thisWeek as real / total as real * 1.2 + shortTerm as real / total as real * 0.8, 2.0);
  }

  // ---------------------------------------------------------------------
  // Symbol-level aggregation
  // ---------------------------------------------------------------------

  /** Sum of session volume over the rows of one contract type. */
  function SideVolume(contracts: seq<OptionRow>, t: ContractType): nat
  {
    if contracts == [] then 0
    else SideVolume(contracts[..|contracts| - 1], t)
         + (if contracts[|contracts| - 1].contractType == t then contracts[|contracts| - 1].volume else 0)
  }

  /** Sum of open interest over the rows of one contract type. */
  function SideOpenInterest(contracts: seq<OptionRow>, t: ContractType): nat
  {
    if contracts == [] then 0
    else SideOpenInterest(contracts[..|contracts| - 1], t)
         + (if contracts[|contracts| - 1].contractType == t then contracts[|contracts| - 1].openInterest else 0)
  }

  function TotalVolume(contracts: seq<OptionRow>): nat
  {
    if contracts == [] then 0 else TotalVolume(contracts[..|contracts| - 1]) + contracts[|contracts| - 1].volume
  }

  /** Call and put volume together are all the volume of the symbol. */
  lemma {:induction false} SideVolumesPartition(contracts: seq<OptionRow>)
    ensures SideVolume(contracts, Call) + SideVolume(contracts, Put) == TotalVolume(contracts)
  {
    if contracts != [] {
      SideVolumesPartition(contracts[..|contracts| - 1]);
    }
  }

  /** Traded premium of one row; a missing shares_per_contract counts as 100. */
  function RowMagnitude(c: OptionRow): real
  {
    c.volume as real * c.close * (if c.sharesPerContract == 0 then 100 else c.sharesPerContract) as real
  }

  function SideMagnitude(contracts: seq<OptionRow>, t: ContractType): real
  {
    if contracts == [] then 0.0
    else SideMagnitude(contracts[..|contracts| - 1], t)
         + (if contracts[|contracts| - 1].contractType == t then RowMagnitude(contracts[|contracts| - 1]) else 0.0)
  }

  /** With non-negative prices and share counts, no side's premium is negative. */
  lemma {:induction false} SideMagnitudeNonNegative(contracts: seq<OptionRow>, t: ContractType)
    requires forall i :: 0 <= i < |contracts| ==> contracts[i].close >= 0.0 && contracts[i].sharesPerContract >= 0
    ensures SideMagnitude(contracts, t) >= 0.0
  {
    if contracts != [] {
      SideMagnitudeNonNegative(contracts[..|contracts| - 1], t);
      var c := contracts[|contracts| - 1];
      assert c.volume as real * c.close >= 0.0;
    }
  }

  /** The magnitude loop: every row adds to the call or the put total, then both are truncated. */
  method Magnitudes(contracts: seq<OptionRow>) returns (callMagnitude: int, putMagnitude: int)
    ensures callMagnitude == Trunc(SideMagnitude(contracts, Call))
    ensures putMagnitude == Trunc(SideMagnitude(contracts, Put))
  {
    var callSum, putSum := 0.0, 0.0;
    var i := 0;
    while i < |contracts|
      invariant 0 <= i <= |contracts|
      invariant callSum == SideMagnitude(contracts[..i], Call)
      invariant putSum == SideMagnitude(contracts[..i], Put)
    {
      assert contracts[..i + 1][..i] == contracts[..i];
      var magnitude := RowMagnitude(contracts[i]);
      if contracts[i].contractType == Call {
        callSum := callSum + magnitude;
      } else {
        putSum := putSum + magnitude;
      }
      i := i + 1;
    }
    assert contracts[..i] == contracts;
    callMagnitude := Trunc(callSum);
    putMagnitude := Trunc(putSum);
  }

  // ---------------------------------------------------------------------
  // Stored pattern metrics
  // ---------------------------------------------------------------------

  /** |volume - avg| / std with the baseline defaults; 0 when std is not positive. */
  function AbsZScore(volume: nat, b: Option<Baseline>): (z: real)
    ensures z >= 0.0
    ensures StdVolume(b) <= 0.0 ==> z == 0.0
  {
    if StdVolume(b) > 0.0 then Abs(volume as real - AvgVolume(b)) / StdVolume(b) else 0.0
  }

  /** OTM call volume (per-row underlying), short-term volume (all rows) and call volume. */
  datatype PatternTally = PatternTally(callVolume: nat, otmCallVolume: nat, shortTermVolume: nat)

  function PatternTallyOf(contracts: seq<OptionRow>, today: int): PatternTally
  {
    if contracts == [] then PatternTally(0, 0, 0)
    else
      var t := PatternTallyOf(contracts[..|contracts| - 1], today);
      var c := contracts[|contracts| - 1];
      PatternTally(t.callVolume + (if c.contractType == Call then c.volume else 0),
                   t.otmCallVolume + (if c.contractType == Call && c.strike > c.underlying * 1.05 then c.volume else 0),
                   t.shortTermVolume + (if c.expiration - today <= 21 then c.volume else 0))
  }

  lemma {:induction false} PatternTallyBounds(contracts: seq<OptionRow>, today: int)
    ensures PatternTallyOf(contracts, today).otmCallVolume <= PatternTallyOf(contracts, today).callVolume
    ensures PatternTallyOf(contracts, today).callVolume == SideVolume(contracts, Call)
    ensures PatternTallyOf(contracts, today).shortTermVolume <= TotalVolume(contracts)
  {
    if contracts != [] {
      PatternTallyBounds(contracts[..|contracts| - 1], today);
    }
  }

  /** The loop over all contracts that feeds the stored percentages. */
  method ComputePatternTally(contracts: seq<OptionRow>, today: int) returns (t: PatternTally)
    ensures t == PatternTallyOf(contracts, today)
  {
    var callVolume: nat, otm: nat, shortTerm: nat := 0, 0, 0;
    var i := 0;
    while i < |contracts|
      invariant 0 <= i <= |contracts|
      invariant PatternTally(callVolume, otm, shortTerm) == PatternTallyOf(contracts[..i], today)
    {
      assert contracts[..i + 1][..i] == contracts[..i];
      var c := contracts[i];
      if c.contractType == Call {
        callVolume := callVolume + c.volume;
        if c.strike > c.underlying * 1.05 {
          otm := otm + c.volume;
        }
      }
      if c.expiration - today <= 21 {
        shortTerm := shortTerm + c.volume;
      }
      i := i + 1;
    }
    assert contracts[..i] == contracts;
    t := PatternTally(callVolume, otm, shortTerm);
  }

  /** part / whole * 100, or 0 for an empty whole. */
  function Percentage(part: nat, whole: nat): (p: real)
    ensures whole == 0 ==> p == 0.0
    ensures part <= whole ==> 0.0 <= p <= 100.0
  {
    if whole > 0 then
      RatioInUnit(part as real, whole as real);
      part as real / whole as real * 100.0
    else 0.0
  }

  /**
   * The stored volume per unit of open interest, rounded to four decimals;
   * 0 without open interest.
   */
  function VolumeOiRatio(volume: nat, openInterest: nat): (r: real)
    ensures r >= 0.0
    ensures openInterest == 0 ==> r == 0.0
    ensures openInterest > 0 ==> Abs(r - volume as real / openInterest as real) <= 0.00005
    ensures (r * 10000.0).Floor as real == r * 10000.0
  {
    if openInterest > 0 then
      RoundsKeepSign(volume as real / openInterest as real);
      Round4(volume as real / openInterest as real)
    else 0.0
  }

  /** How many standard deviations the day's volume:OI ratio lies from its baseline average. */
  function RatioZ(volume: nat, openInterest: nat, b: Option<Baseline>): real
    requires openInterest > 0 && StdRatio(b) > 0.0
  {
    (volume as real / openInterest as real - AvgRatio(b)) / StdRatio(b)
  }

  /**
   * The stored volume:OI z-score: clamped to [-999.999, 999.999] and rounded
   * to three decimals; 0 without open interest or without a positive spread.
   */
  function VolumeOiZScore(volume: nat, openInterest: nat, b: Option<Baseline>): (z: real)
    ensures -999.999 <= z <= 999.999
    ensures openInterest == 0 || StdRatio(b) <= 0.0 ==> z == 0.0
    ensures openInterest > 0 && StdRatio(b) > 0.0 && -999.999 <= RatioZ(volume, openInterest, b) <= 999.999
            ==> Abs(z - RatioZ(volume, openInterest, b)) <= 0.0005
    ensures openInterest > 0 && StdRatio(b) > 0.0 && RatioZ(volume, openInterest, b) >= 999.999 ==> z == 999.999
    ensures openInterest > 0 && StdRatio(b) > 0.0 && RatioZ(volume, openInterest, b) <= -999.999 ==> z == -999.999
    ensures (z * 1000.0).Floor as real == z * 1000.0
  {
    if openInterest > 0 && StdRatio(b) > 0.0 then
      var c := Min(Max(RatioZ(volume, openInterest, b), -999.999), 999.999);
      Round3KeepsLowerThousandth(c, -999999);
      Round3KeepsUpperThousandth(c, 999999);
      Round3(c)
    else 0.0
  }

  // ---------------------------------------------------------------------
  // Composite score and the stored record
  // ---------------------------------------------------------------------

  function Composite(volume: real, volumeOi: real, otm: real, directional: real, time: real): real
  {
    Min(volume + volumeOi + otm + directional + time, 10.0)
  }

  /** The notification rule: rounded score at least 7.5 and at least 20000 of premium. */
  predicate IsInsiderActivity(roundedScore: real, totalMagnitude: int)
  {
    roundedScore >= 7.5 && totalMagnitude >= 20000
  }

  /**
   * Rounding can only move the threshold by half a tenth: an unrounded score
   * of 7.5 always alerts, and an alerting score was at least 7.45.
   */
  lemma AlertThreshold(score: real, totalMagnitude: int)
    ensures score >= 7.5 && totalMagnitude >= 20000 ==> IsInsiderActivity(Round1(score), totalMagnitude)
    ensures IsInsiderActivity(Round1(score), totalMagnitude) ==> score >= 7.45 && totalMagnitude >= 20000
  {
    if score >= 7.5 {
      Round1KeepsLowerTenth(score, 75);
    }
  }

  /** One stored row of daily_anomaly_snapshot, before the database write. */
  datatype AnomalyRecord = AnomalyRecord(
    symbol: string,
    compositeScore: real,          // rounded to one decimal
    maxIndividualScore: real,      // the unrounded composite
    insiderActivity: bool,         // anomaly_types is ['insider_activity'] rather than ['low_score_activity']
    volumeScore: real,
    volumeOiRatioScore: real,
    otmScore: real,
    directionalScore: real,
    timeScore: real,
    callVolume: nat,
    putVolume: nat,
    totalVolume: nat,
    callMagnitude: int,
    putMagnitude: int,
    totalMagnitude: int,
    callOpenInterest: nat,
    putOpenInterest: nat,
    callBaselineAvg: real,
    putBaselineAvg: real,
    zScore: real,                  // rounded to two decimals
    otmCallPercentage: real,
    shortTermPercentage: real,
    callVolumeOiRatio: real,
    putVolumeOiRatio: real,
    callVolumeOiZScore: real,
    putVolumeOiZScore: real,
    callVolumeOiAvg: real,         // the baseline's average volume:OI ratio, rounded to four decimals
    putVolumeOiAvg: real)

  /** Assembles a record from the symbol's aggregates and the five scores. */
  function MakeRecord(symbol: string, contracts: seq<OptionRow>, callBaseline: Option<Baseline>, putBaseline: Option<Baseline>,
                      callMagnitude: int, putMagnitude: int, otm: real, time: real, pattern: PatternTally): AnomalyRecord
  {
    var callVolume, putVolume := SideVolume(contracts, Call), SideVolume(contracts, Put);
    var callOi, putOi := SideOpenInterest(contracts, Call), SideOpenInterest(contracts, Put);
    var totalMagnitude := callMagnitude + putMagnitude;
    var volume := VolumeScore(callVolume, putVolume, callBaseline, putBaseline);
    var volumeOi := VolumeOiRatioScore(callVolume, putVolume, callOi, putOi, callBaseline, putBaseline);
    var directional := DirectionalScore(callVolume, putVolume, callVolume + putVolume, callMagnitude, putMagnitude, totalMagnitude);
    var composite := Composite(volume, volumeOi, otm, directional, time);
    var rounded := Round1(composite);
    AnomalyRecord(
      symbol, rounded, composite, IsInsiderActivity(rounded, totalMagnitude),
      Round1(volume), Round1(volumeOi), Round1(otm), Round1(directional), Round1(time),
      callVolume, putVolume, callVolume + putVolume, callMagnitude, putMagnitude, totalMagnitude,
      callOi, putOi, AvgVolume(callBaseline), AvgVolume(putBaseline),
      Round2(Max(AbsZScore(callVolume, callBaseline), AbsZScore(putVolume, putBaseline))),
      Round1(Percentage(pattern.otmCallVolume, pattern.callVolume)),
      Round1(Percentage(pattern.shortTermVolume, callVolume + putVolume)),
      VolumeOiRatio(callVolume, callOi), VolumeOiRatio(putVolume, putOi),
      VolumeOiZScore(callVolume, callOi, callBaseline), VolumeOiZScore(putVolume, putOi, putBaseline),
      Round4(AvgRatio(callBaseline)), Round4(AvgRatio(putBaseline)))
  }

  /** The record of one symbol, with every score taken from its specification. */
  function SymbolRecord(symbol: string, contracts: seq<OptionRow>, baselines: map<string, Baseline>, today: int): (r: AnomalyRecord)
    ensures r.symbol == symbol
    ensures 0.0 <= r.maxIndividualScore <= 10.0
    ensures 0.0 <= r.compositeScore <= 10.0
    ensures r.insiderActivity <==> r.compositeScore >= 7.5 && r.totalMagnitude >= 20000
    ensures r.maxIndividualScore >= 7.5 && r.totalMagnitude >= 20000 ==> r.insiderActivity
    ensures r.totalVolume == TotalVolume(contracts)
    ensures r.totalMagnitude == r.callMagnitude + r.putMagnitude
    ensures 0.0 <= r.otmCallPercentage <= 100.0 && 0.0 <= r.shortTermPercentage <= 100.0
    ensures r.callVolume == SideVolume(contracts, Call) && r.putVolume == SideVolume(contracts, Put)
    ensures r.callOpenInterest == SideOpenInterest(contracts, Call) && r.putOpenInterest == SideOpenInterest(contracts, Put)
    ensures r.zScore >= 0.0
    ensures r.zScore == Round2(Max(AbsZScore(r.callVolume, CallBaseline(baselines, symbol)),
                                   AbsZScore(r.putVolume, PutBaseline(baselines, symbol))))
    ensures r.callVolumeOiRatio == VolumeOiRatio(r.callVolume, r.callOpenInterest)
    ensures r.putVolumeOiRatio == VolumeOiRatio(r.putVolume, r.putOpenInterest)
    ensures r.callVolumeOiZScore == VolumeOiZScore(r.callVolume, r.callOpenInterest, CallBaseline(baselines, symbol))
    ensures r.putVolumeOiZScore == VolumeOiZScore(r.putVolume, r.putOpenInterest, PutBaseline(baselines, symbol))
    ensures r.callVolumeOiAvg == Round4(AvgRatio(CallBaseline(baselines, symbol)))
    ensures r.putVolumeOiAvg == Round4(AvgRatio(PutBaseline(baselines, symbol)))
  {
    var cb, pb := CallBaseline(baselines, symbol), PutBaseline(baselines, symbol);
    var callMagnitude, putMagnitude := Trunc(SideMagnitude(contracts, Call)), Trunc(SideMagnitude(contracts, Put));
    var otm, time := OtmScore(contracts, today), TimePressureScore(contracts, today);
    var pattern := PatternTallyOf(contracts, today);
    OtmScoreBounds(contracts, today);
    TimePressureBounds(contracts, today);
    SideVolumesPartition(contracts);
    PatternTallyBounds(contracts, today);
    MakeRecordFacts(symbol, contracts, cb, pb, callMagnitude, putMagnitude, otm, time, pattern);
    RoundsKeepSign(Max(AbsZScore(SideVolume(contracts, Call), cb), AbsZScore(SideVolume(contracts, Put), pb)));
    MakeRecord(symbol, contracts, cb, pb, callMagnitude, putMagnitude, otm, time, pattern)
  }

  /** With the OTM and time scores in [0, 2] and the pattern volumes within their totals, the assembled record keeps its bounds and the alert rule. */
  lemma MakeRecordFacts(symbol: string, contracts: seq<OptionRow>, cb: Option<Baseline>, pb: Option<Baseline>,
                        callMagnitude: int, putMagnitude: int, otm: real, time: real, pattern: PatternTally)
    requires 0.0 <= otm <= 2.0 && 0.0 <= time <= 2.0
    requires pattern.otmCallVolume <= pattern.callVolume
    requires pattern.shortTermVolume <= SideVolume(contracts, Call) + SideVolume(contracts, Put)
    ensures var r := MakeRecord(symbol, contracts, cb, pb, callMagnitude, putMagnitude, otm, time, pattern);
      && r.symbol == symbol
      && 0.0 <= r.maxIndividualScore <= 10.0
      && 0.0 <= r.compositeScore <= 10.0
      && (r.insiderActivity <==> r.compositeScore >= 7.5 && r.totalMagnitude >= 20000)
      && (r.maxIndividualScore >= 7.5 && r.totalMagnitude >= 20000 ==> r.insiderActivity)
      && r.totalVolume == SideVolume(contracts, Call) + SideVolume(contracts, Put)
      && r.totalMagnitude == r.callMagnitude + r.putMagnitude
      && 0.0 <= r.otmCallPercentage <= 100.0 && 0.0 <= r.shortTermPercentage <= 100.0
  {
    MakeRecordScores(symbol, contracts, cb, pb, callMagnitude, putMagnitude, otm, time, pattern);
    MakeRecordShares(symbol, contracts, cb, pb, callMagnitude, putMagnitude, otm, time, pattern);
  }

  /** The record's scores are within [0, 10] and its alert flag follows the rounded score and the magnitude. */
  lemma MakeRecordScores(symbol: string, contracts: seq<OptionRow>, cb: Option<Baseline>, pb: Option<Baseline>,
                         callMagnitude: int, putMagnitude: int, otm: real, time: real, pattern: PatternTally)
    requires 0.0 <= otm <= 2.0 && 0.0 <= time <= 2.0
    ensures var r := MakeRecord(symbol, contracts, cb, pb, callMagnitude, putMagnitude, otm, time, pattern);
      && 0.0 <= r.maxIndividualScore <= 10.0
      && 0.0 <= r.compositeScore <= 10.0
      && (r.insiderActivity <==> r.compositeScore >= 7.5 && r.totalMagnitude >= 20000)
      && (r.maxIndividualScore >= 7.5 && r.totalMagnitude >= 20000 ==> r.insiderActivity)
  {
    var r := MakeRecord(symbol, contracts, cb, pb, callMagnitude, putMagnitude, otm, time, pattern);
    Round1KeepsLowerTenth(r.maxIndividualScore, 0);
    Round1KeepsUpperTenth(r.maxIndividualScore, 100);
    AlertThreshold(r.maxIndividualScore, r.totalMagnitude);
  }

  /** The record's totals add up and its two percentages are within [0, 100]. */
  lemma MakeRecordShares(symbol: string, contracts: seq<OptionRow>, cb: Option<Baseline>, pb: Option<Baseline>,
                         callMagnitude: int, putMagnitude: int, otm: real, time: real, pattern: PatternTally)
    requires pattern.otmCallVolume <= pattern.callVolume
    requires pattern.shortTermVolume <= SideVolume(contracts, Call) + SideVolume(contracts, Put)
    ensures var r := MakeRecord(symbol, contracts, cb, pb, callMagnitude, putMagnitude, otm, time, pattern);
      && r.symbol == symbol
      && r.totalVolume == SideVolume(contracts, Call) + SideVolume(contracts, Put)
      && r.totalMagnitude == r.callMagnitude + r.putMagnitude
      && 0.0 <= r.otmCallPercentage <= 100.0 && 0.0 <= r.shortTermPercentage <= 100.0
  {
    PercentRoundBounds(Percentage(pattern.otmCallVolume, pattern.callVolume));
    PercentRoundBounds(Percentage(pattern.shortTermVolume, SideVolume(contracts, Call) + SideVolume(contracts, Put)));
  }

  lemma PercentRoundBounds(p: real)
    requires 0.0 <= p <= 100.0
    ensures 0.0 <= Round1(p) <= 100.0
  {
    Round1KeepsLowerTenth(p, 0);
    Round1KeepsUpperTenth(p, 1000);
  }

  function SymbolOf(c: OptionRow): string { c.symbol }

  predicate HasBaseline(baselines: map<string, Baseline>, symbol: string)
  {
    CallBaseline(baselines, symbol).Some? || PutBaseline(baselines, symbol).Some?
  }

  /** One record per listed symbol that has a baseline, in the listed order. */
  function RecordsFor(symbols: seq<string>, data: seq<OptionRow>, baselines: map<string, Baseline>, today: int): seq<AnomalyRecord>
  {
    if symbols == [] then []
    else
      var rs := RecordsFor(symbols[..|symbols| - 1], data, baselines, today);
      var s := symbols[|symbols| - 1];
      if HasBaseline(baselines, s) then rs + [SymbolRecord(s, Group(data, SymbolOf, s), baselines, today)] else rs
  }

  /** Exactly the symbols with a baseline get a record, whatever their score. */
  lemma {:induction false} RecordsForSymbols(symbols: seq<string>, data: seq<OptionRow>, baselines: map<string, Baseline>, today: int)
    ensures forall r :: r in RecordsFor(symbols, data, baselines, today) ==> r.symbol in symbols && HasBaseline(baselines, r.symbol)
    ensures forall s :: s in symbols && HasBaseline(baselines, s) ==>
              exists r :: r in RecordsFor(symbols, data, baselines, today) && r.symbol == s
  {
    if symbols != [] {
      var init := symbols[..|symbols| - 1];
      RecordsForSymbols(init, data, baselines, today);
      assert symbols == init + [symbols[|symbols| - 1]];
      forall s | s in symbols && HasBaseline(baselines, s)
        ensures exists r :: r in RecordsFor(symbols, data, baselines, today) && r.symbol == s
      {
        if s in init {
          var r :| r in RecordsFor(init, data, baselines, today) && r.symbol == s;
          assert r in RecordsFor(symbols, data, baselines, today);
        } else {
          assert SymbolRecord(s, Group(data, SymbolOf, s), baselines, today) in RecordsFor(symbols, data, baselines, today);
        }
      }
    }
  }

  /** Every stored record keeps the composite bounds and the alert rule. */
  lemma {:induction false} RecordsForBounded(symbols: seq<string>, data: seq<OptionRow>, baselines: map<string, Baseline>, today: int)
    ensures forall r :: r in RecordsFor(symbols, data, baselines, today) ==>
              0.0 <= r.compositeScore <= 10.0 &&
              (r.insiderActivity <==> r.compositeScore >= 7.5 && r.totalMagnitude >= 20000)
  {
    if symbols != [] {
      RecordsForBounded(symbols[..|symbols| - 1], data, baselines, today);
    }
  }

  /**
   * _detect_high_conviction_insider_activity: groups the rows by symbol,
   * scores every symbol with a baseline, collects all records for storage
   * and returns the flagged ones keyed by symbol.
   */
  method DetectHighConviction(data: seq<OptionRow>, baselines: map<string, Baseline>, today: int)
    returns (records: seq<AnomalyRecord>, flagged: map<string, AnomalyRecord>)
    ensures records == RecordsFor(FirstKeys(data, SymbolOf), data, baselines, today)
    ensures forall s :: s in flagged ==> flagged[s] in records && flagged[s].symbol == s && flagged[s].insiderActivity
    ensures forall r :: r in records && r.insiderActivity ==> r.symbol in flagged
  {
    var symbols, groups := GroupBy(data, SymbolOf);
    records, flagged := [], map[];
    var i := 0;
    while i < |symbols|
      invariant 0 <= i <= |symbols|
      invariant records == RecordsFor(symbols[..i], data, baselines, today)
      invariant forall s :: s in flagged ==> flagged[s] in records && flagged[s].symbol == s && flagged[s].insiderActivity
      invariant forall r :: r in records && r.insiderActivity ==> r.symbol in flagged
    {
      var symbol := symbols[i];
      RecordsForStep(symbols, i, data, baselines, today);
      if !HasBaseline(baselines, symbol) {
        i := i + 1;
        continue;
      }
      var record := ScoreRecord(symbol, groups[symbol], baselines, today);
      records := records + [record];
      if record.insiderActivity {
        flagged := flagged[symbol := record];
      }
      i := i + 1;
    }
    assert symbols[..i] == symbols;
  }

  /** The symbols up to and including the i-th add that symbol's record when it has a baseline. */
  lemma RecordsForStep(symbols: seq<string>, i: nat, data: seq<OptionRow>, baselines: map<string, Baseline>, today: int)
    requires i < |symbols|
    ensures RecordsFor(symbols[..i + 1], data, baselines, today)
         == RecordsFor(symbols[..i], data, baselines, today)
            + (if HasBaseline(baselines, symbols[i]) then [SymbolRecord(symbols[i], Group(data, SymbolOf, symbols[i]), baselines, today)] else [])
  {
    assert symbols[..i + 1][..i] == symbols[..i];
  }

  /** The scoring of one symbol in the detection loop: the magnitudes, the four computed scores and the record built from them. */
  method ScoreRecord(symbol: string, contracts: seq<OptionRow>, baselines: map<string, Baseline>, today: int)
    returns (record: AnomalyRecord)
    ensures record == SymbolRecord(symbol, contracts, baselines, today)
  {
    var cb, pb := CallBaseline(baselines, symbol), PutBaseline(baselines, symbol);
    var callMagnitude, putMagnitude := Magnitudes(contracts);
    var otm := ComputeOtmScore(contracts, today);
    var time := ComputeTimePressure(contracts, today);
    var pattern := ComputePatternTally(contracts, today);
    record := MakeRecord(symbol, contracts, cb, pb, callMagnitude, putMagnitude, otm, time, pattern);
  }

  // ---------------------------------------------------------------------
  // Derived columns written by _store_anomalies_bulk
  // ---------------------------------------------------------------------

  datatype Direction = CallHeavy | PutHeavy | Mixed

  /** More than twice the other side's volume makes a side "heavy". */
  function ClassifyDirection(callVolume: nat, putVolume: nat): (d: Direction)
    ensures d == CallHeavy <==> callVolume > 2 * putVolume
    ensures d == PutHeavy <==> putVolume > 2 * callVolume
    ensures d == Mixed <==> callVolume <= 2 * putVolume && putVolume <= 2 * callVolume
  {
    if callVolume > putVolume * 2 then CallHeavy
    else if putVolume > callVolume * 2 then PutHeavy
    else Mixed
  }

  /** Volume as a multiple of its baseline average; 0 without a positive average. */
  function Multiplier(volume: nat, baselineAvg: real): (m: real)
    ensures m >= 0.0
    ensures baselineAvg <= 0.0 ==> m == 0.0
    ensures baselineAvg > 0.0 ==> m * baselineAvg == volume as real
    ensures baselineAvg > 0.0 ==> (m > 1.0 <==> volume as real > baselineAvg)
  {
    if baselineAvg > 0.0 then
      var m := volume as real / baselineAvg;
      assert m * baselineAvg == volume as real;
      ScaledCompare(m, baselineAvg, 1.0, volume as real);
      ScaledCompare(m, baselineAvg, 0.0, volume as real);
      m
    else 0.0
  }

  const MaxCallPutRatio: real := 9999.9999

  /** Call volume over put volume, capped so that the database column cannot overflow. */
  function CallPutRatio(callVolume: nat, putVolume: nat): (r: real)
    ensures 0.0 <= r <= MaxCallPutRatio
    ensures putVolume == 0 ==> r == MaxCallPutRatio
    ensures putVolume > 0 && callVolume as real <= MaxCallPutRatio * putVolume as real ==>
              r * putVolume as real == callVolume as real
  {
    if putVolume > 0 then
      var original := callVolume as real / putVolume as real;
      assert original * putVolume as real == callVolume as real;
      Min(original, MaxCallPutRatio)
    else Min(MaxCallPutRatio, MaxCallPutRatio)
  }

  /** The qualifiers appended to the pattern description, in order. */
  datatype PatternTag = HeavyOtmCalls | ShortTermFocus | HighVolumeOi | ElevatedVolumeOi

  function PatternTags(otmCallPercentage: real, shortTermPercentage: real, volumeOiRatioScore: real): (tags: seq<PatternTag>)
    ensures HeavyOtmCalls in tags <==> otmCallPercentage > 80.0
    ensures ShortTermFocus in tags <==> shortTermPercentage > 70.0
    ensures HighVolumeOi in tags <==> volumeOiRatioScore >= 1.5
    ensures ElevatedVolumeOi in tags <==> 1.0 <= volumeOiRatioScore < 1.5
    ensures !(HighVolumeOi in tags && ElevatedVolumeOi in tags)
  {
    (if otmCallPercentage > 80.0 then [HeavyOtmCalls] else [])
    + (if shortTermPercentage > 70.0 then [ShortTermFocus] else [])
    + (if volumeOiRatioScore >= 1.5 then [HighVolumeOi] else if volumeOiRatioScore >= 1.0 then [ElevatedVolumeOi] else [])
  }

  /** The derived columns of one stored row. */
  datatype StoredColumns = StoredColumns(
    totalOpenInterest: nat,
    callMultiplier: real,
    putMultiplier: real,
    direction: Direction,
    patternTags: seq<PatternTag>,
    callPutRatio: real)

  function StoredColumnsOf(r: AnomalyRecord): (c: StoredColumns)
    ensures c.totalOpenInterest == r.callOpenInterest + r.putOpenInterest
    ensures c.callPutRatio <= MaxCallPutRatio
  {
    StoredColumns(
      r.callOpenInterest + r.putOpenInterest,
      Multiplier(r.callVolume, r.callBaselineAvg),
      Multiplier(r.putVolume, r.putBaselineAvg),
      ClassifyDirection(r.callVolume, r.putVolume),
      PatternTags(r.otmCallPercentage, r.shortTermPercentage, r.volumeOiRatioScore),
      CallPutRatio(r.callVolume, r.putVolume))
  }

  /** The direction label agrees with the stored call/put ratio: call-heavy rows have a ratio above 2, put-heavy rows below 1/2. */
  lemma DirectionMatchesRatio(callVolume: nat, putVolume: nat)
    ensures ClassifyDirection(callVolume, putVolume) == CallHeavy ==> CallPutRatio(callVolume, putVolume) > 2.0
    ensures ClassifyDirection(callVolume, putVolume) == PutHeavy ==> CallPutRatio(callVolume, putVolume) < 0.5
  {
    if putVolume > 0 {
      var p, c := putVolume as real, callVolume as real;
      QuotientBounds(c, p);
    }
  }

  lemma QuotientBounds(c: real, p: real)
    requires p > 0.0 && c >= 0.0
    ensures c > 2.0 * p ==> c / p > 2.0
    ensures 2.0 * c < p ==> c / p < 0.5
  {
    var q := c / p;
    assert q * p == c;
  }
}

=== FILE: intraday_schedule.dfy ===
/**
 * The options half of the intraday run (run_once): planning the number of
 * pages and bulk loads, cutting the contract tickers into request batches
 * that respect both the page size and the URL length limit, grouping the
 * batches into super-batches, keeping the most recently updated snapshot per
 * ticker, and retrying the tickers that came back missing. The HTTP calls,
 * the URL encoding and the database are parameters.
 */
module IntradaySchedule {
  import opened Wrappers
  import opened SeqUtil
  import opened Grouping
  import opened StockData

  // ---- planning arithmetic ----

  /** `math.ceil(a / b)` on integers. */
  function CeilDiv(a: int, b: int): int
    requires b != 0
  {
    if b > 0 then -((-a) / b) else -(a / (-b))
  }

  /** The ceiling is the integer just at or above the quotient, whichever the divisor's sign. */
  lemma CeilDivBounds(a: int, b: int)
    requires b != 0
    ensures b > 0 ==> (CeilDiv(a, b) - 1) * b < a <= CeilDiv(a, b) * b
    ensures b < 0 ==> CeilDiv(a, b) * b <= a < (CeilDiv(a, b) - 1) * b
  {
    var r := CeilDiv(a, b);
    if b > 0 {
      var q, m := (-a) / b, (-a) % b;
      assert -a == q * b + m && 0 <= m < b;
      assert r == -q;
      assert a == r * b - m;
      assert (r - 1) * b == r * b - b;
    } else {
      var q, m := a / (-b), a % (-b);
      assert a == q * (-b) + m && 0 <= m < -b;
      assert r == -q;
      assert a == r * b + m;
      assert (r - 1) * b == r * b - b;
    }
  }

  lemma MulMonotone(x: int, y: int, b: int)
    requires b > 0 && x <= y
    ensures x * b <= y * b
  {
    var d := y - x;
    assert d * b >= 0;
    assert y * b == x * b + d * b;
  }

  /** Only one count of divisor-sized pieces covers `a` with less than one piece to spare. */
  lemma CeilDivUnique(a: int, b: int, c: int)
    requires b > 0
    requires (c - 1) * b < a <= c * b
    ensures c == CeilDiv(a, b)
  {
    var r := CeilDiv(a, b);
    CeilDivBounds(a, b);
    if c < r {
      MulMonotone(c, r - 1, b);
    } else if c > r {
      MulMonotone(r, c - 1, b);
    }
  }

  /** The page size, pages and bulk loads logged before the options are fetched. */
  datatype LoadPlan = LoadPlan(pageSize: int, totalPages: int, totalBulkLoads: int)

  /**
   * `page_size = options_limit or 250`, then the pages needed for all
   * contracts and the bulk loads needed for all pages; dividing by a zero
   * batch-call count raises ZeroDivisionError.
   */
  function PlanLoads(totalContracts: nat, optionsLimit: int, batchCalls: int): (r: Result<LoadPlan>)
    ensures r.Err? ==> batchCalls == 0 && totalContracts > 0
    ensures batchCalls == 0 && totalContracts > 0 && optionsLimit >= 0 ==> r.Err?
    ensures r.Ok? ==> r.value.pageSize == (if optionsLimit == 0 then 250 else optionsLimit)
    ensures r.Ok? && totalContracts == 0 ==> r.value.totalPages == 0 && r.value.totalBulkLoads == 0
    ensures r.Ok? && r.value.pageSize > 0 ==>
      (r.value.totalPages - 1) * r.value.pageSize < totalContracts <= r.value.totalPages * r.value.pageSize
      || (totalContracts == 0 && r.value.totalPages == 0)
    ensures r.Ok? && batchCalls > 0 && r.value.totalPages > 0 ==>
      (r.value.totalBulkLoads - 1) * batchCalls < r.value.totalPages <= r.value.totalBulkLoads * batchCalls
  {
    var pageSize := if optionsLimit != 0 then optionsLimit else 250;
    var totalPages := if totalContracts != 0 then CeilDiv(totalContracts, pageSize) else 0;
    CeilDivBounds(totalContracts, pageSize);
    if totalPages == 0 then Ok(LoadPlan(pageSize, 0, 0))
    else if batchCalls == 0 then Err("division by zero")
    else
      CeilDivBounds(totalPages, batchCalls);
      Ok(LoadPlan(pageSize, totalPages, CeilDiv(totalPages, batchCalls)))
  }

  /** `tickers[:options_test_contracts]` when that option is a positive number. */
  function TestPrefix(tickers: seq<string>, testContracts: Option<int>): (r: seq<string>)
    ensures |r| <= |tickers| && r == tickers[..|r|]
    ensures testContracts.Some? && testContracts.value > 0 ==>
      |r| == if testContracts.value < |tickers| then testContracts.value else |tickers|
    ensures testContracts.None? || testContracts.value <= 0 ==> r == tickers
  {
    if testContracts.Some? && testContracts.value > 0 then
      tickers[..if testContracts.value < |tickers| then testContracts.value else |tickers|]
    else tickers
  }

  // ---- request batches ----

  /**
   * What every request batch satisfies: it is non-empty, within the page
   * size unless it is a single ticker, and within the URL length limit
   * unless it is a single ticker. `urlLength` stands for the length of the
   * prepared snapshot URL carrying the batch as `ticker.any_of`.
   */
  predicate Admissible(b: seq<string>, pageSize: int, maxUrlLen: int, urlLength: seq<string> -> int)
  {
    b != [] && (|b| == 1 || (|b| <= pageSize && urlLength(b) <= maxUrlLen))
  }

  predicate AllAdmissible(bs: seq<seq<string>>, pageSize: int, maxUrlLen: int, urlLength: seq<string> -> int)
  {
    forall j :: 0 <= j < |bs| ==> Admissible(bs[j], pageSize, maxUrlLen, urlLength)
  }

  /** Closing an admissible batch keeps every batch admissible and the tickers in order. */
  lemma CloseBatch(bs: seq<seq<string>>, b: seq<string>, pageSize: int, maxUrlLen: int, urlLength: seq<string> -> int)
    requires AllAdmissible(bs, pageSize, maxUrlLen, urlLength) && Admissible(b, pageSize, maxUrlLen, urlLength)
    ensures AllAdmissible(bs + [b], pageSize, maxUrlLen, urlLength)
    ensures Flatten(bs + [b]) == Flatten(bs) + b
  {
    FlattenAppend(bs, b);
    forall j | 0 <= j < |bs| + 1 ensures Admissible((bs + [b])[j], pageSize, maxUrlLen, urlLength) {
      if j < |bs| {
        assert (bs + [b])[j] == bs[j];
      }
    }
  }

  /**
   * The request-batch loop: tickers are added to the current batch while it
   * stays within the page size and the URL limit; a ticker that would break
   * either starts a new batch, and a single ticker whose URL is already too
   * long is sent on its own.
   */
  method RequestBatches(tickers: seq<string>, pageSize: int, maxUrlLen: int, urlLength: seq<string> -> int)
    returns (batches: seq<seq<string>>)
    ensures Flatten(batches) == tickers
    ensures forall j :: 0 <= j < |batches| ==> Admissible(batches[j], pageSize, maxUrlLen, urlLength)
  {
    batches := [];
    var current: seq<string> := [];
    var i := 0;
    while i < |tickers|
      invariant 0 <= i <= |tickers|
      invariant Flatten(batches) + current == tickers[..i]
      invariant AllAdmissible(batches, pageSize, maxUrlLen, urlLength)
      invariant current == [] || Admissible(current, pageSize, maxUrlLen, urlLength)
    {
      var t := tickers[i];
      var candidate := current + [t];
      assert tickers[..i + 1] == tickers[..i] + [t];
      if |candidate| > pageSize {
        if current != [] {
          CloseBatch(batches, current, pageSize, maxUrlLen, urlLength);
          batches := batches + [current];
        }
        current := [t];
      } else if urlLength(candidate) > maxUrlLen {
        if current != [] {
          CloseBatch(batches, current, pageSize, maxUrlLen, urlLength);
          batches := batches + [current];
          current := [t];
        } else {
          CloseBatch(batches, [t], pageSize, maxUrlLen, urlLength);
          batches := batches + [[t]];
        }
      } else {
        current := candidate;
      }
      i := i + 1;
    }
    if current != [] {
      CloseBatch(batches, current, pageSize, maxUrlLen, urlLength);
      batches := batches + [current];
    }
    assert tickers[..i] == tickers;
  }

  // ---- super-batches ----

  /**
   * `request_batches[start:start+bulk_calls]` for start in
   * `range(0, len(request_batches), bulk_calls)`: a zero step raises
   * ValueError and a negative step yields no slices.
   */
  function SuperBatches(batches: seq<seq<string>>, batchCalls: int): (r: Result<seq<seq<seq<string>>>>)
    ensures r.Err? <==> batchCalls == 0
    ensures batchCalls < 0 ==> r == Ok([])
  {
    if batchCalls == 0 then Err("range() arg 3 must not be zero")
    else if batchCalls < 0 then Ok([])
    else Ok(Chunks(batches, batchCalls))
  }

  /** With a positive step the super-batches hand every request batch on once, in order, in groups of at most `batchCalls`; their number is the ceiling of the quotient. */
  lemma SuperBatchesCover(batches: seq<seq<string>>, batchCalls: int)
    requires batchCalls > 0
    ensures SuperBatches(batches, batchCalls).Ok?
    ensures Flatten(SuperBatches(batches, batchCalls).value) == batches
    ensures forall g :: g in SuperBatches(batches, batchCalls).value ==> 1 <= |g| <= batchCalls
    ensures |SuperBatches(batches, batchCalls).value| == CeilDiv(|batches|, batchCalls)
  {
    var gs := Chunks(batches, batchCalls);
    ChunksFlatten(batches, batchCalls);
    ChunksShape(batches, batchCalls);
    ChunksCount(batches, batchCalls);
    forall g | g in gs ensures 1 <= |g| <= batchCalls {
      var i :| 0 <= i < |gs| && gs[i] == g;
    }
    if |batches| > 0 {
      CeilDivUnique(|batches|, batchCalls, |gs|);
    }
  }

  /** `set(t for batch in group for t in batch)` */
  function Requested(group: seq<seq<string>>): set<string>
  {
    set t | t in Flatten(group)
  }

  // ---- latest snapshot per ticker ----

  /** `r.get('ticker')`, None when absent. */
  function TickerOf(r: Record): Json
  {
    if "ticker" in r then r["ticker"] else JNull
  }

  predicate HasTicker(r: Record)
  {
    Truthy(TickerOf(r))
  }

  /** `r.get('last_updated') or 0` as a number; booleans count as 0 and 1. */
  function LastUpdated(r: Record): real
  {
    if "last_updated" !in r then 0.0
    else match r["last_updated"]
      case JInt(i) => i as real
      case JNum(n) => n
      case JBool(b) => if b then 1.0 else 0.0
      case _ => 0.0
  }

  /**
   * The position of the snapshot kept among those of one ticker: the
   * replacement test `kept < lu` moves on only to a strictly newer one, so
   * this is the first of the most recently updated.
   */
  function LatestIndex(rs: seq<Record>): (i: nat)
    requires rs != []
    ensures i < |rs|
    ensures forall j :: 0 <= j < |rs| ==> LastUpdated(rs[j]) <= LastUpdated(rs[i])
    ensures forall j :: 0 <= j < i ==> LastUpdated(rs[j]) < LastUpdated(rs[i])
  {
    if |rs| == 1 then 0
    else
      var p := LatestIndex(rs[..|rs| - 1]);
      if LastUpdated(rs[p]) < LastUpdated(rs[|rs| - 1]) then |rs| - 1 else p
  }

  function Latest(rs: seq<Record>): Record
    requires rs != []
  {
    rs[LatestIndex(rs)]
  }

  /** The kept snapshot of each listed ticker, in the order of the list. */
  function LatestPerTicker(valid: seq<Record>, ks: seq<Json>): seq<Record>
    requires forall k :: k in ks ==> Group(valid, TickerOf, k) != []
  {
    if ks == [] then []
    else LatestPerTicker(valid, ks[..|ks| - 1]) + [Latest(Group(valid, TickerOf, ks[|ks| - 1]))]
  }

  /**
   * `list(by_ticker.values())`: one snapshot per ticker, tickers in order of
   * first appearance, entries without a ticker dropped.
   */
  function Deduped(rs: seq<Record>): seq<Record>
  {
    var valid := Filter(rs, HasTicker);
    var ks := FirstKeys(valid, TickerOf);
    forall k | k in ks ensures Group(valid, TickerOf, k) != [] {
      GroupOfListedKey(valid, TickerOf, k);
    }
    LatestPerTicker(valid, ks)
  }

  lemma {:induction false} LatestPerTickerShape(valid: seq<Record>, ks: seq<Json>)
    requires forall k :: k in ks ==> Group(valid, TickerOf, k) != []
    ensures |LatestPerTicker(valid, ks)| == |ks|
    ensures forall j :: 0 <= j < |ks| ==> LatestPerTicker(valid, ks)[j] == Latest(Group(valid, TickerOf, ks[j]))
  {
    if ks != [] {
      var init := ks[..|ks| - 1];
      assert forall k :: k in init ==> k in ks;
      LatestPerTickerShape(valid, init);
      var l := LatestPerTicker(valid, ks);
      assert l == LatestPerTicker(valid, init) + [Latest(Group(valid, TickerOf, ks[|ks| - 1]))];
      forall j | 0 <= j < |ks| ensures l[j] == Latest(Group(valid, TickerOf, ks[j])) {
        if j < |ks| - 1 {
          assert ks[j] == init[j];
        }
      }
    }
  }

  /** Every group listed by Deduped is non-empty. */
  lemma ListedGroups(valid: seq<Record>)
    ensures forall k :: k in FirstKeys(valid, TickerOf) ==> Group(valid, TickerOf, k) != []
  {
    forall k | k in FirstKeys(valid, TickerOf) ensures Group(valid, TickerOf, k) != [] {
      GroupOfListedKey(valid, TickerOf, k);
    }
  }

  /** The j-th kept entry is an input entry with a ticker, and its ticker is the j-th ticker to appear. */
  lemma DedupedTickers(rs: seq<Record>)
    ensures |Deduped(rs)| == |FirstKeys(Filter(rs, HasTicker), TickerOf)|
    ensures forall j :: 0 <= j < |Deduped(rs)| ==>
      TickerOf(Deduped(rs)[j]) == FirstKeys(Filter(rs, HasTicker), TickerOf)[j] && Deduped(rs)[j] in Filter(rs, HasTicker)
  {
    var valid := Filter(rs, HasTicker);
    var ks := FirstKeys(valid, TickerOf);
    var d := Deduped(rs);
    ListedGroups(valid);
    LatestPerTickerShape(valid, ks);
    forall j | 0 <= j < |d| ensures TickerOf(d[j]) == ks[j] && d[j] in valid {
      var g := Group(valid, TickerOf, ks[j]);
      GroupMembers(valid, TickerOf, ks[j]);
      assert d[j] == g[LatestIndex(g)];
    }
  }

  /**
   * After de-duplication no ticker occurs twice, every input entry with a
   * ticker is represented, and each kept entry is an input entry with a
   * ticker.
   */
  lemma DedupedSound(rs: seq<Record>)
    ensures forall i, j :: 0 <= i < j < |Deduped(rs)| ==> TickerOf(Deduped(rs)[i]) != TickerOf(Deduped(rs)[j])
    ensures forall r :: r in rs && HasTicker(r) ==> exists j :: 0 <= j < |Deduped(rs)| && TickerOf(Deduped(rs)[j]) == TickerOf(r)
    ensures forall j :: 0 <= j < |Deduped(rs)| ==> Deduped(rs)[j] in rs && HasTicker(Deduped(rs)[j])
  {
    DedupedDistinct(rs);
    DedupedCovers(rs);
    DedupedTickers(rs);
  }

  lemma DedupedDistinct(rs: seq<Record>)
    ensures forall i, j :: 0 <= i < j < |Deduped(rs)| ==> TickerOf(Deduped(rs)[i]) != TickerOf(Deduped(rs)[j])
  {
    var ks := FirstKeys(Filter(rs, HasTicker), TickerOf);
    var d := Deduped(rs);
    DedupedTickers(rs);
    FirstKeysDistinct(Filter(rs, HasTicker), TickerOf);
    forall i, j | 0 <= i < j < |d| ensures TickerOf(d[i]) != TickerOf(d[j]) {
      assert TickerOf(d[i]) == ks[i] && TickerOf(d[j]) == ks[j];
    }
  }

  lemma DedupedCovers(rs: seq<Record>)
    ensures forall r :: r in rs && HasTicker(r) ==> exists j :: 0 <= j < |Deduped(rs)| && TickerOf(Deduped(rs)[j]) == TickerOf(r)
  {
    var valid := Filter(rs, HasTicker);
    var ks := FirstKeys(valid, TickerOf);
    var d := Deduped(rs);
    DedupedTickers(rs);
    FirstKeysDistinct(valid, TickerOf);
    forall r | r in rs && HasTicker(r) ensures exists j :: 0 <= j < |d| && TickerOf(d[j]) == TickerOf(r) {
      FilterCount(rs, HasTicker, r);
      assert r in valid by {
        assert r in multiset(valid);
      }
      assert TickerOf(r) in ks;
      var j :| 0 <= j < |ks| && ks[j] == TickerOf(r);
      assert j < |d| && TickerOf(d[j]) == ks[j];
    }
  }

  /** No input entry of the same ticker is more recent than the kept one (ties go to the first, see LatestIndex). */
  lemma DedupedLatest(rs: seq<Record>, j: int, r: Record)
    requires 0 <= j < |Deduped(rs)|
    requires r in rs && HasTicker(r) && TickerOf(r) == TickerOf(Deduped(rs)[j])
    ensures LastUpdated(r) <= LastUpdated(Deduped(rs)[j])
  {
    var valid := Filter(rs, HasTicker);
    var ks := FirstKeys(valid, TickerOf);
    var d := Deduped(rs);
    DedupedTickers(rs);
    ListedGroups(valid);
    LatestPerTickerShape(valid, ks);
    var g := Group(valid, TickerOf, ks[j]);
    FilterCount(rs, HasTicker, r);
    assert r in multiset(valid);
    GroupPartition(valid, TickerOf, r, ks[j]);
    assert r in multiset(g);
    var i :| 0 <= i < |g| && g[i] == r;
    assert d[j] == g[LatestIndex(g)];
  }

  /** What the `by_ticker` dictionary and its key order hold after the entries `valid`. */
  ghost predicate Tracks(valid: seq<Record>, keys: seq<Json>, byTicker: map<Json, Record>)
  {
    keys == FirstKeys(valid, TickerOf)
    && (forall k :: k in byTicker <==> k in keys)
    && (forall k :: k in byTicker ==> Group(valid, TickerOf, k) != [] && byTicker[k] == Latest(Group(valid, TickerOf, k)))
  }

  /** Keeping the first of the newest is what the loop's replacement test does, one entry at a time. */
  lemma LatestAppend(g: seq<Record>, r: Record)
    requires g != []
    ensures Latest(g + [r]) == if LastUpdated(Latest(g)) < LastUpdated(r) then r else Latest(g)
  {
    assert (g + [r])[..|g|] == g;
  }

  /** The key order after the loop sees `r`: a new ticker is added at the end. */
  function KeysAfter(keys: seq<Json>, byTicker: map<Json, Record>, r: Record): seq<Json>
  {
    if TickerOf(r) in byTicker then keys else keys + [TickerOf(r)]
  }

  /** The dictionary after the loop sees `r`: stored when its ticker is new or it is strictly more recent. */
  function StoreAfter(byTicker: map<Json, Record>, r: Record): map<Json, Record>
  {
    var tk := TickerOf(r);
    if tk !in byTicker || LastUpdated(byTicker[tk]) < LastUpdated(r) then byTicker[tk := r] else byTicker
  }

  /** One step of the de-duplication loop keeps the dictionary in step with the entries seen. */
  lemma TracksStep(valid: seq<Record>, keys: seq<Json>, byTicker: map<Json, Record>, r: Record)
    requires Tracks(valid, keys, byTicker)
    ensures Tracks(valid + [r], KeysAfter(keys, byTicker, r), StoreAfter(byTicker, r))
  {
    var valid' := valid + [r];
    assert valid'[..|valid'| - 1] == valid;
    assert KeysAfter(keys, byTicker, r) == FirstKeys(valid', TickerOf);
    var m' := StoreAfter(byTicker, r);
    forall k | k in m' ensures Group(valid', TickerOf, k) != [] && m'[k] == Latest(Group(valid', TickerOf, k)) {
      TracksEntry(valid, keys, byTicker, r, k);
    }
  }

  /** The entry of one ticker after the step is the latest of that ticker's entries. */
  lemma TracksEntry(valid: seq<Record>, keys: seq<Json>, byTicker: map<Json, Record>, r: Record, k: Json)
    requires Tracks(valid, keys, byTicker)
    requires k in StoreAfter(byTicker, r)
    ensures Group(valid + [r], TickerOf, k) != []
    ensures StoreAfter(byTicker, r)[k] == Latest(Group(valid + [r], TickerOf, k))
  {
    var tk := TickerOf(r);
    if k != tk {
      assert StoreAfter(byTicker, r)[k] == byTicker[k];
      TracksEntryOther(valid, keys, byTicker, r, k);
    } else if tk !in byTicker {
      TracksEntryNew(valid, keys, byTicker, r);
    } else {
      TracksEntryKnown(valid, keys, byTicker, r);
    }
  }

  lemma TracksEntryOther(valid: seq<Record>, keys: seq<Json>, byTicker: map<Json, Record>, r: Record, k: Json)
    requires Tracks(valid, keys, byTicker)
    requires k in byTicker && k != TickerOf(r)
    ensures Group(valid + [r], TickerOf, k) == Group(valid, TickerOf, k) != []
    ensures byTicker[k] == Latest(Group(valid + [r], TickerOf, k))
  {
    GroupAppend(valid, r, TickerOf, k);
  }

  lemma TracksEntryNew(valid: seq<Record>, keys: seq<Json>, byTicker: map<Json, Record>, r: Record)
    requires Tracks(valid, keys, byTicker)
    requires TickerOf(r) !in byTicker
    ensures Group(valid + [r], TickerOf, TickerOf(r)) == [r]
  {
    GroupAppend(valid, r, TickerOf, TickerOf(r));
    GroupOfAbsentKey(valid, TickerOf, TickerOf(r));
  }

  lemma TracksEntryKnown(valid: seq<Record>, keys: seq<Json>, byTicker: map<Json, Record>, r: Record)
    requires Tracks(valid, keys, byTicker)
    requires TickerOf(r) in byTicker
    ensures Group(valid + [r], TickerOf, TickerOf(r)) != []
    ensures StoreAfter(byTicker, r)[TickerOf(r)] == Latest(Group(valid + [r], TickerOf, TickerOf(r)))
  {
    var g := Group(valid, TickerOf, TickerOf(r));
    GroupAppend(valid, r, TickerOf, TickerOf(r));
    LatestAppend(g, r);
  }

  /** The de-duplication loop over `combined_results` with the `by_ticker` dictionary. */
  method LatestByTicker(rs: seq<Record>) returns (kept: seq<Record>)
    ensures kept == Deduped(rs)
  {
    var keys: seq<Json> := [];
    var byTicker: map<Json, Record> := map[];
    ghost var valid: seq<Record> := [];
    var i := 0;
    while i < |rs|
      invariant 0 <= i <= |rs|
      invariant valid == Filter(rs[..i], HasTicker)
      invariant Tracks(valid, keys, byTicker)
    {
      var r := rs[i];
      assert rs[..i + 1][..i] == rs[..i];
      if HasTicker(r) {
        var tk := TickerOf(r);
        TracksStep(valid, keys, byTicker, r);
        if tk !in byTicker {
          keys := keys + [tk];
          byTicker := byTicker[tk := r];
        } else if LastUpdated(byTicker[tk]) < LastUpdated(r) {
          byTicker := byTicker[tk := r];
        }
        valid := valid + [r];
      }
      i := i + 1;
    }
    assert rs[..i] == rs;
    kept := Collect(valid, keys, byTicker);
    ListedGroups(valid);
  }

  /** `list(by_ticker.values())` */
  method Collect(ghost valid: seq<Record>, keys: seq<Json>, byTicker: map<Json, Record>) returns (kept: seq<Record>)
    requires Tracks(valid, keys, byTicker)
    ensures forall k :: k in keys ==> Group(valid, TickerOf, k) != []
    ensures kept == LatestPerTicker(valid, keys)
  {
    ListedGroups(valid);
    kept := [];
    var j := 0;
    while j < |keys|
      invariant 0 <= j <= |keys|
      invariant kept == LatestPerTicker(valid, keys[..j])
    {
      assert keys[..j + 1][..j] == keys[..j];
      kept := kept + [byTicker[keys[j]]];
      j := j + 1;
    }
    assert keys[..j] == keys;
  }

  // ---- missing tickers and their retry ----

  /** `{r.get('ticker') for r in combined_results if r.get('ticker')}`, of which only strings can match a requested ticker. */
  function ReturnedTickers(rs: seq<Record>): set<string>
  {
    set i | 0 <= i < |rs| && HasTicker(rs[i]) && TickerOf(rs[i]).JStr? :: TickerOf(rs[i]).s
  }

  /** `list(requested - returned)`: each missing ticker once, in an order the set leaves open. */
  method MissingTickers(requested: set<string>, returned: set<string>) returns (missing: seq<string>)
    ensures forall t :: t in missing <==> t in requested && t !in returned
    ensures forall i, j :: 0 <= i < j < |missing| ==> missing[i] != missing[j]
  {
    var rest := requested - returned;
    missing := [];
    while rest != {}
      invariant forall t :: t in missing || t in rest <==> t in requested && t !in returned
      invariant forall t :: t in missing ==> t !in rest
      invariant forall i, j :: 0 <= i < j < |missing| ==> missing[i] != missing[j]
      decreases |rest|
    {
      var t :| t in rest;
      missing := missing + [t];
      rest := rest - {t};
    }
  }

  /** `[missing[i:i+50] for i in range(0, len(missing), 50)]` */
  function RetryBatches(missing: seq<string>): seq<seq<string>>
  {
    Chunks(missing, 50)
  }

  /** The retry batches ask for every missing ticker once, in order, at most 50 at a time. */
  lemma RetryBatchesCover(missing: seq<string>)
    ensures Flatten(RetryBatches(missing)) == missing
    ensures forall b :: b in RetryBatches(missing) ==> 1 <= |b| <= 50
  {
    ChunksFlatten(missing, 50);
    ChunksShape(missing, 50);
    forall b | b in RetryBatches(missing) ensures 1 <= |b| <= 50 {
      var i :| 0 <= i < |RetryBatches(missing)| && RetryBatches(missing)[i] == b;
    }
  }

  /** `data.get('results') or []` of each call, concatenated; a call that raised adds nothing. */
  function FetchedRows(batches: seq<seq<string>>, fetch: seq<string> -> Result<seq<Record>>): seq<Record>
  {
    if batches == [] then []
    else
      var reply := fetch(batches[|batches| - 1]);
      FetchedRows(batches[..|batches| - 1], fetch) + (if reply.Ok? then reply.value else [])
  }

  /**
   * One super-batch: fetch every request batch, keep the latest snapshot per
   * ticker, then fetch the requested tickers that did not come back in
   * batches of 50 and append what those return.
   */
  method ProcessSuperBatch(group: seq<seq<string>>, fetch: seq<string> -> Result<seq<Record>>)
    returns (kept: seq<Record>, missing: seq<string>, combined: seq<Record>)
    ensures kept == Deduped(FetchedRows(group, fetch))
    ensures forall t :: t in missing <==> t in Flatten(group) && t !in ReturnedTickers(kept)
    ensures combined == kept + FetchedRows(RetryBatches(missing), fetch)
  {
    kept := LatestByTicker(FetchedRows(group, fetch));
    missing := MissingTickers(Requested(group), ReturnedTickers(kept));
    combined := kept + FetchedRows(RetryBatches(missing), fetch);
  }

  /** Every requested ticker of a super-batch either came back or is asked for again exactly once. */
  lemma RequestedReturnedOrRetried(group: seq<seq<string>>, kept: seq<Record>, missing: seq<string>)
    requires forall t :: t in missing <==> t in Flatten(group) && t !in ReturnedTickers(kept)
    ensures forall t :: t in Flatten(group) ==> t in ReturnedTickers(kept) || t in Flatten(RetryBatches(missing))
    ensures forall t :: t in Flatten(RetryBatches(missing)) ==> t !in ReturnedTickers(kept)
  {
    RetryBatchesCover(missing);
  }
}

=== FILE: legacy_detection.dfy ===
/**
 * The older insider-activity detector (analysis/insider_anomaly_detection.py).
 * It shares the row shape and the OTM volume tally with the current
 * detector but scores differently: absolute volume z-scores, a call-only
 * OTM score, a step-function directional score and exclusive expiry
 * buckets; it also has a diminishing-returns roll-up of individual
 * anomalies and the break-even / moneyness derivation for a contract.
 */
module LegacyDetection {
  import opened Wrappers
  import opened Numeric
  import opened SeqUtil
  import opened Grouping
  import Text
  import ID = InsiderDetection

  // ---------------------------------------------------------------------
  // Volume score (0-3): both sides, both directions
  // ---------------------------------------------------------------------

  /** One side: min(|volume - avg| / std / 3, 1.5), only with a positive average and deviation. */
  function SideVolumeScore(volume: nat, avg: real, std: real): (r: real)
    ensures 0.0 <= r <= 1.5
    ensures !(std > 0.0 && avg > 0.0) ==> r == 0.0
  {
    if std > 0.0 && avg > 0.0 then Min(Abs(volume as real - avg) / std / 3.0, 1.5) else 0.0
  }

  function VolumeScore(callVolume: nat, putVolume: nat, callBaseline: Option<ID.Baseline>, putBaseline: Option<ID.Baseline>): (r: real)
    ensures 0.0 <= r <= 3.0
  {
    var score := SideVolumeScore(callVolume, ID.AvgVolume(callBaseline), ID.StdVolume(callBaseline))
               + SideVolumeScore(putVolume, ID.AvgVolume(putBaseline), ID.StdVolume(putBaseline));
    Min(score, 3.0)
  }

  /**
   * The cap at 3.0 never bites, and volume the same distance below the
   * baseline scores exactly as much as volume above it.
   */
  lemma VolumeScoreSymmetric(below: nat, above: nat, avg: real, std: real)
    requires below as real + above as real == 2.0 * avg
    ensures SideVolumeScore(below, avg, std) == SideVolumeScore(above, avg, std)
  {
    assert Abs(below as real - avg) == Abs(above as real - avg);
  }

  lemma VolumeScoreUncapped(callVolume: nat, putVolume: nat, callBaseline: Option<ID.Baseline>, putBaseline: Option<ID.Baseline>)
    ensures VolumeScore(callVolume, putVolume, callBaseline, putBaseline)
         == SideVolumeScore(callVolume, ID.AvgVolume(callBaseline), ID.StdVolume(callBaseline))
          + SideVolumeScore(putVolume, ID.AvgVolume(putBaseline), ID.StdVolume(putBaseline))
  {
  }

  // ---------------------------------------------------------------------
  // OTM call score (0-3)
  // ---------------------------------------------------------------------

  /** Calls only: 1.5 times the OTM share plus 1.5 times the short-term OTM share. */
  function OtmCallScore(contracts: seq<ID.OptionRow>, today: int): real
  {
    var calls := Filter(contracts, ID.IsCall);
    if calls == [] then 0.0
    else
      var u := ID.FirstUnderlying(contracts);
      if u == 0.0 then 0.0
      else
        var t := ID.Tally(calls, u, today);
        if t.total == 0 then 0.0
        else Min(t.otm as real / t.total as real * 1.5 + t.shortTermOtm as real / t.total as real * 1.5, 3.0)
  }

  /** The score is within [0, 3] and, with calls, an underlying price and call volume, the cap never bites. */
  lemma OtmCallScoreBounds(contracts: seq<ID.OptionRow>, today: int)
    ensures 0.0 <= OtmCallScore(contracts, today) <= 3.0
    ensures var t := ID.Tally(Filter(contracts, ID.IsCall), ID.FirstUnderlying(contracts), today);
            Filter(contracts, ID.IsCall) != [] && ID.FirstUnderlying(contracts) != 0.0 && t.total > 0 ==>
              OtmCallScore(contracts, today) == t.otm as real / t.total as real * 1.5 + t.shortTermOtm as real / t.total as real * 1.5
  {
    var u := ID.FirstUnderlying(contracts);
    var t := ID.Tally(Filter(contracts, ID.IsCall), u, today);
    ID.TallyNested(Filter(contracts, ID.IsCall), u, today);
    if t.total > 0 {
      RatioInUnit(t.otm as real, t.total as real);
      RatioInUnit(t.shortTermOtm as real, t.total as real);
    }
  }

  /** _calculate_otm_call_score_v2 of the older detector. */
  method ComputeOtmCallScore(contracts: seq<ID.OptionRow>, today: int) returns (score: real)
    ensures score == OtmCallScore(contracts, today)
    ensures 0.0 <= score <= 3.0
  {
    OtmCallScoreBounds(contracts, today);
    var calls := Filter(contracts, ID.IsCall);
    if calls == [] {
      return 0.0;
    }
    var j := 0;
    while j < |contracts| && contracts[j].underlying == 0.0
      invariant 0 <= j <= |contracts|
      invariant ID.FirstUnderlying(contracts) == ID.FirstUnderlying(contracts[j..])
    {
      assert contracts[j..][1..] == contracts[j + 1..];
      j := j + 1;
    }
    var u := if j < |contracts| then contracts[j].underlying else 0.0;
    if u == 0.0 {
      return 0.0;
    }
    var t := ID.TallyContracts(calls, u, today);
    if t.total == 0 {
      return 0.0;
    }
    score := Min(t.otm as real / t.total as real * 1.5 + t.shortTermOtm as real / t.total as real * 1.5, 3.0);
  }

  // ---------------------------------------------------------------------
  // Directional score (0-2): a step function of the call share
  // ---------------------------------------------------------------------

  function DirectionalScore(callVolume: nat, putVolume: nat, totalVolume: nat): (r: real)
    ensures totalVolume == 0 ==> r == 0.0
    ensures r == 0.0 || r == 1.0 || r == 1.5 || r == 2.0
  {
    if totalVolume == 0 then 0.0
    else
      var ratio := callVolume as real / totalVolume as real;
      if ratio > 0.8 then 2.0
      else if ratio > 0.7 then 1.5
      else if ratio > 0.6 then 1.0
      else if ratio < 0.2 then 1.5
      else 0.0
  }

  /** From a 20% call share upward, a larger call share never scores less. */
  lemma DirectionalMonotoneAboveFifth(c1: nat, c2: nat, total: nat)
    requires total > 0 && c1 <= c2
    requires c1 as real / total as real >= 0.2
    ensures DirectionalScore(c1, 0, total) <= DirectionalScore(c2, 0, total)
  {
    assert c1 as real / total as real <= c2 as real / total as real by {
      assert c2 as real / total as real - c1 as real / total as real == (c2 - c1) as real / total as real;
    }
  }

  /** A strongly put-heavy day (under 20% calls) scores 1.5, more than a balanced one. */
  lemma DirectionalPutHeavy(callVolume: nat, putVolume: nat)
    requires putVolume > 4 * callVolume
    ensures DirectionalScore(callVolume, putVolume, callVolume + putVolume) == 1.5
  {
    var t := (callVolume + putVolume) as real;
    ShareBelow(callVolume as real, t, 0.2);
  }

  // ---------------------------------------------------------------------
  // Time pressure (0-2) with exclusive buckets
  // ---------------------------------------------------------------------

  /** The elif: a contract within 7 days goes to this_week only, 8-21 days to short_term. */
  function ExclusiveTally(contracts: seq<ID.OptionRow>, today: int): ID.ExpiryTally
  {
    if contracts == [] then ID.ExpiryTally(0, 0, 0)
    else
      var t := ExclusiveTally(contracts[..|contracts| - 1], today);
      var c := contracts[|contracts| - 1];
      var days := c.expiration - today;
      ID.ExpiryTally(t.total + c.volume,
                     t.thisWeek + (if days <= 7 then c.volume else 0),
                     t.shortTerm + (if days > 7 && days <= 21 then c.volume else 0))
  }

  lemma {:induction false} ExclusiveTallyDisjoint(contracts: seq<ID.OptionRow>, today: int)
    ensures ExclusiveTally(contracts, today).thisWeek + ExclusiveTally(contracts, today).shortTerm
            <= ExclusiveTally(contracts, today).total
  {
    if contracts != [] {
      ExclusiveTallyDisjoint(contracts[..|contracts| - 1], today);
    }
  }

  function TimePressureScore(contracts: seq<ID.OptionRow>, today: int): real
  {
    var t := ExclusiveTally(contracts, today);
    if t.total == 0 then 0.0
    else Min(t.thisWeek as real / t.total as real * 1.2 + t.shortTerm as real / t.total as real * 0.8, 2.0)
  }

  /**
   * Because the buckets are disjoint, the score never exceeds 1.2: the
   * documented maximum of 2.0 cannot be reached.
   */
  lemma TimePressureAtMost(contracts: seq<ID.OptionRow>, today: int)
    ensures 0.0 <= TimePressureScore(contracts, today) <= 1.2
  {
    var t := ExclusiveTally(contracts, today);
    ExclusiveTallyDisjoint(contracts, today);
    if t.total > 0 {
      SharesOfParts(t.thisWeek as real, t.shortTerm as real, t.total as real);
    }
  }

  /** A concrete day: all volume expiring this week scores 1.2, not the documented 2.0. */
  lemma TimePressureMaximumExample()
    ensures TimePressureScore([ID.OptionRow("XYZ", ID.Call, 100, 0, 1.0, 100, 10.0, 10.0, 3)], 0) == 1.2
  {
    var rows := [ID.OptionRow("XYZ", ID.Call, 100, 0, 1.0, 100, 10.0, 10.0, 3)];
    assert rows[..0] == [];
    assert ExclusiveTally(rows, 0) == ID.ExpiryTally(100, 100, 0);
  }

  /** The current detector's nested buckets reach 2.0 on the same day. */
  lemma CurrentTimePressureMaximumExample()
    ensures ID.TimePressureScore([ID.OptionRow("XYZ", ID.Call, 100, 0, 1.0, 100, 10.0, 10.0, 3)], 0) == 2.0
  {
    var rows := [ID.OptionRow("XYZ", ID.Call, 100, 0, 1.0, 100, 10.0, 10.0, 3)];
    assert rows[..0] == [];
    assert ID.ExpiryTallyOf(rows, 0) == ID.ExpiryTally(100, 100, 100);
  }

  /** _calculate_time_pressure_score_v2 of the older detector. */
  method ComputeTimePressure(contracts: seq<ID.OptionRow>, today: int) returns (score: real)
    ensures score == TimePressureScore(contracts, today)
    ensures 0.0 <= score <= 1.2
  {
    var total: nat, thisWeek: nat, shortTerm: nat := 0, 0, 0;
    var i := 0;
    while i < |contracts|
      invariant 0 <= i <= |contracts|
      invariant ID.ExpiryTally(total, thisWeek, shortTerm) == ExclusiveTally(contracts[..i], today)
    {
      assert contracts[..i + 1][..i] == contracts[..i];
      var days := contracts[i].expiration - today;
      total := total + contracts[i].volume;
      if days <= 7 {
        thisWeek := thisWeek + contracts[i].volume;
      } else if days <= 21 {
        shortTerm := shortTerm + contracts[i].volume;
      }
      i := i + 1;
    }
    assert contracts[..i] == contracts;
    TimePressureAtMost(contracts, today);
    if total == 0 {
      return 0.0;
    }
    score := Min(thisWeek as real / total as real * 1.2 + shortTerm as real / total as real * 0.8, 2.0);
  }

  // ---------------------------------------------------------------------
  // High-conviction filter
  // ---------------------------------------------------------------------

  datatype ConvictionRecord = ConvictionRecord(
    symbol: string, compositeScore: real, maxIndividualScore: real,
    volumeScore: real, otmCallScore: real, directionalScore: real, timePressureScore: real,
    callVolume: nat, putVolume: nat, totalVolume: nat, callBaselineAvg: real, putBaselineAvg: real)

  /** The unrounded composite of one symbol: the four scores summed, capped at 10. */
  function CompositeOf(contracts: seq<ID.OptionRow>, baselines: map<string, ID.Baseline>, symbol: string, today: int): (c: real)
    ensures 0.0 <= c <= 10.0
  {
    var cv, pv := ID.SideVolume(contracts, ID.Call), ID.SideVolume(contracts, ID.Put);
    var cb, pb := ID.CallBaseline(baselines, symbol), ID.PutBaseline(baselines, symbol);
    OtmCallScoreBounds(contracts, today);
    TimePressureAtMost(contracts, today);
    Min(VolumeScore(cv, pv, cb, pb) + OtmCallScore(contracts, today) + DirectionalScore(cv, pv, cv + pv)
        + TimePressureScore(contracts, today), 10.0)
  }

  /** Whether a symbol is kept: at least 500 contracts traded, some baseline, composite at least 7. */
  predicate Qualifies(contracts: seq<ID.OptionRow>, baselines: map<string, ID.Baseline>, symbol: string, today: int)
  {
    ID.SideVolume(contracts, ID.Call) + ID.SideVolume(contracts, ID.Put) >= 500
    && ID.HasBaseline(baselines, symbol)
    && CompositeOf(contracts, baselines, symbol, today) >= 7.0
  }

  function RecordOf(contracts: seq<ID.OptionRow>, baselines: map<string, ID.Baseline>, symbol: string, today: int): ConvictionRecord
  {
    var cv, pv := ID.SideVolume(contracts, ID.Call), ID.SideVolume(contracts, ID.Put);
    var cb, pb := ID.CallBaseline(baselines, symbol), ID.PutBaseline(baselines, symbol);
    var composite := CompositeOf(contracts, baselines, symbol, today);
    ConvictionRecord(symbol, Round1(composite), composite,
      Round1(VolumeScore(cv, pv, cb, pb)), Round1(OtmCallScore(contracts, today)),
      Round1(DirectionalScore(cv, pv, cv + pv)), Round1(TimePressureScore(contracts, today)),
      cv, pv, cv + pv, ID.AvgVolume(cb), ID.AvgVolume(pb))
  }

  /** The kept records of the listed symbols, in the listed order. */
  function KeptRecords(symbols: seq<string>, data: seq<ID.OptionRow>, baselines: map<string, ID.Baseline>, today: int): seq<ConvictionRecord>
  {
    if symbols == [] then []
    else
      var rs := KeptRecords(symbols[..|symbols| - 1], data, baselines, today);
      var s := symbols[|symbols| - 1];
      var contracts := Group(data, ID.SymbolOf, s);
      if Qualifies(contracts, baselines, s, today) then rs + [RecordOf(contracts, baselines, s, today)] else rs
  }

  /** One more listed symbol adds its record exactly when it qualifies. */
  lemma KeptRecordsStep(symbols: seq<string>, i: nat, data: seq<ID.OptionRow>, baselines: map<string, ID.Baseline>, today: int)
    requires i < |symbols|
    ensures var contracts := Group(data, ID.SymbolOf, symbols[i]);
      KeptRecords(symbols[..i + 1], data, baselines, today)
      == KeptRecords(symbols[..i], data, baselines, today)
         + if Qualifies(contracts, baselines, symbols[i], today) then [RecordOf(contracts, baselines, symbols[i], today)] else []
  {
    assert symbols[..i + 1][..i] == symbols[..i];
  }

  /** Every kept symbol traded at least 500 contracts and scored at least 7.0 before rounding. */
  lemma {:induction false} KeptRecordsQualify(symbols: seq<string>, data: seq<ID.OptionRow>, baselines: map<string, ID.Baseline>, today: int)
    ensures forall r :: r in KeptRecords(symbols, data, baselines, today) ==>
              r.totalVolume >= 500 && 7.0 <= r.maxIndividualScore <= 10.0 && 7.0 <= r.compositeScore <= 10.0
              && ID.HasBaseline(baselines, r.symbol) && r.symbol in symbols
  {
    if symbols != [] {
      var init := symbols[..|symbols| - 1];
      KeptRecordsQualify(init, data, baselines, today);
      var s := symbols[|symbols| - 1];
      var contracts := Group(data, ID.SymbolOf, s);
      var c := CompositeOf(contracts, baselines, s, today);
      if Qualifies(contracts, baselines, s, today) {
        Round1KeepsLowerTenth(c, 70);
        Round1KeepsUpperTenth(c, 100);
      }
    }
  }

  /** A listed symbol has a kept record exactly when it qualifies. */
  lemma {:induction false} KeptRecordsExactly(symbols: seq<string>, data: seq<ID.OptionRow>, baselines: map<string, ID.Baseline>, today: int, s: string)
    requires s in symbols
    ensures Qualifies(Group(data, ID.SymbolOf, s), baselines, s, today)
        <==> exists r :: r in KeptRecords(symbols, data, baselines, today) && r.symbol == s
  {
    var init, last := symbols[..|symbols| - 1], symbols[|symbols| - 1];
    var rs := KeptRecords(init, data, baselines, today);
    KeptRecordsQualify(init, data, baselines, today);
    if s in init {
      KeptRecordsExactly(init, data, baselines, today, s);
    } else {
      assert symbols == init + [last];
      assert s == last;
      assert !exists r :: r in rs && r.symbol == s;
    }
    if Qualifies(Group(data, ID.SymbolOf, last), baselines, last, today) {
      var r := RecordOf(Group(data, ID.SymbolOf, last), baselines, last, today);
      assert KeptRecords(symbols, data, baselines, today) == rs + [r];
      assert forall x :: x in rs + [r] <==> x in rs || x == r;
    }
  }

  /** The four scores of one symbol's contracts, summed and capped. */
  method ScoreSymbol(contracts: seq<ID.OptionRow>, baselines: map<string, ID.Baseline>, symbol: string, today: int)
    returns (composite: real)
    ensures composite == CompositeOf(contracts, baselines, symbol, today)
    ensures 0.0 <= composite <= 10.0
  {
    var otm := ComputeOtmCallScore(contracts, today);
    var time := ComputeTimePressure(contracts, today);
    var cv, pv := ID.SideVolume(contracts, ID.Call), ID.SideVolume(contracts, ID.Put);
    var cb, pb := ID.CallBaseline(baselines, symbol), ID.PutBaseline(baselines, symbol);
    composite := Min(VolumeScore(cv, pv, cb, pb) + otm + DirectionalScore(cv, pv, cv + pv) + time, 10.0);
  }

  /** The older _detect_high_conviction_insider_activity. */
  method DetectHighConviction(data: seq<ID.OptionRow>, baselines: map<string, ID.Baseline>, today: int)
    returns (kept: seq<ConvictionRecord>)
    ensures kept == KeptRecords(FirstKeys(data, ID.SymbolOf), data, baselines, today)
  {
    var symbols, groups := GroupBy(data, ID.SymbolOf);
    kept := [];
    var i := 0;
    while i < |symbols|
      invariant 0 <= i <= |symbols|
      invariant kept == KeptRecords(symbols[..i], data, baselines, today)
    {
      var symbol := symbols[i];
      var contracts := groups[symbol];
      KeptRecordsStep(symbols, i, data, baselines, today);
      var total := ID.SideVolume(contracts, ID.Call) + ID.SideVolume(contracts, ID.Put);
      if total < 500 || !ID.HasBaseline(baselines, symbol) {
        i := i + 1;
        continue;
      }
      var composite := ScoreSymbol(contracts, baselines, symbol, today);
      if composite >= 7.0 {
        kept := kept + [RecordOf(contracts, baselines, symbol, today)];
      }
      i := i + 1;
    }
    assert symbols[..i] == symbols;
  }

  // ---------------------------------------------------------------------
  // Roll-up of individual anomalies to one record per symbol
  // ---------------------------------------------------------------------

  /** One detected anomaly; `details` is carried through unchanged. */
  datatype Anomaly<D> = Anomaly(symbol: string, anomalyType: string, score: real, details: D)

  datatype SymbolRollup<D> = SymbolRollup(
    symbol: string, compositeScore: real, anomalyTypes: seq<string>,
    totalAnomalies: nat, details: map<string, D>, maxIndividualScore: real)

  function SymbolOfAnomaly<D>(a: Anomaly<D>): string { a.symbol }

  /** 0.8 raised to the k-th power. */
  function Decay(k: nat): (r: real)
    ensures 0.0 < r <= 1.0
  {
    if k == 0 then 1.0 else 0.8 * Decay(k - 1)
  }

  function EmptyRollup<D>(symbol: string): SymbolRollup<D>
  {
    SymbolRollup(symbol, 0.0, [], 0, map[], 0.0)
  }

  /** Folding one more anomaly into a symbol's record: the k-th anomaly adds score·0.8^k. */
  function AddAnomaly<D>(r: SymbolRollup<D>, a: Anomaly<D>): SymbolRollup<D>
  {
    SymbolRollup(r.symbol, r.compositeScore + a.score * Decay(r.totalAnomalies),
                 r.anomalyTypes + [a.anomalyType], r.totalAnomalies + 1,
                 r.details[a.anomalyType := a.details], Max(r.maxIndividualScore, a.score))
  }

  /** The record of one symbol after folding its anomalies in input order. */
  function RollupGroup<D>(symbol: string, g: seq<Anomaly<D>>): SymbolRollup<D>
  {
    if g == [] then EmptyRollup(symbol) else AddAnomaly(RollupGroup(symbol, g[..|g| - 1]), g[|g| - 1])
  }

  /** Σ score_k · 0.8^k over a sequence of scores. */
  function DecayedSum(scores: seq<real>): real
  {
    if scores == [] then 0.0 else DecayedSum(scores[..|scores| - 1]) + scores[|scores| - 1] * Decay(|scores| - 1)
  }

  function Scores<D>(g: seq<Anomaly<D>>): (r: seq<real>)
    ensures |r| == |g| && forall k :: 0 <= k < |g| ==> r[k] == g[k].score
  {
    if g == [] then [] else Scores(g[..|g| - 1]) + [g[|g| - 1].score]
  }

  function Types<D>(g: seq<Anomaly<D>>): (r: seq<string>)
    ensures |r| == |g| && forall k :: 0 <= k < |g| ==> r[k] == g[k].anomalyType
  {
    if g == [] then [] else Types(g[..|g| - 1]) + [g[|g| - 1].anomalyType]
  }

  /** A symbol's record counts its anomalies, lists their types in order and sums their scores with diminishing weights. */
  lemma RollupGroupTotals<D>(symbol: string, g: seq<Anomaly<D>>)
    ensures RollupGroup(symbol, g).symbol == symbol
    ensures RollupGroup(symbol, g).totalAnomalies == |g|
    ensures RollupGroup(symbol, g).anomalyTypes == Types(g)
    ensures RollupGroup(symbol, g).compositeScore == DecayedSum(Scores(g))
  {
    RollupGroupCounts(symbol, g);
    RollupGroupScore(symbol, g);
  }

  lemma {:induction false} RollupGroupCounts<D>(symbol: string, g: seq<Anomaly<D>>)
    ensures RollupGroup(symbol, g).symbol == symbol
    ensures RollupGroup(symbol, g).totalAnomalies == |g|
    ensures RollupGroup(symbol, g).anomalyTypes == Types(g)
  {
    if g != [] {
      RollupGroupCounts(symbol, g[..|g| - 1]);
    }
  }

  lemma {:induction false} RollupGroupScore<D>(symbol: string, g: seq<Anomaly<D>>)
    ensures RollupGroup(symbol, g).totalAnomalies == |g|
    ensures RollupGroup(symbol, g).compositeScore == DecayedSum(Scores(g))
  {
    if g != [] {
      var init := g[..|g| - 1];
      RollupGroupScore(symbol, init);
      assert Scores(g)[..|g| - 1] == Scores(init);
    }
  }

  /**
   * The recorded maximum bounds every score and is either 0.0 (every score
   * negative, or none) or one of the scores; every type has its details.
   */
  lemma {:induction false} RollupGroupMax<D>(symbol: string, g: seq<Anomaly<D>>)
    ensures forall a :: a in g ==> a.score <= RollupGroup(symbol, g).maxIndividualScore
    ensures 0.0 <= RollupGroup(symbol, g).maxIndividualScore
    ensures RollupGroup(symbol, g).maxIndividualScore == 0.0
         || exists a :: a in g && a.score == RollupGroup(symbol, g).maxIndividualScore
    ensures forall a :: a in g ==> a.anomalyType in RollupGroup(symbol, g).details
  {
    if g != [] {
      var init, last := g[..|g| - 1], g[|g| - 1];
      RollupGroupMax(symbol, init);
      assert g == init + [last];
      assert forall a :: a in g <==> a in init || a == last;
    }
  }

  /**
   * With every score in [0, m], the diminishing-returns composite stays
   * within 5·m·(1 - 0.8^n), so below five times the largest possible score.
   */
  lemma {:induction false} DecayedSumBound(scores: seq<real>, m: real)
    requires forall k :: 0 <= k < |scores| ==> 0.0 <= scores[k] <= m
    ensures 0.0 <= DecayedSum(scores) <= 5.0 * m * (1.0 - Decay(|scores|))
  {
    if scores != [] {
      var n := |scores| - 1;
      var x := scores[n];
      DecayedSumBound(scores[..n], m);
      var d := Decay(n);
      assert 0.0 <= x * d <= m * d by {
        assert (m - x) * d >= 0.0;
      }
      assert Decay(n + 1) == 0.8 * d;
    }
  }

  /** Every symbol's record, keyed by symbol. */
  function RollupOf<D>(anomalies: seq<Anomaly<D>>): map<string, SymbolRollup<D>>
  {
    map s | s in FirstKeys(anomalies, SymbolOfAnomaly) :: RollupGroup(s, Group(anomalies, SymbolOfAnomaly, s))
  }

  predicate HighConviction<D>(r: SymbolRollup<D>)
  {
    r.compositeScore > 3.0 || r.maxIndividualScore > 4.0
  }

  /** The dictionary after the first anomalies of a list: one record per symbol seen so far. */
  ghost predicate RollsUp<D>(all: map<string, SymbolRollup<D>>, prefix: seq<Anomaly<D>>)
  {
    (forall s :: s in all <==> s in FirstKeys(prefix, SymbolOfAnomaly))
    && forall s :: s in all ==> all[s] == RollupGroup(s, Group(prefix, SymbolOfAnomaly, s))
  }

  /** Creating the record when missing and folding one anomaly in keeps the dictionary in step. */
  lemma RollupStep<D>(all: map<string, SymbolRollup<D>>, prefix: seq<Anomaly<D>>, a: Anomaly<D>)
    requires RollsUp(all, prefix)
    ensures RollsUp(all[a.symbol := AddAnomaly(if a.symbol in all then all[a.symbol] else EmptyRollup(a.symbol), a)], prefix + [a])
  {
    var next := all[a.symbol := AddAnomaly(if a.symbol in all then all[a.symbol] else EmptyRollup(a.symbol), a)];
    assert (prefix + [a])[..|prefix|] == prefix;
    if a.symbol !in all {
      GroupOfAbsentKey(prefix, SymbolOfAnomaly, a.symbol);
    }
    forall s | s in next ensures next[s] == RollupGroup(s, Group(prefix + [a], SymbolOfAnomaly, s)) {
      GroupAppend(prefix, a, SymbolOfAnomaly, s);
      if s == a.symbol {
        var g := Group(prefix + [a], SymbolOfAnomaly, s);
        assert g[..|g| - 1] == Group(prefix, SymbolOfAnomaly, s);
      }
    }
  }

  /** _rollup_to_symbol_level: fold each anomaly into its symbol's record, then keep the high-conviction ones. */
  method RollupToSymbolLevel<D>(anomalies: seq<Anomaly<D>>) returns (kept: map<string, SymbolRollup<D>>)
    ensures forall s :: s in kept <==> s in RollupOf(anomalies) && HighConviction(RollupOf(anomalies)[s])
    ensures forall s :: s in kept ==> kept[s] == RollupOf(anomalies)[s]
  {
    var all: map<string, SymbolRollup<D>> := map[];
    var i := 0;
    while i < |anomalies|
      invariant 0 <= i <= |anomalies|
      invariant RollsUp(all, anomalies[..i])
    {
      var a := anomalies[i];
      assert anomalies[..i + 1] == anomalies[..i] + [a];
      RollupStep(all, anomalies[..i], a);
      if a.symbol !in all {
        all := all[a.symbol := EmptyRollup(a.symbol)];
      }
      all := all[a.symbol := AddAnomaly(all[a.symbol], a)];
      i := i + 1;
    }
    assert anomalies[..i] == anomalies;
    kept := map s | s in all && HighConviction(all[s]) :: all[s];
  }

  // ---------------------------------------------------------------------
  // Derived fields of one contract
  // ---------------------------------------------------------------------

  datatype Derived = Derived(breakEven: real, underlyingChange: real, moneyness: real, isOtm: bool)

  /**
   * The derivation when strike, price, underlying and type are all present
   * and truthy; anything whose lower-cased type is not "call" is treated
   * as a put. A missing price reads as 0.0, which is falsy.
   */
  function DeriveFields(strike: real, price: real, underlying: real, contractType: string): (r: Option<Derived>)
    ensures r.Some? <==> strike != 0.0 && price != 0.0 && underlying != 0.0 && contractType != []
    ensures r.Some? ==> (r.value.isOtm <==> r.value.moneyness < 0.0)
    ensures r.Some? ==> r.value.underlyingChange == r.value.breakEven - underlying
  {
    if strike != 0.0 && price != 0.0 && underlying != 0.0 && contractType != [] then
      var isCall := Text.Lower(contractType) == "call";
      var breakEven := if isCall then strike + price else strike - price;
      var moneyness := if isCall then underlying - strike else strike - underlying;
      Some(Derived(breakEven, breakEven - underlying, moneyness, moneyness < 0.0))
    else None
  }

  /**
   * A call is out of the money exactly when its strike is above the
   * underlying, and needs the underlying to move by its price minus its
   * moneyness to break even.
   */
  lemma CallDerivation(strike: real, price: real, underlying: real, contractType: string)
    requires strike != 0.0 && price != 0.0 && underlying != 0.0 && Text.Lower(contractType) == "call"
    ensures DeriveFields(strike, price, underlying, contractType).Some?
    ensures var d := DeriveFields(strike, price, underlying, contractType).value;
            d.breakEven == strike + price && (d.isOtm <==> strike > underlying)
            && d.underlyingChange == price - d.moneyness
  {
    assert |Text.Lower(contractType)| == |contractType|;
  }

  /** A put is out of the money exactly when its strike is below the underlying. */
  lemma PutDerivation(strike: real, price: real, underlying: real, contractType: string)
    requires strike != 0.0 && price != 0.0 && underlying != 0.0 && contractType != [] && Text.Lower(contractType) != "call"
    ensures DeriveFields(strike, price, underlying, contractType).Some?
    ensures var d := DeriveFields(strike, price, underlying, contractType).value;
            d.breakEven == strike - price && (d.isOtm <==> strike < underlying)
            && d.underlyingChange == d.moneyness - price
  {
  }

  /** The type comparison ignores case: "CALL" and "Call" are calls. */
  lemma DeriveFieldsIgnoresCase(strike: real, price: real, underlying: real, contractType: string)
    ensures DeriveFields(strike, price, underlying, Text.Upper(contractType))
         == DeriveFields(strike, price, underlying, contractType)
  {
    Text.LowerOfUpper(contractType);
  }

  /** A contract row as a mutable record; the derived keys are absent until set. */
  class ContractRecord {
    var strike: real
    var price: real
    var underlying: real
    var contractType: string
    var derived: Option<Derived>

    constructor (strike: real, price: real, underlying: real, contractType: string)
      ensures this.strike == strike && this.price == price && this.underlying == underlying
      ensures this.contractType == contractType && derived == None
    {
      this.strike, this.price, this.underlying := strike, price, underlying;
      this.contractType := contractType;
      derived := None;
    }

    /** _calculate_derived_fields: sets the derived keys, or leaves the record as it was. */
    method CalculateDerivedFields()
      modifies this
      ensures strike == old(strike) && price == old(price) && underlying == old(underlying)
      ensures contractType == old(contractType)
      ensures DeriveFields(strike, price, underlying, contractType).None? ==> derived == old(derived)
      ensures DeriveFields(strike, price, underlying, contractType).Some? ==> derived == DeriveFields(strike, price, underlying, contractType)
    {
      if strike != 0.0 && price != 0.0 && underlying != 0.0 && contractType != [] {
        var isCall := Text.Lower(contractType) == "call";
        var breakEven := if isCall then strike + price else strike - price;
        var moneyness := if isCall then underlying - strike else strike - underlying;
        derived := Some(Derived(breakEven, breakEven - underlying, moneyness, moneyness < 0.0));
      }
    }
  }

  // ---------------------------------------------------------------------
  // Multi-component volume anomaly score
  // ---------------------------------------------------------------------

  /** Average and deviation of a daily volume; a missing key reads as 0. */
  datatype Stats = Stats(avg: real, std: real)

  /** The baseline of one symbol; an empty or missing sub-dictionary is None. */
  datatype ComponentBaseline = ComponentBaseline(
    volumeStats: Option<Stats>, shortTermStats: Option<Stats>,
    otmCallStats: Option<Stats>, otmPutStats: Option<Stats>)

  datatype VolumeComponents = VolumeComponents(overall: real, shortTerm: real, otmCall: real, otmPut: real, composite: real)

  /** max(0, z) when the statistics allow a z-score, else 0. */
  function PositiveZ(volume: nat, stats: Option<Stats>): (r: real)
    ensures 0.0 <= r
    ensures r > 0.0 <==> stats.Some? && stats.value.avg > 0.0 && stats.value.std > 0.0 && volume as real > stats.value.avg
  {
    if stats.Some? && stats.value.avg > 0.0 && stats.value.std > 0.0 then
      Max(0.0, (volume as real - stats.value.avg) / stats.value.std)
    else 0.0
  }

  function VolumeComponentScores(volume: nat, baseline: Option<ComponentBaseline>,
                                 shortTermVolume: nat, otmCallVolume: nat, otmPutVolume: nat): (r: VolumeComponents)
    ensures baseline.None? || volume == 0 ==> r == VolumeComponents(0.0, 0.0, 0.0, 0.0, 0.0)
    ensures 0.0 <= r.overall && 0.0 <= r.shortTerm && 0.0 <= r.otmCall && 0.0 <= r.otmPut
    ensures shortTermVolume == 0 ==> r.shortTerm == 0.0
    ensures otmCallVolume == 0 ==> r.otmCall == 0.0
    ensures otmPutVolume == 0 ==> r.otmPut == 0.0
  {
    if baseline.None? || volume == 0 then VolumeComponents(0.0, 0.0, 0.0, 0.0, 0.0)
    else
      var b := baseline.value;
      var overall := PositiveZ(volume, b.volumeStats);
      var shortTerm := if shortTermVolume > 0 then PositiveZ(shortTermVolume, b.shortTermStats) else 0.0;
      var otmCall := if otmCallVolume > 0 then PositiveZ(otmCallVolume, b.otmCallStats) else 0.0;
      var otmPut := if otmPutVolume > 0 then PositiveZ(otmPutVolume, b.otmPutStats) else 0.0;
      VolumeComponents(overall, shortTerm, otmCall, otmPut, overall * 0.4 + shortTerm * 0.3 + otmCall * 0.2 + otmPut * 0.1)
  }

  /**
   * The weights sum to one, so the composite lies between zero and the
   * largest component, and it is positive exactly when some component is.
   */
  lemma CompositeWithinComponents(volume: nat, baseline: Option<ComponentBaseline>,
                                  shortTermVolume: nat, otmCallVolume: nat, otmPutVolume: nat)
    ensures var r := VolumeComponentScores(volume, baseline, shortTermVolume, otmCallVolume, otmPutVolume);
            0.0 <= r.composite <= Max(Max(r.overall, r.shortTerm), Max(r.otmCall, r.otmPut))
            && (r.composite > 0.0 <==> r.overall > 0.0 || r.shortTerm > 0.0 || r.otmCall > 0.0 || r.otmPut > 0.0)
  {
  }

  /** Above its baseline average, more volume never lowers the overall component. */
  lemma PositiveZMonotone(v1: nat, v2: nat, stats: Option<Stats>)
    requires v1 <= v2
    ensures PositiveZ(v1, stats) <= PositiveZ(v2, stats)
  {
    if stats.Some? && stats.value.avg > 0.0 && stats.value.std > 0.0 {
      var a, s := stats.value.avg, stats.value.std;
      assert (v2 as real - a) / s - (v1 as real - a) / s == (v2 - v1) as real / s;
    }
  }
}

=== FILE: migrations.dfy ===
/**
 * The migration manager (migrations/migration_manager.py): discovery of
 * migration files, the version each file gets, and the selection of the
 * migrations to apply, to roll back and to report.
 *
 * Files are given by their stems, in the order the directory listing
 * produced them. Whether a version string parses as a YYYYMMDD_HHMMSS
 * timestamp is a predicate supplied by the caller, and whether applying or
 * reverting one migration succeeds is an input.
 */
module Migrations {
  import opened Wrappers
  import opened SeqUtil
  import opened Sorting
  import opened Text

  datatype Migration = Migration(version: string, name: string, filename: string)

  const LegacyPrefix := "20240101_000000_"

  /** The version and name a file stem gets. */
  datatype Parsed = Parsed(version: string, name: string)

  /**
   * A stem with an underscore and a first segment of at least eight
   * characters is split at its first two underscores; when the first two
   * segments form a timestamp they are the version and the rest is the
   * name. Splitting a string that holds an underscore always yields two
   * parts at least, so the one-part fallback of the source never applies.
   */
  function ParseVersion(stem: string, isTimestamp: string -> bool): (p: Parsed)
    ensures p.version == stem || p.version == LegacyPrefix + stem || StartsWith(stem, p.version)
    ensures '_' !in stem ==> p == Parsed(LegacyPrefix + stem, stem)
    ensures IndexOf(stem, '_').Some? && IndexOf(stem, '_').value < 8 ==> p == Parsed(LegacyPrefix + stem, stem)
  {
    match IndexOf(stem, '_')
    case None => Parsed(LegacyPrefix + stem, stem)
    case Some(i) =>
      var first := stem[..i];
      var rest := stem[i + 1..];
      if |first| < 8 then Parsed(LegacyPrefix + stem, stem)
      else
        var (second, name) := match IndexOf(rest, '_')
          case None => (rest, "migration")
          case Some(j) => (rest[..j], rest[j + 1..]);
        var versionPart := first + "_" + second;
        assert stem[..|versionPart|] == versionPart by {
          assert stem == first + "_" + rest;
          assert rest[..|second|] == second;
        }
        if isTimestamp(versionPart) then Parsed(versionPart, name) else Parsed(stem, stem)
  }

  /** Building a stem from a timestamp version and a name, then parsing it, gives both back. */
  lemma ParseVersionRoundTrip(date: string, time: string, name: string, isTimestamp: string -> bool)
    requires |date| >= 8 && '_' !in date && '_' !in time
    requires isTimestamp(date + "_" + time)
    ensures ParseVersion(date + "_" + time + "_" + name, isTimestamp) == Parsed(date + "_" + time, name)
    ensures ParseVersion(date + "_" + time, isTimestamp) == Parsed(date + "_" + time, "migration")
  {
    NamedStemSplits(date, time, name);
    BareStemSplits(date, time);
  }

  /** The underscores of DATE_TIME_name are the two after DATE and TIME. */
  lemma NamedStemSplits(date: string, time: string, name: string)
    requires '_' !in date && '_' !in time
    ensures var stem := date + "_" + time + "_" + name;
      && IndexOf(stem, '_') == Some(|date|) && stem[..|date|] == date
      && var rest := stem[|date| + 1..];
      && IndexOf(rest, '_') == Some(|time|) && rest[..|time|] == time && rest[|time| + 1..] == name
  {
    var stem := date + "_" + time + "_" + name;
    assert stem[|date|] == '_' && stem[..|date|] == date;
    var rest := stem[|date| + 1..];
    assert rest == time + "_" + name;
    assert rest[|time|] == '_' && rest[..|time|] == time;
  }

  /** The only underscore of DATE_TIME is the one after DATE. */
  lemma BareStemSplits(date: string, time: string)
    requires '_' !in date && '_' !in time
    ensures var short := date + "_" + time;
      && IndexOf(short, '_') == Some(|date|) && short[..|date|] == date
      && IndexOf(short[|date| + 1..], '_').None? && short[|date| + 1..] == time
  {
    var short := date + "_" + time;
    assert short[|date|] == '_' && short[..|date|] == date;
    assert short[|date| + 1..] == time;
  }

  /** A stem whose first two segments do not form a timestamp is its own version and name. */
  lemma UnparsedTimestampKeepsStem(date: string, time: string, name: string, isTimestamp: string -> bool)
    requires |date| >= 8 && '_' !in date && '_' !in time
    requires !isTimestamp(date + "_" + time)
    ensures var stem := date + "_" + time + "_" + name;
      ParseVersion(stem, isTimestamp) == Parsed(stem, stem)
  {
    NamedStemSplits(date, time, name);
  }

  /** Files the discovery passes over: the manager itself and dunder files. */
  predicate SkippedFile(stem: string)
  {
    StartsWith(stem + ".py", "migration_manager") || StartsWith(stem + ".py", "__")
  }

  function MigrationOf(stem: string, isTimestamp: string -> bool): Migration
  {
    var p := ParseVersion(stem, isTimestamp);
    Migration(p.version, p.name, stem)
  }

  /** The migrations of the listed stems, in listing order, before sorting. */
  function Found(stems: seq<string>, isTimestamp: string -> bool): (r: seq<Migration>)
    ensures |r| <= |stems|
  {
    if stems == [] then []
    else
      var last := stems[|stems| - 1];
      Found(stems[..|stems| - 1], isTimestamp) + (if SkippedFile(last) then [] else [MigrationOf(last, isTimestamp)])
  }

  /** Migrations ordered by their version strings. */
  function ByVersion(): (Migration, Migration) -> bool
  {
    (a: Migration, b: Migration) => StrLe(a.version, b.version)
  }

  lemma ByVersionIsTotalPreorder()
    ensures TotalPreorder(ByVersion())
  {
    forall a: Migration, b: Migration ensures ByVersion()(a, b) || ByVersion()(b, a) {
      StrLeTotal(a.version, b.version);
    }
    forall a: Migration, b: Migration, c: Migration | ByVersion()(a, b) && ByVersion()(b, c)
      ensures ByVersion()(a, c)
    {
      StrLeTransitive(a.version, b.version, c.version);
    }
  }

  /** discover_migrations: collect every file that is not skipped, then sort by version. */
  method DiscoverMigrations(stems: seq<string>, isTimestamp: string -> bool) returns (ms: seq<Migration>)
    ensures SortedBy(ms, ByVersion())
    ensures multiset(ms) == multiset(Found(stems, isTimestamp))
    ensures forall m :: m in ms ==> !SkippedFile(m.filename) && m == MigrationOf(m.filename, isTimestamp)
  {
    var found: seq<Migration> := [];
    var i := 0;
    while i < |stems|
      invariant 0 <= i <= |stems|
      invariant found == Found(stems[..i], isTimestamp)
      invariant forall m :: m in found ==> !SkippedFile(m.filename) && m == MigrationOf(m.filename, isTimestamp)
    {
      assert stems[..i + 1][..i] == stems[..i];
      if !SkippedFile(stems[i]) {
        found := found + [MigrationOf(stems[i], isTimestamp)];
      }
      i := i + 1;
    }
    assert stems[..i] == stems;
    ByVersionIsTotalPreorder();
    SortSorted(found, ByVersion());
    ms := Sort(found, ByVersion());
    forall m | m in ms ensures !SkippedFile(m.filename) && m == MigrationOf(m.filename, isTimestamp) {
      assert m in multiset(ms);
    }
  }

  // ---------------------------------------------------------------------
  // migrate
  // ---------------------------------------------------------------------

  /** A version not yet applied and, when a target is given, not beyond it. */
  function IsPending(applied: set<string>, target: Option<string>): Migration -> bool
  {
    (m: Migration) => m.version !in applied && (target.None? || StrLe(m.version, target.value))
  }

  function Pending(available: seq<Migration>, applied: set<string>, target: Option<string>): seq<Migration>
  {
    Filter(available, IsPending(applied, target))
  }

  /** Keeping part of a sorted list keeps it sorted. */
  lemma {:induction false} FilterKeepsSorted(xs: seq<Migration>, p: Migration -> bool)
    requires SortedBy(xs, ByVersion())
    ensures SortedBy(Filter(xs, p), ByVersion())
  {
    if xs != [] {
      var init := xs[..|xs| - 1];
      FilterKeepsSorted(init, p);
      var f := Filter(init, p);
      forall i | 0 <= i < |f| ensures ByVersion()(f[i], xs[|xs| - 1]) {
        assert f[i] in init;
      }
    }
  }

  /** The pending list is in version order, and holds exactly the unapplied versions up to the target. */
  lemma PendingInOrder(available: seq<Migration>, applied: set<string>, target: Option<string>, m: Migration)
    requires SortedBy(available, ByVersion())
    ensures SortedBy(Pending(available, applied, target), ByVersion())
    ensures m in Pending(available, applied, target) <==>
              m in available && m.version !in applied && (target.None? || StrLe(m.version, target.value))
  {
    FilterKeepsSorted(available, IsPending(applied, target));
    if m in available && IsPending(applied, target)(m) {
      FilterCount(available, IsPending(applied, target), m);
    }
  }

  /** Run `step` on each migration in order, stopping at the first failure; the successful ones are returned. */
  method ApplyInOrder(ms: seq<Migration>, step: Migration -> bool) returns (ok: bool, done: seq<Migration>)
    ensures done == TakeWhile(ms, step)
    ensures ok <==> done == ms
  {
    done := [];
    var i := 0;
    while i < |ms|
      invariant 0 <= i <= |ms|
      invariant done == ms[..i]
      invariant forall j :: 0 <= j < i ==> step(ms[j])
    {
      if !step(ms[i]) {
        TakeWhileUnique(ms, step, i);
        return false, done;
      }
      assert ms[..i + 1] == done + [ms[i]];
      done := done + [ms[i]];
      i := i + 1;
    }
    TakeWhileUnique(ms, step, i);
    assert done == ms;
    return true, done;
  }

  /**
   * migrate: apply the pending migrations in order, stopping at the first
   * that fails; true when every pending migration was applied, which holds
   * at once when none is pending.
   */
  method Migrate(available: seq<Migration>, applied: set<string>, target: Option<string>, apply: Migration -> bool)
    returns (ok: bool, done: seq<Migration>)
    ensures done == TakeWhile(Pending(available, applied, target), apply)
    ensures ok <==> done == Pending(available, applied, target)
    ensures Pending(available, applied, target) == [] ==> ok
  {
    var pending := Pending(available, applied, target);
    if pending == [] {
      return true, [];
    }
    ok, done := ApplyInOrder(pending, apply);
  }

  // ---------------------------------------------------------------------
  // rollback
  // ---------------------------------------------------------------------

  /** `{m['version']: m for m in available}`: a later migration with the same version wins. */
  function Lookup(ms: seq<Migration>): (r: map<string, Migration>)
    ensures forall v :: v in r ==> r[v].version == v && r[v] in ms
    ensures forall m :: m in ms ==> m.version in r
  {
    if ms == [] then map[]
    else
      var last := ms[|ms| - 1];
      Lookup(ms[..|ms| - 1])[last.version := last]
  }

  /** The migrations to roll back: applied versions beyond the target, newest first, that still have a file. */
  function RollbackList(appliedVersions: seq<string>, lookup: map<string, Migration>, target: string): seq<Migration>
  {
    if appliedVersions == [] then []
    else
      var v := appliedVersions[|appliedVersions| - 1];
      (if !StrLe(v, target) && v in lookup then [lookup[v]] else [])
      + RollbackList(appliedVersions[..|appliedVersions| - 1], lookup, target)
  }

  function Versions(ms: seq<Migration>): (r: seq<string>)
    ensures |r| == |ms|
    ensures forall i :: 0 <= i < |ms| ==> r[i] == ms[i].version
  {
    if ms == [] then [] else Versions(ms[..|ms| - 1]) + [ms[|ms| - 1].version]
  }

  function RollsBack(lookup: map<string, Migration>, target: string): string -> bool
  {
    (v: string) => !StrLe(v, target) && v in lookup
  }

  lemma VersionsConcat(a: seq<Migration>, b: seq<Migration>)
    ensures Versions(a + b) == Versions(a) + Versions(b)
  {
    assert |Versions(a + b)| == |Versions(a) + Versions(b)|;
    forall i | 0 <= i < |a + b| ensures Versions(a + b)[i] == (Versions(a) + Versions(b))[i] {
      if i < |a| {
        assert (a + b)[i] == a[i];
      } else {
        assert (a + b)[i] == b[i - |a|];
      }
    }
  }

  /** The one version at the head of the reversed list is kept exactly when it is rolled back. */
  lemma RollbackHead(v: string, lookup: map<string, Migration>, target: string)
    requires forall v :: v in lookup ==> lookup[v].version == v
    ensures Versions(if RollsBack(lookup, target)(v) then [lookup[v]] else []) == Filter([v], RollsBack(lookup, target))
  {
    assert [v][..0] == [];
  }

  /**
   * The rolled-back versions are exactly the applied versions beyond the
   * target that have a file, taken in reverse order of application.
   */
  lemma {:induction false} RollbackListVersions(appliedVersions: seq<string>, lookup: map<string, Migration>, target: string)
    requires forall v :: v in lookup ==> lookup[v].version == v
    ensures Versions(RollbackList(appliedVersions, lookup, target))
         == Filter(Reverse(appliedVersions), RollsBack(lookup, target))
  {
    if appliedVersions != [] {
      var init := appliedVersions[..|appliedVersions| - 1];
      var v := appliedVersions[|appliedVersions| - 1];
      RollbackListVersions(init, lookup, target);
      var head: seq<Migration> := if RollsBack(lookup, target)(v) then [lookup[v]] else [];
      var tail := RollbackList(init, lookup, target);
      assert RollbackList(appliedVersions, lookup, target) == head + tail;
      VersionsConcat(head, tail);
      RollbackHead(v, lookup, target);
      assert Reverse(appliedVersions) == [v] + Reverse(init);
      FilterConcat([v], Reverse(init), RollsBack(lookup, target));
    }
  }

  /** Every migration rolled back is a discovered one, applied and beyond the target. */
  lemma {:induction false} RollbackListSound(appliedVersions: seq<string>, available: seq<Migration>, target: string, m: Migration)
    requires m in RollbackList(appliedVersions, Lookup(available), target)
    ensures m in available && m.version in appliedVersions && !StrLe(m.version, target)
  {
    var init := appliedVersions[..|appliedVersions| - 1];
    var v := appliedVersions[|appliedVersions| - 1];
    assert appliedVersions == init + [v];
    if m !in RollbackList(init, Lookup(available), target) {
      assert m == Lookup(available)[v];
    } else {
      RollbackListSound(init, available, target, m);
    }
  }

  /** The `for version in reversed(applied_migrations)` selection loop of rollback. */
  method SelectRollback(appliedVersions: seq<string>, lookup: map<string, Migration>, target: string)
    returns (selected: seq<Migration>)
    ensures selected == RollbackList(appliedVersions, lookup, target)
  {
    selected := [];
    var k := |appliedVersions|;
    assert appliedVersions[..k] == appliedVersions;
    while k > 0
      invariant 0 <= k <= |appliedVersions|
      invariant RollbackList(appliedVersions, lookup, target) == selected + RollbackList(appliedVersions[..k], lookup, target)
    {
      var v := appliedVersions[k - 1];
      assert appliedVersions[..k][..k - 1] == appliedVersions[..k - 1];
      if !StrLe(v, target) && v in lookup {
        selected := selected + [lookup[v]];
      }
      k := k - 1;
    }
    assert appliedVersions[..0] == [];
  }

  /** rollback: select the migrations, then revert them one by one, stopping at the first failure. */
  method Rollback(appliedVersions: seq<string>, available: seq<Migration>, target: string, revert: Migration -> bool)
    returns (ok: bool, reverted: seq<Migration>)
    ensures reverted == TakeWhile(RollbackList(appliedVersions, Lookup(available), target), revert)
    ensures ok <==> reverted == RollbackList(appliedVersions, Lookup(available), target)
  {
    var selected := SelectRollback(appliedVersions, Lookup(available), target);
    if selected == [] {
      return true, [];
    }
    ok, reverted := ApplyInOrder(selected, revert);
  }

  // ---------------------------------------------------------------------
  // status
  // ---------------------------------------------------------------------

  datatype MigrationStatus = MigrationStatus(appliedCount: nat, pendingCount: nat, applied: seq<Migration>,
                                             pending: seq<Migration>, lastApplied: Option<string>)

  function IsApplied(applied: set<string>): Migration -> bool
  {
    (m: Migration) => m.version in applied
  }

  function NotApplied(applied: set<string>): Migration -> bool
  {
    (m: Migration) => m.version !in applied
  }

  /** status: split the discovered migrations into applied and pending, and name the last applied. */
  method Status(available: seq<Migration>, applied: set<string>) returns (st: MigrationStatus)
    ensures st.applied == Filter(available, IsApplied(applied))
    ensures st.pending == Filter(available, NotApplied(applied))
    ensures st.appliedCount == |st.applied| && st.pendingCount == |st.pending|
    ensures st.appliedCount + st.pendingCount == |available|
    ensures st.lastApplied.None? <==> st.applied == []
    ensures st.lastApplied.Some? ==> st.lastApplied.value == st.applied[|st.applied| - 1].version
  {
    var appliedInfo, pending := [], [];
    var i := 0;
    while i < |available|
      invariant 0 <= i <= |available|
      invariant appliedInfo == Filter(available[..i], IsApplied(applied))
      invariant pending == Filter(available[..i], NotApplied(applied))
    {
      assert available[..i + 1][..i] == available[..i];
      if available[i].version in applied {
        appliedInfo := appliedInfo + [available[i]];
      } else {
        pending := pending + [available[i]];
      }
      i := i + 1;
    }
    assert available[..i] == available;
    FilterComplement(available, IsApplied(applied), NotApplied(applied));
    var last := if appliedInfo == [] then None else Some(appliedInfo[|appliedInfo| - 1].version);
    st := MigrationStatus(|appliedInfo|, |pending|, appliedInfo, pending, last);
  }
}

=== FILE: numeric.dfy ===
/**
 * Real-number helpers shared by the scoring modules: Python's min/max/abs,
 * int() truncation of a float and round(x, n) for n from 1 to 4.
 */
module Numeric {
  function Min(a: real, b: real): real { if b < a then b else a }
  function Max(a: real, b: real): real { if b > a then b else a }
  function Abs(x: real): real { if x < 0.0 then -x else x }
  function MinInt(a: int, b: int): int { if b < a then b else a }
  function MaxInt(a: int, b: int): int { if b > a then b else a }

  /** Python's int() applied to a float: truncation toward zero. */
  function Trunc(x: real): (n: int)
    ensures 0.0 <= x ==> n as real <= x < n as real + 1.0
    ensures x < 0.0 ==> n as real - 1.0 < x <= n as real
    ensures Abs(n as real) <= Abs(x)
  {
    if x >= 0.0 then x.Floor else -((-x).Floor)
  }

  /** The nearest integer to t, ties to the even one. */
  function RoundHalfEven(t: real): (n: int)
    ensures t - 0.5 <= n as real <= t + 0.5
  {
    var f := t.Floor;
    var frac := t - f as real;
    if frac > 0.5 then f + 1
    else if frac < 0.5 then f
    else if f % 2 == 0 then f else f + 1
  }

  /**
   * round(x, 1) on exact reals: the nearest multiple of 0.1, ties to the
   * even tenth. The result is never more than 0.05 away from x.
   */
  function Round1(x: real): (r: real)
    ensures x - 0.05 <= r <= x + 0.05
  {
    RoundHalfEven(x * 10.0) as real / 10.0
  }

  /** round(x, 2) on exact reals. */
  function Round2(x: real): (r: real)
    ensures x - 0.005 <= r <= x + 0.005
  {
    RoundHalfEven(x * 100.0) as real / 100.0
  }

  /** round(x, 3) on exact reals. */
  function Round3(x: real): (r: real)
    ensures x - 0.0005 <= r <= x + 0.0005
  {
    RoundHalfEven(x * 1000.0) as real / 1000.0
  }

  /** round(x, 4) on exact reals: a whole number of ten-thousandths, within half of one of x. */
  function Round4(x: real): (r: real)
    ensures x - 0.00005 <= r <= x + 0.00005
    ensures (r * 10000.0).Floor as real == r * 10000.0
  {
    RoundHalfEven(x * 10000.0) as real / 10000.0
  }

  /** Rounding a non-negative value to two, three or four decimals keeps it non-negative. */
  lemma RoundsKeepSign(x: real)
    requires 0.0 <= x
    ensures 0.0 <= Round2(x) && 0.0 <= Round3(x) && 0.0 <= Round4(x)
  {
    assert 0 <= RoundHalfEven(x * 100.0);
    assert 0 <= RoundHalfEven(x * 1000.0);
    assert 0 <= RoundHalfEven(x * 10000.0);
  }

  /** Three-decimal rounding never moves a value across a whole thousandth from above. */
  lemma Round3KeepsLowerThousandth(x: real, k: int)
    requires k as real / 1000.0 <= x
    ensures k as real / 1000.0 <= Round3(x)
  {
    var t := x * 1000.0;
    assert k as real <= t;
    assert k <= t.Floor;
  }

  /** Three-decimal rounding never moves a value across a whole thousandth from below. */
  lemma Round3KeepsUpperThousandth(x: real, k: int)
    requires x <= k as real / 1000.0
    ensures Round3(x) <= k as real / 1000.0
  {
    var t := x * 1000.0;
    var f := t.Floor;
    assert t <= k as real;
    if f == k {
      assert t - f as real == 0.0;
    }
  }

  /** Rounding never moves a value across a multiple of 0.1 from above. */
  lemma Round1KeepsLowerTenth(x: real, k: int)
    requires k as real / 10.0 <= x
    ensures k as real / 10.0 <= Round1(x)
  {
    var t := x * 10.0;
    assert k as real <= t;
    assert k <= t.Floor;
  }

  /** With `t` positive and `p` the product `r * t`, comparing `r` with `k` is comparing `p` with `k * t`. */
  lemma ScaledCompare(r: real, t: real, k: real, p: real)
    requires t > 0.0 && p == r * t
    ensures r >= k <==> p >= k * t
    ensures r <= k <==> p <= k * t
  {
    if r >= k {
      assert (r - k) * t >= 0.0;
    } else {
      assert (k - r) * t > 0.0;
    }
    if r <= k {
      assert (k - r) * t >= 0.0;
    } else {
      assert (r - k) * t > 0.0;
    }
  }

  /** Rounding never moves a value across a multiple of 0.1 from below. */
  lemma Round1KeepsUpperTenth(x: real, k: int)
    requires x <= k as real / 10.0
    ensures Round1(x) <= k as real / 10.0
  {
    var t := x * 10.0;
    var f := t.Floor;
    assert t <= k as real;
    if f == k {
      assert t - f as real == 0.0;
    }
  }

  lemma RatioInUnit(a: real, b: real)
    requires 0.0 <= a && 0.0 < b
    ensures 0.0 <= a / b
    ensures a <= b ==> a / b <= 1.0
  {
    assert a / b * b == a;
  }

  /** Two disjoint parts of a positive whole have shares that sum to at most one. */
  lemma SharesOfParts(x: real, y: real, t: real)
    requires 0.0 <= x && 0.0 <= y && x + y <= t && 0.0 < t
    ensures 0.0 <= x / t && 0.0 <= y / t && x / t + y / t <= 1.0
  {
    var a, b := x / t, y / t;
    assert a * t == x;
    assert b * t == y;
    assert (a + b) * t == x + y;
    if a + b > 1.0 {
      assert (a + b - 1.0) * t > 0.0;
    }
  }

  /** A part below k times the whole has a share below k. */
  lemma ShareBelow(x: real, t: real, k: real)
    requires 0.0 < t && x < k * t
    ensures x / t < k
  {
    var a := x / t;
    assert a * t == x;
  }

  /** Two-decimal rounding keeps a value at or above a whole hundredth there. */
  lemma Round2KeepsLowerHundredth(x: real, k: int)
    requires k as real / 100.0 <= x
    ensures k as real / 100.0 <= Round2(x)
  {
    var t := x * 100.0;
    assert k as real <= t;
    assert k <= t.Floor;
  }

  /** Rounding to two decimals never reorders two values. */
  lemma Round2Monotone(x: real, y: real)
    requires x <= y
    ensures Round2(x) <= Round2(y)
  {
    var s, t := x * 100.0, y * 100.0;
    assert s <= t;
    assert s.Floor <= t.Floor;
  }

  function Sum(xs: seq<real>): real
  {
    if xs == [] then 0.0 else Sum(xs[..|xs| - 1]) + xs[|xs| - 1]
  }

  lemma Sum4(a: real, b: real, c: real, d: real)
    ensures Sum([a, b, c, d]) == a + b + c + d
  {
    assert [a][..0] == [];
    assert Sum([a]) == a;
    assert [a, b][..1] == [a];
    assert Sum([a, b]) == a + b;
    assert [a, b, c][..2] == [a, b];
    assert Sum([a, b, c]) == a + b + c;
    assert [a, b, c, d][..3] == [a, b, c];
  }

  /** np.mean */
  function Mean(xs: seq<real>): real
    requires |xs| > 0
  {
    Sum(xs) / |xs| as real
  }

  /** Σ xs[i]·ws[i] over the common length. */
  function Dot(xs: seq<real>, ws: seq<real>): real
    requires |xs| == |ws|
  {
    if xs == [] then 0.0 else Dot(xs[..|xs| - 1], ws[..|ws| - 1]) + xs[|xs| - 1] * ws[|ws| - 1]
  }

  /** Values within [lo, hi] weighted by non-negative weights stay within lo and hi times the total weight. */
  lemma {:induction false} DotBounds(xs: seq<real>, ws: seq<real>, lo: real, hi: real)
    requires |xs| == |ws|
    requires forall i :: 0 <= i < |xs| ==> lo <= xs[i] <= hi
    requires forall i :: 0 <= i < |ws| ==> 0.0 <= ws[i]
    ensures lo * Sum(ws) <= Dot(xs, ws) <= hi * Sum(ws)
  {
    if xs != [] {
      var n := |xs| - 1;
      DotBounds(xs[..n], ws[..n], lo, hi);
      var x, w := xs[n], ws[n];
      assert (hi - x) * w >= 0.0;
      assert (x - lo) * w >= 0.0;
      assert hi * Sum(ws) == hi * Sum(ws[..n]) + hi * w;
      assert lo * Sum(ws) == lo * Sum(ws[..n]) + lo * w;
    }
  }

  /** Every element divided by the total. */
  function Normalize(ws: seq<real>): (r: seq<real>)
    requires Sum(ws) != 0.0
    ensures |r| == |ws|
  {
    seq(|ws|, i requires 0 <= i < |ws| => ws[i] / Sum(ws))
  }

  lemma {:induction false} SumDivided(ws: seq<real>, t: real)
    requires t != 0.0
    ensures Sum(seq(|ws|, i requires 0 <= i < |ws| => ws[i] / t)) == Sum(ws) / t
  {
    if ws != [] {
      var n := |ws| - 1;
      var d := seq(|ws|, i requires 0 <= i < |ws| => ws[i] / t);
      SumDivided(ws[..n], t);
      assert d[..n] == seq(n, i requires 0 <= i < n => ws[..n][i] / t);
      assert Sum(ws[..n]) / t + ws[n] / t == (Sum(ws[..n]) + ws[n]) / t;
    }
  }

  lemma {:induction false} SumPositive(ws: seq<real>)
    requires |ws| > 0 && forall i :: 0 <= i < |ws| ==> ws[i] > 0.0
    ensures Sum(ws) > 0.0
  {
    if |ws| > 1 {
      SumPositive(ws[..|ws| - 1]);
    }
  }

  /** Positive weights, normalised, are positive and add up to one. */
  lemma NormalizeSumsToOne(ws: seq<real>)
    requires |ws| > 0 && forall i :: 0 <= i < |ws| ==> ws[i] > 0.0
    ensures Sum(ws) > 0.0
    ensures Sum(Normalize(ws)) == 1.0
    ensures forall i :: 0 <= i < |ws| ==> Normalize(ws)[i] > 0.0
  {
    SumPositive(ws);
    var t := Sum(ws);
    SumDivided(ws, t);
    assert Normalize(ws) == seq(|ws|, i requires 0 <= i < |ws| => ws[i] / t);
    assert t / t == 1.0;
    forall i | 0 <= i < |ws| ensures Normalize(ws)[i] > 0.0 {
      assert Normalize(ws)[i] == ws[i] / t;
    }
  }
}

=== FILE: options_scraper.dfy ===
/**
 * The optimised option-contracts scraper: the adaptive request delay that
 * backs off on HTTP 429 and speeds up after a streak of successes, the retry
 * loop of one ticker, the pacing between completions, the per-date counters
 * and the date-range counters. The fetches run one after another here; the
 * HTTP replies, the database and the bulk load are parameters.
 */
module OptionsScraper {
  import opened Wrappers
  import opened Numeric
  import opened SeqUtil
  import opened Calendar
  import opened StockData
  import opened DailyScraper
  import opened ContractsScraper

  // ---- the adaptive delay ----

  const InitialRequestDelay: real := 0.05
  const MaxDelay: real := 1.0
  const BackoffMultiplier: real := 1.5
  const SpeedUpFactor: real := 0.95
  const StreakToSpeedUp: nat := 10

  /** The delay before the next request and the number of successes since the last change. */
  datatype Pace = Pace(delay: real, streak: nat)

  /** What happens to the pace: a 429 reply or an OK body. */
  datatype PaceEvent = RateLimited | Succeeded

  /** The bounds the pace keeps: between the configured delay and one second, and a streak that never reaches ten while the speed-up is on. */
  predicate PaceInBounds(p: Pace, requestDelay: real, dynamic: bool)
  {
    requestDelay <= p.delay <= MaxDelay && (dynamic ==> p.streak < StreakToSpeedUp)
  }

  /** The reaction to one event: back off by half again (at most one second), or count a success and, at ten, take 5% off (not below the configured delay). */
  function Step(p: Pace, e: PaceEvent, requestDelay: real, dynamic: bool): Pace
  {
    match e
    case RateLimited => Pace(Min(p.delay * BackoffMultiplier, MaxDelay), 0)
    case Succeeded =>
      if dynamic && p.streak + 1 >= StreakToSpeedUp then Pace(Max(p.delay * SpeedUpFactor, requestDelay), 0)
      else Pace(p.delay, p.streak + 1)
  }

  /** A 429 resets the streak and never shortens the delay; a success only counts, or at the tenth resets the streak and never lengthens the delay nor takes it below the configured one. */
  lemma StepMeaning(p: Pace, e: PaceEvent, requestDelay: real, dynamic: bool)
    ensures var q := Step(p, e, requestDelay, dynamic);
      && (e == RateLimited ==> q.streak == 0 && (q.delay == MaxDelay || q.delay == p.delay * BackoffMultiplier))
      && (e == RateLimited && 0.0 <= p.delay <= MaxDelay ==> p.delay <= q.delay <= MaxDelay)
      && (e == Succeeded && !(dynamic && p.streak + 1 >= StreakToSpeedUp) ==> q == Pace(p.delay, p.streak + 1))
      && (e == Succeeded && dynamic && p.streak + 1 >= StreakToSpeedUp ==>
            q.streak == 0 && requestDelay <= q.delay && (p.delay >= 0.0 ==> q.delay <= p.delay || q.delay == requestDelay))
  {
    if e == RateLimited {
      assert p.delay >= 0.0 ==> p.delay * BackoffMultiplier >= p.delay;
    } else if dynamic && p.streak + 1 >= StreakToSpeedUp {
      assert p.delay >= 0.0 ==> p.delay * SpeedUpFactor <= p.delay;
    }
  }

  /** Every event keeps the pace within its bounds, given a configured delay that is positive and at most one second. */
  lemma StepInBounds(p: Pace, e: PaceEvent, requestDelay: real, dynamic: bool)
    requires 0.0 < requestDelay <= MaxDelay
    requires PaceInBounds(p, requestDelay, dynamic)
    ensures PaceInBounds(Step(p, e, requestDelay, dynamic), requestDelay, dynamic)
  {
    var q := Step(p, e, requestDelay, dynamic);
    match e
    case RateLimited =>
      assert p.delay * BackoffMultiplier >= p.delay;
    case Succeeded =>
      if dynamic && p.streak + 1 >= StreakToSpeedUp {
        assert p.delay * SpeedUpFactor <= p.delay;
      }
  }

  /** The pace after a list of events, applied in order. */
  function Replay(p: Pace, es: seq<PaceEvent>, requestDelay: real, dynamic: bool): Pace
  {
    if es == [] then p
    else Step(Replay(p, es[..|es| - 1], requestDelay, dynamic), es[|es| - 1], requestDelay, dynamic)
  }

  /** Starting from the configured delay, no sequence of replies takes the pace out of its bounds. */
  lemma {:induction false} ReplayInBounds(es: seq<PaceEvent>, requestDelay: real, dynamic: bool)
    requires 0.0 < requestDelay <= MaxDelay
    ensures PaceInBounds(Replay(Pace(requestDelay, 0), es, requestDelay, dynamic), requestDelay, dynamic)
  {
    if es != [] {
      ReplayInBounds(es[..|es| - 1], requestDelay, dynamic);
      StepInBounds(Replay(Pace(requestDelay, 0), es[..|es| - 1], requestDelay, dynamic), es[|es| - 1], requestDelay, dynamic);
    }
  }

  // ---- one ticker ----

  /** The reply to one attempt: HTTP 429, a request exception (including a failed raise_for_status), another exception, or a JSON body. */
  datatype Reply = TooManyRequests | RequestFailed | Unexpected | Body(data: Record)

  predicate StatusOk(data: Record)
  {
    "status" in data && data["status"] == JStr("OK")
  }

  /**
   * `len(data.get('results', []))` succeeds: the key is absent, or holds a
   * string, a list or an object. A null, a boolean or a number makes `len`
   * raise, and the fetch ends without data.
   */
  predicate ResultsSized(data: Record)
  {
    "results" !in data || data["results"].JStr? || data["results"].JOther?
  }

  /** A reply that brings data: a body with status OK whose results can be sized. */
  predicate Fetched(r: Reply)
  {
    r.Body? && StatusOk(r.data) && ResultsSized(r.data)
  }

  predicate Retryable(r: Reply)
  {
    r.TooManyRequests? || r.RequestFailed?
  }

  /** Attempts k, k + 1, ... of one ticker: the data returned, if any, and how many attempts were made in all. */
  function Attempts(reply: nat -> Reply, k: nat, maxRetries: int): (Option<Record>, nat)
    decreases maxRetries - k
  {
    if k >= maxRetries then (None, k)
    else match reply(k)
      case TooManyRequests => Attempts(reply, k + 1, maxRetries)
      case RequestFailed => Attempts(reply, k + 1, maxRetries)
      case Unexpected => (None, k + 1)
      case Body(data) => (if StatusOk(data) && ResultsSized(data) then Some(data) else None, k + 1)
  }

  /**
   * At most max_retries attempts are made; only 429s and request exceptions
   * lead to another attempt; data is returned exactly when the last attempt
   * got a body with status OK whose results can be sized; and stopping
   * before the last allowed attempt
   * means the last reply was a body or an unexpected error.
   */
  lemma {:induction false} AttemptsMeaning(reply: nat -> Reply, k: nat, maxRetries: int)
    ensures var (res, n) := Attempts(reply, k, maxRetries);
      && k <= n && (k < maxRetries ==> k < n <= maxRetries) && (k >= maxRetries ==> n == k)
      && (forall j :: k <= j < n - 1 ==> Retryable(reply(j)))
      && (res.Some? <==> k < n && Fetched(reply(n - 1)))
      && (res.Some? ==> res.value == reply(n - 1).data)
      && (k < n < maxRetries ==> !Retryable(reply(n - 1)))
    decreases maxRetries - k
  {
    if k < maxRetries && Retryable(reply(k)) {
      AttemptsMeaning(reply, k + 1, maxRetries);
    }
  }

  /** The pace events of one reply. */
  function EventsOf(r: Reply): seq<PaceEvent>
  {
    match r
    case TooManyRequests => [RateLimited]
    case Body(data) => if StatusOk(data) then [Succeeded] else []
    case _ => []
  }

  /** The pace events of the first n attempts. */
  function AttemptEvents(reply: nat -> Reply, n: nat): seq<PaceEvent>
  {
    if n == 0 then [] else AttemptEvents(reply, n - 1) + EventsOf(reply(n - 1))
  }

  /** Where the attempts stop: past the last allowed one, or at a reply that is not retried. */
  lemma AttemptsStop(reply: nat -> Reply, k: nat, maxRetries: int)
    requires k < maxRetries ==> !Retryable(reply(k))
    ensures k >= maxRetries ==> Attempts(reply, k, maxRetries) == (None, k)
    ensures k < maxRetries ==>
      (Attempts(reply, k, maxRetries) == (if Fetched(reply(k)) then Some(reply(k).data) else None, k + 1))
  {
  }

  lemma ReplayAppendOne(p: Pace, es: seq<PaceEvent>, e: PaceEvent, requestDelay: real, dynamic: bool)
    ensures Replay(p, es + [e], requestDelay, dynamic) == Step(Replay(p, es, requestDelay, dynamic), e, requestDelay, dynamic)
  {
    assert (es + [e])[..|es|] == es;
  }

  /** One retried attempt: the outcome is that of the attempts after it, and the pace takes one back-off step on a 429 only. */
  lemma RetryStep(p0: Pace, reply: nat -> Reply, k: nat, maxRetries: int, requestDelay: real, dynamic: bool)
    requires k < maxRetries && Retryable(reply(k))
    ensures Attempts(reply, k + 1, maxRetries) == Attempts(reply, k, maxRetries)
    ensures reply(k).TooManyRequests? ==>
      Replay(p0, AttemptEvents(reply, k + 1), requestDelay, dynamic)
        == Step(Replay(p0, AttemptEvents(reply, k), requestDelay, dynamic), RateLimited, requestDelay, dynamic)
    ensures !reply(k).TooManyRequests? ==> AttemptEvents(reply, k + 1) == AttemptEvents(reply, k)
  {
    var es := AttemptEvents(reply, k);
    if reply(k).TooManyRequests? {
      assert AttemptEvents(reply, k + 1) == es + [RateLimited];
      ReplayAppendOne(p0, es, RateLimited, requestDelay, dynamic);
    } else {
      assert AttemptEvents(reply, k + 1) == es + [];
      assert es + [] == es;
    }
  }

  /**
   * The attempt the retries stop at decides the outcome, and the pace takes
   * one more step exactly when it is a body with status OK, whether or not
   * its results can be sized.
   */
  lemma FinalAttempt(p0: Pace, reply: nat -> Reply, k: nat, maxRetries: int, requestDelay: real, dynamic: bool)
    requires Attempts(reply, k, maxRetries) == Attempts(reply, 0, maxRetries)
    requires k < maxRetries ==> !Retryable(reply(k))
    ensures k >= maxRetries ==> Attempts(reply, 0, maxRetries) == (None, k)
    ensures k < maxRetries ==> Attempts(reply, 0, maxRetries).1 == k + 1
    ensures k < maxRetries ==> (Attempts(reply, 0, maxRetries).0.Some? <==> Fetched(reply(k)))
    ensures k < maxRetries && Fetched(reply(k)) ==> Attempts(reply, 0, maxRetries).0 == Some(reply(k).data)
    ensures k < maxRetries && reply(k).Body? && StatusOk(reply(k).data) ==>
      Replay(p0, AttemptEvents(reply, k + 1), requestDelay, dynamic)
         == Step(Replay(p0, AttemptEvents(reply, k), requestDelay, dynamic), Succeeded, requestDelay, dynamic)
    ensures k < maxRetries && !(reply(k).Body? && StatusOk(reply(k).data)) ==>
      AttemptEvents(reply, k + 1) == AttemptEvents(reply, k)
  {
    AttemptsStop(reply, k, maxRetries);
    if k < maxRetries {
      var es := AttemptEvents(reply, k);
      assert AttemptEvents(reply, k + 1) == es + EventsOf(reply(k));
      if reply(k).Body? && StatusOk(reply(k).data) {
        ReplayAppendOne(p0, es, Succeeded, requestDelay, dynamic);
      } else {
        assert es + [] == es;
      }
    }
  }

  // ---- pacing ----

  /** The sleep after the (i+1)-th completed fetch: a second after every 20th, a quarter second after every other 5th, else the current delay. */
  function PacingSleep(i: nat, maxConcurrent: int, delay: real): (s: real)
    requires maxConcurrent > 0
    ensures (i + 1) % maxConcurrent == 0 ==> s == 1.0
    ensures (i + 1) % maxConcurrent != 0 && (i + 1) % 5 == 0 ==> s == 0.25
    ensures (i + 1) % maxConcurrent != 0 && (i + 1) % 5 != 0 ==> s == delay
  {
    if (i + 1) % maxConcurrent == 0 then 1.0
    else if (i + 1) % 5 == 0 then 0.25
    else delay
  }

  /** With the delay in bounds, no pause between completions is shorter than the configured delay (at most 1/20 s when configured as shipped). */
  lemma PacingAtLeastRequestDelay(i: nat, maxConcurrent: int, delay: real, requestDelay: real)
    requires maxConcurrent > 0 && requestDelay <= delay && requestDelay <= 0.25
    ensures PacingSleep(i, maxConcurrent, delay) >= requestDelay
  {
  }

  /** Every pause of a list is the one due after its completion: 1 s at multiples of the concurrency, else 0.25 s at multiples of 5, and each between min(configured delay, 0.25) and 1 s. */
  ghost predicate SleepsPaced(sleeps: seq<real>, maxConcurrent: int, requestDelay: real)
  {
    maxConcurrent > 0 && forall i :: 0 <= i < |sleeps| ==> SleepPaced(i, sleeps[i], maxConcurrent, requestDelay)
  }

  predicate SleepPaced(i: nat, s: real, maxConcurrent: int, requestDelay: real)
    requires maxConcurrent > 0
  {
    && ((i + 1) % maxConcurrent == 0 ==> s == 1.0)
    && ((i + 1) % maxConcurrent != 0 && (i + 1) % 5 == 0 ==> s == 0.25)
    && Min(requestDelay, 0.25) <= s <= MaxDelay
  }

  lemma SleepsPacedAppend(sleeps: seq<real>, maxConcurrent: int, requestDelay: real, delay: real)
    requires maxConcurrent > 0 && requestDelay <= delay <= MaxDelay
    requires SleepsPaced(sleeps, maxConcurrent, requestDelay)
    ensures SleepsPaced(sleeps + [PacingSleep(|sleeps|, maxConcurrent, delay)], maxConcurrent, requestDelay)
  {
    var t := sleeps + [PacingSleep(|sleeps|, maxConcurrent, delay)];
    forall i | 0 <= i < |t|
      ensures SleepPaced(i, t[i], maxConcurrent, requestDelay)
    {
      if i < |sleeps| {
        assert t[i] == sleeps[i];
      }
    }
  }

  // ---- the per-date results ----

  /** The outcome of the bulk load: it returned a flag, or it raised. */
  datatype BulkLoad = Loaded(success: bool) | Raised

  /** The counters of scrape_options_for_date_optimized (timings are left out). */
  datatype DateResults = DateResults(totalTickersRequested: nat, successfulApiCalls: nat, failedApiCalls: nat,
                                     skippedTickers: nat, totalContractsInserted: nat)

  /** The tickers of a list whose fetch fails. */
  function FailedTickers(tickers: seq<string>, replies: string -> nat -> Reply, maxRetries: int): seq<string>
  {
    Filter(tickers, (t: string) => Attempts(replies(t), 0, maxRetries).0.None?)
  }

  /**
   * The responses of the tickers of a list whose fetch succeeds, each tagged
   * with its ticker, the date and the fetch time, in ticker order.
   */
  function FetchedData(tickers: seq<string>, replies: string -> nat -> Reply, maxRetries: int,
                       asOfDate: string, now: string): seq<Record>
  {
    FlatMap(tickers, (t: string) => FetchedOne(replies(t), maxRetries, t, asOfDate, now))
  }

  /** The tagged response of one ticker, if its fetch succeeds. */
  function FetchedOne(reply: nat -> Reply, maxRetries: int, ticker: string, asOfDate: string, now: string): seq<Record>
  {
    var last := Attempts(reply, 0, maxRetries).0;
    if last.Some? then [Tagged(last.value, ticker, asOfDate, now)] else []
  }

  /** Every ticker is either fetched or failed. */
  lemma {:induction false} FetchedOrFailed(tickers: seq<string>, replies: string -> nat -> Reply, maxRetries: int,
                                           asOfDate: string, now: string)
    ensures |FetchedData(tickers, replies, maxRetries, asOfDate, now)| + |FailedTickers(tickers, replies, maxRetries)| == |tickers|
  {
    if tickers != [] {
      FetchedOrFailed(tickers[..|tickers| - 1], replies, maxRetries, asOfDate, now);
    }
  }

  /** Fetching two lists one after the other gives the responses of both, in order: batching changes nothing. */
  lemma FetchedDataConcat(a: seq<string>, b: seq<string>, replies: string -> nat -> Reply, maxRetries: int,
                           asOfDate: string, now: string)
    ensures FetchedData(a + b, replies, maxRetries, asOfDate, now)
         == FetchedData(a, replies, maxRetries, asOfDate, now) + FetchedData(b, replies, maxRetries, asOfDate, now)
  {
    FlatMapConcat(a, b, (t: string) => FetchedOne(replies(t), maxRetries, t, asOfDate, now));
  }

  /** The responses and the success and failure counts of the batches over the first `i` tickers. */
  ghost predicate Batched(tickers: seq<string>, i: nat, replies: string -> nat -> Reply, maxRetries: int, asOfDate: string, now: string,
                          all: seq<Record>, successful: nat, failed: nat)
  {
    && i <= |tickers|
    && all == FetchedData(tickers[..i], replies, maxRetries, asOfDate, now)
    && |all| == successful
    && failed == |FailedTickers(tickers[..i], replies, maxRetries)|
    && successful + failed == i
  }

  /** The batch of tickers i to hi extends the batches before it. */
  lemma BatchStep(tickers: seq<string>, i: nat, hi: nat, replies: string -> nat -> Reply, maxRetries: int, asOfDate: string, now: string,
                  all: seq<Record>, successful: nat, failed: nat, responses: seq<Record>)
    requires i <= hi <= |tickers|
    requires Batched(tickers, i, replies, maxRetries, asOfDate, now, all, successful, failed)
    requires responses == FetchedData(tickers[i..hi], replies, maxRetries, asOfDate, now)
    requires |responses| + |FailedTickers(tickers[i..hi], replies, maxRetries)| == hi - i
    ensures Batched(tickers, hi, replies, maxRetries, asOfDate, now, all + responses, successful + |responses|,
                    failed + ((hi - i) - |responses|))
  {
    FailedOfSlices(tickers, i, hi, replies, maxRetries);
    FetchedOfSlices(tickers, i, hi, replies, maxRetries, asOfDate, now);
  }

  /** The responses of a prefix extended by the next slice. */
  lemma FetchedOfSlices(tickers: seq<string>, i: nat, hi: nat, replies: string -> nat -> Reply, maxRetries: int,
                        asOfDate: string, now: string)
    requires i <= hi <= |tickers|
    ensures FetchedData(tickers[..hi], replies, maxRetries, asOfDate, now)
         == FetchedData(tickers[..i], replies, maxRetries, asOfDate, now) + FetchedData(tickers[i..hi], replies, maxRetries, asOfDate, now)
  {
    assert tickers[..hi] == tickers[..i] + tickers[i..hi];
    FetchedDataConcat(tickers[..i], tickers[i..hi], replies, maxRetries, asOfDate, now);
  }

  /** The responses and failures collected over the tickers `xs`. */
  ghost predicate Collected(xs: seq<string>, replies: string -> nat -> Reply, maxRetries: int, asOfDate: string, now: string,
                            responses: seq<Record>, failed: seq<string>)
  {
    responses == FetchedData(xs, replies, maxRetries, asOfDate, now) && failed == FailedTickers(xs, replies, maxRetries)
  }

  /** One more ticker's fetch result extends what was collected over the tickers before it. */
  lemma FetchedStep(tickers: seq<string>, i: nat, replies: string -> nat -> Reply, maxRetries: int, asOfDate: string, now: string,
                    responses: seq<Record>, failed: seq<string>, result: Option<Record>)
    requires i < |tickers|
    requires Collected(tickers[..i], replies, maxRetries, asOfDate, now, responses, failed)
    requires result.Some? <==> Attempts(replies(tickers[i]), 0, maxRetries).0.Some?
    requires result.Some? ==> result.value == Tagged(Attempts(replies(tickers[i]), 0, maxRetries).0.value, tickers[i], asOfDate, now)
    ensures Collected(tickers[..i + 1], replies, maxRetries, asOfDate, now,
                      responses + (if result.Some? then [result.value] else []),
                      failed + (if result.None? then [tickers[i]] else []))
  {
    var xs, t := tickers[..i], tickers[i];
    assert tickers[..i + 1][..i] == xs;
    assert tickers[..i + 1][i] == t;
    assert FetchedData(tickers[..i + 1], replies, maxRetries, asOfDate, now)
        == FetchedData(xs, replies, maxRetries, asOfDate, now) + FetchedOne(replies(t), maxRetries, t, asOfDate, now);
    assert FetchedOne(replies(t), maxRetries, t, asOfDate, now) == (if result.Some? then [result.value] else []);
  }

  /** The failed tickers of a prefix extended by the next slice. */
  lemma FailedOfSlices(tickers: seq<string>, i: nat, hi: nat, replies: string -> nat -> Reply, maxRetries: int)
    requires i <= hi <= |tickers|
    ensures |FailedTickers(tickers[..hi], replies, maxRetries)|
         == |FailedTickers(tickers[..i], replies, maxRetries)| + |FailedTickers(tickers[i..hi], replies, maxRetries)|
  {
    assert tickers[..hi] == tickers[..i] + tickers[i..hi];
    FilterConcat(tickers[..i], tickers[i..hi], (t: string) => Attempts(replies(t), 0, maxRetries).0.None?);
  }

  /** Sum of the contract counts of the responses (`len(resp.get('results', []))`). */
  function TotalContracts(responses: seq<Record>, resultCount: Record -> nat): nat
  {
    if responses == [] then 0
    else TotalContracts(responses[..|responses| - 1], resultCount) + resultCount(responses[|responses| - 1])
  }

  /** The metadata added to a successful response. */
  function Tagged(data: Record, ticker: string, asOfDate: string, now: string): (r: Record)
    ensures "underlying_ticker" in r && "as_of_date" in r && "fetch_timestamp" in r
    ensures r["underlying_ticker"] == JStr(ticker) && r["as_of_date"] == JStr(asOfDate) && r["fetch_timestamp"] == JStr(now)
    ensures forall k :: k in data ==> k in r
  {
    data["underlying_ticker" := JStr(ticker)]["as_of_date" := JStr(asOfDate)]["fetch_timestamp" := JStr(now)]
  }

  /** The scraper: its settings, and the pacing state its fetches share. */
  class OptimizedOptionsScraper {
    const maxConcurrentRequests: int
    const requestDelay: real
    const batchSize: int
    const maxRetries: int
    const dynamicRateLimiting: bool
    var currentDelay: real
    var successStreak: nat

    ghost predicate Valid()
      reads this
    {
      0.0 < requestDelay <= MaxDelay && maxConcurrentRequests > 0 && batchSize > 0
      && PaceInBounds(Pace(currentDelay, successStreak), requestDelay, dynamicRateLimiting)
    }

    function CurrentPace(): Pace
      reads this
    {
      Pace(currentDelay, successStreak)
    }

    constructor ()
      ensures Valid()
      ensures maxConcurrentRequests == 20 && requestDelay == InitialRequestDelay && batchSize == 500 && maxRetries == 3
      ensures dynamicRateLimiting && CurrentPace() == Pace(InitialRequestDelay, 0)
    {
      maxConcurrentRequests := 20;
      requestDelay := InitialRequestDelay;
      batchSize := 500;
      maxRetries := 3;
      dynamicRateLimiting := true;
      currentDelay := InitialRequestDelay;
      successStreak := 0;
    }

    /** One pace event, applied to the shared state. */
    method Apply(e: PaceEvent)
      requires Valid()
      modifies this
      ensures Valid()
      ensures CurrentPace() == Step(old(CurrentPace()), e, requestDelay, dynamicRateLimiting)
    {
      StepInBounds(CurrentPace(), e, requestDelay, dynamicRateLimiting);
      if e == RateLimited {
        currentDelay := Min(currentDelay * BackoffMultiplier, MaxDelay);
        successStreak := 0;
      } else {
        successStreak := successStreak + 1;
        if dynamicRateLimiting && successStreak >= StreakToSpeedUp {
          currentDelay := Max(currentDelay * SpeedUpFactor, requestDelay);
          successStreak := 0;
        }
      }
    }

    /** The attempts that end in a 429 or a request exception and lead to another, with the back-off on each 429. */
    method RetryWhileRetryable(reply: nat -> Reply) returns (attempt: nat)
      requires Valid()
      modifies this
      ensures Valid()
      ensures Attempts(reply, attempt, maxRetries) == Attempts(reply, 0, maxRetries)
      ensures attempt < maxRetries ==> !Retryable(reply(attempt))
      ensures CurrentPace() == Replay(old(CurrentPace()), AttemptEvents(reply, attempt), requestDelay, dynamicRateLimiting)
    {
      ghost var p0 := CurrentPace();
      attempt := 0;
      while attempt < maxRetries && Retryable(reply(attempt))
        invariant Valid()
        invariant Attempts(reply, attempt, maxRetries) == Attempts(reply, 0, maxRetries)
        invariant CurrentPace() == Replay(p0, AttemptEvents(reply, attempt), requestDelay, dynamicRateLimiting)
        decreases maxRetries - attempt
      {
        RetryStep(p0, reply, attempt, maxRetries, requestDelay, dynamicRateLimiting);
        if reply(attempt).TooManyRequests? {
          Apply(RateLimited);
        }
        attempt := attempt + 1;
      }
    }

    /**
     * fetch_single_ticker: retry on 429 and on request exceptions, give up on
     * any other exception or a body whose status is not OK, and tag the
     * data with the ticker, the date and the fetch time.
     */
    method FetchSingleTicker(ticker: string, asOfDate: string, reply: nat -> Reply, now: string)
      returns (result: Option<Record>)
      requires Valid()
      modifies this
      ensures Valid()
      ensures result.Some? <==> Attempts(reply, 0, maxRetries).0.Some?
      ensures result.Some? ==> result.value == Tagged(Attempts(reply, 0, maxRetries).0.value, ticker, asOfDate, now)
      ensures CurrentPace() == Replay(old(CurrentPace()), AttemptEvents(reply, Attempts(reply, 0, maxRetries).1),
                                      requestDelay, dynamicRateLimiting)
    {
      ghost var p0 := CurrentPace();
      var attempt := RetryWhileRetryable(reply);
      FinalAttempt(p0, reply, attempt, maxRetries, requestDelay, dynamicRateLimiting);
      if attempt >= maxRetries {
        return None;
      }
      var r := reply(attempt);
      if r.Body? && StatusOk(r.data) {
        Apply(Succeeded);
        // Sizing the results raises on a null, a boolean or a number.
        result := if ResultsSized(r.data) then Some(Tagged(r.data, ticker, asOfDate, now)) else None;
      } else {
        result := None;
      }
    }

    /**
     * get_option_contracts_batch, with the fetches completing in ticker
     * order: the tagged successful responses in ticker order, the failed
     * tickers, and the pause taken after each completion.
     */
    method GetOptionContractsBatch(tickers: seq<string>, asOfDate: string, replies: string -> nat -> Reply, now: string)
      returns (responses: seq<Record>, failed: seq<string>, sleeps: seq<real>)
      requires Valid()
      modifies this
      ensures Valid()
      ensures failed == FailedTickers(tickers, replies, maxRetries)
      ensures responses == FetchedData(tickers, replies, maxRetries, asOfDate, now)
      ensures |responses| + |failed| == |tickers|
      ensures |sleeps| == |tickers|
      ensures SleepsPaced(sleeps, maxConcurrentRequests, requestDelay)
    {
      responses, failed, sleeps := [], [], [];
      var i := 0;
      assert SleepsPaced(sleeps, maxConcurrentRequests, requestDelay);
      while i < |tickers|
        invariant 0 <= i <= |tickers|
        invariant Valid()
        invariant Collected(tickers[..i], replies, maxRetries, asOfDate, now, responses, failed)
        invariant |sleeps| == i
        invariant SleepsPaced(sleeps, maxConcurrentRequests, requestDelay)
      {
        var result := FetchSingleTicker(tickers[i], asOfDate, replies(tickers[i]), now);
        FetchedStep(tickers, i, replies, maxRetries, asOfDate, now, responses, failed, result);
        // A successful fetch adds its response, a failed one its ticker.
        responses := responses + (if result.Some? then [result.value] else []);
        failed := failed + (if result.None? then [tickers[i]] else []);
        SleepsPacedAppend(sleeps, maxConcurrentRequests, requestDelay, currentDelay);
        sleeps := sleeps + [PacingSleep(i, maxConcurrentRequests, currentDelay)];
        i := i + 1;
      }
      assert tickers[..i] == tickers;
      FetchedOrFailed(tickers, replies, maxRetries, asOfDate, now);
    }

    /**
     * The batch loop: consecutive slices of batch_size tickers, every
     * batch's responses appended in turn, with the calls that succeeded and
     * failed counted.
     */
    method FetchInBatches(tickers: seq<string>, targetDate: string, replies: string -> nat -> Reply, now: string)
      returns (all: seq<Record>, successful: nat, failed: nat)
      requires Valid()
      modifies this
      ensures Valid()
      ensures all == FetchedData(tickers, replies, maxRetries, targetDate, now)
      ensures successful + failed == |tickers| && |all| == successful
      ensures failed == |FailedTickers(tickers, replies, maxRetries)|
    {
      all := [];
      successful, failed := 0, 0;
      var i := 0;
      while i < |tickers|
        invariant 0 <= i <= |tickers|
        invariant Valid()
        invariant Batched(tickers, i, replies, maxRetries, targetDate, now, all, successful, failed)
        decreases |tickers| - i
      {
        var hi := if i + batchSize < |tickers| then i + batchSize else |tickers|;
        var batch := tickers[i..hi];
        var responses, failedBatch, _ := GetOptionContractsBatch(batch, targetDate, replies, now);
        BatchStep(tickers, i, hi, replies, maxRetries, targetDate, now, all, successful, failed, responses);
        all := all + responses;
        successful := successful + |responses|;
        failed := failed + (|batch| - |responses|);
        i := hi;
      }
      assert tickers[..i] == tickers;
    }

    /**
     * scrape_options_for_date_optimized: skip a date the database already
     * has, else fetch the (possibly limited) underlying tickers in batches of
     * batch_size and bulk-load every response; a bulk load that raises turns
     * every successful call into a failed one.
     */
    method ScrapeOptionsForDate(targetDate: string, tickerLimit: Option<int>, skipExisting: bool,
                                existingCount: Result<nat>, underlying: seq<string>,
                                replies: string -> nat -> Reply, now: string,
                                bulkLoad: BulkLoad, resultCount: Record -> nat)
      returns (r: DateResults)
      requires Valid()
      modifies this
      ensures Valid()
      ensures skipExisting && existingCount.Ok? && existingCount.value > 0 ==>
        r == DateResults(0, 0, 0, existingCount.value, 0)
      ensures r.successfulApiCalls + r.failedApiCalls == r.totalTickersRequested
      ensures !(skipExisting && existingCount.Ok? && existingCount.value > 0) ==>
        r.skippedTickers == 0 && r.totalTickersRequested == (if underlying == [] then 0 else |LimitSymbols(underlying, tickerLimit)|)
      ensures bulkLoad.Raised? ==> r.successfulApiCalls == 0 && r.totalContractsInserted == 0
      ensures bulkLoad.Loaded? && !(skipExisting && existingCount.Ok? && existingCount.value > 0) && underlying != [] ==>
        r.failedApiCalls == |FailedTickers(LimitSymbols(underlying, tickerLimit), replies, maxRetries)|
      ensures r.totalContractsInserted > 0 ==> bulkLoad == Loaded(true)
      ensures bulkLoad.Loaded? && !(skipExisting && existingCount.Ok? && existingCount.value > 0) && underlying != [] ==>
        r.successfulApiCalls == |FetchedData(LimitSymbols(underlying, tickerLimit), replies, maxRetries, targetDate, now)|
      ensures bulkLoad == Loaded(true) && !(skipExisting && existingCount.Ok? && existingCount.value > 0) && underlying != [] ==>
        r.totalContractsInserted == TotalContracts(FetchedData(LimitSymbols(underlying, tickerLimit), replies, maxRetries, targetDate, now), resultCount)
      ensures bulkLoad == Loaded(false) ==> r.totalContractsInserted == 0
    {
      if skipExisting && existingCount.Ok? && existingCount.value > 0 {
        return DateResults(0, 0, 0, existingCount.value, 0);
      }
      if underlying == [] {
        return DateResults(0, 0, 0, 0, 0);
      }
      var tickers := LimitSymbols(underlying, tickerLimit);
      var all, successful, failed := FetchInBatches(tickers, targetDate, replies, now);
      var inserted := 0;
      if all != [] {
        match bulkLoad {
          case Loaded(ok) =>
            if ok {
              inserted := TotalContracts(all, resultCount);
            }
          case Raised =>
            failed := failed + successful;
            successful := 0;
        }
      } else if bulkLoad.Raised? {
        assert successful == 0;
      }
      r := DateResults(|tickers|, successful, failed, 0, inserted);
    }
  }

  // ---- the date range ----

  /** The counters and lists of scrape_options_date_range_optimized (the processing time is left out). */
  datatype RangeResults = RangeResults(totalDatesRequested: nat, tradingDaysFound: nat, successfulDates: nat,
                                       failedDates: nat, skippedDates: nat, totalApiCalls: nat, totalContractsInserted: nat,
                                       datesProcessed: seq<int>, failedDatesList: seq<int>, skippedDatesList: seq<int>)

  /** A trading date counts as a success when contracts were inserted or the date was skipped as already loaded; a raised exception is a failure. */
  predicate DateSucceeded(r: Result<DateResults>)
  {
    r.Ok? && (r.value.totalContractsInserted > 0 || r.value.skippedTickers > 0)
  }

  function ApiCalls(holidays: seq<int>, dateResult: int -> Result<DateResults>): int -> int
  {
    d => if IsTradingDay(holidays, d) && dateResult(d).Ok? then dateResult(d).value.successfulApiCalls else 0
  }

  function Contracts(holidays: seq<int>, dateResult: int -> Result<DateResults>): int -> int
  {
    d => if IsTradingDay(holidays, d) && dateResult(d).Ok? then dateResult(d).value.totalContractsInserted else 0
  }

  /** The counters and lists after the dates start, ..., hi - 1. */
  function Tally(holidays: seq<int>, start: int, hi: int, dateResult: int -> Result<DateResults>): RangeResults
    decreases hi - start
  {
    if hi <= start then RangeResults(0, 0, 0, 0, 0, 0, 0, [], [], [])
    else
      var t := Tally(holidays, start, hi - 1, dateResult);
      var d := hi - 1;
      if !IsTradingDay(holidays, d) then
        t.(totalDatesRequested := t.totalDatesRequested + 1, skippedDates := t.skippedDates + 1,
           skippedDatesList := t.skippedDatesList + [d])
      else
        var res := dateResult(d);
        var t' := t.(totalDatesRequested := t.totalDatesRequested + 1, tradingDaysFound := t.tradingDaysFound + 1,
                     totalApiCalls := t.totalApiCalls + (if res.Ok? then res.value.successfulApiCalls else 0),
                     totalContractsInserted := t.totalContractsInserted + (if res.Ok? then res.value.totalContractsInserted else 0));
        if DateSucceeded(res) then t'.(successfulDates := t'.successfulDates + 1, datesProcessed := t'.datesProcessed + [d])
        else t'.(failedDates := t'.failedDates + 1, failedDatesList := t'.failedDatesList + [d])
  }

  /** Which dates land in the skipped, processed and failed lists. */
  function SkippedOn(holidays: seq<int>): int -> bool
  {
    (d: int) => !IsTradingDay(holidays, d)
  }

  function SucceededOn(holidays: seq<int>, dateResult: int -> Result<DateResults>): int -> bool
  {
    (d: int) => IsTradingDay(holidays, d) && DateSucceeded(dateResult(d))
  }

  function FailedOn(holidays: seq<int>, dateResult: int -> Result<DateResults>): int -> bool
  {
    (d: int) => IsTradingDay(holidays, d) && !DateSucceeded(dateResult(d))
  }

  /**
   * Every requested date is either skipped as a non-trading day or a
   * trading day, and every trading day either succeeded or failed.
   */
  lemma {:induction false} TallyCounts(holidays: seq<int>, start: int, hi: int, dateResult: int -> Result<DateResults>)
    requires start <= hi
    ensures var t := Tally(holidays, start, hi, dateResult);
      && t.totalDatesRequested == hi - start
      && t.totalDatesRequested == t.tradingDaysFound + t.skippedDates
      && t.successfulDates + t.failedDates == t.tradingDaysFound
      && t.tradingDaysFound == CountDays(TradingDays(holidays), start, hi)
    decreases hi - start
  {
    if start < hi {
      TallyCounts(holidays, start, hi - 1, dateResult);
      CountDaysTop(TradingDays(holidays), start, hi);
    }
  }

  /** Each list holds exactly its dates, in calendar order, and its counter is its length. */
  lemma {:induction false} TallyLists(holidays: seq<int>, start: int, hi: int, dateResult: int -> Result<DateResults>)
    requires start <= hi
    ensures var t := Tally(holidays, start, hi, dateResult);
      && t.skippedDatesList == Filter(DateRange(start, hi), SkippedOn(holidays))
      && t.datesProcessed == Filter(DateRange(start, hi), SucceededOn(holidays, dateResult))
      && t.failedDatesList == Filter(DateRange(start, hi), FailedOn(holidays, dateResult))
      && t.skippedDates == |t.skippedDatesList| && t.successfulDates == |t.datesProcessed| && t.failedDates == |t.failedDatesList|
    decreases hi - start
  {
    if start < hi {
      TallyLists(holidays, start, hi - 1, dateResult);
      FilterRangeStep(SkippedOn(holidays), start, hi - 1);
      FilterRangeStep(SucceededOn(holidays, dateResult), start, hi - 1);
      FilterRangeStep(FailedOn(holidays, dateResult), start, hi - 1);
    }
  }

  /** The totals add up the per-date counters of the trading days. */
  lemma {:induction false} TallySums(holidays: seq<int>, start: int, hi: int, dateResult: int -> Result<DateResults>)
    requires start <= hi
    ensures var t := Tally(holidays, start, hi, dateResult);
      && t.totalApiCalls == SumInt(DateRange(start, hi), ApiCalls(holidays, dateResult))
      && t.totalContractsInserted == SumInt(DateRange(start, hi), Contracts(holidays, dateResult))
    decreases hi - start
  {
    if start < hi {
      TallySums(holidays, start, hi - 1, dateResult);
      SumRangeStep(ApiCalls(holidays, dateResult), start, hi - 1);
      SumRangeStep(Contracts(holidays, dateResult), start, hi - 1);
    }
  }

  /**
   * scrape_options_date_range_optimized: reject a start after the end, then
   * walk the dates, skipping non-trading days and counting each trading
   * day as a success or a failure.
   */
  method ScrapeOptionsDateRange(holidays: seq<int>, start: int, end: int, dateResult: int -> Result<DateResults>)
    returns (r: Result<RangeResults>)
    ensures r.Err? <==> start > end
    ensures r.Ok? ==> r.value == Tally(holidays, start, end + 1, dateResult)
  {
    if start > end {
      return Err("Start date must be before or equal to end date");
    }
    var t := RangeResults(0, 0, 0, 0, 0, 0, 0, [], [], []);
    var current := start;
    while current <= end
      invariant start <= current <= end + 1
      invariant t == Tally(holidays, start, current, dateResult)
    {
      t := t.(totalDatesRequested := t.totalDatesRequested + 1);
      if !IsTradingDay(holidays, current) {
        t := t.(skippedDates := t.skippedDates + 1, skippedDatesList := t.skippedDatesList + [current]);
      } else {
        t := t.(tradingDaysFound := t.tradingDaysFound + 1);
        var res := dateResult(current);
        if res.Ok? {
          t := t.(totalApiCalls := t.totalApiCalls + res.value.successfulApiCalls,
                  totalContractsInserted := t.totalContractsInserted + res.value.totalContractsInserted);
        }
        if DateSucceeded(res) {
          t := t.(successfulDates := t.successfulDates + 1, datesProcessed := t.datesProcessed + [current]);
        } else {
          t := t.(failedDates := t.failedDates + 1, failedDatesList := t.failedDatesList + [current]);
        }
      }
      current := current + 1;
    }
    r := Ok(t);
  }
}

=== FILE: retention.dfy ===
/**
 * Business-day data retention (maintenance/data_retention.py): the holiday
 * calendar, the backwards search for the cutoff date, batched deletion,
 * table discovery and the clean-up of every table.
 *
 * The database is outside the model: whether a table and column exist, the
 * number of rows older than the cutoff, the row count of each DELETE batch
 * and the discovered tables are inputs.
 */
module DataRetention {
  import opened Wrappers
  import opened Calendar
  import opened SeqUtil

  // ---------------------------------------------------------------------
  // Business days
  // ---------------------------------------------------------------------

  /** The eight fixed month-day holidays of one year. */
  function HolidaysOf(year: int): (r: seq<int>)
    ensures |r| == 8
  {
    [DaysFromCivil(year, 1, 1), DaysFromCivil(year, 1, 15), DaysFromCivil(year, 2, 19),
     DaysFromCivil(year, 5, 27), DaysFromCivil(year, 7, 4), DaysFromCivil(year, 9, 2),
     DaysFromCivil(year, 11, 28), DaysFromCivil(year, 12, 25)]
  }

  /** _get_market_holidays: the previous and the current year's holidays. */
  function MarketHolidays(currentYear: int): (r: seq<int>)
    ensures |r| == 16
    ensures forall d :: d in HolidaysOf(currentYear - 1) || d in HolidaysOf(currentYear) ==> d in r
  {
    HolidaysOf(currentYear - 1) + HolidaysOf(currentYear)
  }

  /** is_business_day, against a holiday list. */
  function IsBusinessDay(holidays: seq<int>, d: int): (r: bool)
    ensures r <==> IsWeekday(d) && d !in holidays
  {
    if Weekday(d) >= 5 then false
    else if d in holidays then false
    else true
  }

  /** New Year's Day and Christmas of the current year are never business days. */
  lemma FixedHolidaysClosed(currentYear: int)
    ensures !IsBusinessDay(MarketHolidays(currentYear), DaysFromCivil(currentYear, 1, 1))
    ensures !IsBusinessDay(MarketHolidays(currentYear), DaysFromCivil(currentYear, 12, 25))
    ensures !IsBusinessDay(MarketHolidays(currentYear), DaysFromCivil(currentYear - 1, 12, 25))
  {
    assert DaysFromCivil(currentYear, 1, 1) == MarketHolidays(currentYear)[8];
    assert DaysFromCivil(currentYear, 12, 25) == MarketHolidays(currentYear)[15];
    assert DaysFromCivil(currentYear - 1, 12, 25) == MarketHolidays(currentYear)[7];
  }

  // ---------------------------------------------------------------------
  // Cutoff date
  // ---------------------------------------------------------------------

  const SafetyLimit := 1825

  function BusinessDays(holidays: seq<int>): int -> bool
  {
    d => IsBusinessDay(holidays, d)
  }

  /**
   * calculate_cutoff_date: step back one day at a time until
   * `retentionDays` business days lie in [cutoff, reference), giving up
   * once more than 1825 days have been stepped over.
   */
  method CalculateCutoffDate(holidays: seq<int>, retentionDays: int, reference: int) returns (r: Result<int>)
    ensures retentionDays <= 0 <==> r.Err?
    ensures r.Ok? ==> reference - SafetyLimit - 1 <= r.value < reference
    ensures r.Ok? ==> CountDays(BusinessDays(holidays), r.value, reference) <= retentionDays
    ensures r.Ok? && reference - r.value <= SafetyLimit ==>
              IsBusinessDay(holidays, r.value)
              && CountDays(BusinessDays(holidays), r.value, reference) == retentionDays
  {
    if retentionDays <= 0 {
      return Err("Retention days must be positive");
    }
    var p := BusinessDays(holidays);
    var current := reference;
    var counted := 0;
    while counted < retentionDays
      invariant reference - SafetyLimit <= current <= reference
      invariant counted == CountDays(p, current, reference) <= retentionDays
      invariant counted == retentionDays ==> p(current)
      invariant current == reference ==> counted == 0
      decreases current - (reference - SafetyLimit - 1)
    {
      current := current - 1;
      if IsBusinessDay(holidays, current) {
        counted := counted + 1;
      }
      if reference - current > SafetyLimit {
        break;
      }
    }
    return Ok(current);
  }

  // ---------------------------------------------------------------------
  // Batched deletion
  // ---------------------------------------------------------------------

  const MaxBatches := 10000

  /** Batches deleted and rows deleted. */
  datatype BatchRun = BatchRun(batches: nat, deleted: nat)

  /**
   * The deletion loop over the row counts the successive DELETE statements
   * report (an Err is a statement that raised). An exhausted list reads as
   * a batch that deleted nothing. The loop stops at the first empty batch
   * or once more than 10000 batches have run.
   */
  function RunBatches(counts: seq<Result<nat>>, done: nat): Result<BatchRun>
    decreases |counts|
  {
    if counts == [] then Ok(BatchRun(0, 0))
    else match counts[0]
      case Err(e) => Err(e)
      case Ok(n) =>
        if n == 0 then Ok(BatchRun(0, 0))
        else if done + 1 > MaxBatches then Ok(BatchRun(1, n))
        else match RunBatches(counts[1..], done + 1)
          case Err(e) => Err(e)
          case Ok(rest) => Ok(BatchRun(rest.batches + 1, rest.deleted + n))
  }

  /** Every batch counted deleted at least one row, and at most 10001 batches run. */
  lemma {:induction false} RunBatchesBounds(counts: seq<Result<nat>>, done: nat)
    requires done <= MaxBatches
    ensures RunBatches(counts, done).Ok? ==>
              RunBatches(counts, done).value.batches <= MaxBatches + 1 - done
              && RunBatches(counts, done).value.batches <= RunBatches(counts, done).value.deleted
    decreases |counts|
  {
    if counts != [] && counts[0].Ok? && counts[0].value != 0 && done + 1 <= MaxBatches {
      RunBatchesBounds(counts[1..], done + 1);
    }
  }

  /** With no failure and no empty batch, all listed rows are deleted while the batch limit allows. */
  lemma {:induction false} RunBatchesDeletesAll(counts: seq<nat>, done: nat)
    requires done + |counts| <= MaxBatches
    requires forall i :: 0 <= i < |counts| ==> counts[i] > 0
    ensures RunBatches(seq(|counts|, i requires 0 <= i < |counts| => Ok(counts[i])), done)
         == Ok(BatchRun(|counts|, SumNat(counts)))
    decreases |counts|
  {
    var rs := seq(|counts|, i requires 0 <= i < |counts| => Ok(counts[i]));
    if counts != [] {
      RunBatchesDeletesAll(counts[1..], done + 1);
      assert rs[1..] == seq(|counts[1..]|, i requires 0 <= i < |counts[1..]| => Ok(counts[1..][i]));
    }
  }

  function SumNat(xs: seq<nat>): nat
  {
    if xs == [] then 0 else xs[0] + SumNat(xs[1..])
  }

  /** The `while True` loop of delete_old_records that deletes one batch at a time. */
  method DeleteInBatches(counts: seq<Result<nat>>) returns (r: Result<BatchRun>)
    ensures r == RunBatches(counts, 0)
  {
    var total, batchCount := 0, 0;
    var i := 0;
    while true
      invariant 0 <= i <= |counts| && batchCount == i <= MaxBatches
      invariant RunBatches(counts, 0).Ok? <==> RunBatches(counts[i..], batchCount).Ok?
      invariant RunBatches(counts[i..], batchCount).Ok? ==>
                RunBatches(counts, 0) == Ok(BatchRun(RunBatches(counts[i..], batchCount).value.batches + batchCount,
                                                     RunBatches(counts[i..], batchCount).value.deleted + total))
      invariant RunBatches(counts[i..], batchCount).Err? ==> RunBatches(counts, 0) == RunBatches(counts[i..], batchCount)
      decreases |counts| - i
    {
      var deletedInBatch;
      if i < |counts| {
        if counts[i].Err? {
          r := Err(counts[i].error);
          return;
        }
        deletedInBatch := counts[i].value;
      } else {
        deletedInBatch := 0;
      }
      if deletedInBatch == 0 {
        break;
      }
      assert counts[i..][1..] == counts[i + 1..];
      total := total + deletedInBatch;
      batchCount := batchCount + 1;
      i := i + 1;
      if batchCount > MaxBatches {
        break;
      }
    }
    r := Ok(BatchRun(batchCount, total));
  }

  datatype DeletionReport = DeletionReport(cutoffDate: int, recordsIdentified: nat, recordsDeleted: nat,
                                           batchesProcessed: nat, dryRun: bool)

  /** delete_old_records */
  method DeleteOldRecords(currentYear: int, today: int, tableAndColumnValid: bool, retentionDays: int,
                          dryRun: bool, recordsToDelete: Result<nat>, counts: seq<Result<nat>>)
    returns (r: Result<DeletionReport>)
    ensures !tableAndColumnValid || retentionDays <= 0 || recordsToDelete.Err? ==> r.Err?
    ensures r.Ok? && (r.value.recordsIdentified == 0 || dryRun) ==> r.value.recordsDeleted == 0 && r.value.batchesProcessed == 0
    ensures r.Ok? && r.value.recordsIdentified > 0 && !dryRun ==>
              RunBatches(counts, 0) == Ok(BatchRun(r.value.batchesProcessed, r.value.recordsDeleted))
    ensures r.Ok? ==> r.value.batchesProcessed <= MaxBatches + 1 && r.value.batchesProcessed <= r.value.recordsDeleted
    ensures r.Ok? ==> r.value.cutoffDate < today
  {
    if !tableAndColumnValid {
      return Err("Invalid table or column");
    }
    var cutoff := CalculateCutoffDate(MarketHolidays(currentYear), retentionDays, today);
    if cutoff.Err? {
      return Err(cutoff.error);
    }
    if recordsToDelete.Err? {
      return Err(recordsToDelete.error);
    }
    var identified := recordsToDelete.value;
    if identified == 0 {
      return Ok(DeletionReport(cutoff.value, 0, 0, 0, dryRun));
    }
    if dryRun {
      return Ok(DeletionReport(cutoff.value, identified, 0, 0, true));
    }
    var run := DeleteInBatches(counts);
    if run.Err? {
      return Err(run.error);
    }
    RunBatchesBounds(counts, 0);
    return Ok(DeletionReport(cutoff.value, identified, run.value.deleted, run.value.batches, false));
  }

  // ---------------------------------------------------------------------
  // Table discovery
  // ---------------------------------------------------------------------

  datatype TableInfo = TableInfo(name: string, dateColumn: string)

  function Names(ts: seq<TableInfo>): (r: seq<string>)
    ensures |r| == |ts|
    ensures forall i :: 0 <= i < |ts| ==> r[i] == ts[i].name
  {
    seq(|ts|, i requires 0 <= i < |ts| => ts[i].name)
  }

  predicate Distinct(xs: seq<string>)
  {
    forall i, j :: 0 <= i < j < |xs| ==> xs[i] != xs[j]
  }

  /** The tables retention always knows about, with their preferred date columns. */
  const KnownTables: seq<TableInfo> :=
    [TableInfo("daily_stock_snapshot", "date"), TableInfo("option_contracts", "date"),
     TableInfo("daily_option_snapshot", "date"), TableInfo("schema_migrations", "applied_at")]

  /** Adding discovered tables, in order, to those already collected, skipping a name already present. */
  function Merge(acc: seq<TableInfo>, ds: seq<TableInfo>): seq<TableInfo>
  {
    if ds == [] then acc
    else
      var m := Merge(acc, ds[..|ds| - 1]);
      if ds[|ds| - 1].name in Names(m) then m else m + [ds[|ds| - 1]]
  }

  /** Merging keeps the collected tables first and unchanged, and adds only discovered tables. */
  lemma {:induction false} MergeExtends(acc: seq<TableInfo>, ds: seq<TableInfo>)
    ensures |acc| <= |Merge(acc, ds)| && Merge(acc, ds)[..|acc|] == acc
    ensures forall t :: t in Merge(acc, ds) ==> t in acc || t in ds
  {
    if ds != [] {
      var init := ds[..|ds| - 1];
      MergeExtends(acc, init);
      var m := Merge(acc, init);
      var last := ds[|ds| - 1];
      if last.name !in Names(m) {
        assert (m + [last])[..|acc|] == m[..|acc|];
        forall t | t in m + [last] ensures t in acc || t in ds {
          if t != last {
            assert t in m;
            assert t in init ==> t in ds;
          }
        }
      } else {
        forall t | t in m ensures t in acc || t in ds {
          assert t in init ==> t in ds;
        }
      }
    }
  }

  lemma NamesAppend(ts: seq<TableInfo>, t: TableInfo)
    ensures Names(ts + [t]) == Names(ts) + [t.name]
  {
    assert (ts + [t])[..|ts|] == ts;
  }

  lemma DistinctAppend(xs: seq<string>, x: string)
    requires Distinct(xs) && x !in xs
    ensures Distinct(xs + [x])
  {
    forall i, j | 0 <= i < j < |xs| + 1 ensures (xs + [x])[i] != (xs + [x])[j] {
      if j == |xs| {
        assert (xs + [x])[i] == xs[i];
      }
    }
  }

  /** Merging lists every discovered table name, each name once. */
  lemma {:induction false} MergeCovers(acc: seq<TableInfo>, ds: seq<TableInfo>)
    requires Distinct(Names(acc))
    ensures Distinct(Names(Merge(acc, ds)))
    ensures forall d :: d in ds ==> d.name in Names(Merge(acc, ds))
  {
    if ds != [] {
      var init, last := ds[..|ds| - 1], ds[|ds| - 1];
      assert ds == init + [last];
      MergeCovers(acc, init);
      var m := Merge(acc, init);
      var r := Merge(acc, ds);
      if last.name !in Names(m) {
        assert r == m + [last];
        NamesAppend(m, last);
        DistinctAppend(Names(m), last.name);
        assert forall n :: n in Names(m) ==> n in Names(r);
      } else {
        assert r == m;
      }
      forall d | d in ds ensures d.name in Names(r) {
        if d != last {
          assert d in init;
        }
      }
    }
  }

  /** Dropping tables keeps the names distinct. */
  lemma {:induction false} FilterKeepsDistinct(ts: seq<TableInfo>, p: TableInfo -> bool)
    requires Distinct(Names(ts))
    ensures Distinct(Names(Filter(ts, p)))
  {
    if ts != [] {
      var init, last := ts[..|ts| - 1], ts[|ts| - 1];
      assert ts == init + [last];
      NamesAppend(init, last);
      assert Distinct(Names(init)) by {
        assert Names(init) == Names(ts)[..|ts| - 1];
      }
      FilterKeepsDistinct(init, p);
      var f := Filter(init, p);
      if p(last) {
        assert Filter(ts, p) == f + [last];
        assert last.name !in Names(f) by {
          forall i | 0 <= i < |f| ensures f[i].name != last.name {
            assert f[i] in init;
            var k :| 0 <= k < |init| && init[k] == f[i];
            assert Names(ts)[k] == f[i].name;
          }
        }
        NamesAppend(f, last);
        DistinctAppend(Names(f), last.name);
      } else {
        assert Filter(ts, p) == f;
      }
    }
  }

  /**
   * get_all_tables_with_date_columns: the known tables that validate, then
   * the discovered tables whose name is new; the known list unchanged when
   * the discovery query fails.
   */
  method DiscoverTables(valid: TableInfo -> bool, discovered: Result<seq<TableInfo>>) returns (tables: seq<TableInfo>)
    ensures discovered.Err? ==> tables == KnownTables
    ensures discovered.Ok? ==> tables == Merge(Filter(KnownTables, valid), discovered.value)
  {
    if discovered.Err? {
      return KnownTables;
    }
    var known := KeepValid(KnownTables, valid);
    tables := AddDiscovered(known, discovered.value);
  }

  /** The loop over the known tables, keeping the valid ones. */
  method KeepValid(candidates: seq<TableInfo>, valid: TableInfo -> bool) returns (tables: seq<TableInfo>)
    ensures tables == Filter(candidates, valid)
  {
    tables := [];
    var i := 0;
    while i < |candidates|
      invariant 0 <= i <= |candidates|
      invariant tables == Filter(candidates[..i], valid)
    {
      assert candidates[..i + 1][..i] == candidates[..i];
      if valid(candidates[i]) {
        tables := tables + [candidates[i]];
      }
      i := i + 1;
    }
    assert candidates[..i] == candidates;
  }

  /** The loop over the discovered tables, adding each name not yet listed. */
  method AddDiscovered(known: seq<TableInfo>, ds: seq<TableInfo>) returns (tables: seq<TableInfo>)
    ensures tables == Merge(known, ds)
  {
    tables := known;
    var j := 0;
    while j < |ds|
      invariant 0 <= j <= |ds|
      invariant tables == Merge(known, ds[..j])
    {
      assert ds[..j + 1][..j] == ds[..j];
      if ds[j].name !in Names(tables) {
        tables := tables + [TableInfo(ds[j].name, ds[j].dateColumn)];
      }
      j := j + 1;
    }
    assert ds[..j] == ds;
  }

  lemma KnownTablesDistinct()
    ensures Distinct(Names(KnownTables))
  {
    var ns := Names(KnownTables);
    assert ns[0] == "daily_stock_snapshot" && ns[1] == "option_contracts";
    assert ns[2] == "daily_option_snapshot" && ns[3] == "schema_migrations";
  }

  /** The discovered list names each table once and lists every discovered name. */
  lemma DiscoveredTablesDistinct(valid: TableInfo -> bool, ds: seq<TableInfo>)
    ensures Distinct(Names(Merge(Filter(KnownTables, valid), ds)))
    ensures forall d :: d in ds ==> d.name in Names(Merge(Filter(KnownTables, valid), ds))
  {
    KnownTablesDistinct();
    FilterKeepsDistinct(KnownTables, valid);
    MergeCovers(Filter(KnownTables, valid), ds);
  }

  /** Every known table that validates is listed with its preferred date column. */
  lemma DiscoveredTablesKeepKnown(valid: TableInfo -> bool, ds: seq<TableInfo>, t: TableInfo)
    requires t in KnownTables && valid(t)
    ensures t in Merge(Filter(KnownTables, valid), ds)
  {
    var known := Filter(KnownTables, valid);
    MergeExtends(known, ds);
    FilterCount(KnownTables, valid, t);
    assert t in known;
    var k :| 0 <= k < |known| && known[k] == t;
    assert Merge(known, ds)[..|known|][k] == t;
  }

  // ---------------------------------------------------------------------
  // Clean-up of all tables
  // ---------------------------------------------------------------------

  /** What the database holds for one table: whether it validates, the row count to delete, the DELETE row counts. */
  datatype TableEnv = TableEnv(valid: bool, recordsToDelete: Result<nat>, batches: seq<Result<nat>>)

  datatype TableResult = Done(report: DeletionReport) | Failed(error: string)

  datatype CleanupResults = CleanupResults(totalTables: nat, successfulTables: nat, failedTables: nat,
                                           totalRecordsDeleted: nat, tableResults: map<string, TableResult>)

  function DeletedFor(results: map<string, TableResult>, name: string): nat
  {
    if name in results && results[name].Done? then results[name].report.recordsDeleted else 0
  }

  /** The rows deleted from the listed tables, as recorded in `results`. */
  function TotalDeleted(ts: seq<TableInfo>, results: map<string, TableResult>): int
  {
    SumInt(ts, (u: TableInfo) => DeletedFor(results, u.name))
  }

  /** Sums over a list agree when the summed functions agree on its elements. */
  lemma {:induction false} SumIntAgree(ts: seq<TableInfo>, f: TableInfo -> int, g: TableInfo -> int)
    requires forall t :: t in ts ==> f(t) == g(t)
    ensures SumInt(ts, f) == SumInt(ts, g)
  {
    if ts != [] {
      SumIntAgree(ts[..|ts| - 1], f, g);
    }
  }

  /** The body of the per-table `try`: the deletion, or the failure it raised. */
  method CleanTable(currentYear: int, today: int, e: TableEnv, retentionDays: int, dryRun: bool)
    returns (res: TableResult)
    ensures retentionDays <= 0 || !e.valid ==> res.Failed?
    ensures res.Done? && dryRun ==> res.report.recordsDeleted == 0
    ensures res.Done? ==> res.report.batchesProcessed <= MaxBatches + 1
  {
    var outcome := DeleteOldRecords(currentYear, today, e.valid, retentionDays, dryRun, e.recordsToDelete, e.batches);
    if outcome.Ok? {
      res := Done(outcome.value);
    } else {
      res := Failed(outcome.error);
    }
  }

  /** Recording the result of one more table, under a new name, adds its deleted rows to the sum. */
  lemma CleanupSumStep(prefix: seq<TableInfo>, t: TableInfo, before: map<string, TableResult>, res: TableResult)
    requires t.name !in Names(prefix)
    ensures TotalDeleted(prefix + [t], before[t.name := res])
         == TotalDeleted(prefix, before) + DeletedFor(before[t.name := res], t.name)
  {
    var after := before[t.name := res];
    assert (prefix + [t])[..|prefix|] == prefix;
    forall u | u in prefix ensures DeletedFor(before, u.name) == DeletedFor(after, u.name) {
      var k :| 0 <= k < |prefix| && prefix[k] == u;
      assert Names(prefix)[k] == u.name;
    }
    SumIntAgree(prefix, (u: TableInfo) => DeletedFor(before, u.name), (u: TableInfo) => DeletedFor(after, u.name));
  }

  /** What the clean-up loop knows after the first `i` tables. */
  ghost predicate CleanupInv(tables: seq<TableInfo>, i: nat, successful: nat, failed: nat, deleted: int,
                       results: map<string, TableResult>, retentionDays: int, dryRun: bool)
    requires i <= |tables|
  {
    && successful + failed == i
    && (forall n :: n in results <==> n in Names(tables[..i]))
    && deleted >= 0
    && (dryRun || retentionDays <= 0 ==> deleted == 0)
    && (retentionDays <= 0 ==> failed == i)
    && (Distinct(Names(tables)) ==> deleted == TotalDeleted(tables[..i], results))
  }

  /** Recording one more table's result keeps the clean-up loop's invariant. */
  lemma CleanupStep(tables: seq<TableInfo>, i: nat, successful: nat, failed: nat, deleted: int,
                    results: map<string, TableResult>, retentionDays: int, dryRun: bool, res: TableResult)
    requires i < |tables|
    requires CleanupInv(tables, i, successful, failed, deleted, results, retentionDays, dryRun)
    requires retentionDays <= 0 ==> res.Failed?
    requires res.Done? && dryRun ==> res.report.recordsDeleted == 0
    ensures CleanupInv(tables, i + 1, successful + (if res.Done? then 1 else 0), failed + (if res.Done? then 0 else 1),
                       deleted + (if res.Done? then res.report.recordsDeleted else 0),
                       results[tables[i].name := res], retentionDays, dryRun)
  {
    var t := tables[i];
    assert tables[..i + 1] == tables[..i] + [t];
    NamesAppend(tables[..i], t);
    var after := results[t.name := res];
    assert forall n :: n in after <==> n in Names(tables[..i + 1]);
    if Distinct(Names(tables)) {
      DistinctPrefixExcludes(tables, i);
      CleanupSumStep(tables[..i], t, results, res);
    }
  }

  /** With distinct names, a table's name is not among the names before it. */
  lemma DistinctPrefixExcludes(tables: seq<TableInfo>, i: nat)
    requires i < |tables| && Distinct(Names(tables))
    ensures tables[i].name !in Names(tables[..i])
  {
    var ns := Names(tables[..i]);
    forall k | 0 <= k < i ensures ns[k] != tables[i].name {
      assert ns[k] == tables[k].name == Names(tables)[k];
      assert Names(tables)[i] == tables[i].name;
    }
  }

  /** The loop of cleanup_all_tables: every table's deletion, with its result recorded and counted. */
  method CleanEachTable(currentYear: int, today: int, tables: seq<TableInfo>, env: TableInfo -> TableEnv,
                        retentionDays: int, dryRun: bool)
    returns (successful: nat, failed: nat, deleted: nat, results: map<string, TableResult>)
    ensures CleanupInv(tables, |tables|, successful, failed, deleted, results, retentionDays, dryRun)
  {
    successful, failed, deleted := 0, 0, 0;
    results := map[];
    var i := 0;
    while i < |tables|
      invariant 0 <= i <= |tables|
      invariant CleanupInv(tables, i, successful, failed, deleted, results, retentionDays, dryRun)
    {
      var t := tables[i];
      var res := CleanTable(currentYear, today, env(t), retentionDays, dryRun);
      CleanupStep(tables, i, successful, failed, deleted, results, retentionDays, dryRun, res);
      results := results[t.name := res];
      if res.Done? {
        successful := successful + 1;
        deleted := deleted + res.report.recordsDeleted;
      } else {
        failed := failed + 1;
      }
      i := i + 1;
    }
  }

  /**
   * cleanup_all_tables: run the deletion on each table, catching a failure
   * as a failed table; nothing at all for an empty table list.
   */
  method CleanupAllTables(currentYear: int, today: int, tables: seq<TableInfo>, env: TableInfo -> TableEnv,
                          retentionDays: int, dryRun: bool) returns (r: Option<CleanupResults>)
    ensures tables == [] <==> r.None?
    ensures r.Some? ==> r.value.totalTables == |tables|
    ensures r.Some? ==> r.value.successfulTables + r.value.failedTables == |tables|
    ensures r.Some? ==> forall n :: n in r.value.tableResults <==> n in Names(tables)
    ensures r.Some? && (dryRun || retentionDays <= 0) ==> r.value.totalRecordsDeleted == 0
    ensures r.Some? && retentionDays <= 0 ==> r.value.failedTables == |tables|
    ensures r.Some? && Distinct(Names(tables)) ==>
              r.value.totalRecordsDeleted == TotalDeleted(tables, r.value.tableResults)
  {
    if tables == [] {
      return None;
    }
    var successful, failed, deleted, results := CleanEachTable(currentYear, today, tables, env, retentionDays, dryRun);
    assert tables[..|tables|] == tables;
    return Some(CleanupResults(|tables|, successful, failed, deleted, results));
  }
}

=== FILE: sequtil.dfy ===
/**
 * Sequence helpers for the list comprehensions, sums and slicing loops of
 * the Python code. Sequences are taken apart at their last element, the
 * way the Python loops build them up.
 */
module SeqUtil {

  /** `[x for x in xs if p(x)]` */
  function Filter<T>(xs: seq<T>, p: T -> bool): (r: seq<T>)
    ensures |r| <= |xs|
    ensures forall x :: x in r ==> x in xs && p(x)
  {
    if xs == [] then []
    else Filter(xs[..|xs| - 1], p) + (if p(xs[|xs| - 1]) then [xs[|xs| - 1]] else [])
  }

  lemma FilterAll<T>(xs: seq<T>, p: T -> bool)
    requires forall x :: x in xs ==> p(x)
    ensures Filter(xs, p) == xs
  {
    if xs != [] {
      FilterAll(xs[..|xs| - 1], p);
      assert xs[..|xs| - 1] + [xs[|xs| - 1]] == xs;
    }
  }

  lemma {:induction false} FilterConcat<T>(a: seq<T>, b: seq<T>, p: T -> bool)
    ensures Filter(a + b, p) == Filter(a, p) + Filter(b, p)
    decreases |b|
  {
    if b == [] {
      assert a + b == a;
    } else {
      var b' := b[..|b| - 1];
      assert (a + b)[..|a + b| - 1] == a + b';
      FilterConcat(a, b', p);
    }
  }

  /** Every element satisfying `p` keeps its multiplicity. */
  lemma {:induction false} FilterCount<T>(xs: seq<T>, p: T -> bool, x: T)
    requires p(x)
    ensures multiset(Filter(xs, p))[x] == multiset(xs)[x]
  {
    if xs != [] {
      FilterCount(xs[..|xs| - 1], p, x);
      assert xs == xs[..|xs| - 1] + [xs[|xs| - 1]];
    }
  }

  /** `sum(f(x) for x in xs)` over integers. */
  function SumInt<T>(xs: seq<T>, f: T -> int): int
  {
    if xs == [] then 0 else SumInt(xs[..|xs| - 1], f) + f(xs[|xs| - 1])
  }

  lemma {:induction false} SumIntConcat<T>(a: seq<T>, b: seq<T>, f: T -> int)
    ensures SumInt(a + b, f) == SumInt(a, f) + SumInt(b, f)
    decreases |b|
  {
    if b == [] {
      assert a + b == a;
    } else {
      var b' := b[..|b| - 1];
      assert (a + b)[..|a + b| - 1] == a + b';
      SumIntConcat(a, b', f);
    }
  }

  /** Concatenation of a list of lists. */
  function Flatten<T>(xss: seq<seq<T>>): seq<T>
  {
    if xss == [] then [] else Flatten(xss[..|xss| - 1]) + xss[|xss| - 1]
  }

  lemma FlattenAppend<T>(xss: seq<seq<T>>, ys: seq<T>)
    ensures Flatten(xss + [ys]) == Flatten(xss) + ys
  {
    assert (xss + [ys])[..|xss + [ys]| - 1] == xss;
  }

  lemma {:induction false} FlattenConcat<T>(a: seq<seq<T>>, b: seq<seq<T>>)
    ensures Flatten(a + b) == Flatten(a) + Flatten(b)
    decreases |b|
  {
    if b == [] {
      assert a + b == a;
    } else {
      var b' := b[..|b| - 1];
      assert a + b == (a + b') + [b[|b| - 1]];
      FlattenConcat(a, b');
      FlattenAppend(a + b', b[|b| - 1]);
      FlattenAppend(b', b[|b| - 1]);
      assert b == b' + [b[|b| - 1]];
    }
  }

  /** The images of the elements under `f`, concatenated in order. */
  function FlatMap<T, U>(xs: seq<T>, f: T -> seq<U>): seq<U>
  {
    if xs == [] then [] else FlatMap(xs[..|xs| - 1], f) + f(xs[|xs| - 1])
  }

  lemma {:induction false} FlatMapConcat<T, U>(a: seq<T>, b: seq<T>, f: T -> seq<U>)
    ensures FlatMap(a + b, f) == FlatMap(a, f) + FlatMap(b, f)
    decreases |b|
  {
    if b == [] {
      assert a + b == a;
    } else {
      var b', x := b[..|b| - 1], b[|b| - 1];
      FlatMapConcat(a, b', f);
      assert (a + b)[..|a + b| - 1] == a + b';
      assert (a + b)[|a + b| - 1] == x;
      var fa, fb := FlatMap(a, f), FlatMap(b', f);
      assert FlatMap(a + b, f) == (fa + fb) + f(x);
      assert (fa + fb) + f(x) == fa + (fb + f(x));
    }
  }

  /** The slices xs[i:i+n] for i in range(0, len(xs), n). */
  function Chunks<T>(xs: seq<T>, n: nat): (r: seq<seq<T>>)
    requires n >= 1
    decreases |xs|
  {
    if xs == [] then []
    else if |xs| <= n then [xs]
    else [xs[..n]] + Chunks(xs[n..], n)
  }

  /** Slicing in steps of `n` loses nothing, duplicates nothing, keeps order. */
  lemma {:induction false} ChunksFlatten<T>(xs: seq<T>, n: nat)
    requires n >= 1
    ensures Flatten(Chunks(xs, n)) == xs
    decreases |xs|
  {
    if xs == [] {
    } else if |xs| <= n {
      assert Flatten([xs]) == Flatten([]) + xs;
    } else {
      ChunksFlatten(xs[n..], n);
      FlattenConcat([xs[..n]], Chunks(xs[n..], n));
      assert Flatten([xs[..n]]) == Flatten([]) + xs[..n];
      assert xs[..n] + xs[n..] == xs;
    }
  }

  /** There are ceil(len(xs) / n) slices: just enough to hold every element. */
  lemma {:induction false} ChunksCount<T>(xs: seq<T>, n: nat)
    requires n >= 1
    ensures (|Chunks(xs, n)| - 1) * n < |xs| <= |Chunks(xs, n)| * n
    decreases |xs|
  {
    if xs == [] {
    } else if |xs| <= n {
    } else {
      var c := |Chunks(xs[n..], n)|;
      ChunksCount(xs[n..], n);
      assert |Chunks(xs, n)| == c + 1;
      assert (c + 1) * n == c * n + n;
    }
  }

  /** Every slice is non-empty, at most `n` long, and all but the last are exactly `n` long. */
  lemma {:induction false} ChunksShape<T>(xs: seq<T>, n: nat)
    requires n >= 1
    ensures forall i :: 0 <= i < |Chunks(xs, n)| ==> 1 <= |Chunks(xs, n)[i]| <= n
    ensures forall i :: 0 <= i < |Chunks(xs, n)| - 1 ==> |Chunks(xs, n)[i]| == n
    decreases |xs|
  {
    if xs == [] {
    } else if |xs| <= n {
    } else {
      ChunksShape(xs[n..], n);
      assert Chunks(xs, n) == [xs[..n]] + Chunks(xs[n..], n);
    }
  }

  /** An element kept by `p` or by its negation: the two filters split the list. */
  lemma {:induction false} FilterComplement<T>(xs: seq<T>, p: T -> bool, q: T -> bool)
    requires forall x :: q(x) <==> !p(x)
    ensures |Filter(xs, p)| + |Filter(xs, q)| == |xs|
  {
    if xs != [] {
      FilterComplement(xs[..|xs| - 1], p, q);
    }
  }

  /** The longest prefix of `xs` whose elements all satisfy `p`. */
  function TakeWhile<T>(xs: seq<T>, p: T -> bool): (r: seq<T>)
    ensures |r| <= |xs| && r == xs[..|r|]
    ensures forall x :: x in r ==> p(x)
    ensures |r| < |xs| ==> !p(xs[|r|])
  {
    if xs == [] || !p(xs[0]) then []
    else [xs[0]] + TakeWhile(xs[1..], p)
  }

  /** Any prefix satisfying `p` and followed by an element failing it (or by nothing) is the one TakeWhile finds. */
  lemma TakeWhileUnique<T>(xs: seq<T>, p: T -> bool, k: nat)
    requires k <= |xs|
    requires forall i :: 0 <= i < k ==> p(xs[i])
    requires k < |xs| ==> !p(xs[k])
    ensures TakeWhile(xs, p) == xs[..k]
  {
  }

  /** `list(reversed(xs))` */
  function Reverse<T>(xs: seq<T>): (r: seq<T>)
    ensures |r| == |xs|
    ensures forall i :: 0 <= i < |xs| ==> r[i] == xs[|xs| - 1 - i]
  {
    if xs == [] then [] else [xs[|xs| - 1]] + Reverse(xs[..|xs| - 1])
  }
}

=== FILE: snapshot_url.dfy ===
/**
 * The unified options snapshot client: the api-key patch applied to
 * pagination cursors, the request a page fetch sends (and re-sends on a
 * 401), and the ticker-list request. HTTP is a parameter.
 */
module SnapshotUrl {
  import opened Wrappers
  import opened Text
  import opened StockData

  const BaseUrl := "https://api.polygon.io"
  const SnapshotPath := "/v3/snapshot"
  const KeyMarker := "apikey="

  /** The client's key: the one given, else the environment's; neither is an error. */
  function ResolveApiKey(apiKey: string, env: map<string, string>): (r: Result<string>)
    ensures r.Ok? ==> r.value != ""
    ensures r.Err? <==> apiKey == "" && ("POLYGON_API_KEY" !in env || env["POLYGON_API_KEY"] == "")
  {
    if apiKey != "" then Ok(apiKey)
    else if "POLYGON_API_KEY" in env && env["POLYGON_API_KEY"] != "" then Ok(env["POLYGON_API_KEY"])
    else Err("POLYGON_API_KEY not found in environment variables")
  }

  /** The query-string separator for appending to `url`. */
  function Separator(url: string): char
  {
    if '?' in url then '&' else '?'
  }

  /**
   * A cursor URL with the api key appended, unless it already carries one;
   * the key is added as a new query parameter.
   */
  function WithApiKey(url: string, key: string): (r: string)
    ensures Contains(r, KeyMarker)
    ensures StartsWith(r, url)
    ensures Contains(url, KeyMarker) ==> r == url
    ensures !Contains(url, KeyMarker) ==> |r| == |url| + 1 + |KeyMarker| + |key| && r[|url|] == Separator(url) && r[|url| + 1..] == KeyMarker + key
  {
    if Contains(url, KeyMarker) then url
    else
      var r := url + [Separator(url)] + KeyMarker + key;
      ContainsSuffix(url + [Separator(url)], KeyMarker);
      ContainsExtend(url + [Separator(url)] + KeyMarker, KeyMarker, key);
      assert r[..|url|] == url;
      r
  }

  /** Patching an already patched URL changes nothing. */
  lemma WithApiKeyIdempotent(url: string, key: string)
    ensures WithApiKey(WithApiKey(url, key), key) == WithApiKey(url, key)
  {
  }

  /**
   * The patch opens a query string only when the URL has none: with a key
   * free of '?', the patched URL holds as many '?' as before, and at
   * least one.
   */
  lemma {:induction false} WithApiKeyQueryMarks(url: string, key: string)
    requires '?' !in key
    ensures CountChar(WithApiKey(url, key), '?') == if Contains(url, KeyMarker) || '?' in url then CountChar(url, '?') else 1
  {
    if !Contains(url, KeyMarker) {
      var sep := Separator(url);
      CountCharConcat(url + [sep] + KeyMarker, key, '?');
      CountCharConcat(url + [sep], KeyMarker, '?');
      CountCharConcat(url, [sep], '?');
      CountCharAbsent(key, '?');
      CountCharAbsent(KeyMarker, '?');
      assert CountChar([sep], '?') == CountChar([], '?') + (if sep == '?' then 1 else 0);
      if '?' !in url {
        CountCharAbsent(url, '?');
      }
    }
  }

  /** A query parameter value: text, or the page size sent as its decimal text. */
  datatype Param = QStr(s: string) | QInt(i: int)

  /** A GET request: a URL and, for a first page, its query parameters. */
  datatype Request = Request(url: string, params: Option<map<string, Param>>)

  /**
   * The request fetch_page sends first: a cursor is followed as given,
   * patched with the key; otherwise the snapshot endpoint with its
   * parameters, optional ones only when set.
   */
  function PageRequest(key: string, ticker: string, limit: int, sort: string, order: string, nextUrl: string): (q: Request)
    ensures nextUrl != "" ==> q.params.None? && Contains(q.url, KeyMarker) && StartsWith(q.url, nextUrl)
    ensures nextUrl == "" ==>
      (q.url == BaseUrl + SnapshotPath && q.params.Some? && {"type", "limit", "apikey"} <= q.params.value.Keys
       && q.params.value["type"] == QStr("options") && q.params.value["limit"] == QInt(limit)
       && q.params.value["apikey"] == QStr(key)
       && ("ticker" in q.params.value <==> ticker != "")
       && ("sort" in q.params.value <==> sort != "")
       && ("order" in q.params.value <==> order != "")
       && q.params.value.Keys <= {"type", "limit", "apikey", "ticker", "sort", "order"})
    ensures nextUrl == "" && ticker != "" ==> q.params.value["ticker"] == QStr(ticker)
    ensures nextUrl == "" && sort != "" ==> q.params.value["sort"] == QStr(sort)
    ensures nextUrl == "" && order != "" ==> q.params.value["order"] == QStr(order)
  {
    if nextUrl != "" then Request(WithApiKey(nextUrl, key), None)
    else
      var p := map["type" := QStr("options"), "limit" := QInt(limit), "apikey" := QStr(key)];
      var p1 := if ticker != "" then p["ticker" := QStr(ticker)] else p;
      var p2 := if sort != "" then p1["sort" := QStr(sort)] else p1;
      var p3 := if order != "" then p2["order" := QStr(order)] else p2;
      Request(BaseUrl + SnapshotPath, Some(p3))
  }

  /** An HTTP reply: its status code and decoded body. */
  datatype Response = Response(status: int, body: Record)

  /**
   * fetch_page: send the page request; a 401 on a cursor is retried once
   * with the key appended to the URL; an error status raises. Also
   * returns the requests sent, in order.
   */
  function FetchPage(key: string, ticker: string, limit: int, sort: string, order: string, nextUrl: string,
                     get: Request -> Response): (r: (Result<Record>, seq<Request>))
    ensures 1 <= |r.1| <= 2 && r.1[0] == PageRequest(key, ticker, limit, sort, order, nextUrl)
    ensures |r.1| == 2 <==> nextUrl != "" && get(r.1[0]).status == 401
    ensures r.0.Ok? <==> get(r.1[|r.1| - 1]).status < 400
    ensures r.0.Ok? ==> r.0.value == get(r.1[|r.1| - 1]).body
  {
    var q := PageRequest(key, ticker, limit, sort, order, nextUrl);
    var resp := get(q);
    var (final, sent) :=
      if resp.status == 401 && nextUrl != "" then
        var fixed := Request(WithApiKey(q.url, key), None);
        (get(fixed), [q, fixed])
      else (resp, [q]);
    if final.status >= 400 then (Err("HTTPError"), sent) else (Ok(final.body), sent)
  }

  /**
   * The 401 retry re-sends exactly the first request: the cursor URL
   * already carries the key, so appending it again changes nothing.
   */
  lemma RetryRepeatsRequest(key: string, ticker: string, limit: int, sort: string, order: string, nextUrl: string,
                            get: Request -> Response)
    requires |FetchPage(key, ticker, limit, sort, order, nextUrl, get).1| == 2
    ensures FetchPage(key, ticker, limit, sort, order, nextUrl, get).1[1] == FetchPage(key, ticker, limit, sort, order, nextUrl, get).1[0]
  {
    WithApiKeyIdempotent(nextUrl, key);
  }

  /**
   * fetch_by_tickers: no request for an empty list (the reply is an empty
   * result list); otherwise one request naming the tickers comma-joined.
   */
  function TickersRequest(key: string, tickers: seq<string>): (q: Option<Request>)
    ensures q.None? <==> tickers == []
    ensures q.Some? ==>
      (q.value.url == BaseUrl + SnapshotPath && q.value.params.Some?
       && q.value.params.value.Keys == {"type", "ticker", "apikey"}
       && q.value.params.value["type"] == QStr("options") && q.value.params.value["apikey"] == QStr(key))
  {
    if tickers == [] then None
    else Some(Request(BaseUrl + SnapshotPath,
                      Some(map["type" := QStr("options"), "ticker" := QStr(Join(",", tickers)), "apikey" := QStr(key)])))
  }

  /** The ticker parameter splits back into the list, when no ticker holds a comma. */
  lemma TickersRequestRoundTrip(key: string, tickers: seq<string>)
    requires tickers != []
    requires forall i :: 0 <= i < |tickers| ==> ',' !in tickers[i]
    ensures var p := TickersRequest(key, tickers).value.params.value["ticker"];
      p.QStr? && Split(p.s, ',') == tickers
  {
    SplitJoin(',', tickers);
  }
}

=== FILE: sorting.dfy ===
/**
 * Python's `sorted(xs, key=..., reverse=...)` as a stable insertion sort
 * over a comparison `before(a, b)`: "a may stay ahead of b". Each new
 * element is placed after every element it does not beat, so ties keep
 * their input order.
 */
module Sorting {

  ghost predicate TotalPreorder<T(!new)>(before: (T, T) -> bool)
  {
    (forall a, b :: before(a, b) || before(b, a))
    && (forall a, b, c :: before(a, b) && before(b, c) ==> before(a, c))
  }

  predicate SortedBy<T>(xs: seq<T>, before: (T, T) -> bool)
  {
    forall i, j :: 0 <= i < j < |xs| ==> before(xs[i], xs[j])
  }

  /** Insert `x` into `xs` after the last element that may stay ahead of it. */
  function Insert<T>(xs: seq<T>, x: T, before: (T, T) -> bool): (r: seq<T>)
    ensures |r| == |xs| + 1
    ensures multiset(r) == multiset(xs) + multiset{x}
  {
    if xs == [] || before(xs[|xs| - 1], x) then xs + [x]
    else
      assert xs == xs[..|xs| - 1] + [xs[|xs| - 1]];
      Insert(xs[..|xs| - 1], x, before) + [xs[|xs| - 1]]
  }

  function Sort<T>(xs: seq<T>, before: (T, T) -> bool): (r: seq<T>)
    ensures |r| == |xs|
    ensures multiset(r) == multiset(xs)
  {
    if xs == [] then []
    else
      assert xs == xs[..|xs| - 1] + [xs[|xs| - 1]];
      Insert(Sort(xs[..|xs| - 1], before), xs[|xs| - 1], before)
  }

  lemma {:induction false} InsertSorted<T(!new)>(xs: seq<T>, x: T, before: (T, T) -> bool)
    requires TotalPreorder(before)
    requires SortedBy(xs, before)
    ensures SortedBy(Insert(xs, x, before), before)
    ensures forall y :: y in Insert(xs, x, before) <==> y in xs || y == x
  {
    var r := Insert(xs, x, before);
    assert forall y :: y in r <==> y in multiset(r);
    if xs == [] || before(xs[|xs| - 1], x) {
      if xs != [] {
        forall i | 0 <= i < |xs| ensures before(xs[i], x) {
          if i < |xs| - 1 {
            assert before(xs[i], xs[|xs| - 1]);
          }
        }
      }
    } else {
      var init, last := xs[..|xs| - 1], xs[|xs| - 1];
      assert SortedBy(init, before);
      InsertSorted(init, x, before);
      var r' := Insert(init, x, before);
      assert before(x, last);
      forall y | y in r' ensures before(y, last) {
        if y != x {
          assert y in init;
          var k :| 0 <= k < |init| && init[k] == y;
          assert before(xs[k], xs[|xs| - 1]);
        }
      }
      forall i, j | 0 <= i < j < |r| ensures before(r[i], r[j]) {
        if j == |r| - 1 {
          assert r[i] in r';
        } else {
          assert r[i] == r'[i] && r[j] == r'[j];
        }
      }
    }
  }

  /** The result is ordered and holds exactly the input's elements. */
  lemma {:induction false} SortSorted<T(!new)>(xs: seq<T>, before: (T, T) -> bool)
    requires TotalPreorder(before)
    ensures SortedBy(Sort(xs, before), before)
    ensures multiset(Sort(xs, before)) == multiset(xs)
  {
    if xs != [] {
      SortSorted(xs[..|xs| - 1], before);
      InsertSorted(Sort(xs[..|xs| - 1], before), xs[|xs| - 1], before);
    }
  }

  /** Sorting an ordered list leaves it as it is. */
  lemma {:induction false} SortOfSorted<T>(xs: seq<T>, before: (T, T) -> bool)
    requires SortedBy(xs, before)
    ensures Sort(xs, before) == xs
  {
    if xs != [] {
      var init, last := xs[..|xs| - 1], xs[|xs| - 1];
      assert SortedBy(init, before) by {
        forall i, j | 0 <= i < j < |init| ensures before(init[i], init[j]) {
          assert init[i] == xs[i] && init[j] == xs[j];
        }
      }
      SortOfSorted(init, before);
      assert xs == init + [last];
      assert Sort(xs, before) == Insert(init, last, before);
      if init != [] {
        assert before(init[|init| - 1], last) by {
          assert init[|init| - 1] == xs[|xs| - 2];
        }
      }
      assert Insert(init, last, before) == init + [last];
    }
  }
}

=== FILE: stock_data.dfy ===
/**
 * The daily stock snapshot manager: converting Polygon's millisecond
 * timestamps to dates, mapping aggregate-bar records to table rows, and
 * building the parameterised history and market queries. The database
 * itself is not modelled; the row list and the (query, params) pair are
 * what would be handed to it.
 */
module StockData {
  import opened Wrappers
  import opened Numeric
  import opened Text

  /** A value decoded from an API's JSON body. */
  datatype Json = JNull | JBool(b: bool) | JInt(i: int) | JNum(n: real) | JStr(s: string) | JOther

  /** Python truthiness of a JSON value; lists and dicts count as non-empty. */
  predicate Truthy(v: Json)
  {
    match v
    case JNull => false
    case JBool(b) => b
    case JInt(i) => i != 0
    case JNum(n) => n != 0.0
    case JStr(s) => s != ""
    case JOther => true
  }

  /** One JSON object (a Python dict). */
  type Record = map<string, Json>

  /** String-to-number parsing, left uninterpreted: None where Python raises ValueError. */
  datatype Parsers = Parsers(parseFloat: string -> Option<real>, parseInt: string -> Option<int>)

  /** `float(v)`, or None where it raises ValueError or TypeError. */
  function ToFloat(v: Json, p: Parsers): Option<real>
  {
    match v
    case JBool(b) => Some(if b then 1.0 else 0.0)
    case JInt(i) => Some(i as real)
    case JNum(n) => Some(n)
    case JStr(s) => p.parseFloat(s)
    case _ => None
  }

  /** `int(v)`: floats are truncated toward zero. */
  function ToInt(v: Json, p: Parsers): Option<int>
  {
    match v
    case JBool(b) => Some(if b then 1 else 0)
    case JInt(i) => Some(i)
    case JNum(n) => Some(Trunc(n))
    case JStr(s) => p.parseInt(s)
    case _ => None
  }

  /** `v / 1000` is defined for numbers only; a string raises TypeError. */
  function Millis(v: Json): Option<real>
  {
    match v
    case JBool(b) => Some(if b then 1.0 else 0.0)
    case JInt(i) => Some(i as real)
    case JNum(n) => Some(n)
    case _ => None
  }

  const SecondsPerDay := 86400

  /**
   * polygon_timestamp_to_date: the day number (0 = 1970-01-01) that holds
   * the instant `ms` milliseconds after the epoch, read on a clock that is
   * `utcOffset` seconds ahead of UTC.
   */
  function TimestampToDate(ms: real, utcOffset: int): int
  {
    ((ms / 1000.0 + utcOffset as real) / 86400.0).Floor
  }

  /** The day found holds the instant: it starts at or before it, and the next day starts after it. */
  lemma TimestampToDateBounds(ms: real, utcOffset: int)
    ensures var d := TimestampToDate(ms, utcOffset);
      (d * SecondsPerDay) as real <= ms / 1000.0 + utcOffset as real < ((d + 1) * SecondsPerDay) as real
  {
    var local := ms / 1000.0 + utcOffset as real;
    var d := TimestampToDate(ms, utcOffset);
    assert d as real <= local / 86400.0 < d as real + 1.0;
    assert (d * SecondsPerDay) as real == d as real * 86400.0;
  }

  /** The first millisecond of day `d` on that clock. */
  function StartOfDay(d: int, utcOffset: int): real
  {
    ((d * SecondsPerDay - utcOffset) * 1000) as real
  }

  /** Every millisecond of a day maps back to that day. */
  lemma TimestampToDateOfDay(d: int, utcOffset: int, k: real)
    requires 0.0 <= k < 86400000.0
    ensures TimestampToDate(StartOfDay(d, utcOffset) + k, utcOffset) == d
  {
    var e := TimestampToDate(StartOfDay(d, utcOffset) + k, utcOffset);
    TimestampToDateBounds(StartOfDay(d, utcOffset) + k, utcOffset);
    var local := (StartOfDay(d, utcOffset) + k) / 1000.0 + utcOffset as real;
    assert local == (d * SecondsPerDay) as real + k / 1000.0;
    assert (e * SecondsPerDay) as real <= local < ((e + 1) * SecondsPerDay) as real;
    assert e * SecondsPerDay < (d + 1) * SecondsPerDay;
    assert d * SecondsPerDay < (e + 1) * SecondsPerDay;
  }

  /** A row of daily_stock_snapshot, in column order. */
  datatype StockRow = StockRow(date: int, symbol: Json, close: real, high: real, low: real,
                               transactions: int, open: real, volume: int, vwap: real)

  /** The keys an aggregate bar must carry. */
  predicate HasRequiredKeys(r: Record)
  {
    "t" in r && "T" in r && "c" in r && "h" in r && "l" in r && "o" in r && "v" in r
  }

  /** Every required field converts, and so does each optional field that is present. */
  predicate Converts(r: Record, p: Parsers)
    requires HasRequiredKeys(r)
  {
    Millis(r["t"]).Some?
    && ToFloat(r["c"], p).Some? && ToFloat(r["h"], p).Some? && ToFloat(r["l"], p).Some? && ToFloat(r["o"], p).Some?
    && ToInt(r["v"], p).Some?
    && ("n" in r ==> ToInt(r["n"], p).Some?)
    && ("vw" in r ==> ToFloat(r["vw"], p).Some?)
  }

  /**
   * One aggregate bar as a row, or None where Python raises KeyError,
   * ValueError or TypeError. `n` defaults to 0 and `vw` to the close.
   */
  function DailyRow(r: Record, p: Parsers, utcOffset: int): (row: Option<StockRow>)
    ensures row.Some? ==> HasRequiredKeys(r)
    ensures row.Some? ==> row.value.symbol == r["T"]
    ensures row.Some? && "n" !in r ==> row.value.transactions == 0
    ensures row.Some? && "vw" !in r ==> row.value.vwap == row.value.close
  {
    if !HasRequiredKeys(r) then None
    else
      var ts := Millis(r["t"]);
      var c, h, l, o := ToFloat(r["c"], p), ToFloat(r["h"], p), ToFloat(r["l"], p), ToFloat(r["o"], p);
      var n := if "n" in r then ToInt(r["n"], p) else Some(0);
      var v := ToInt(r["v"], p);
      var vw := if "vw" in r then ToFloat(r["vw"], p) else c;
      if ts.None? || c.None? || h.None? || l.None? || n.None? || o.None? || v.None? || vw.None? then None
      else Some(StockRow(TimestampToDate(ts.value, utcOffset), r["T"], c.value, h.value, l.value,
                         n.value, o.value, v.value, vw.value))
  }

  /** A record gives a row exactly when its required keys are there and every field converts; the date is that of its timestamp. */
  lemma DailyRowValid(r: Record, p: Parsers, utcOffset: int)
    ensures DailyRow(r, p, utcOffset).Some? <==> HasRequiredKeys(r) && Converts(r, p)
    ensures DailyRow(r, p, utcOffset).Some? ==> DailyRow(r, p, utcOffset).value.date == TimestampToDate(Millis(r["t"]).value, utcOffset)
  {
  }

  /** The rows of the valid records, in input order. */
  function DailyRows(rs: seq<Record>, p: Parsers, utcOffset: int): (rows: seq<StockRow>)
    ensures |rows| <= |rs|
  {
    if rs == [] then []
    else
      var row := DailyRow(rs[|rs| - 1], p, utcOffset);
      DailyRows(rs[..|rs| - 1], p, utcOffset) + (if row.Some? then [row.value] else [])
  }

  /** Mapping keeps order: the rows of two lists are the rows of each, one after the other. */
  lemma {:induction false} DailyRowsConcat(a: seq<Record>, b: seq<Record>, p: Parsers, utcOffset: int)
    ensures DailyRows(a + b, p, utcOffset) == DailyRows(a, p, utcOffset) + DailyRows(b, p, utcOffset)
    decreases |b|
  {
    if b == [] {
      assert a + b == a;
    } else {
      var b' := b[..|b| - 1];
      assert (a + b)[..|a + b| - 1] == a + b';
      DailyRowsConcat(a, b', p, utcOffset);
    }
  }

  /** Every row comes from a record of the input. */
  lemma {:induction false} DailyRowsSound(rs: seq<Record>, p: Parsers, utcOffset: int, row: StockRow)
    requires row in DailyRows(rs, p, utcOffset)
    ensures exists i :: 0 <= i < |rs| && DailyRow(rs[i], p, utcOffset) == Some(row)
  {
    var init := rs[..|rs| - 1];
    if row in DailyRows(init, p, utcOffset) {
      DailyRowsSound(init, p, utcOffset, row);
      var i :| 0 <= i < |init| && DailyRow(init[i], p, utcOffset) == Some(row);
      assert rs[i] == init[i];
    } else {
      assert DailyRow(rs[|rs| - 1], p, utcOffset) == Some(row);
    }
  }

  /**
   * insert_daily_snapshots up to the database call: the rows handed to the
   * insert, and False when the results are missing or empty or none is valid.
   * `results` is None when the response has no truthy 'results'.
   */
  method InsertDailySnapshots(results: Option<seq<Record>>, p: Parsers, utcOffset: int)
    returns (ok: bool, insertData: seq<StockRow>)
    ensures results.None? || results == Some([]) ==> !ok && insertData == []
    ensures results.Some? ==> insertData == DailyRows(results.value, p, utcOffset)
    ensures ok <==> insertData != []
  {
    if results.None? || results.value == [] {
      return false, [];
    }
    var rs := results.value;
    insertData := [];
    var i := 0;
    while i < |rs|
      invariant 0 <= i <= |rs|
      invariant insertData == DailyRows(rs[..i], p, utcOffset)
    {
      assert rs[..i + 1][..i] == rs[..i];
      var row := DailyRow(rs[i], p, utcOffset);
      if row.Some? {
        insertData := insertData + [row.value];
      }
      i := i + 1;
    }
    assert rs[..i] == rs;
    ok := insertData != [];
  }

  /** A query parameter. */
  datatype Param = PText(s: string) | PDate(d: int) | PInt(n: int)

  /** A SELECT over daily_stock_snapshot: its WHERE conditions, ordering and whether it ends with a LIMIT placeholder. */
  datatype Select = Select(conditions: seq<string>, orderBy: string, hasLimit: bool)

  /** The SQL text of a query. */
  function Sql(q: Select): string
  {
    "SELECT * FROM daily_stock_snapshot WHERE " + Join(" AND ", q.conditions)
      + " ORDER BY " + q.orderBy + (if q.hasLimit then " LIMIT %s;" else ";")
  }

  /** The number of `%s` placeholders; `%` appears nowhere else in these queries. */
  function Placeholders(sql: string): nat
  {
    CountChar(sql, '%')
  }

  /** A query whose conditions each hold one placeholder and whose ordering holds none has one per condition, plus one for the LIMIT. */
  lemma PlaceholdersOfSelect(q: Select)
    requires forall i :: 0 <= i < |q.conditions| ==> CountChar(q.conditions[i], '%') == 1
    requires '%' !in q.orderBy
    ensures Placeholders(Sql(q)) == |q.conditions| + (if q.hasLimit then 1 else 0)
  {
    var head := "SELECT * FROM daily_stock_snapshot WHERE ";
    var j := Join(" AND ", q.conditions);
    var tail := if q.hasLimit then " LIMIT %s;" else ";";
    assert Sql(q) == head + j + " ORDER BY " + q.orderBy + tail;
    JoinCountEach(" AND ", q.conditions, '%', 1);
    assert CountChar(j, '%') == |q.conditions|;
    FixedPartsFree();
    CountCharAbsent(q.orderBy, '%');
    CountCharFive(head, j, " ORDER BY ", q.orderBy, tail, '%');
    TailPlaceholders(q.hasLimit);
  }

  /** The fixed words of the query hold no `%`. */
  lemma FixedPartsFree()
    ensures CountChar("SELECT * FROM daily_stock_snapshot WHERE ", '%') == 0
    ensures CountChar(" ORDER BY ", '%') == 0
  {
    CountCharAbsent("SELECT * FROM daily_stock_snapshot WHERE ", '%');
    CountCharAbsent(" ORDER BY ", '%');
  }

  lemma CountCharFive(a: string, b: string, c: string, d: string, e: string, ch: char)
    ensures CountChar(a + b + c + d + e, ch) == CountChar(a, ch) + CountChar(b, ch) + CountChar(c, ch) + CountChar(d, ch) + CountChar(e, ch)
  {
    CountCharConcat(a, b, ch);
    CountCharConcat(a + b, c, ch);
    CountCharConcat(a + b + c, d, ch);
    CountCharConcat(a + b + c + d, e, ch);
  }

  /** The end of the query holds the LIMIT placeholder, if any, and no other. */
  lemma TailPlaceholders(hasLimit: bool)
    ensures CountChar(if hasLimit then " LIMIT %s;" else ";", '%') == (if hasLimit then 1 else 0)
  {
    if hasLimit {
      CountCharConcat(" LIMIT ", "%s;", '%');
      CountCharAbsent(" LIMIT ", '%');
      CountCharConcat("%", "s;", '%');
      CountCharAbsent("s;", '%');
      assert " LIMIT %s;" == " LIMIT " + "%s;";
      assert "%s;" == "%" + "s;";
    } else {
      CountCharAbsent(";", '%');
    }
  }

  /**
   * get_symbol_history's query: the symbol condition, then the optional
   * start and end conditions, newest first, with the limit as last parameter.
   */
  method SymbolHistoryQuery(symbol: string, startDate: Option<int>, endDate: Option<int>, limit: int)
    returns (q: Select, params: seq<Param>)
    ensures |params| == 2 + (if startDate.Some? then 1 else 0) + (if endDate.Some? then 1 else 0)
    ensures params[0] == PText(symbol) && params[|params| - 1] == PInt(limit)
    ensures startDate.Some? ==> params[1] == PDate(startDate.value)
    ensures endDate.Some? ==> params[|params| - 2] == PDate(endDate.value)
    ensures q.conditions == ["symbol = %s"] + (if startDate.Some? then ["date >= %s"] else [])
                                             + (if endDate.Some? then ["date <= %s"] else [])
    ensures q.orderBy == "date DESC" && q.hasLimit
    ensures Placeholders(Sql(q)) == |params|
  {
    var conditions := ["symbol = %s"];
    params := [PText(symbol)];
    if startDate.Some? {
      conditions := conditions + ["date >= %s"];
      params := params + [PDate(startDate.value)];
    }
    if endDate.Some? {
      conditions := conditions + ["date <= %s"];
      params := params + [PDate(endDate.value)];
    }
    q := Select(conditions, "date DESC", true);
    params := params + [PInt(limit)];
    HistoryPlaceholders(conditions);
  }

  /** A history query has one placeholder per condition and one for the LIMIT. */
  lemma HistoryPlaceholders(conditions: seq<string>)
    requires forall i :: 0 <= i < |conditions| ==> conditions[i] in {"symbol = %s", "date >= %s", "date <= %s"}
    ensures Placeholders(Sql(Select(conditions, "date DESC", true))) == |conditions| + 1
  {
    OnePlaceholderEach(conditions);
    PlaceholdersOfSelect(Select(conditions, "date DESC", true));
  }

  /** The three history conditions each hold one placeholder. */
  lemma OnePlaceholderEach(conditions: seq<string>)
    requires forall i :: 0 <= i < |conditions| ==> conditions[i] in {"symbol = %s", "date >= %s", "date <= %s"}
    ensures forall i :: 0 <= i < |conditions| ==> CountChar(conditions[i], '%') == 1
  {
    OnePlaceholder("symbol = ");
    OnePlaceholder("date >= ");
    OnePlaceholder("date <= ");
    assert "symbol = %s" == "symbol = " + "%s";
    assert "date >= %s" == "date >= " + "%s";
    assert "date <= %s" == "date <= " + "%s";
  }

  lemma OnePlaceholder(prefix: string)
    requires '%' !in prefix
    ensures CountChar(prefix + "%s", '%') == 1
  {
    CountCharAbsent(prefix, '%');
    CountCharConcat(prefix, "%s", '%');
    CountCharConcat("%", "s", '%');
    CountCharAbsent("s", '%');
    assert "%s" == "%" + "s";
  }

  /**
   * get_market_snapshot's query: one date condition, by trading volume
   * descending, with a LIMIT placeholder and parameter only when a limit is given.
   */
  function MarketSnapshotQuery(snapshotDate: int, limit: Option<int>): (r: (Select, seq<Param>))
    ensures r.0.hasLimit <==> limit.Some?
    ensures |r.1| == (if limit.None? then 1 else 2) && r.1[0] == PDate(snapshotDate)
    ensures limit.Some? ==> r.1[1] == PInt(limit.value)
    ensures Placeholders(Sql(r.0)) == |r.1|
  {
    var q := Select(["date = %s"], "trading_volume DESC", limit.Some?);
    OnePlaceholder("date = ");
    assert "date = %s" == "date = " + "%s";
    PlaceholdersOfSelect(q);
    (q, if limit.None? then [PDate(snapshotDate)] else [PDate(snapshotDate), PInt(limit.value)])
  }
}

=== FILE: text.dfy ===
/**
 * String helpers standing in for Python's str methods. Case mapping covers
 * the ASCII letters only.
 */
module Text {
  import opened Wrappers

  function LowerChar(c: char): char
  {
    if 'A' <= c <= 'Z' then (c as int + 32) as char else c
  }

  function UpperChar(c: char): char
  {
    if 'a' <= c <= 'z' then (c as int - 32) as char else c
  }

  /** str.lower() on ASCII text: only the letters A to Z change. */
  function Lower(s: string): (r: string)
    ensures |r| == |s|
    ensures forall i :: 0 <= i < |s| ==> r[i] == LowerChar(s[i])
  {
    if s == [] then [] else [LowerChar(s[0])] + Lower(s[1..])
  }

  /** str.upper() on ASCII text: only the letters a to z change. */
  function Upper(s: string): (r: string)
    ensures |r| == |s|
    ensures forall i :: 0 <= i < |s| ==> r[i] == UpperChar(s[i])
  {
    if s == [] then [] else [UpperChar(s[0])] + Upper(s[1..])
  }

  /** Lower-casing twice is lower-casing once. */
  lemma LowerIdempotent(s: string)
    ensures Lower(Lower(s)) == Lower(s)
  {
    assert forall i :: 0 <= i < |s| ==> LowerChar(LowerChar(s[i])) == LowerChar(s[i]);
  }

  /** Upper-casing twice is upper-casing once. */
  lemma UpperIdempotent(s: string)
    ensures Upper(Upper(s)) == Upper(s)
  {
    assert forall i :: 0 <= i < |s| ==> UpperChar(UpperChar(s[i])) == UpperChar(s[i]);
  }

  /** Lower-casing forgets an earlier upper-casing. */
  lemma LowerOfUpper(s: string)
    ensures Lower(Upper(s)) == Lower(s)
  {
    assert forall i :: 0 <= i < |s| ==> LowerChar(UpperChar(s[i])) == LowerChar(s[i]);
  }

  predicate OccursAt(haystack: string, needle: string, i: int)
  {
    0 <= i <= |haystack| - |needle| && haystack[i..i + |needle|] == needle
  }

  /** `needle in haystack` for strings. */
  predicate Contains(haystack: string, needle: string)
  {
    exists i :: 0 <= i <= |haystack| && OccursAt(haystack, needle, i)
  }

  lemma ContainsSuffix(prefix: string, needle: string)
    ensures Contains(prefix + needle, needle)
  {
    var h := prefix + needle;
    assert 0 <= |prefix| <= |h| && OccursAt(h, needle, |prefix|);
  }

  lemma ContainsExtend(haystack: string, needle: string, more: string)
    requires Contains(haystack, needle)
    ensures Contains(haystack + more, needle)
  {
    var i :| 0 <= i <= |haystack| && OccursAt(haystack, needle, i);
    assert (haystack + more)[i..i + |needle|] == needle;
    assert OccursAt(haystack + more, needle, i);
  }

  /** `sep.join(parts)` */
  function Join(sep: string, parts: seq<string>): string
  {
    if parts == [] then ""
    else if |parts| == 1 then parts[0]
    else Join(sep, parts[..|parts| - 1]) + sep + parts[|parts| - 1]
  }

  /** The number of occurrences of a character. */
  function CountChar(s: string, c: char): nat
  {
    if s == [] then 0 else CountChar(s[..|s| - 1], c) + (if s[|s| - 1] == c then 1 else 0)
  }

  lemma {:induction false} CountCharConcat(a: string, b: string, c: char)
    ensures CountChar(a + b, c) == CountChar(a, c) + CountChar(b, c)
    decreases |b|
  {
    if b == [] {
      assert a + b == a;
    } else {
      assert (a + b)[..|a + b| - 1] == a + b[..|b| - 1];
      CountCharConcat(a, b[..|b| - 1], c);
    }
  }

  /** Joining n parts that do not contain the separator character puts exactly n - 1 separators in. */
  lemma {:induction false} JoinSeparatorCount(sep: char, parts: seq<string>)
    requires forall i :: 0 <= i < |parts| ==> CountChar(parts[i], sep) == 0
    ensures CountChar(Join([sep], parts), sep) == if parts == [] then 0 else |parts| - 1
  {
    if |parts| > 1 {
      var init := parts[..|parts| - 1];
      JoinSeparatorCount(sep, init);
      CountCharConcat(Join([sep], init) + [sep], parts[|parts| - 1], sep);
      CountCharConcat(Join([sep], init), [sep], sep);
      assert CountChar([sep], sep) == CountChar([], sep) + 1;
    }
  }

  /** `s.startswith(prefix)` */
  predicate StartsWith(s: string, prefix: string)
  {
    |prefix| <= |s| && s[..|prefix|] == prefix
  }

  /** The position of the first `c` in `s`, if any (`s.find(c)`). */
  function IndexOf(s: string, c: char): (r: Option<nat>)
    ensures r.None? <==> c !in s
    ensures r.Some? ==> r.value < |s| && s[r.value] == c && c !in s[..r.value]
  {
    if s == [] then None
    else if s[0] == c then Some(0)
    else match IndexOf(s[1..], c)
      case None => None
      case Some(i) =>
        assert s[..i + 1] == [s[0]] + s[1..][..i];
        Some(i + 1)
  }

  /** `s.split(c)`: the pieces between occurrences of `c`, of which there is always at least one. */
  function Split(s: string, c: char): (r: seq<string>)
    ensures |r| >= 1
    ensures |r[0]| <= |s| && r[0] == s[..|r[0]|] && c !in r[0]
    ensures |r[0]| < |s| ==> s[|r[0]|] == c
    ensures |r| > 1 <==> c in s
    decreases |s|
  {
    match IndexOf(s, c)
    case None => [s]
    case Some(i) => [s[..i]] + Split(s[i + 1..], c)
  }

  /** Joining a first part in front of the rest. */
  lemma {:induction false} JoinCons(sep: string, p: string, rest: seq<string>)
    requires rest != []
    ensures Join(sep, [p] + rest) == p + sep + Join(sep, rest)
    decreases |rest|
  {
    var ps := [p] + rest;
    if |rest| == 1 {
      assert ps[..|ps| - 1] == [p];
    } else {
      var init, last := rest[..|rest| - 1], rest[|rest| - 1];
      JoinCons(sep, p, init);
      assert ps[..|ps| - 1] == [p] + init && ps[|ps| - 1] == last;
      var j := Join(sep, init);
      assert Join(sep, ps) == (p + sep + j) + sep + last;
      assert (p + sep + j) + sep + last == p + sep + (j + sep + last);
    }
  }

  /** Splitting undoes joining, when no part contains the separator. */
  lemma {:induction false} SplitJoin(c: char, parts: seq<string>)
    requires parts != []
    requires forall i :: 0 <= i < |parts| ==> c !in parts[i]
    ensures Split(Join([c], parts), c) == parts
    decreases |parts|
  {
    if |parts| > 1 {
      var p, rest := parts[0], parts[1..];
      assert parts == [p] + rest;
      JoinCons([c], p, rest);
      var s := Join([c], parts);
      assert s == p + [c] + Join([c], rest);
      assert s[|p|] == c;
      var k := IndexOf(s, c);
      assert k.Some? && k.value == |p|;
      SplitJoin(c, rest);
      assert s[|p| + 1..] == Join([c], rest);
      assert s[..|p|] == p;
    }
  }

  lemma {:induction false} CountCharAbsent(s: string, c: char)
    requires c !in s
    ensures CountChar(s, c) == 0
  {
    if s != [] {
      CountCharAbsent(s[..|s| - 1], c);
    }
  }

  /** One more part adds its own count of `c` when the separator holds none. */
  lemma JoinCountStep(sep: string, parts: seq<string>, c: char)
    requires c !in sep && |parts| > 1
    ensures CountChar(Join(sep, parts), c) == CountChar(Join(sep, parts[..|parts| - 1]), c) + CountChar(parts[|parts| - 1], c)
  {
    var j := Join(sep, parts[..|parts| - 1]);
    CountCharConcat(j + sep, parts[|parts| - 1], c);
    CountCharConcat(j, sep, c);
    CountCharAbsent(sep, c);
  }

  /** Joining parts that each hold `k` copies of `c`, with a separator free of `c`, holds k times as many as there are parts. */
  lemma {:induction false} JoinCountEach(sep: string, parts: seq<string>, c: char, k: nat)
    requires c !in sep
    requires forall i :: 0 <= i < |parts| ==> CountChar(parts[i], c) == k
    ensures CountChar(Join(sep, parts), c) == k * |parts|
  {
    if |parts| == 0 {
      assert k * 0 == 0;
    } else if |parts| == 1 {
      assert k * 1 == k;
    } else {
      var n := |parts| - 1;
      JoinCountEach(sep, parts[..n], c, k);
      JoinCountStep(sep, parts, c);
      MulSucc(k, n);
    }
  }

  lemma MulSucc(k: nat, n: nat)
    ensures k * (n + 1) == k * n + k
  {
  }

  /** Python's `a <= b` on strings: lexicographic order by code point. */
  predicate StrLe(a: string, b: string)
  {
    if a == [] then true
    else if b == [] then false
    else if a[0] != b[0] then a[0] < b[0]
    else StrLe(a[1..], b[1..])
  }

  /** String order is total and transitive, and two strings each at most the other are equal. */
  lemma {:induction false} StrLeTotal(a: string, b: string)
    ensures StrLe(a, b) || StrLe(b, a)
    ensures StrLe(a, b) && StrLe(b, a) ==> a == b
  {
    if a != [] && b != [] && a[0] == b[0] {
      StrLeTotal(a[1..], b[1..]);
      assert a == [a[0]] + a[1..] && b == [b[0]] + b[1..];
    }
  }

  lemma {:induction false} StrLeTransitive(a: string, b: string, c: string)
    requires StrLe(a, b) && StrLe(b, c)
    ensures StrLe(a, c)
  {
    if a != [] && b != [] && c != [] && a[0] == b[0] && b[0] == c[0] {
      StrLeTransitive(a[1..], b[1..], c[1..]);
    }
  }

  /** The decimal digit for `d`. */
  function DigitChar(d: nat): char
    requires d < 10
  {
    "0123456789"[d]
  }

  predicate AllDigits(s: string)
  {
    forall i :: 0 <= i < |s| ==> '0' <= s[i] <= '9'
  }

  /** `str(n)` for a natural number: its decimal digits, most significant first. */
  function NatToString(n: nat): (s: string)
    ensures s != [] && AllDigits(s)
    decreases n
  {
    if n < 10 then [DigitChar(n)] else NatToString(n / 10) + [DigitChar(n % 10)]
  }

  /** The number a digit string denotes (`int(s)` on digits). */
  function DigitsValue(s: string): nat
    requires AllDigits(s)
  {
    if s == [] then 0 else DigitsValue(s[..|s| - 1]) * 10 + (s[|s| - 1] as int - '0' as int)
  }

  /** Reading back the decimal text of `n` gives `n`. */
  lemma {:induction false} NatToStringValue(n: nat)
    ensures DigitsValue(NatToString(n)) == n
    decreases n
  {
    var s := NatToString(n);
    if n >= 10 {
      NatToStringValue(n / 10);
      assert s[..|s| - 1] == NatToString(n / 10);
    }
  }
}

=== FILE: wrappers.dfy ===
/**
 * Option and Result values used where the Python code returns None or
 * raises an exception.
 */
module Wrappers {
  datatype Option<T> = None | Some(value: T)

  /** A computation that either yields a value or raises the named error. */
  datatype Result<T> = Ok(value: T) | Err(error: string)
  {
    predicate IsOk() { Ok? }
  }
}
